=== FILE: README.md ===
# Verified model of the sequential logic in a GNOME Shell fork

This project models the self-contained logic that sits inside the widget code
of a GNOME Shell fork, and proves properties of it in Dafny. It covers one module per
source file:

- `RoundedClip` (`rounded_clip.dfy`): the rounded-rectangle clip effect. This is the state object with
  custom bounds and four elliptical corners, the uniform values `update_uniforms`
  derives from it, and the coverage function of its fragment shader.
- `SwipeTracker` (`swipe_tracker.dfy`): the swipe tracker. This covers the velocity history over a
  sliding time window, the searches over the sorted snap points, progress
  clamping while a gesture updates, and the snap point a gesture ends on.
- `Workspace` (`workspace.dfy`): the overview's window-thumbnail layout. This covers size distribution,
  the row-filling heuristic, layout and slot computation, the best-layout
  search, and the window bookkeeping of `WorkspaceLayout`.
- `Keyboard` (`keyboard.dfy`): the on-screen keyboard's key grid, the sparse row/column
  lookup of its touch gesture, emoji pagination, the latched modifiers,
  layout-name fall-backs and the layout-group name.
- `AppDisplay` (`appdisplay.dfy`): the app grid. This covers categories and folder names, item positions,
  item ordering, drop targets, and the folder's saved app lists.
- `AltTab` (`alttab.dfy`): the Alt+Tab switcher's window list, thumbnail scale, selection
  and its fix-ups, and icon-size choice.
- `IconGrid` (`icongrid.dfy`): the icon grid's column count, spacing, fill layout and
  animation bookkeeping.
- `OverviewControls` (`overviewcontrols.dfy`): the overview's controls states, transition parameters and
  state shifting.
- `Screencast` (`screencast.dfy`): the screencast service's file-name template, thread-count
  substitution, recorder table and recorder state machine.
- `Cldr2Json` (`cldr2json.dfy`): the CLDR-to-JSON keyboard layout converter.
- `Backgrounds` (`background.dfy`): the background source and file-monitor caches, and the
  background load and change bookkeeping.
- `StIcon` (`sticon.dfy`): the icon widget's size choice, its primary and fallback icons,
  and its texture requests.
- `WindowPolicy` (`windowmanager.dfy`): the window manager's keybinding filter, application switch,
  dimmed-window list, and workspace tracker rules.
- `Dnd` (`dnd.dfy`): drag and drop. This covers the drag monitors, the real actor scale, drag start,
  and hover and drop dispatch.
- `Osd` (`osd.dfy`): the on-screen display level bar, its windows and their manager.
- `EdgeDrag` (`edgedrag.dfy`): the edge-drag gesture.

`Common` holds the shared pieces: Option and Result, JavaScript's number helpers
(floor, ceil, round, the remainder, clamp, lerp) and string splitting.

JavaScript numbers are modelled as mathematical reals and indices as integers.
Objects whose fields the source updates in place are classes. Timeouts, idles,
bus messages, asynchronous load completions and the answers of objects outside
the model (drag monitors, drop targets, the compositor) are explicit events
or inputs.

## Model

| member | source | states |
|---|---|---|
| RoundedClip.Reciprocal | src/shell-rounded-clip-effect.c:256-267 | the pixel step 1/size exists exactly when the size is non-zero, and multiplies back to 1 |
| RoundedClip.ClipBounds | src/shell-rounded-clip-effect.c:196-209 | without custom bounds the clip is (0, 0, texture width, texture height); with them it starts at the custom origin and spans the custom width and height |
| RoundedClip.CentresMoveInward | src/shell-rounded-clip-effect.c:226-254 | each corner centre is its bounds corner moved inward by that corner's own width and height (right/down for top-left, left/down for top-right, left/up for bottom-right, right/up for bottom-left) |
| RoundedClip.RadiiRoundTrip | src/shell-rounded-clip-effect.c:109-112 | the radius vectors the shader recomputes from the uploaded uniforms are the configured corner sizes with the sign of the inward direction |
| RoundedClip.RadiiRoundTripAbs | src/shell-rounded-clip-effect.c:109-112 | for non-negative corner sizes the recovered radii have exactly the configured sizes as absolute components |
| RoundedClip.EllipsisDist | src/shell-rounded-clip-effect.c:80-90 | a zero radius gives distance 0; the result is not a number exactly when one radius component is zero and the other is not |
| RoundedClip.EllipsisCoverage | src/shell-rounded-clip-effect.c:92-97 | per-corner coverage lies in [0, 1]; a zero radius gives 0.5; it is undefined exactly for a half-zero radius |
| RoundedClip.RoundedRectCoverage | src/shell-rounded-clip-effect.c:99-107 | any point left of or above the bounds, or at or beyond their right or bottom edge, has coverage exactly 0 |
| RoundedClip.UncoveredNone | src/shell-rounded-clip-effect.c:124-131 | with no corner quadrant condition true, the subtracted dot product is 0 |
| RoundedClip.UncoveredOne | src/shell-rounded-clip-effect.c:124-131 | with exactly one quadrant condition true, the subtracted dot product is that corner's 1 - coverage |
| RoundedClip.InteriorFullyCovered | src/shell-rounded-clip-effect.c:99-131 | an in-bounds point lying in none of the four corner quadrants gets coverage exactly 1 |
| RoundedClip.SquareCornersClipToRectangle | src/shell-rounded-clip-effect.c:99-131 | with all four corners (0, 0) every in-bounds point has coverage 1: the clip is the plain rectangle |
| RoundedClip.CoverageInUnitInterval | src/shell-rounded-clip-effect.c:99-131 | when the corners fit in the halves of the rectangle, the final coverage is defined and lies in [0, 1] |
| RoundedClip.RadiusCharacterised | src/shell-rounded-clip-effect.c:575-621 | corners_equal holds exactly for four equal circles; the radius read back is 0 unless it holds, and otherwise is that circle's size |
| RoundedClip.RadiusRoundTrip | src/shell-rounded-clip-effect.c:631-654 | after setting a uniform radius r the corners are equal and the radius reads back as r |
| RoundedClip.ClipEffect.constructor | src/shell-rounded-clip-effect.c:405-425 | a new effect has zero texture size, no custom bounds, square corners, and has written the uniforms once |
| RoundedClip.ClipEffect.UpdateUniforms | src/shell-rounded-clip-effect.c:190-268 | rewrites the uniforms from the current state and changes nothing else |
| RoundedClip.ClipEffect.CreatePipeline | src/shell-rounded-clip-effect.c:271-286 | records the texture size and then rewrites the uniforms |
| RoundedClip.ClipEffect.GetBounds | src/shell-rounded-clip-effect.c:436-450 | reports the custom bounds exactly when they are set |
| RoundedClip.ClipEffect.SetBounds | src/shell-rounded-clip-effect.c:461-490 | a value equal to the current one changes nothing; otherwise the bounds are replaced (or cleared), the uniforms rewritten and the bounds property notified once |
| RoundedClip.ClipEffect.GetCorners | src/shell-rounded-clip-effect.c:508-531 | returns the four stored corner sizes |
| RoundedClip.ClipEffect.SetCorners | src/shell-rounded-clip-effect.c:545-573 | unchanged sizes are a no-op; otherwise all four corners are replaced and the uniforms rewritten, with no property notification |
| RoundedClip.ClipEffect.GetRadius | src/shell-rounded-clip-effect.c:609-621 | 0 unless all corners are equal circles, in which case the corners are that uniform radius |
| RoundedClip.ClipEffect.SetRadius | src/shell-rounded-clip-effect.c:631-654 | the radius reads back as set; an equal value is a no-op; otherwise uniforms are rewritten, a repaint is queued when attached to an actor, and the radius property is notified once |
| RoundedClip.ClipEffect.SetActor | src/shell-rounded-clip-effect.c:650 | attaching or detaching the effect changes only whether it has an actor, which decides whether set_radius queues a repaint |
| SwipeTracker.FirstAtOrAfter | js/ui/swipeTracker.js:45-50 | the index trim cuts at: the first sample at or after the threshold time, or -1 when there is none |
| SwipeTracker.TrimmedCharacterised | js/ui/swipeTracker.js:45-50 | trimming keeps a suffix of the history; every dropped sample is older than the 150 ms window; a partial trim starts inside the window; when no sample is recent enough nothing is removed (splice with a count of -1) |
| SwipeTracker.TrimmedWindow | js/ui/swipeTracker.js:45-50 | for time-ordered samples, after trimming every remaining sample lies within the window, or nothing was removed |
| SwipeTracker.EventHistory.constructor | js/ui/swipeTracker.js:37-39 | a new history is empty |
| SwipeTracker.EventHistory.Reset | js/ui/swipeTracker.js:41-43 | reset empties the history |
| SwipeTracker.EventHistory.Trim | js/ui/swipeTracker.js:45-50 | the history becomes its trimmed form |
| SwipeTracker.EventHistory.Append | js/ui/swipeTracker.js:52-56 | append trims first and then adds the new sample at the end |
| SwipeTracker.EventHistory.CalculateVelocity | js/ui/swipeTracker.js:58-74 | returns the reference velocity: 0 for fewer than two samples or a zero period, otherwise the deltas after the first divided by the elapsed time |
| SwipeTracker.Distances | js/ui/swipeTracker.js:492-496 | one absolute distance per snap point |
| SwipeTracker.MinOf | js/ui/swipeTracker.js:492-496 | Math.min over the distances: absent only for no points, otherwise a member no larger than any other |
| SwipeTracker.IndexOf | js/ui/swipeTracker.js:492-496 | indexOf: the first position holding the value, or -1 |
| SwipeTracker.FindClosestPoint | js/ui/swipeTracker.js:492-496 | -1 exactly for no snap points; otherwise the first index whose point is nearest to the position |
| SwipeTracker.FirstAtLeast | js/ui/swipeTracker.js:498-500 | the first index at or above the position, or -1 when every point is below it |
| SwipeTracker.FirstAtMost | js/ui/swipeTracker.js:502-505 | the first index at or below the position, or -1 when every point is above it |
| SwipeTracker.Reverse | js/ui/swipeTracker.js:502-505 | the reversed copy holds the points in the opposite order |
| SwipeTracker.ReversedSearch | js/ui/swipeTracker.js:502-505 | a hit in the reversed array is the last original point at or below the position |
| SwipeTracker.FindNextPoint | js/ui/swipeTracker.js:498-500 | the first snap point at or above the position, or -1 when all lie below |
| SwipeTracker.FindPreviousPoint | js/ui/swipeTracker.js:502-505 | the last snap point at or below the position; the array length when all lie above |
| SwipeTracker.NeighboursInRange | js/ui/swipeTracker.js:498-505 | for a position inside the snap range both neighbours are valid indices |
| SwipeTracker.ProjectionInRange | js/ui/swipeTracker.js:507-518 | the point chosen for a projection inside the snap range is a valid index |
| SwipeTracker.At | js/ui/swipeTracker.js:561-596 | array indexing in JavaScript: a value only for an index inside the array |
| SwipeTracker.EndsOnSnapPoint | js/ui/swipeTracker.js:561-596 | with snapping on, ascending points and peeked indices in range, the end progress is one of the snap points; a gesture slower than the threshold ends on the point closest to the progress |
| SwipeTracker.ConfirmPeeksInRange | js/ui/swipeTracker.js:697-716 | starting inside the snap range, confirmSwipe's peeked indices are valid and widen by at most one index beyond the neighbours |
| SwipeTracker.SwipeTracker.constructor | js/ui/swipeTracker.js:139-183 | a new tracker has the given orientation and distance, no snap points, zero progress, no partner and no signals |
| SwipeTracker.SwipeTracker.SetDistance | js/ui/swipeTracker.js:235-241 | the distance is set; the notification is emitted only when it changed |
| SwipeTracker.SwipeTracker.ConfirmSwipe | js/ui/swipeTracker.js:697-716 | stores distance, snap points, initial, current and cancel progress and sets the peeked indices as confirmSwipe computes them |
| SwipeTracker.SwipeTracker.PeekAround | js/ui/swipeTracker.js:704-715 | the peeked indices are the previous and the next snap point around the progress, each widened by one index towards a truthy animation target that is that point |
| SwipeTracker.SwipeTracker.UpdateGesture | js/ui/swipeTracker.js:520-547 | a zero distance throws and changes nothing; otherwise progress advances by delta/distance (negated for right-to-left horizontal), the peeked range only widens, progress is clamped to the snap range when snapping, and one update is emitted |
| SwipeTracker.SwipeTracker.PeekAndClamp | js/ui/swipeTracker.js:535-544 | the peeked minimum becomes the lesser of itself and the previous point, the maximum the greater of itself and the next point; progress is clamped to the first and last snap point, lies between them when they ascend, and a second clamp leaves it alone; the snap state is kept |
| SwipeTracker.SwipeTracker.Make2d | js/ui/swipeTracker.js:722-744 | succeeds exactly for another tracker of the other orientation when neither is already paired, and then links the two both ways; failures change nothing |
| SwipeTracker.TrackerEndsOnSnapPoint | js/ui/swipeTracker.js:561-596 | a snapping tracker in its confirmed state always ends on one of its snap points |
| Workspace.CurValBounds | js/ui/workspace.js:160-166 | the loop's current value stays between 60 and 100 and never rises from one round to the next |
| Workspace.CurValMonotone | js/ui/workspace.js:160-166 | later rounds never use a larger value than earlier ones |
| Workspace.RawWeightsShape | js/ui/workspace.js:145-166 | for num >= 1 there are exactly num raw weights, each between 60 and 100 |
| Workspace.RawWeightsSymmetric | js/ui/workspace.js:160-166 | the raw weights read the same from either end (unshift and push of the same value) |
| Workspace.RawWeightsPeak | js/ui/workspace.js:145-166 | the raw weights rise towards the centre and fall after it |
| Workspace.RawWeightsRise | js/ui/workspace.js:145-166 | from the ends up to the centre the raw weights never decrease |
| Workspace.ScaleKeepsSymmetry | js/ui/workspace.js:168-169 | normalising keeps the weights symmetric |
| Workspace.ScaleKeepsPeak | js/ui/workspace.js:168-169 | normalising by a positive total keeps the peak in the centre |
| Workspace.RawSumPositive | js/ui/workspace.js:168 | the total of the raw weights is positive, so the division is defined |
| Workspace.SumNormalise | js/ui/workspace.js:168-169 | the normalised sizes add up to the full size |
| Workspace.NormalisedShape | js/ui/workspace.js:145-173 | for two or more rows the sizes number num, add up to the full size, are symmetric and peak in the centre |
| Workspace.BuildWeights | js/ui/workspace.js:149-166 | the loop builds exactly the raw weight sequence |
| Workspace.DistributeSizes | js/ui/workspace.js:145-174 | one row gives [1]; otherwise num sizes adding up to the full size, symmetric and largest in the centre |
| Workspace.KeepSameRowOrCol | js/ui/workspace.js:194-208 | a window that fits within the ideal width is always kept in the row |
| Workspace.KeepSameCharacterised | js/ui/workspace.js:194-208 | kept exactly when it fits, or when the ratio with the window is at least as close to 1 as the ratio without it |
| Workspace.FullRowTakesNoMore | js/ui/workspace.js:194-208 | a row already at or beyond its ideal width takes no further window |
| Workspace.WindowScale | js/ui/workspace.js:213-227 | a window no taller than the monitor is scaled by a factor between 1 and 1.5 |
| Workspace.AddWindowToRow | js/ui/workspace.js:235-239 | the window is appended to the row's windows |
| Workspace.AddKeepsRowOK | js/ui/workspace.js:235-239 | after the append the row's full width is the sum of its scaled widths and its full height the largest scaled height |
| Workspace.InsertBy | js/ui/workspace.js:304 | inserting into a sorted list adds exactly the one element |
| Workspace.InsertSorted | js/ui/workspace.js:304 | insertion keeps the order by key |
| Workspace.SortBy | js/ui/workspace.js:229-233 | sorting gives a permutation ordered by the key |
| Workspace.SortKeepsSizes | js/ui/workspace.js:229-233 | sorting a row leaves its full width and height unchanged |
| Workspace.IndexOfWin | js/ui/workspace.js:255 | indexOf: the first position of the window, or -1 exactly when absent |
| Workspace.Squeeze | js/ui/workspace.js:246-261 | squeezing only adds windows to the current row, keeps its sizes accurate and loses no window |
| Workspace.MoveToNextRow | js/ui/workspace.js:246-265 | the window goes to the next row, after the squeeze, and every window is accounted for |
| Workspace.ChooseRowForWindow | js/ui/workspace.js:241-265 | the window moves to the next row exactly when there is one and the current row should not take it; otherwise it is appended to the current row and nothing else changes |
| Workspace.PlaceWindowWithNext | js/ui/workspace.js:372-393 | placing with a neighbour row keeps every row accurate and every window accounted for |
| Workspace.PlaceWindowLast | js/ui/workspace.js:372-393 | placing a window in a row with no neighbour adds exactly that window and keeps every row accurate |
| Workspace.StepUp | js/ui/workspace.js:372-381 | the upward index moves by at most one and stays at 0 at the top |
| Workspace.StepDown | js/ui/workspace.js:384-393 | the downward index moves by at most one |
| Workspace.Shift | js/ui/workspace.js:368-369 | shift takes the first element, or nothing from an empty list |
| Workspace.TopTurn | js/ui/workspace.js:371-382 | a turn of the top part places at most the current window and keeps all windows accounted for |
| Workspace.BottomTurn | js/ui/workspace.js:384-393 | a turn of the bottom part places at most the current window and keeps all windows accounted for |
| Workspace.FillRound | js/ui/workspace.js:370-407 | one round of the filling loop loses no window and moves the indices outwards only |
| Workspace.FillRows | js/ui/workspace.js:348-407 | the filled rows number numRows, are each accurate and hold exactly the windows of both parts |
| Workspace.WithMaximized | js/ui/workspace.js:282-294 | the filter keeps only windows of the wanted maximised state |
| Workspace.MaximizedPartition | js/ui/workspace.js:282-294 | the maximised and the other windows together are exactly the windows |
| Workspace.WidthPartition | js/ui/workspace.js:279-294 | the total width is the width of the maximised windows plus the width of the others |
| Workspace.FilterMaximized | js/ui/workspace.js:277-294 | splits off the maximised windows and measures the total width and the width without them |
| Workspace.Alternate | js/ui/workspace.js:325-334 | every other maximised window goes to one part |
| Workspace.AlternateSplit | js/ui/workspace.js:325-334 | the two alternating halves together are all maximised windows, in the expected counts |
| Workspace.SplitByPosition | js/ui/workspace.js:300-315 | the windows are split between top and bottom parts with none lost; the first window goes on top when it fits in half the width |
| Workspace.SpreadMaximized | js/ui/workspace.js:323-334 | maximised windows are dealt alternately to the parts, starting with the top part exactly when it is the narrower half |
| Workspace.SplitParts | js/ui/workspace.js:296-343 | both parts together are all the windows, each sorted by descending area, with the maximised windows dealt alternately |
| Workspace.SortRow | js/ui/workspace.js:229-233 | a row sorted by window centre is a permutation with the same sizes |
| Workspace.SortRowKeepsRowOK | js/ui/workspace.js:229-233 | sorting keeps a row's sizes accurate |
| Workspace.FirstWidest | js/ui/workspace.js:409-417 | the first row with the greatest full width |
| Workspace.SortedRows | js/ui/workspace.js:411-412 | sorting every row keeps the row count |
| Workspace.SortedRowsProps | js/ui/workspace.js:411-412 | each sorted row is accurate, ordered by centre, a permutation of the original and equally sized |
| Workspace.SortRows | js/ui/workspace.js:409-417 | the loop sorts the rows and finds the widest row and the total height |
| Workspace.SortedRowsMakeLayout | js/ui/workspace.js:409-425 | filled rows holding the windows, once sorted, make a layout as computeLayout promises |
| Workspace.ComputeLayoutFor | js/ui/workspace.js:275-425 | the layout has the requested number of rows and holds exactly the given windows in accurate, sorted rows, measured by its widest row and total height |
| Workspace.ComputeLayout | js/ui/workspace.js:267-273 | a missing row count throws; otherwise the layout is as promised |
| Workspace.AtMostOne | js/ui/workspace.js:454-455 | Math.min(1, q): never above 1, and the quotient itself when it is at most 1 |
| Workspace.SlotWindows | js/ui/workspace.js:521 | the window of each slot, in slot order |
| Workspace.CappedCloneOf | js/ui/workspace.js:496-499 | a clone sized with the capped scale keeps the window's aspect ratio and never exceeds 0.95 of its size |
| Workspace.AdditionalScale | js/ui/workspace.js:462-476 | a row's additional scale is at most 1 and at most the vertical one, and is either the vertical one or the one making the row fit the width |
| Workspace.PlaceRow | js/ui/workspace.js:461-482 | one row of the placing loop: its additional scale is the horizontal one only when that is smaller, the height it loses then is added to the compensation, and it sits at the grid's top plus the height placed so far |
| Workspace.RowsPlacedScales | js/ui/workspace.js:461-484 | every row placed gets its additional scale as AdditionalScale defines it |
| Workspace.PlaceRows | js/ui/workspace.js:459-484 | the loop over the rows gives exactly the places and compensation RowsPlaced defines, one place per row, each with its additional scale |
| Workspace.CloneSlotCapped | js/ui/workspace.js:494-522 | a window's slot holds that window, keeps its aspect ratio and is at most 0.95 of its size |
| Workspace.RowSlotsOfSlotWindows | js/ui/workspace.js:493-524 | the slots of a row hold the row's windows, in order |
| Workspace.RowSlots | js/ui/workspace.js:487-525 | the inner loop appends exactly the row's slots as RowSlotsOf defines them, one per window in order, each a capped clone |
| Workspace.GridSlotsWindows | js/ui/workspace.js:487-525 | the slots of the first k rows hold the windows of those rows, row after row |
| Workspace.WindowSlotsCapped | js/ui/workspace.js:494-500 | every slot of a layout is a clone that keeps its window's aspect ratio at no more than 0.95 of its size |
| Workspace.ComputeWindowSlots | js/ui/workspace.js:428-527 | the slots are exactly those WindowSlots defines: none for an empty grid, otherwise one per window of the layout, row after row, each a capped clone |
| Workspace.OccupiedSpace | js/ui/workspace.js:121-128 | the loop assigns rather than adds: the space is the area of the last slot of the layout, or 0 without slots, which LayoutSpace names |
| Workspace.LastOccupied | js/ui/workspace.js:124-127 | each slot overwrites the space with its own width times height, so the result is the last slot's area, or 0 when there is no slot |
| Workspace.NumColumnsIsCeil | js/ui/workspace.js:949 | the column count is Math.ceil of the window count over the row count |
| Workspace.ColumnsSettle | js/ui/workspace.js:948-955 | the column count stops changing at one more row than windows, so the search ends |
| Workspace.SearchSkips | js/ui/workspace.js:947-973 | past the tries where the column count changed and the space did not shrink, the search continues where it stands |
| Workspace.SpacesGrow | js/ui/workspace.js:960-972 | the space the search keeps while it goes on is never negative |
| Workspace.SearchPick | js/ui/workspace.js:947-973 | the search keeps one of its tries: that layout, with its space or 0 when that is negative |
| Workspace.TriedEach | js/ui/workspace.js:956-959 | each try is computeLayout's layout for its row count, valid for the windows, with the space computeOccupiedSpace gives it |
| Workspace.TriedSnoc | js/ui/workspace.js:956-959 | a layout for the next row count, valid for the windows, with the space computeOccupiedSpace gives it, extends the tries |
| Workspace.TryRows | js/ui/workspace.js:956-959 | one try of the loop: computeLayout for the given row count and its occupied space, appended to the tries as Tried requires |
| Workspace.SearchResult | js/ui/workspace.js:944-973 | the layout the search keeps is the try for its row count, valid for the windows, and the space kept is the space that layout occupies (0 when negative) |
| Workspace.SearchLayout | js/ui/workspace.js:944-973 | the loop computes the tries for 1, 2, ... rows, stays below the bound, and returns exactly the layout and space SearchFrom picks from them: it stops when the column count repeats or the space shrinks |
| Workspace.TransposeTwice | js/ui/workspace.js:531-830 | transposing the geometry twice gives back the windows |
| Workspace.TransposedScale | js/ui/workspace.js:532-535 | under transposition the horizontal window scale is the vertical strategy's scale |
| Workspace.CreateBestLayout | js/ui/workspace.js:933-1018 | more than four windows always take the horizontal search; otherwise the vertical one (run on the transposed geometry) wins exactly when its space is strictly larger; each space is the one SearchFrom picks from that search's tries and equals the space its kept layout occupies; the chosen layout is that search's and is valid for its strategy |
| Workspace.Splice1 | js/ui/workspace.js:1253-1254 | splice(start, 1) removes one element unless the list is empty or the start lies past the end |
| Workspace.FindSlot | js/ui/workspace.js:1253-1254 | findIndex: the first slot of the window, or -1 exactly when it has none |
| Workspace.RemoveSlotAsWrittenDropsOtherSlot | js/ui/workspace.js:1253-1254 | as written, removing a window that has no slot drops another window's slot |
| Workspace.RemoveSlot | js/ui/workspace.js:1253-1254 | the window's first slot goes; nothing changes when it has none; every other slot stays |
| Workspace.AddKeepsWindowsOK | js/ui/workspace.js:1212-1218 | adding a new window and re-sorting keeps each window once, ordered by stable sequence, and the list gains exactly the new window |
| Workspace.RemoveKeepsWindowsOK | js/ui/workspace.js:1248-1249 | removing a window from both the map and the sorted list keeps each remaining window once, still ordered |
| Workspace.WorkspaceLayout.constructor | js/ui/workspace.js:863-893 | no windows, no slots, no layout |
| Workspace.WorkspaceLayout.AddWindow | js/ui/workspace.js:1200-1229 | a known window is a no-op; a new one is added once, the sorted list gains it, the layout is invalidated and layout_changed emitted once |
| Workspace.WorkspaceLayout.RemoveWindow | js/ui/workspace.js:1238-1262 | corrected (see Findings): an unknown window is a no-op; a known one leaves both lists, its own slot (and no other) is removed, the layout is invalidated and layout_changed emitted once |
| Keyboard.Pad | js/ui/keyboard.js:137-144 | a row with at least one column to spare is centred (equal padding on both sides); otherwise the padding alone fills the grid width |
| Keyboard.EdgeClasses | js/ui/keyboard.js:149-156 | topmost for row 0; bottommost for the last row only when it is not row 0; leftmost for column 0; rightmost for the last key only when it is not column 0 |
| Keyboard.RowAttachments | js/ui/keyboard.js:146-165 | one attachment per key laid out so far |
| Keyboard.AppendRowKeepsGridOK | js/ui/keyboard.js:104-113 | appending an empty row keeps every key's left edge equal to the widths before it and the maximum column count accurate |
| Keyboard.WithKeyAppended | js/ui/keyboard.js:115-129 | the key is appended to the last row, whose width grows by the key's width; other rows are untouched |
| Keyboard.AppendKeyKeepsGridOK | js/ui/keyboard.js:115-129 | appending a key at the current column keeps the grid consistent |
| Keyboard.KeyContainer.constructor | js/ui/keyboard.js:79-102 | no rows and no columns |
| Keyboard.KeyContainer.AppendRow | js/ui/keyboard.js:104-113 | adds an empty row, moves to the next row and back to column 0 |
| Keyboard.KeyContainer.AppendKey | js/ui/keyboard.js:115-129 | with no row the source would throw and nothing changes; otherwise the key goes to the end of the last row at the current column, the column advances by its width and the maximum is updated |
| Keyboard.KeyContainer.GetSize | js/ui/keyboard.js:174-176 | the row count, and a column count no row or key exceeds and that some key reaches (or 0) |
| Keyboard.KeyContainer.LayoutButtons | js/ui/keyboard.js:132-172 | the loops attach every key as the grid layout defines |
| Keyboard.AppendKeepsRowOK | js/ui/keyboard.js:115-129 | a key appended at the row's width keeps the row consistent |
| Keyboard.LeftIsSumOfWidths | js/ui/keyboard.js:115-129 | each key's left edge is the sum of the widths of the keys before it |
| Keyboard.LayoutColumnIsLeft | js/ui/keyboard.js:137-163 | a key's layout column is its row's padding plus its left edge, in units of KEY_SIZE |
| Keyboard.KeysAbut | js/ui/keyboard.js:157-163 | each key starts where the previous key of its row ends |
| Keyboard.ColumnsIncrease | js/ui/keyboard.js:157-163 | with positive widths the keys of a row are attached at strictly increasing columns |
| Keyboard.PaddedRowFits | js/ui/keyboard.js:137-144 | the padding is non-negative and a padded row fits within the grid width |
| Keyboard.GridAttachmentsCount | js/ui/keyboard.js:132-172 | one attachment per key of every row |
| Keyboard.FindPrev | js/ui/keyboard.js:383-389 | the last occupied index at or below floor(index), or none when there is none |
| Keyboard.FindNext | js/ui/keyboard.js:391-397 | the first occupied index from ceil(index) on, or none when there is none |
| Keyboard.FindNearest | js/ui/keyboard.js:382-420 | a direct hit when the previous entry reaches the index; otherwise the closer neighbour, the previous one on a tie; null only for an empty array |
| Keyboard.LengthAfterWrite | js/ui/keyboard.js:565-569 | writing at an index makes the array at least one longer than that index and leaves a longer array's length alone |
| Keyboard.PlaceCell | js/ui/keyboard.js:565-579 | the cell is stored in its row, a new row takes the key's height, and no other row changes |
| Keyboard.PlaceCellKeepsTableOK | js/ui/keyboard.js:565-579 | placing a cell keeps the rows' array length consistent with the indices used |
| Keyboard.KeyContainerGesture.constructor | js/ui/keyboard.js:367-380 | no rows, zero width and height |
| Keyboard.KeyContainerGesture.AddKey | js/ui/keyboard.js:565-579 | the cell is placed, and height and width grow to cover the key |
| Keyboard.NextPage | js/ui/keyboard.js:1047-1049 | the next page, wrapping around, is always a valid page |
| Keyboard.PrevPage | js/ui/keyboard.js:1043-1045 | the previous page, wrapping around, is always a valid page |
| Keyboard.PageStepsInverse | js/ui/keyboard.js:1043-1049 | the previous page of the next page, and the next page of the previous page, is the page itself |
| Keyboard.Chunks | js/ui/keyboard.js:1105-1114 | a section has pages exactly when it has keys |
| Keyboard.ChunksShape | js/ui/keyboard.js:1105-1114 | every page but the last is full; the last holds the remainder (at least one key) |
| Keyboard.ChunksKeepOrder | js/ui/keyboard.js:1105-1114 | the pages, read in order, are exactly the section's keys |
| Keyboard.ChunksCount | js/ui/keyboard.js:1102-1114 | the number of pages is ceil(keys / itemsPerPage), the nPages each page records |
| Keyboard.SectionPages | js/ui/keyboard.js:1108-1111 | each page records its index, its section, the section's page count and its keys |
| Keyboard.SectionPagesShape | js/ui/keyboard.js:1100-1114 | a section's pages number nPages, each holds 1 to itemsPerPage keys, and together they hold the keys in order |
| Keyboard.SectionPagesOK | js/ui/keyboard.js:1100-1114 | every page of a section is well formed |
| Keyboard.PaginateShape | js/ui/keyboard.js:1096-1116 | every page of every section is well formed |
| Keyboard.PaginateSection | js/ui/keyboard.js:1105-1114 | the inner loop builds exactly the section's pages |
| Keyboard.PaginateAll | js/ui/keyboard.js:1096-1116 | the outer loop builds the pages of all sections in order |
| Keyboard.EmojiPager.constructor | js/ui/keyboard.js:973-1000 | the sections are stored, no pages, page 0, delta 0 |
| Keyboard.EmojiPager.FollowingPage | js/ui/keyboard.js:1051-1059 | none exactly for delta 0; the next page for a negative delta and the previous page for a positive one |
| Keyboard.EmojiPager.SetSize | js/ui/keyboard.js:1217-1222 | floors the column and row counts and repaginates every section |
| Keyboard.EmojiPager.InitPagingInfo | js/ui/keyboard.js:1096-1116 | the pages are rebuilt from the sections |
| Keyboard.Toggled | js/ui/keyboard.js:2197-2200 | toggling flips membership of the one keyval and leaves every other alone |
| Keyboard.ToggleTwice | js/ui/keyboard.js:2197-2200 | toggling twice restores the set |
| Keyboard.ButtonsAdd | js/ui/keyboard.js:2187-2195 | enabling a modifier adds exactly its buttons to the latched buttons |
| Keyboard.SetLatched | js/ui/keyboard.js:2193-2194 | the loop latches or unlatches exactly the given buttons |
| Keyboard.ModifierState.constructor | js/ui/keyboard.js:1628-1630 | no modifiers, no registered keys, nothing latched |
| Keyboard.ModifierState.RegisterModifierKey | js/ui/keyboard.js:2046-2050 | the button is appended to the keyval's list, created when absent |
| Keyboard.ModifierState.SetModifierEnabled | js/ui/keyboard.js:2187-2195 | the keyval joins or leaves the modifier set and its buttons are latched or unlatched |
| Keyboard.ModifierState.ToggleModifier | js/ui/keyboard.js:2197-2200 | the modifier's state flips and its buttons follow the new state |
| Keyboard.ModifierState.DisableAllModifiers | js/ui/keyboard.js:2211-2214 | no modifier stays enabled and the buttons of every modifier that was enabled are unlatched |
| Keyboard.BeforePlus | js/ui/keyboard.js:822 | the group name up to its first '+', or the whole name without one |
| Keyboard.NameCandidates | js/ui/keyboard.js:820-823 | the group name, then its part before '+' when it has one, then "us" |
| Keyboard.LoadModel | js/ui/keyboard.js:819-832 | the first candidate whose layout loads, or none exactly when no candidate loads |
| Keyboard.GetCurrentGroup | js/ui/keyboard.js:2756-2778 | Hangul with its input mode off gives "us"; otherwise the XKB id with "-extended" in terminal mode and then "-mobile" on a phone |
| Keyboard.PurposeVisibility | js/ui/keyboard.js:2725-2741 | the emoji key shows exactly for normal, alpha, password and terminal input, the keypad exactly for digits, number and phone input, never both |
| AppDisplay.GetCategories | js/ui/appDisplay.js:83-88 | no categories (missing or empty string) gives the empty list; otherwise the parts joined with ';' give back the desktop file's string and no part contains ';' |
| AppDisplay.ListsIntersect | js/ui/appDisplay.js:90-96 | true exactly when some element of the first list occurs in the second |
| AppDisplay.CommonFromMembers | js/ui/appDisplay.js:118-135 | a category is collected exactly when it is non-empty and its counter reaches the number of apps, and it is collected only once |
| AppDisplay.CountFlattenDedup | js/ui/appDisplay.js:129-130 | corrected counting, as the comment intends: after removing repeats within each app, a category's occurrence count is the number of apps that list it |
| AppDisplay.ListsWithAll | js/ui/appDisplay.js:118-135 | the number of apps listing a category is at most the number of apps, with equality exactly when every app lists it |
| AppDisplay.CommonCategoriesInEveryApp | js/ui/appDisplay.js:118-135 | with repeats removed per app, a category is common exactly when it is non-empty and every app lists it (the comment's stated intent) |
| AppDisplay.CountingOccurrencesIsNotSharing | js/ui/appDisplay.js:122-133 | counting raw occurrences names a category that one of the apps does not have (see Findings) |
| AppDisplay.FirstTranslated | js/ui/appDisplay.js:137-144 | none exactly when no common category has a translated `.directory` name; otherwise the translation of the first one that has |
| AppDisplay.CategoryLists | js/ui/appDisplay.js:121-123 | one category list per app, each the app's parsed categories |
| AppDisplay.CounterStep | js/ui/appDisplay.js:124-127 | incrementing a category's counter keeps every counter equal to the number of occurrences seen so far |
| AppDisplay.CountCategories | js/ui/appDisplay.js:123-132 | the inner loop leaves the counters matching the occurrences seen and the collected list equal to the categories whose count reached the number of apps |
| AppDisplay.CollectCommon | js/ui/appDisplay.js:121-135 | the reduce over all apps collects exactly the specified common categories in first-reached order |
| AppDisplay.FindBestFolderName | js/ui/appDisplay.js:118-147 | corrected (see Findings): the folder name is the translation of the first category every app lists that has one, or none |
| AppDisplay.FolderNameIsShared | js/ui/appDisplay.js:118-147 | corrected (see Findings): a proposed folder name is the translated `.directory` name of a non-empty category every app in the folder lists |
| AppDisplay.IndexOf | js/ui/appDisplay.js:1166 | -1 exactly when absent; otherwise an index holding the element with no earlier occurrence |
| AppDisplay.ItemPositionLocates | js/ui/appDisplay.js:1173-1184 | page and position address the item's index in the order; an absent item gets the last index; an empty view gives page -1 |
| AppDisplay.FolderItemPosition | js/ui/appDisplay.js:2263-2271 | (-1, -1) exactly when the app is not in the folder; otherwise page and position address the app's index in the folder's list |
| AppDisplay.GetAppPosition | js/ui/appDisplay.js:1403-1418 | the first saved page holding the app and the position stored for it there, or (-1, -1) when no page holds it |
| AppDisplay.StrCompare | js/ui/appDisplay.js:1238-1240 | the name comparison, in code-point order, answers -1, 0 or 1 |
| AppDisplay.StrCompareAntisymmetric | js/ui/appDisplay.js:1238-1240 | swapping the names negates the answer, and the answer is 0 exactly for equal names |
| AppDisplay.StrCompareTransitive | js/ui/appDisplay.js:1238-1240 | the name order is transitive |
| AppDisplay.CompareItemsOrder | js/ui/appDisplay.js:1594-1609 | placed items sort before unplaced ones, placed items sort by page then position, unplaced items by name |
| AppDisplay.CompareItemsAntisymmetric | js/ui/appDisplay.js:1594-1609 | swapping the items swaps before and after, and ties stay ties |
| AppDisplay.CompareItemsTransitive | js/ui/appDisplay.js:1594-1609 | the item order used to sort the grid is transitive |
| AppDisplay.CompareFolderItemsOrder | js/ui/appDisplay.js:2273-2285 | apps listed in the folder sort before unlisted ones and by their index; swapping the arguments negates the answer |
| AppDisplay.ClampPage | js/ui/appDisplay.js:1356-1357 | the clamped page is a valid page when there is one, an already valid page is kept, below 0 gives 0 and past the end gives the last page |
| AppDisplay.ClampPageIdempotent | js/ui/appDisplay.js:1356-1357 | clamping a clamped page changes nothing |
| AppDisplay.PagedView.GoToPage | js/ui/appDisplay.js:1356-1364 | the current page becomes the clamped target, and the view reports a move exactly when that differs from the page shown |
| AppDisplay.ReflowDirection | js/ui/appDisplay.js:1277-1284 | icons reflow left exactly when the drag moves forward on one page, or to a later page when incomplete pages are not allowed; no reflow exactly when not left and the position is unchanged |
| AppDisplay.DropTarget | js/ui/appDisplay.js:1273-1315 | the drop target stays on the hovered page |
| AppDisplay.DropTargetStaysInRow | js/ui/appDisplay.js:1286-1312 | the adjusted target is the hovered icon or its neighbour in the same row: the left neighbour only for a leftward reflow over a start edge, the right one only for a rightward reflow over an end edge, with the edge flipped |
| AppDisplay.Without | js/ui/appDisplay.js:2390-2393 | the filtered list holds exactly the elements of the first list that are not in the second, and is no longer |
| AppDisplay.AppView.AddItem | js/ui/appDisplay.js:1158-1163 | the item is inserted into the order at its linear position (clamped to the end) and added to the item map; every item stays listed exactly once |
| AppDisplay.AppView.RemoveItem | js/ui/appDisplay.js:1165-1171 | a present item is removed from the order at its index and from the map, keeping every item listed once; for an absent item the -1 index removes the last entry of the order, as written |
| AppDisplay.RemoveAtKeepsDistinct | js/ui/appDisplay.js:1165-1171 | removing one index from a repeat-free list removes exactly that element and keeps the list repeat-free |
| AppDisplay.FolderSettings.SaveCurrentLayout | js/ui/appDisplay.js:2381-2402 | the folder's apps become the new order; for a category folder, newly added apps leave the exclusions and removed apps are appended; other folders keep their exclusions |
| AppDisplay.SavedExclusions | js/ui/appDisplay.js:2381-2402 | after saving, an app is excluded exactly when it was just removed from the folder, or was excluded before and was not just added; a just-added app is never excluded |
| AppDisplay.Dedup | js/ui/appDisplay.js:129-130 | helper of the corrected count, so that a counter reaches the number of apps only for a category in all of them: taking each of an app's categories once keeps exactly the categories the app lists |
| AppDisplay.DedupCount | js/ui/appDisplay.js:129-130 | helper of the corrected count: after taking each category once, a category occurs once in an app's list when the app lists it and not at all otherwise |
| AppDisplay.DedupAll | js/ui/appDisplay.js:129-130 | helper of the corrected count: every app's category list is taken once per category, one list per app |
| AppDisplay.CountConcat | js/ui/appDisplay.js:123-127 | the counter over two runs of categories is the sum of the counters over each run |
| AppDisplay.CountPositive | js/ui/appDisplay.js:124-127 | a category's counter is positive exactly when the category has been seen |
| AppDisplay.PagedView.constructor | js/ui/appDisplay.js:222 | a view starts on the first page of its pages |
| AppDisplay.AppView.constructor | js/ui/appDisplay.js:633-634 | a view starts with no items, ordered or by id |
| AppDisplay.FolderSettings.constructor | js/ui/appDisplay.js:2384-2388 | the folder's apps, excluded apps and categories are the given keys |
| AltTab.MapToParents | js/ui/altTab.js:53-55 | one entry per tab-list window, the parent for an attached dialog and the window itself otherwise |
| AltTab.KeepFirstShown | js/ui/altTab.js:57 | a window is listed exactly when it occurs in the mapped list and does not skip the taskbar, and it is listed once |
| AltTab.FirstIndex | js/ui/altTab.js:57 | `indexOf` finds the position of the first occurrence: that entry is the window and no earlier one is |
| AltTab.KeepFirstShownOrder | js/ui/altTab.js:47-58 | the switcher keeps the tab-list order: of two listed windows, the earlier one first occurs earlier in the mapped list |
| AltTab.CloneScaleFits | js/ui/altTab.js:34-36 | a window clone never exceeds the given size in either dimension nor its own size, and is the largest such: unscaled or touching the size |
| AltTab.Mod | js/ui/altTab.js:155-156 | the cyclic index lies in 0 .. count-1 |
| AltTab.AppSwitcher.constructor | js/ui/altTab.js:64-87 | nothing is selected yet: the first application, no window, no thumbnails and no popup pending |
| AltTab.AppSwitcher.Select | js/ui/altTab.js:404-434 | the application becomes selected; the given window (or -1) becomes current; thumbnails are focused exactly for a window without forced application focus and exist exactly when a window is given; a pending popup is cancelled and a new one is pending exactly when no window is given, the application has more than one window and its focus is not forced |
| AltTab.AppSwitcher.TimeoutPopupThumbnails | js/ui/altTab.js:436-442 | when the popup fires the thumbnails exist, are not focused, and no popup is pending; the selection is untouched |
| AltTab.AppSwitcher.OnWindowAdded | js/ui/altTab.js:491-502 | a popup becomes pending when none was and the window was added to the selected application without thumbnails shown; nothing else changes |
| AltTab.AppSwitcher.InitialSelection | js/ui/altTab.js:128-149 | switch-group opens on the first application's second window (its only window when it has one), backwards on its last; switch-group-backward likewise the last; switch-applications-backward the last application; otherwise the only, the last (backward) or the second application |
| AltTab.AppSwitcher.NextWindow | js/ui/altTab.js:151-157 | an unset current window counts as the first; the answer is the following window, wrapping round |
| AltTab.AppSwitcher.PreviousWindow | js/ui/altTab.js:159-165 | an unset current window counts as the second; the answer is the preceding window, wrapping round |
| AltTab.AppSwitcher.ItemRemoved | js/ui/altTab.js:290-316 | the application leaves the list; an empty list destroys the popup and changes nothing else; removing a later application changes nothing; an earlier one shifts the selection down and either keeps the outlined thumbnail window (thumbnails shown and focused, no popup pending) or selects the application alone (current window -1, no thumbnails, popup pending exactly when it has several windows); removing the selected one keeps the index unless it was last, drops the thumbnails, and leaves a popup pending exactly when the newly selected application has several windows |
| AltTab.AppSwitcher.WindowRemoved | js/ui/altTab.js:336-358 | the selected application's window count drops by one before the handler runs; with thumbnails focused, one remaining window selects the application alone with no thumbnails and no popup pending (its count is now 1), otherwise the current window is kept, shifted down or kept at the index (the last when it was last) with the thumbnails shown, focused and no popup pending; without focus, one remaining window drops the thumbnails and everything else, the pending popup included, is kept |
| AltTab.RemovalKeepsSelectionInRange | js/ui/altTab.js:290-300 | the index chosen after a removal is a valid index of the shortened list |
| AltTab.NextPreviousInverse | js/ui/altTab.js:151-165 | stepping to the next window and then the previous one, or the reverse, comes back to the same window |
| AltTab.FirstFitting | js/ui/altTab.js:969-976 | the chosen base size is the first from the given one whose row fits, or the smallest when none fits |
| AltTab.AppList.constructor | js/ui/altTab.js:844-925 | the icon size is not chosen yet |
| AltTab.AppList.SetIconSize | js/ui/altTab.js:942-979 | the size is chosen only once; a single item gets 96; otherwise the first base size whose row fits the available width |
| AltTab.FirstFittingIsFirst | js/ui/altTab.js:969-976 | the search answers exactly the index before which no row fits and at which one fits (or the last) |
| AltTab.IconSizeIsLargestFitting | js/ui/altTab.js:965-976 | the chosen size is at least any base size whose row fits |
| IconGrid.NColumnsForWidth | js/ui/iconGrid.js:78-92 | zero columns for zero-width items; otherwise the column count whose row (items and the spacing between them) fits the width while one more item would not |
| IconGrid.NColumnsIsLargest | js/ui/iconGrid.js:78-92 | every larger column count overflows the row, so the count is the largest that fits |
| IconGrid.HSpacing | js/ui/iconGrid.js:94-108 | zero spacing with one column; otherwise the spacing times the number of gaps is the width the items leave unused |
| IconGrid.HSpacingFillsRow | js/ui/iconGrid.js:94-108 | with two or more columns the items and gaps fill the width exactly; with no column the division by -1 gives minus the width |
| IconGrid.GridClamp | js/ui/iconGrid.js:463-465 | the value is kept when in range and is otherwise moved into the range; when the bounds are crossed the minimum wins |
| IconGrid.CalculateFillLayout | js/ui/iconGrid.js:179-208 | no items gives 0x0; otherwise columns times rows is the item count, no divisor below the chosen column count fits the aspect ratio better, and the next divisor after it fits strictly worse (where the search stops) |
| IconGrid.ShiftIndexes | js/ui/iconGrid.js:582-583 | each recorded index at or after the insertion point moves up by one, the others stay |
| IconGrid.InsertAt | js/ui/iconGrid.js:588 | inserting a child adds exactly one child |
| IconGrid.ShiftTracksChildren | js/ui/iconGrid.js:582-588 | after an insertion every shifted index still names the same child, and the insertion point names the new one |
| IconGrid.AnimationDelay | js/ui/iconGrid.js:532-538 | no delay before any change; otherwise a non-negative multiple of 20 that is zero only at the start index |
| IconGrid.FadeInDelayAsWrittenNeverLast | js/ui/iconGrid.js:596-601 | as written, an item added at any index (the end included) waits for a following item's full animation (see Findings) |
| IconGrid.FadeInDelayLast | js/ui/iconGrid.js:596-601 | corrected: the item added at the end uses its own delay, which is zero when the change starts there |
| IconGrid.Grid.constructor | js/ui/iconGrid.js:507-518 | a new grid has no children, no recorded indices and no animation start |
| IconGrid.Grid.ChildrenLayout | js/ui/iconGrid.js:514-517 | after a layout pass the animation start and the recorded indices are forgotten and the children are untouched |
| IconGrid.Grid.SetAnimationStart | js/ui/iconGrid.js:574-579 | the animation start becomes the smallest index changed since the last layout |
| IconGrid.Grid.AddItem | js/ui/iconGrid.js:581-613 | with the corrected last-item test (see Findings): the recorded indices are shifted and the new index recorded, the item is inserted there, the animation start covers it, and the fade-in waits for the next item unless the item is last |
| IconGrid.Grid.MoveItem | js/ui/iconGrid.js:615-643 | with the corrected last-item test (see Findings): an item not in the grid changes nothing; otherwise indices are shifted and recorded as for an insertion, the animation starts at the smaller of the old and new index, and the child is moved |
| IconGrid.Grid.RemoveItem | js/ui/iconGrid.js:645-663 | an item not in the grid changes nothing; otherwise only the animation start moves to cover its index, and the child stays until its fade-out ends |
| IconGrid.IndexOf | js/ui/iconGrid.js:646 | -1 exactly when absent; otherwise an index holding the element with no earlier occurrence |
| OverviewControls.RoundOutwards | js/ui/overviewControls.js:387-393 | a falling transition rounds its start up and its end down, a rising one the reverse, so the rounded ends enclose the raw ends and keep the direction |
| OverviewControls.Progress | js/ui/overviewControls.js:395-398 | progress is non-negative, equals the distance from the start as a fraction of the transition's length, and is 1 for a zero-length transition |
| OverviewControls.TransitionParams | js/ui/overviewControls.js:376-406 | the current state is the value; transitioning exactly when a transition runs or a gesture is in progress; the ends are the transition's ends rounded outwards; progress is measured between them |
| OverviewControls.ProgressIsFraction | js/ui/overviewControls.js:376-406 | while the value lies between the transition's ends, progress lies in 0 .. 1 |
| OverviewControls.ProgressBetweenEnds | js/ui/overviewControls.js:395-398 | a value between two ends has a progress in 0 .. 1 |
| OverviewControls.AtRest | js/ui/overviewControls.js:376-406 | without a transition, a whole state is both ends with progress 1; a fractional value runs from the state below to the state above, with the fractional part as progress |
| OverviewControls.OverviewAdjustment.constructor | js/ui/overviewControls.js:367-374 | the adjustment starts in the window picker, bounded by hidden and app grid, with no transition or gesture |
| OverviewControls.ShiftedFinal | js/ui/overviewControls.js:818-821 | down moves the final state one lower but not below hidden, up one higher but not above the app grid, other directions leave it; a valid state stays in range |
| OverviewControls.ShiftState | js/ui/overviewControls.js:815-842 | nothing happens exactly when the shifted state is the current one; the overview is shown exactly when moving from hidden to the window picker; it is hidden when moving to hidden; otherwise the adjustment eases to the shifted state, checking the apps button exactly for the app grid |
| OverviewControls.ShiftStepsInverse | js/ui/overviewControls.js:818-821 | one step up then down (or down then up) returns to the state unless the first step was blocked at the top or bottom |
| OverviewControls.ShiftFromRest | js/ui/overviewControls.js:815-842 | at rest on a state, shifting eases only to one of the three states, and does nothing exactly for a non-vertical direction, up at the app grid or down when hidden |
| OverviewControls.ThumbnailsParamsForState | js/ui/overviewControls.js:662-684 | the app grid has transparent, half-scale thumbnails moved down by half the box height; every other state has opaque, full-size, unmoved ones |
| OverviewControls.ThumbnailsBounds | js/ui/overviewControls.js:658-694 | during any transition the thumbnails' opacity stays in 0 .. 255 and their scale in 0.5 .. 1, and a transition not touching the app grid leaves them opaque and full-size |
| OverviewControls.AppDisplayVisible | js/ui/overviewControls.js:725-735 | a search hides the app grid; on the phone it is shown whenever no search runs; between whole states it is shown exactly when no search runs and the phone layout is active or either end is the app grid |
| OverviewControls.AppGridExcludesThumbnails | js/ui/overviewControls.js:696-735 | at rest off the phone without a search, the app grid is shown exactly in the app grid state, and then the thumbnails box is not |
| OverviewControls.FitModeForState | js/ui/overviewControls.js:645-646 | as written, every state gets the single-workspace fit mode |
| OverviewControls.FitModeDiffersOnAppGrid | js/ui/overviewControls.js:645-656 | the early return disagrees with the unreachable switch after it only for the app grid state |
| Screencast.ReplaceChar | js/dbusServices/screencast/screencastService.js:500 | the same length, each occurrence of the character replaced and every other character kept, so none of the replaced character remains |
| Screencast.EscapeText | js/dbusServices/screencast/screencastService.js:490-518 | `%d` gives the date and `%t` the time, with no '/' left and the length kept; an unknown escape adds nothing |
| Screencast.ScanConcat | js/dbusServices/screencast/screencastService.js:490-522 | once the loop has closed every escape, the rest of the template expands independently of what came before |
| Screencast.ExpandMatchesReference | js/dbusServices/screencast/screencastService.js:486-525 | the character loop expands the template exactly as the front-to-back reading (one escape or plain character at a time, a trailing lone '%' kept) |
| Screencast.ScanPlainHead | js/dbusServices/screencast/screencastService.js:519-522 | a plain character is copied |
| Screencast.ScanEscapeHead | js/dbusServices/screencast/screencastService.js:490-520 | a '%' and the character after it expand to that escape's text |
| Screencast.PlainTemplateUnchanged | js/dbusServices/screencast/screencastService.js:486-525 | a template without '%' is the file name itself |
| Screencast.PlainReference | js/dbusServices/screencast/screencastService.js:486-525 | the front-to-back reading keeps a template without '%' |
| Screencast.AbsolutePath | js/dbusServices/screencast/screencastService.js:478-484 | an absolute name is kept; a relative one goes into the videos directory; with an absolute videos directory the result is absolute |
| Screencast.AbsolutePathIdempotent | js/dbusServices/screencast/screencastService.js:478-484 | making a path absolute twice gives the same as once |
| Screencast.GenerateFilePath | js/dbusServices/screencast/screencastService.js:486-530 | the loop's file name is the expanded template placed by the absolute-path rule |
| Screencast.DecimalString | js/dbusServices/screencast/screencastService.js:417 | the thread count is written as a non-empty string of decimal digits |
| Screencast.ThreadCount | js/dbusServices/screencast/screencastService.js:416 | the number of encoder threads is between 1 and 64 and is the processor count when that is in range |
| Screencast.ReplaceThreadMarker | js/dbusServices/screencast/screencastService.js:417 | a non-empty description stays non-empty unless the replacement is empty |
| Screencast.ReplaceLeavesNoMarker | js/dbusServices/screencast/screencastService.js:417 | replacing every `%T` by a digit string leaves no `%T` behind |
| Screencast.SubstituteThreadCount | js/dbusServices/screencast/screencastService.js:414-418 | every `%T` in the pipeline description becomes the decimal digits of the processor count clamped to 1..64; no `%T` is left, and a description without any is unchanged |
| Screencast.ReplaceAtMarker | js/dbusServices/screencast/screencastService.js:417 | each `%T` is replaced where it stands: the text before it and the text after it are replaced independently and the thread count goes in between |
| Screencast.NoMarkerUnchanged | js/dbusServices/screencast/screencastService.js:417 | replacing `%T` changes nothing in a description without it |
| Screencast.ReplaceFirstUnchanged | js/dbusServices/screencast/screencastService.js:423 | replacing 'webm' by 'webm' (the first candidate's extension) keeps the file path |
| Screencast.FirstStop | js/dbusServices/screencast/screencastService.js:238-275 | the pipeline search stops at the first candidate from the current one that accepted the start or could not be torn down, or after the last |
| Screencast.Recorder.constructor | js/dbusServices/screencast/screencastService.js:101-134 | a new recorder has no pipeline, both pipeline and session in their initial state, watches its sender and has run no error callback |
| Screencast.Recorder.BailOutOnError | js/dbusServices/screencast/screencastService.js:166-183 | the sender is no longer watched, the error callback has run once, and waiting start and stop requests are rejected; nothing else changes |
| Screencast.Recorder.HandleFatalPipelineError | js/dbusServices/screencast/screencastService.js:185-194 | the pipeline is in error, an active session is stopped, and the recorder bails out |
| Screencast.Recorder.TeardownPipeline | js/dbusServices/screencast/screencastService.js:196-208 | the pipeline is gone; the answer is success exactly when there was none or it stopped, and a failed stop is a fatal pipeline error |
| Screencast.Recorder.TryStartPipeline | js/dbusServices/screencast/screencastService.js:238-275 | the index advances to the first candidate that stops the search and the file path takes its extension; with every candidate failed a waiting start request is rejected and nothing else changes; an accepted start keeps the pipeline and changes nothing else; a failed teardown is a fatal error that stops an active session, unwatches the sender, runs the error callback and rejects waiting requests |
| Screencast.Recorder.StartRecording | js/dbusServices/screencast/screencastService.js:277-305 | the start request waits and the session becomes active |
| Screencast.Recorder.OnStreamAdded | js/dbusServices/screencast/screencastService.js:293-301 | the pipeline is starting and candidates are tried from the first; the file path takes the extension of the one the search stopped at; every candidate failing rejects a waiting start request, an accepted one keeps the starting pipeline, a failed teardown is fatal as in the error handler; nothing else changes |
| Screencast.Recorder.StopRecording | js/dbusServices/screencast/screencastService.js:308-315 | the pipeline is flushing; the stop request waits when there is a pipeline and is rejected otherwise (the end-of-stream event cannot be sent) |
| Screencast.Recorder.OnStateChanged | js/dbusServices/screencast/screencastService.js:319-330 | only the recorder's own starting pipeline going from paused to playing makes it playing and resolves the start request; anything else changes nothing |
| Screencast.Recorder.FinishFlush | js/dbusServices/screencast/screencastService.js:350-363 | the recording is stopped and added to the recent files, an active session stops, the sender is no longer watched and the stop request resolves |
| Screencast.Recorder.OnBusMessage | js/dbusServices/screencast/screencastService.js:317-411 | playing is reached only through the own pipeline's paused-to-playing change; after an end of stream or an error that tears down cleanly, a starting recorder moves to the next candidate, a playing one (and a flushing one on an error) fails fatally, and a flushing one finishes on end of stream; a failed teardown is fatal |
| Screencast.Recorder.SenderVanished | js/dbusServices/screencast/screencastService.js:210-215 | the pipeline is gone, the sender unwatched and the error callback has run; waiting requests are rejected and settled ones kept; a failed teardown puts the pipeline in error and stops an active session, otherwise both states are kept |
| Screencast.Recorder.OnSessionClosed | js/dbusServices/screencast/screencastService.js:217-229 | the session is stopped; after a stopped pipeline nothing else changes; otherwise the pipeline is thrown away (in error if that failed), the sender unwatched, the error callback run once and waiting requests rejected |
| Screencast.AddThenRemove | js/dbusServices/screencast/screencastService.js:463-476 | adding a new sender's recorder and removing it again restores the recorder map |
| Screencast.ScreencastService.constructor | js/dbusServices/screencast/screencastService.js:441-461 | the service starts with no recorders and is not held |
| Screencast.ScreencastService.RemoveRecorder | js/dbusServices/screencast/screencastService.js:463-470 | the sender's recorder is removed; an unknown sender changes nothing; removing the last recorder releases the service |
| Screencast.ScreencastService.AddRecorder | js/dbusServices/screencast/screencastService.js:472-476 | the recorder is stored for its sender, and the first recorder holds the service |
| Screencast.ScreencastService.Screencast | js/dbusServices/screencast/screencastService.js:532-637 | a recording succeeds exactly when saving is not locked down, the sender has no recorder, the recorder could be created and it started; then the answer is the generated file path and the recorder is kept, and otherwise the answer is empty and the recorders are as before |
| Screencast.ScreencastService.StopScreencast | js/dbusServices/screencast/screencastService.js:639-656 | the answer is true exactly when the sender had a recorder, and afterwards it has none |
| Cldr2Json.HexDigitValue | data/cldr2json/cldr2json.py:52 | a hexadecimal digit is worth less than 16 |
| Cldr2Json.HexRun | data/cldr2json/cldr2json.py:34 | the digit run is the longest prefix of hexadecimal digits |
| Cldr2Json.MatchEscape | data/cldr2json/cldr2json.py:34 | a matched escape spans at least five characters of the text |
| Cldr2Json.ParseSingleKey | data/cldr2json/cldr2json.py:50-54 | unescaping never lengthens the text |
| Cldr2Json.PlainKeyUnchanged | data/cldr2json/cldr2json.py:50-54 | text without a backslash is returned unchanged |
| Cldr2Json.HexDigitChar | data/cldr2json/cldr2json.py:52 | the digit written for a value below 16 reads back as that value |
| Cldr2Json.HexString | data/cldr2json/cldr2json.py:52 | the hexadecimal string written for a number is non-empty and reads back as that number |
| Cldr2Json.HexRunStops | data/cldr2json/cldr2json.py:34 | the digit run stops at the first non-digit |
| Cldr2Json.EscapeAtHead | data/cldr2json/cldr2json.py:34 | an escape written for a character is matched at the head of any text and names that character |
| Cldr2Json.ParseEscapeAtHead | data/cldr2json/cldr2json.py:50-54 | an escape at the head of the text is replaced by the character it names and unescaping continues right after it |
| Cldr2Json.EscapeRoundTrip | data/cldr2json/cldr2json.py:50-54 | unescaping text written entirely as `\u{hex}` escapes gives the text back |
| Cldr2Json.PyInt | data/cldr2json/cldr2json.py:68 | `int()` reads a non-empty string of ASCII digits as its decimal value |
| Cldr2Json.UnpaddedDigits | data/cldr2json/cldr2json.py:68 | `int()` of a text that starts with a digit and does not end in white space is the value of its digits, underscores dropped, when they form digit groups, and raises otherwise |
| Cldr2Json.PyIntIgnoresSurroundingSpace | data/cldr2json/cldr2json.py:68 | white space before and after a text does not change what `int()` reads |
| Cldr2Json.PyIntUnderscoreSeparates | data/cldr2json/cldr2json.py:68 | an underscore between two runs of digits is a separator: `int("1_0")` is `int("10")` |
| Cldr2Json.PyIntRejectsStrayUnderscores | data/cldr2json/cldr2json.py:68 | an underscore leading, trailing or doubled makes `int()` raise |
| Cldr2Json.ParseAll | data/cldr2json/cldr2json.py:71-74 | every long-press string unescapes, in order, or the whole entry fails |
| Cldr2Json.ParseEntry | data/cldr2json/cldr2json.py:59-74 | an entry whose ISO name is refused is skipped once its string unescapes; an accepted one becomes a key in the row of its letter, whose column is `int()` of the rest of the name, with its own string followed by its long-press strings |
| Cldr2Json.PrefixMatchRaises | data/cldr2json/cldr2json.py:63-68 | as written, the name `C01x` matches the start-anchored pattern and the column conversion raises, where a full match would skip it (see Findings) |
| Cldr2Json.PrefixMatchSkipsSpace | data/cldr2json/cldr2json.py:63-68 | as written, a name of a row letter, digits and trailing white space such as `C01 ` is read as the column of those digits, where a full match would skip it |
| Cldr2Json.FullMatchFailsOnlyOnStrings | data/cldr2json/cldr2json.py:63-68 | corrected: with the name matched in full, an entry fails only when one of its strings cannot be unescaped |
| Cldr2Json.CollectRows | data/cldr2json/cldr2json.py:57-74 | every collected row is named by a letter A to E and holds at least one key |
| Cldr2Json.CollectStopsAtError | data/cldr2json/cldr2json.py:57-74 | once an entry fails, later entries do not change the outcome |
| Cldr2Json.CompareStringsAntisymmetric | data/cldr2json/cldr2json.py:81 | swapping two strings negates their comparison, which is zero only for equal strings |
| Cldr2Json.CompareStringListsAntisymmetric | data/cldr2json/cldr2json.py:81 | swapping two string lists negates their comparison, which is zero only for equal lists |
| Cldr2Json.CompareKeysAntisymmetric | data/cldr2json/cldr2json.py:81 | swapping two keys negates their comparison, which is zero only for equal keys |
| Cldr2Json.Insert | data/cldr2json/cldr2json.py:81 | inserting into a sorted row keeps it sorted and adds exactly that key |
| Cldr2Json.SortKeys | data/cldr2json/cldr2json.py:81 | a sorted row is ordered and a permutation of the row's keys |
| Cldr2Json.SortedColumnsAscending | data/cldr2json/cldr2json.py:81 | in a sorted row the column numbers never decrease |
| Cldr2Json.KeyObjects | data/cldr2json/cldr2json.py:81-82 | one JSON object per key, holding its strings |
| Cldr2Json.CollectEntries | data/cldr2json/cldr2json.py:58-74 | the first loop groups the keys by row letter, or stops with the first failing entry |
| Cldr2Json.RowObjects | data/cldr2json/cldr2json.py:80-83 | the row loop writes the sorted keys as JSON objects |
| Cldr2Json.BuildRows | data/cldr2json/cldr2json.py:76-85 | the second loop writes one sorted row per letter present, from E down to A |
| Cldr2Json.ParseRows | data/cldr2json/cldr2json.py:57-85 | the rows of a key map, or the error of its first failing entry |
| Cldr2Json.LevelNameDeterminesMode | data/cldr2json/cldr2json.py:101-112 | two key maps with the same level name get the same mode |
| Cldr2Json.ShiftAloneIsLatched | data/cldr2json/cldr2json.py:105-107 | the modifiers `shift` name the latched shift level |
| Cldr2Json.ShiftLevelsMerge | data/cldr2json/cldr2json.py:105-107 | any modifier set mentioning shift is merged into the shift level |
| Cldr2Json.ShiftPrefix | data/cldr2json/cldr2json.py:105 | modifiers starting with the word shift mention shift |
| Cldr2Json.SplitKeepsEarlierFields | data/cldr2json/cldr2json.py:105 | appending text changes only the last field of a split on spaces |
| Cldr2Json.BeforeTransform | data/cldr2json/cldr2json.py:92 | the locale is the longest prefix before the first `-t-`, or the whole attribute when there is none |
| Cldr2Json.ConvertLevels | data/cldr2json/cldr2json.py:99-114 | the conversion succeeds exactly when every key map's rows parse, giving one level per key map in order |
| Cldr2Json.ConvertXml | data/cldr2json/cldr2json.py:88-115 | conversion succeeds exactly when a name element exists and every key map parses; the locale comes from the last keyboard element (none without one) and the name from the last name element |
| Cldr2Json.StripParens | data/cldr2json/cldr2json.py:144 | no parenthesis is left at either end and nothing is added |
| Cldr2Json.StripParensIdempotent | data/cldr2json/cldr2json.py:144 | stripping twice is stripping once |
| Cldr2Json.WordMatch | data/cldr2json/cldr2json.py:133-141 | none exactly when no word of the name is a layout name; otherwise the layout of such a word (the first) |
| Cldr2Json.XkbWordMatch | data/cldr2json/cldr2json.py:142-149 | none exactly when no XKB name has a stripped word equal to the name; otherwise such an XKB name (the first in sorted order) |
| Cldr2Json.XkbLookupFails | data/cldr2json/cldr2json.py:118-150 | an override decides its locale (a disabled one fails); otherwise the lookup fails exactly when neither the name, nor a word of it, nor a stripped word of an XKB name matches |
| Cldr2Json.XkbLookupFromTables | data/cldr2json/cldr2json.py:118-150 | a found layout is an override or a layout of the XKB table |
| Cldr2Json.LocaleToXkb | data/cldr2json/cldr2json.py:118-150 | the loops find the layout the lookup specifies, or fail as it does |
| Cldr2Json.FindWord | data/cldr2json/cldr2json.py:133-141 | the loop over the name's words yields the layout of the first word that is an XKB name, and nothing when no word is one |
| Cldr2Json.FindXkbWord | data/cldr2json/cldr2json.py:142-149 | the loop over the sorted XKB names yields the first one holding a word that, stripped of parentheses, is the name, and nothing when none does |
| Cldr2Json.HasWord | data/cldr2json/cldr2json.py:143-144 | one XKB name matches exactly when one of its space-separated words, stripped of parentheses, equals the name |
| Cldr2Json.CreateCharKey | data/cldr2json/cldr2json.py:152-166 | a character key has exactly the given fields, with strings only when there is no label, and no action |
| Cldr2Json.CreateActionKey | data/cldr2json/cldr2json.py:168-180 | an action key has its action and exactly the other fields given, and no key value or strings |
| Cldr2Json.CreateModifierKey | data/cldr2json/cldr2json.py:182-192 | a modifier key has its key value and the modifier action, exactly the other fields given, and no strings |
| Cldr2Json.TerminalRowKeys | data/cldr2json/cldr2json.py:258-265 | the terminal row has seven keys, each with a key value and none with strings; exactly Ctrl and Alt are modifiers |
| Cldr2Json.FirstLevel | data/cldr2json/cldr2json.py:194-199 | the index of the first level with the given name, or the number of levels |
| Cldr2Json.FirstLevelByNames | data/cldr2json/cldr2json.py:194-199 | the search depends on the level names only |
| Cldr2Json.FindLayer | data/cldr2json/cldr2json.py:194-199 | none exactly when no level has the name; otherwise the first level that has it |
| Cldr2Json.CreateMobileTerminal | data/cldr2json/cldr2json.py:257-270 | locale and name are kept and every level gains the terminal row on top, with its other rows unchanged |
| Cldr2Json.TerminalKeepsLayers | data/cldr2json/cldr2json.py:257-270 | adding the terminal row keeps every level findable at the same index |
| Backgrounds.Background.constructor | js/ui/background.js:144-163 | a background without a file, or whose image is already in the image cache, is loaded at once; no change notification is pending |
| Backgrounds.Background.SetLoaded | js/ui/background.js:196-207 | the background is loaded, and the 'loaded' idle is queued only on the first call |
| Backgrounds.Background.EmitChangedSignal | js/ui/background.js:183-194 | a change notification is pending afterwards, and at most one idle is queued however often it is called |
| Backgrounds.Background.FileChanged | js/ui/background.js:214-221 | a change of the background's own file queues the change notification; any other file changes nothing |
| Backgrounds.Background.RunChangedIdle | js/ui/background.js:187-191 | the idle clears the pending notification and emits 'bg-changed' once |
| Backgrounds.Background.Destroy | js/ui/background.js:165-181 | the background is destroyed, and a pending change idle is removed |
| Backgrounds.BackgroundSource.constructor | js/ui/background.js:280-291 | a new source has no backgrounds and is not in use |
| Backgrounds.BackgroundSource.GetBackground | js/ui/background.js:305-340 | without a file the background is shared under index 0; an existing background for the index is returned and the map is unchanged; otherwise a new one is created and stored for the index |
| Backgrounds.BackgroundSource.Evict | js/ui/background.js:297-300 | the background is destroyed and removed from the map |
| Backgrounds.BackgroundSource.BackgroundChanged | js/ui/background.js:326-330 | on 'bg-changed' the background is destroyed and dropped, so the next request makes a fresh one |
| Backgrounds.BackgroundSource.EvictAll | js/ui/background.js:293-303 | exactly the backgrounds of the chosen indices are destroyed and removed; the rest stay |
| Backgrounds.BackgroundSource.OnMonitorsChanged | js/ui/background.js:293-303 | backgrounds of monitors that no longer exist are destroyed and removed; the others stay |
| Backgrounds.BackgroundSource.Destroy | js/ui/background.js:342-353 | every background is destroyed and the source holds none |
| Backgrounds.BackgroundCache.constructor | js/ui/background.js:85-88 | a new cache has no file monitors and no sources |
| Backgrounds.BackgroundCache.MonitorFile | js/ui/background.js:90-106 | a file is monitored once: a new file gets a monitor, an already monitored one changes nothing |
| Backgrounds.BackgroundCache.MonitorEvent | js/ui/background.js:96-102 | 'file-changed' is emitted for the monitored file except for changed and created events |
| Backgrounds.BackgroundCache.GetBackgroundSource | js/ui/background.js:108-120 | one source per settings schema: a new one with use count 1, or the existing one with its use count raised by one |
| Backgrounds.BackgroundCache.ReleaseBackgroundSource | js/ui/background.js:122-132 | an unknown schema changes nothing; otherwise the use count drops by one, and at zero the source is removed and destroyed |
| Backgrounds.BackgroundSource.Unref | js/ui/background.js:125 | the use count drops by exactly one and the release is counted |
| Backgrounds.BackgroundCache.Forget | js/ui/background.js:126-129 | the last release removes the schema from the cache and destroys its source, keeping its use count, and every remaining entry stays valid |
| StIcon.TruncateToInt | src/st/st-icon.c:505 | the conversion of the theme length to an integer truncates toward zero |
| StIcon.EffectiveSizeChoice | src/st/st-icon.c:483-527 | with a scale factor of at least one the size is positive: the set size times the scale when positive, else the theme size rounded when at least one, else the default 48 times the scale |
| StIcon.ThemeSizeIgnoresScale | src/st/st-icon.c:503-509 | a positive theme size is used unscaled: two scale factors give the same size |
| StIcon.Icon.constructor | src/st/st-icon.c:415-443 | both sizes start at -1, the primary icon is the visible one, nothing is set, loading or shown |
| StIcon.Icon.GetIconSize | src/st/st-icon.c:545-551 | the explicitly set size, not the size in use |
| StIcon.Icon.UpdateIconSize | src/st/st-icon.c:483-527 | the size in use becomes the effective size, and the answer is true exactly when it changed; nothing else changes |
| StIcon.Icon.UpdateIconTexture | src/st/st-icon.c:250-305 | without a resource scale, a theme node or a positive size nothing happens; otherwise the actor takes the size, a running load is cancelled, and either the content is cleared (fallback shown with no fallback icon) or a load of the visible icon starts at the size divided by the scale |
| StIcon.Icon.SetIconSize | src/st/st-icon.c:562-589 | an equal size changes nothing; otherwise the size is stored and announced, and the texture is reloaded exactly when the effective size changed; afterwards the getter answers the new size |
| StIcon.Icon.SetGicon | src/st/st-icon.c:606-645 | an equal icon changes nothing; otherwise the icon is replaced and announced, the primary icon becomes visible again and the texture is reloaded |
| StIcon.Icon.SetFallbackGicon | src/st/st-icon.c:663-699 | an equal icon changes nothing; otherwise the fallback is replaced and announced and the texture reloaded, the visible slot kept |
| StIcon.Icon.SetIconName | src/st/st-icon.c:724-751 | a missing or empty name clears the icon; another name sets a new themed icon unless an equal one is set; the icon name change is announced last |
| StIcon.Icon.LoadFinished | src/st/st-icon.c:204-247 | a load that fails for another reason than cancellation switches to the fallback once and loads again; otherwise the load ends, and only a success shows the loaded texture |
| StIcon.Icon.StyleChanged | src/st/st-icon.c:307-353 | the size in use becomes the effective size, and the texture is reloaded exactly when the size changed, the widget had no theme node before, or the icon colours or style differ |
| WindowPolicy.FilterRules | js/ui/windowManager.js:2327-2339 | in action mode NONE every binding is filtered; a builtin binding in NORMAL mode always runs; a name never allowed is filtered in every other case |
| WindowPolicy.AllowedEverywhere | js/ui/windowManager.js:2327-2339 | a binding allowed for every mode is filtered exactly in mode NONE |
| WindowPolicy.RemovedRunsNowhere | js/ui/windowManager.js:1817-1824 | a binding whose mask was reset to NONE runs only as a builtin in NORMAL mode |
| WindowPolicy.MaskSubset | js/ui/windowManager.js:2339 | a mode sharing a bit with a narrower mask shares one with any mask containing it |
| WindowPolicy.WiderMaskRunsMore | js/ui/windowManager.js:1822-1824 | widening a name's allowed mask never filters that binding in a mode where it ran before |
| WindowPolicy.OtherNamesUnaffected | js/ui/windowManager.js:1822-1824 | changing one name's mask leaves the filtering of every other name unchanged |
| WindowPolicy.OwnWorkspaceClassification | js/ui/windowManager.js:525-542 | a window gets its own workspace exactly when it is not transient, not override-redirect, not on all workspaces and not a splash screen, dialog or modal dialog |
| WindowPolicy.NotGrabbableOnlyWhenFitting | js/ui/windowManager.js:544-560 | a window cannot be grabbed exactly when it is not kept above, is maximized on both axes and its frame fits the work area in both dimensions |
| WindowPolicy.SwitchCandidates | js/ui/windowManager.js:1762-1769 | the candidates are exactly the actors that are not override-redirect and lie on the active workspace, never more than the actors |
| WindowPolicy.IndexOfWindow | js/ui/windowManager.js:1754-1760 | the result is -1 or an index showing the window, and no earlier actor shows it; -1 means no actor shows it |
| WindowPolicy.LookupIndex | js/ui/windowManager.js:1754-1760 | the loop returns the first index whose actor shows the window, or -1 |
| WindowPolicy.SwitchApp | js/ui/windowManager.js:1762-1784 | the activated window is the candidate after the focused one, the first candidate when nothing has focus or the focused one is last, and none when there is no candidate |
| WindowPolicy.CandidatesAppend | js/ui/windowManager.js:1763-1769 | filtering an extended actor list extends the candidates by the new actor exactly when it is switchable |
| WindowPolicy.SwitchTargetSwitchable | js/ui/windowManager.js:1771-1784 | the switch does nothing exactly when no actor is switchable, and otherwise activates the window of a switchable actor |
| WindowPolicy.SwitchFromUnknownFocus | js/ui/windowManager.js:1780-1783 | a focused window that is not a candidate makes the switch start over at the first candidate |
| WindowPolicy.SwitchFromCandidate | js/ui/windowManager.js:1780-1783 | with distinct windows, switching from the candidate at position p activates the one at p + 1, or the first after the last |
| WindowPolicy.FocusAfterStep | js/ui/windowManager.js:1780-1783 | each further switch moves the focus one place around the candidate cycle |
| WindowPolicy.StepMod | js/ui/windowManager.js:1782-1783 | the wrap to index 0 is the step to the next position modulo the number of candidates |
| WindowPolicy.CyclePositionIsMod | js/ui/windowManager.js:1780-1783 | n moves around the cycle from position k reach position (k + n) modulo the cycle length |
| WindowPolicy.SwitchCycles | js/ui/windowManager.js:1762-1784 | with distinct windows, repeated switching visits the candidates in stacking order and wraps from the last to the first |
| WindowPolicy.SwitchReturnsToStart | js/ui/windowManager.js:1762-1784 | as many switches as there are candidates bring the focus back to the window it started from |
| WindowPolicy.Without | js/ui/windowManager.js:2116-2117 | filtering keeps exactly the other windows, keeps a list without duplicates free of them, and leaves a list without the window unchanged |
| WindowPolicy.WindowManager.constructor | js/ui/windowManager.js:1313-1608 | the twelve session switches are allowed in every mode, and each later custom handler or added keybinding that Mutter took is allowed in its own modes, which win; no window is dimmed |
| WindowPolicy.WindowManager.AllowKeybinding | js/ui/windowManager.js:1822-1824 | the name's mask becomes the given modes and nothing else changes |
| WindowPolicy.WindowManager.SetCustomKeybindingHandler | js/ui/windowManager.js:1805-1808 | the name is allowed in the given modes exactly when Mutter accepted the handler; nothing else changes |
| WindowPolicy.WindowManager.AddKeybinding | js/ui/windowManager.js:1810-1815 | the display's action is returned and the name is allowed in the given modes exactly when that action is not NONE |
| WindowPolicy.SessionSwitchBindings | js/ui/windowManager.js:1347-1358 | the session-switch bindings 1 to 12, each allowed in every mode |
| WindowPolicy.WindowManager.RemoveKeybinding | js/ui/windowManager.js:1817-1820 | when the display removed the binding its mask becomes NONE, so it is filtered in every mode except as a builtin in NORMAL mode; otherwise the table is unchanged |
| WindowPolicy.WindowManager.CheckDimming | js/ui/windowManager.js:2108-2120 | the window is flagged dimmed exactly when it has attached dialogs; a change appends it to, or filters it out of, the dimmed list and requests the matching effect; the list stays duplicate-free and equal to the flagged set |
| WindowPolicy.OwnWorkspaceWindowIsOwn | js/ui/windowManager.js:452-459 | a workspace holding a window that should have its own workspace has windows of its own |
| WindowPolicy.SpliceStart | js/ui/windowManager.js:996 | splice's start lies within the list, and an index inside the list is used as given |
| WindowPolicy.InsertAt | js/ui/windowManager.js:996 | the inserted element sits at the index, the ones before are kept and the ones after shift by one |
| WindowPolicy.RemoveAt | js/ui/windowManager.js:1021 | the list loses one element: the ones before the index are kept and the ones after shift back by one |
| WindowPolicy.RemoveUndoesInsert | js/ui/windowManager.js:993-1022 | removing the workspace just added at an index restores the list |
| WindowPolicy.WorkspaceTracker.constructor | js/ui/windowManager.js:356-361 | the tracker starts with no workspaces, updates not blocked and no request made |
| WindowPolicy.WorkspaceTracker.WorkspaceHasOwnWindows | js/ui/windowManager.js:452-459 | true exactly when some window of the workspace is not on all workspaces |
| WindowPolicy.WorkspaceTracker.MaybeRemoveWorkspace | js/ui/windowManager.js:470-520 | removal is asked exactly when updates are not blocked, the workspace is idle and holds no own windows, and either (single-window mode) it has no tiling timeout and is not the only workspace, or it is not active, not the last and the list is not at the minimum of two; an overview is shown for an empty active workspace and zero-open-windows is notified for the only one |
| WindowPolicy.WorkspaceTracker.WorkspaceAdded | js/ui/windowManager.js:993-1001 | the workspace is spliced in at the index, and lands exactly there when the index is within the list |
| WindowPolicy.WorkspaceTracker.WorkspaceRemoved | js/ui/windowManager.js:1003-1022 | the handler succeeds exactly when the index holds a workspace that is not starting up, in splash grace, waiting on a tiling timeout or showing an overlay, and then removes just that entry; otherwise it throws and leaves the list alone |
| WindowPolicy.SingleWindowRemovalRoundTrip | js/ui/windowManager.js:470-520 | in single-window mode a removal the tracker asks for is accepted by its own removal handler, and the only workspace is never removed |
| Dnd.RemoveFirst | js/ui/dnd.js:50-57 | an absent monitor leaves the list as it is; a present one removes exactly one occurrence of it |
| Dnd.RemoveFirstAt | js/ui/dnd.js:50-57 | the removal splices out the first position holding the monitor and keeps the rest in order |
| Dnd.RemoveUndoesAdd | js/ui/dnd.js:46-57 | removing a monitor just added, and not registered before, gives back the previous list |
| Dnd.DragMonitors.constructor | js/ui/dnd.js:35 | the list of drag monitors starts empty |
| Dnd.DragMonitors.Add | js/ui/dnd.js:46-48 | the monitor is appended at the end of the list |
| Dnd.DragMonitors.Remove | js/ui/dnd.js:50-57 | the list loses the first occurrence of the monitor, and nothing when it is absent |
| Dnd.RealActorScale | js/ui/dnd.js:37-44 | the loop's scale is the product of the scales along the actor's parent chain |
| Dnd.ProductConcat | js/ui/dnd.js:37-44 | the scale of a chain split in two parts is the product of the parts' scales |
| Dnd.ProductPositive | js/ui/dnd.js:37-44 | positive scales along the chain give a positive scale, and a chain of unit scales gives 1 |
| Dnd.CursorFor | js/ui/dnd.js:24-28 | a decisive motion result maps to a drag cursor that is neither the in-drag nor the default cursor |
| Dnd.FirstDecisive | js/ui/dnd.js:369-379 | the index of the first handler that answered something other than CONTINUE, or -1 when none did |
| Dnd.MonitorsDecideFirst | js/ui/dnd.js:369-379 | once a drag monitor decides, the targets' answers do not change the cursor |
| Dnd.InDragWhenUndecided | js/ui/dnd.js:342-397 | the in-drag cursor is left exactly when no monitor and no target decides |
| Dnd.FirstDropDecisive | js/ui/dnd.js:433-447 | the index of the first drop monitor answering FAILURE or SUCCESS, or -1 when none does |
| Dnd.FirstAccepting | js/ui/dnd.js:454-465 | the index of the first target whose acceptDrop returned true, or -1; a throwing acceptDrop counts as a refusal |
| Dnd.DropDecision | js/ui/dnd.js:419-489 | the drop ends at the first decisive monitor with its answer, else at the first accepting target with all monitors undecided, and finds no target exactly when no monitor decides and no target accepts |
| Dnd.DndGesture.constructor | js/ui/dnd.js:90-108 | corrected (see Findings): the parameters are stored, including manual mode, which the source drops, the drag can be cancelled and nothing has been emitted |
| Dnd.DndGesture.AsWritten | js/ui/dnd.js:90-108 | as written the parsed manual mode is never stored, so the gesture is never in manual mode |
| Dnd.DndGesture.StartDrag | js/ui/dnd.js:293-299 | with exactly one point a POSSIBLE gesture becomes RECOGNIZING, emits drag-begin, sets the in-drag cursor and starts at the press; otherwise nothing changes |
| Dnd.DndGesture.MaybeStartDrag | js/ui/dnd.js:310-335 | the drag starts only beyond the threshold on some axis, from a pointer or touchpad or after the timeout threshold; a touch beyond the threshold too early ignores the threshold from then on |
| Dnd.DndGesture.UpdateDragPosition | js/ui/dnd.js:408-417 | the drag position follows the point and a hover update is queued; nothing else changes |
| Dnd.DndGesture.PointsBegan | js/ui/dnd.js:605-621 | a second point cancels; otherwise the press time and place are recorded, the threshold is honoured again and a POSSIBLE gesture outside manual mode may start |
| Dnd.DndGesture.PointsMoved | js/ui/dnd.js:623-632 | in manual mode the state never changes; otherwise a POSSIBLE gesture moving past the threshold starts dragging, and a recognizing gesture follows the point |
| Dnd.DndGesture.UpdateDragHover | js/ui/dnd.js:342-397 | the cursor becomes the first decisive monitor's, else the first decisive target's, else the in-drag cursor, and the queued update is consumed |
| Dnd.DndGesture.DragActorDropped | js/ui/dnd.js:419-489 | the outcome is the drop decision; the gesture completes on a succeeding monitor or an accepting target and is cancelled otherwise; past the monitors it can no longer be cancelled; an accepted drop emits drag-end with success unless the actor is restored |
| Dnd.DndGesture.PointsEnded | js/ui/dnd.js:634-646 | a recognizing gesture drops and ends completed exactly on a successful drop; a POSSIBLE gesture whose points are all gone is cancelled |
| Dnd.DndGesture.PointsCancelled | js/ui/dnd.js:648-650 | the gesture is cancelled and nothing is emitted |
| Dnd.ManualModeIgnoredAsWritten | js/ui/dnd.js:618-628 | as written a gesture created in manual mode starts dragging on its own when the mouse moves past the threshold |
| Dnd.ManualModeHonoured | js/ui/dnd.js:618-628 | with manual mode stored, the same press and move leave the gesture POSSIBLE with nothing emitted |
| Osd.ClampLevel | js/ui/osdWindow.js:38-39 | the stored level always lies in [0, 100]: a level inside is kept, one below is 0 and one above is 100 |
| Osd.ClampLevelIdempotent | js/ui/osdWindow.js:31-39 | writing the stored level back to itself on a width change keeps the level |
| Osd.BarWidthWithinAllocation | js/ui/osdWindow.js:38-45 | the bar's width lies between 0 and the rounded allocation, is the whole allocation at level 100 and 0 at level 0 |
| Osd.RoundMonotone | js/ui/osdWindow.js:42 | rounding to a pixel never reverses the order of two widths |
| Osd.LevelBar.constructor | js/ui/osdWindow.js:21-32 | the level starts at 0 with an empty bar |
| Osd.LevelBar.SetLevel | js/ui/osdWindow.js:38-45 | the level is clamped, the bar takes the matching share of the allocation, and the width is written only when it changes |
| Osd.PopupSizeBounds | js/ui/osdWindow.js:167-176 | the popup is at least 110 px, exactly 110 px on a monitor no larger than 640x480 on some axis, and never smaller on a monitor at least as large on both axes |
| Osd.PopupSizeDoubles | js/ui/osdWindow.js:173-176 | a 1280x960 monitor gets a 220 px popup |
| Osd.OsdWindow.constructor | js/ui/osdWindow.js:51-91 | the window starts hidden with no icon, label, level or hide timeout, and is sized for its monitor when that monitor exists |
| Osd.OsdWindow.MonitorsChanged | js/ui/osdWindow.js:167-182 | for an existing monitor the popup size follows the monitor and the icon takes half of it in unscaled pixels; a window whose monitor is gone keeps its sizes; nothing else changes |
| Osd.OsdWindow.SetIcon | js/ui/osdWindow.js:93-95 | only the icon changes |
| Osd.OsdWindow.SetLabel | js/ui/osdWindow.js:97-101 | the label is shown exactly when one is given, and its text changes only for a non-empty label |
| Osd.OsdWindow.SetLevel | js/ui/osdWindow.js:103-114 | the level bar is shown exactly when a level is given; a visible window animates the bar towards it, a hidden one sets the clamped level at once |
| Osd.OsdWindow.Show | js/ui/osdWindow.js:116-137 | without an icon nothing happens; with one the window becomes visible and exactly one hide timeout is pending, a previous one removed |
| Osd.OsdWindow.Cancel | js/ui/osdWindow.js:139-145 | no hide timeout is left pending; a pending one is removed and the fade-out starts at once, and without one nothing happens |
| Osd.OsdWindow.Hide | js/ui/osdWindow.js:147-159 | the timeout is forgotten and one fade-out starts |
| Osd.OsdWindow.HideTimeoutFired | js/ui/osdWindow.js:134-135 | the pending timeout fires once, and the window starts fading out, every timeout still accounted for |
| Osd.OsdWindow.FadeOutCompleted | js/ui/osdWindow.js:153-165 | at the end of the fade-out the window, its label and its level are hidden |
| Osd.OsdWindow.Destroy | js/ui/osdWindow.js:219-221 | the window is marked destroyed and its timeout bookkeeping is unchanged |
| Osd.OsdWindowManager.constructor | js/ui/osdWindow.js:206-211 | the manager starts with exactly one window per monitor |
| Osd.OsdWindowManager.MonitorsChanged | js/ui/osdWindow.js:213-225 | afterwards there is one window per monitor: existing windows are kept untouched, new monitors get fresh windows and the windows of monitors that are gone are destroyed |
| Osd.OsdWindowManager.CreateMissing | js/ui/osdWindow.js:214-217 | a fresh window is created for each monitor that has none, and the existing ones are kept untouched |
| Osd.OsdWindowManager.Append | js/ui/osdWindow.js:216 | a new live window for the next monitor index, with a bar of its own, joins the list and the manager stays valid |
| Osd.OsdWindowManager.DestroyExtra | js/ui/osdWindow.js:219-224 | windows past the last monitor are destroyed and the list is cut to the number of monitors |
| Osd.OsdWindowManager.Show | js/ui/osdWindow.js:234-246 | with -1 every window shows the icon, label and level; otherwise only the monitor's window does and every other one is cancelled |
| Osd.OsdWindowManager.HideAll | js/ui/osdWindow.js:248-251 | every window is cancelled, so none keeps a pending hide timeout |
| Osd.OsdWindowManager.CancelAt | js/ui/osdWindow.js:240 | the window at the index is cancelled and the others are untouched |
| Osd.OsdWindowManager.ShowOsdWindow | js/ui/osdWindow.js:227-232 | the window shows the requested icon, label and level and, with an icon, is visible with a pending hide timeout |
| EdgeDrag.OffsetAlong | js/ui/edgeDragAction.js:49 | the offset along an axis is never negative and is zero exactly when both points share that coordinate |
| EdgeDrag.ProgressOffset | js/ui/edgeDragAction.js:110-117 | the reported progress is never negative and is zero exactly when the point has not moved along the drag axis |
| EdgeDrag.EdgeZones | js/ui/edgeDragAction.js:33-74 | a point is near the edge exactly when it is less than 20 px in from the gesture's side of its monitor, and has travelled far enough exactly when it is more than 80 px in |
| EdgeDrag.NearEdgeNeverPassesDistance | js/ui/edgeDragAction.js:33-74 | no point is both near the edge and past the distance needed on the same monitor |
| EdgeDrag.CancelIsAcrossDragAxis | js/ui/edgeDragAction.js:48-59 | the gesture cancels exactly when the point strays more than 100 px across the drag axis, and never for a move along the axis alone |
| EdgeDrag.ProgressIsAlongDragAxis | js/ui/edgeDragAction.js:110-117 | the progress is the offset along the drag axis: vertical for the top and bottom edges, horizontal for the left and right |
| EdgeDrag.StateChangeSignals | js/ui/edgeDragAction.js:132-138 | a change emits 'activated' exactly on entering RECOGNIZED, 'cancelled' exactly on going from RECOGNIZING to CANCELLED, at most one signal and never a progress |
| EdgeDrag.EdgeDragAction.constructor | js/ui/edgeDragAction.js:20-24 | the side and allowed modes are stored; no timeout is pending and nothing has been emitted |
| EdgeDrag.EdgeDragAction.SetState | js/ui/edgeDragAction.js:132-147 | the state becomes the new one with its signals; entering CANCELLED or RECOGNIZED removes a pending cancel timeout and leaves none |
| EdgeDrag.EdgeDragAction.PointsBegan | js/ui/edgeDragAction.js:76-95 | a second point, a disallowed action mode or a press away from the edge cancels; otherwise one cancel timeout is added and the state is kept |
| EdgeDrag.EdgeDragAction.CancelTimeoutFired | js/ui/edgeDragAction.js:88-94 | the timeout is gone afterwards; a point still near the edge cancels the gesture, otherwise nothing changes |
| EdgeDrag.EdgeDragAction.PointsMoved | js/ui/edgeDragAction.js:97-122 | straying across the axis cancels; a POSSIBLE gesture that left the edge, or a recognizing one, reports its progress and is recognized once past the distance needed; otherwise nothing changes. A gesture left unfinished keeps its cancel timeout, and one that finishes here removes a pending timeout exactly once |
| EdgeDrag.EdgeDragAction.PointsEnded | js/ui/edgeDragAction.js:124-126 | lifting the touch cancels, emitting 'cancelled' only from RECOGNIZING |
| EdgeDrag.EdgeDragAction.PointsCancelled | js/ui/edgeDragAction.js:128-130 | the gesture is cancelled, emitting 'cancelled' only from RECOGNIZING |
| EdgeDrag.SwipeFromLeftActivates | js/ui/edgeDragAction.js:76-147 | a touch beginning 5 px inside the left edge and moving 100 px inwards reports one progress of 100 and activates, leaving no timeout pending |

## Left out

- Clutter and St actors: allocation, easing, transitions, style and theme nodes, and signal wiring are not modelled in any file. Where a signal or an animation matters to the logic, it is recorded as an event in a log.
- IEEE floating point: numbers are reals, and `Math.floor`, `Math.ceil` and `Math.round` are the mathematical functions. NaN and infinities are not modelled, except that RoundedClip.EllipsisDist and RoundedClip.EllipsisCoverage return none where the shader's value is not a number.
- The Cogl pipeline, the shader snippet and the uniform upload of the clip effect are left out. The uniforms are values.
- RoundedClip.EllipsisDist: `length()` is an abstract function, assumed positive on non-zero vectors. Its exact value (a square root) is not modelled.
- Workspace.WorkspaceLayout.RemoveWindow: models the corrected slot removal of the first Findings row. As written, removing a window that has no slot drops the last slot; that behaviour is stated only by Workspace.RemoveSlotAsWrittenDropsOtherSlot.
- Workspace.AtMostOne: a zero denominator gives 1. The source's quotient is then infinite, which gives 1 after `Math.min` for a positive numerator, or it is NaN, which reals cannot express.
- js/ui/workspace.js `computeOccupiedSpace` (121-128) assigns where it evidently means to add. It is modelled as written, since `_createBestLayout` compares layouts with this value.
- The actor code of `WorkspaceLayout` (clones, allocation, the `_windows` signal handlers) is left out. Only the window and slot bookkeeping is modelled.
- Keyboard: `_previousWordPosition` and the surrounding-text deletion branch of `_toggleDelete` are left out. They are regex-based, and `if (true || …)` at js/ui/keyboard.js:2113 makes them unreachable.
- Keyboard: the IBus, GSettings and input-source lookups are inputs.
- Keyboard.EmojiPager.InitPagingInfo: requires a page size of at least 1, as Keyboard.EmojiPager.SetSize below does.
- Keyboard.EmojiPager.SetSize: requires at least one column and one row. With a page size of 0, which the floor at js/ui/keyboard.js:2404 can produce on a short page, `j % 0` is NaN, so no page is opened and the first key of a non-empty section is pushed onto an undefined page and throws a TypeError (js/ui/keyboard.js:1106-1112). A negative size pages by its absolute value with negative page counts. Neither outcome is modelled.
- js/ui/switcherPopup.js is not part of this model. `SwitcherPopup.mod` is taken to be the non-negative remainder.
- AltTab: the cycler popups, the window switcher's actors and the key handling are left out.
- AltTab.AppSwitcher.Select: the popup timeout is a flag; its 500 ms delay and its source id are not modelled. An application index outside the list with no window throws a TypeError in the source when it reads the item's cached windows; the model then leaves no popup pending.
- AltTab.AppSwitcher.WindowRemoved: requires the selected application to have had exactly one window more, since the handler is connected only to the selected application's thumbnails; the removed window index is taken as given, and with no thumbnails shown the source's `_destroyThumbnails` would throw where the model only clears the flag.
- AppDisplay: `_redisplay`, `_loadApps`, the drag placeholders and `_getLinearPosition` are left out. The linear position is an input.
- AppDisplay.AppView.RemoveItem: an unknown item gives index -1, and the model removes the last entry of the order, as the source's `splice(-1, 1)` does.
- AppDisplay.FindBestFolderName: models the corrected category count of the second Findings row, which takes each category once per app. As written, a category an app lists twice counts twice and can be proposed though another app lacks it; that is stated only by AppDisplay.CountingOccurrencesIsNotSharing.
- AppDisplay.FolderNameIsShared: holds of the corrected finder only. The as-written count can name a category some app does not list (AppDisplay.CountingOccurrencesIsNotSharing).
- AppDisplay.StrCompare: `localeCompare` is modelled as code-point order. Locale collation is not modelled, so "apple" and "Banana" compare the other way round from most locales; only the order properties (antisymmetry and transitivity) are claimed.
- IconGrid.Grid.AddItem: uses the corrected last-item test of the third Findings row. As written, an item added at the end waits for a following item that does not exist; that is stated only by IconGrid.FadeInDelayAsWrittenNeverLast.
- IconGrid.Grid.MoveItem: uses the corrected last-item test as well; the source's `moveItem` has the same as-written comparison.
- IconGrid: `BaseIcon`, the allocation code and the zoom helpers are left out.
- OverviewControls.FitModeForState is modelled as written. Its early return makes every state use the single-workspace fit mode.
- Screencast: D-Bus, GStreamer, promises, Gtk recent files and the clock are left out. Pipeline and session progress are explicit states and events, and the date, time and processor count are inputs.
- Screencast: the area variant of the screencast call runs the same recorder logic, so it is folded into `Screencast`.
- Cldr2Json: XML parsing, GnomeDesktop's XKB lookup, file writing, `convert_file` and `create_mobile`'s fixed-index row rewiring are left out. The XKB tables are inputs.
- Cldr2Json.LevelOf keeps the start-anchored match of the source. Only the corrected entry parser matches the full name (see Findings).
- Cldr2Json.PyInt: non-ASCII Unicode decimal digits raise in the model, where `int()` accepts them; the Unicode digit table is not modelled.
- Backgrounds: `SystemBackground`, `BackgroundManager`, the image cache and the animation loading are left out. File monitors and idles are events.
- StIcon: the texture cache and asynchronous loading are events carrying their outcome. The shadow pipeline is left out.
- StIcon.IconEqual: only themed icons are compared by name. Other icon kinds that `g_icon_equal` compares by content, such as file icons for the same file, are equal here only when they are the same object, so a setter given an equal file icon reloads where the source does nothing.
- StIcon: the fallback-icon-name setter and the name getters are not modelled.
- StIcon: a cancelled load clears whatever cancellable is current, as written.
- WindowPolicy: src/shell-action-modes.h is not part of this model. The action-mode bit values are taken as given: NONE is 0, NORMAL is 1 and ALL is every bit.
- WindowPolicy: dim and undim effects are only recorded.
- WindowPolicy.WindowManager.constructor: the custom handlers and added keybindings registered at js/ui/windowManager.js:1360-1608 reach the table through Mutter, which decides whether each is taken, so the constructor receives the names taken with their modes as one map. The handlers themselves and the scroll and gesture wiring are not modelled.
- WindowPolicy: `remove_workspace` is a request that is counted.
- WindowPolicy: `_redoLayout`, `_maybeMoveToOwnWorkspace`, `blockUpdates`, `unblockUpdates` and the window-added handlers are left out. The tracker's constructor starts from an empty list instead of replaying `_workspaceAdded`.
- Dnd.DndGesture.constructor: stores manual mode, the corrected behaviour of the last Findings row, and so does every gesture method that reads it (Dnd.DndGesture.PointsMoved). As written, `_init` drops the option and a manual-mode gesture starts dragging on its own; that is modelled only by the as-written constructor Dnd.DndGesture.AsWritten and Dnd.ManualModeIgnoredAsWritten.
- Dnd: the answers of drag monitors, drop targets and `acceptDrop` are inputs in call order. An `acceptDrop` that throws is a refusal.
- Dnd: Clutter's gesture state machine is not modelled. A state change takes effect at once.
- Dnd: the snap-back and revert animations, the 'drag-cancelled' signal, `_dragComplete` and `_gestureRecognizing`'s actor setup are left out.
- Dnd: the drag threshold times the scale factor is a parameter.
- Osd: tweens and fades are events. Unredirection, styling and translation are left out.
- Osd: one allocation width is passed for the level bar.
- Osd: the scale factor is required to be positive, because the theme context's factor is at least 1.
- Osd: each window's own 'monitors-changed' handler is called explicitly.
- EdgeDrag: `set_state` always takes effect, because Clutter's transition rules are not part of this model.
- EdgeDrag: the offsets from graphene's `distance` are absolute coordinate differences.
- EdgeDrag: the monitor under a point is an input.
- EdgeDrag: only the value of the 'progress' signal is recorded.

## Findings

| source | as written | input that shows it | evidently intended | confidence | as-written member | corrected member |
|---|---|---|---|---|---|---|
| js/ui/workspace.js:1253-1254 | `removeWindow` splices at `findIndex(...)`, which is -1 when the window has no slot, so `splice(-1, 1)` removes the last slot | slots holding only window 1, removing window 2: the result has no slot | a window without a slot leaves the slots alone | high, not executed | Workspace.RemoveSlotAsWrittenDropsOtherSlot | Workspace.RemoveSlot |
| js/ui/appDisplay.js:122-133 | `_findBestFolderName` counts occurrences of a category, not apps listing it | category lists [["Game", "Game"], ["Utility"]]: "Game" reaches the count 2 and is taken as common, though the second app does not list it | a category is common when every app lists it | medium, not executed | AppDisplay.CountingOccurrencesIsNotSharing | AppDisplay.CommonCategoriesInEveryApp |
| js/ui/iconGrid.js:596-601 | `addItem` compares `index == get_n_children()` after inserting the child, so the comparison never holds (the same comparison in `moveItem` at 627-629) | an item added at the end: it waits for a following item's animation that does not exist | the item added last uses its own delay | medium, not executed | IconGrid.FadeInDelayAsWrittenNeverLast | IconGrid.FadeInDelayLast |
| data/cldr2json/cldr2json.py:63-68 | `ISO_PATTERN.match` anchors only at the start, so a name whose tail `int()` rejects passes and `int()` then raises | the ISO name `C01x` | a name that is not entirely letter-and-digits is skipped | medium, not executed | Cldr2Json.PrefixMatchRaises | Cldr2Json.FullMatchFailsOnlyOnStrings |
| js/ui/dnd.js:91-102 | `_init` parses `manualMode` but never stores it, so `this._manualMode` is always undefined at 618 and 626 | a gesture created with `manualMode: true`, pressed and moved 10 px by a mouse with a 4 px threshold, starts dragging | a manual-mode gesture waits for `startDrag` | high, not executed | Dnd.ManualModeIgnoredAsWritten | Dnd.ManualModeHonoured |

=== FILE: alttab.dfy ===
/** The Alt+Tab switcher (js/ui/altTab.js): which windows it lists, how a
 *  window thumbnail is scaled, and how the selected application and
 *  window follow key presses and items that come and go. */
module AltTab {
  import opened Common

  // ---------------------------------------------------------------------
  // Window list and thumbnails
  // ---------------------------------------------------------------------

  /** `getWindows` after the `map`: an attached dialog stands for its parent. */
  function MapToParents(windows: seq<int>, attachedParent: map<int, int>): (r: seq<int>)
    ensures |r| == |windows|
    ensures forall i :: 0 <= i < |r| ==>
      r[i] == (if windows[i] in attachedParent then attachedParent[windows[i]] else windows[i])
  {
    seq(|windows|, i requires 0 <= i < |windows| =>
      if windows[i] in attachedParent then attachedParent[windows[i]] else windows[i])
  }

  /** `getWindows` after the `filter`: entry i stays iff it does not skip
   *  the taskbar and `a.indexOf(w) == i`, that is, it does not occur before. */
  function KeepFirstShown(mapped: seq<int>, skipTaskbar: set<int>): (r: seq<int>)
    ensures forall w :: w in r <==> w in mapped && w !in skipTaskbar
    ensures forall i, j :: 0 <= i < j < |r| ==> r[i] != r[j]
    ensures |r| <= |mapped|
  {
    if |mapped| == 0 then []
    else
      var k := |mapped| - 1;
      var before := KeepFirstShown(mapped[..k], skipTaskbar);
      assert forall w :: w in mapped <==> w in mapped[..k] || w == mapped[k];
      if mapped[k] in skipTaskbar || mapped[k] in mapped[..k] then before
      else before + [mapped[k]]
  }

  /** The switcher's windows: parents for attached dialogs, no skip-taskbar
   *  windows, each window once. */
  function GetWindows(windows: seq<int>, attachedParent: map<int, int>, skipTaskbar: set<int>): seq<int>
  {
    KeepFirstShown(MapToParents(windows, attachedParent), skipTaskbar)
  }

  /** The position of the first occurrence of `x`: `indexOf`. */
  function FirstIndex(s: seq<int>, x: int): (r: nat)
    requires x in s
    ensures r < |s| && s[r] == x && x !in s[..r]
  {
    var k := |s| - 1;
    if x in s[..k] then
      var r := FirstIndex(s[..k], x);
      assert s[..k][..r] == s[..r];
      r
    else
      k
  }

  /** The list keeps the tab-list order of first appearances: a window
   *  listed before another first occurs before it in the mapped list. */
  lemma {:induction false} KeepFirstShownOrder(mapped: seq<int>, skipTaskbar: set<int>, i: int, j: int)
    requires 0 <= i < j < |KeepFirstShown(mapped, skipTaskbar)|
    ensures var r := KeepFirstShown(mapped, skipTaskbar);
      r[i] in mapped && r[j] in mapped && FirstIndex(mapped, r[i]) < FirstIndex(mapped, r[j])
  {
    var k := |mapped| - 1;
    var r := KeepFirstShown(mapped, skipTaskbar);
    var before := KeepFirstShown(mapped[..k], skipTaskbar);
    assert r[i] == before[i] && before[i] in mapped[..k];
    if j < |before| {
      KeepFirstShownOrder(mapped[..k], skipTaskbar, i, j);
      assert r[j] == before[j] && before[j] in mapped[..k];
    } else {
      assert r[j] == mapped[k] && mapped[k] !in mapped[..k];
    }
  }

  /** `_createWindowClone`: the clone's scale. */
  function CloneScale(width: real, height: real, size: real): (r: real)
    requires width > 0.0 && height > 0.0
  {
    Min(1.0, Min(size / width, size / height))
  }

  /** A clone is never larger than `size` or than the window, and it is
   *  the largest such: either the window's own size or touching `size`. */
  lemma CloneScaleFits(width: real, height: real, size: real)
    requires width > 0.0 && height > 0.0
    ensures var s := CloneScale(width, height, size);
      s <= 1.0 && width * s <= size && height * s <= size &&
      (s == 1.0 || width * s == size || height * s == size)
  {
    var s := CloneScale(width, height, size);
    assert width * (size / width) == size;
    assert height * (size / height) == size;
    if s == size / width {
      assert width * s == size;
      assert s <= size / height;
      assert height * s <= height * (size / height);
    } else if s == size / height {
      assert height * s == size;
      assert s <= size / width;
      assert width * s <= width * (size / width);
    } else {
      assert s <= size / width && s <= size / height;
      assert width * s <= width * (size / width);
      assert height * s <= height * (size / height);
    }
  }

  // ---------------------------------------------------------------------
  // Selection
  // ---------------------------------------------------------------------

  /** `SwitcherPopup.mod` taken as the non-negative remainder. */
  function Mod(a: int, b: int): (r: int)
    requires b >= 1
    ensures 0 <= r < b
  {
    a % b
  }

  /** The key binding that opened the popup. */
  datatype Binding = SwitchGroup | SwitchGroupBackward | SwitchApplicationsBackward | OtherBinding

  /** The application switcher's selection; `windowCounts[i]` is the number
   *  of windows of application i (`cachedWindows.length`). */
  class AppSwitcher {
    var windowCounts: seq<nat>
    var selectedIndex: int
    var currentWindow: int
    var thumbnailsFocused: bool
    var hasThumbnails: bool
    var destroyed: bool
    /** `_thumbnailTimeoutId != 0`: the thumbnails are due to pop up after
     *  THUMBNAIL_POPUP_TIME. */
    var thumbnailTimeoutPending: bool

    constructor (windowCounts: seq<nat>)
      ensures this.windowCounts == windowCounts && selectedIndex == 0 && currentWindow == -1
      ensures !thumbnailsFocused && !hasThumbnails && !destroyed && !thumbnailTimeoutPending
    {
      this.windowCounts := windowCounts;
      selectedIndex, currentWindow := 0, -1;
      thumbnailsFocused, hasThumbnails, destroyed := false, false, false;
      thumbnailTimeoutPending := false;
    }

    /** `_select`: a given window is outlined (and its thumbnails shown);
     *  without one the current window is -1. A different application or
     *  no window drops the thumbnails first, and a pending popup is always
     *  cancelled; without a window, an application with several windows
     *  schedules a new one unless its focus is forced. */
    method Select(app: int, window: Option<int>, forceAppFocus: bool)
      modifies this
      ensures selectedIndex == app
      ensures currentWindow == (if window.Some? then window.value else -1)
      ensures thumbnailsFocused <==> window.Some? && !forceAppFocus
      ensures hasThumbnails <==> window.Some?
      ensures thumbnailTimeoutPending <==>
        window.None? && 0 <= app < |windowCounts| && windowCounts[app] > 1 && !forceAppFocus
      ensures windowCounts == old(windowCounts) && destroyed == old(destroyed)
    {
      if app != selectedIndex || window.None? {
        if hasThumbnails {
          hasThumbnails := false;
          thumbnailsFocused := false;
        }
      }
      if thumbnailTimeoutPending {
        thumbnailTimeoutPending := false;
      }
      thumbnailsFocused := window.Some? && !forceAppFocus;
      selectedIndex := app;
      currentWindow := if window.Some? && window.value != 0 then window.value else -1;
      if window.Some? {
        if !hasThumbnails {
          hasThumbnails := true;
        }
        currentWindow := window.value;
      } else if 0 <= selectedIndex < |windowCounts| && windowCounts[selectedIndex] > 1 && !forceAppFocus {
        thumbnailTimeoutPending := true;
      }
    }

    /** `_timeoutPopupThumbnails`: the popup fires, shows the thumbnails
     *  unfocused and is no longer pending. */
    method TimeoutPopupThumbnails()
      modifies this
      ensures hasThumbnails && !thumbnailsFocused && !thumbnailTimeoutPending
      ensures windowCounts == old(windowCounts) && selectedIndex == old(selectedIndex)
      ensures currentWindow == old(currentWindow) && destroyed == old(destroyed)
    {
      if !hasThumbnails {
        hasThumbnails := true;
      }
      thumbnailTimeoutPending := false;
      thumbnailsFocused := false;
    }

    /** `onWindowAdded(index)`: a window added to the selected application
     *  schedules the popup when none is pending and no thumbnails are shown. */
    method OnWindowAdded(index: int)
      modifies this
      ensures thumbnailTimeoutPending <==>
        old(thumbnailTimeoutPending) || (selectedIndex == index && !hasThumbnails)
      ensures windowCounts == old(windowCounts) && selectedIndex == old(selectedIndex)
      ensures currentWindow == old(currentWindow) && destroyed == old(destroyed)
      ensures hasThumbnails == old(hasThumbnails) && thumbnailsFocused == old(thumbnailsFocused)
    {
      if thumbnailTimeoutPending {
        return;
      }
      if selectedIndex == index && !hasThumbnails {
        thumbnailTimeoutPending := true;
      }
    }

    /** `_initialSelection`. */
    method InitialSelection(backward: bool, binding: Binding)
      requires |windowCounts| >= 1
      modifies this
      ensures windowCounts == old(windowCounts)
      ensures binding == SwitchGroup && !backward ==>
        selectedIndex == 0 && currentWindow == (if windowCounts[0] > 1 then 1 else 0)
      ensures (binding == SwitchGroup && backward) || binding == SwitchGroupBackward ==>
        selectedIndex == 0 && currentWindow == windowCounts[0] as int - 1
      ensures binding == SwitchApplicationsBackward ==>
        selectedIndex == |windowCounts| - 1 && currentWindow == -1
      ensures binding == OtherBinding ==>
        currentWindow == -1 &&
        selectedIndex == (if |windowCounts| == 1 then 0 else if backward then |windowCounts| - 1 else 1)
    {
      if binding == SwitchGroup {
        if backward {
          var last: int := windowCounts[0] as int - 1;
          Select(0, Some(last), false);
        } else if windowCounts[0] > 1 {
          Select(0, Some(1), false);
        } else {
          Select(0, Some(0), false);
        }
      } else if binding == SwitchGroupBackward {
        var last: int := windowCounts[0] as int - 1;
        Select(0, Some(last), false);
      } else if binding == SwitchApplicationsBackward {
        Select(|windowCounts| - 1, None, false);
      } else if |windowCounts| == 1 {
        Select(0, None, false);
      } else if backward {
        Select(|windowCounts| - 1, None, false);
      } else {
        Select(1, None, false);
      }
    }

    /** `_nextWindow`: the window after the current one, cyclically; an
     *  unset current window first becomes 0. */
    method NextWindow() returns (next: int)
      requires 0 <= selectedIndex < |windowCounts| && windowCounts[selectedIndex] >= 1
      modifies this
      ensures currentWindow == (if old(currentWindow) == -1 then 0 else old(currentWindow))
      ensures windowCounts == old(windowCounts) && selectedIndex == old(selectedIndex)
      ensures next == Mod(currentWindow + 1, windowCounts[selectedIndex])
    {
      if currentWindow == -1 {
        currentWindow := 0;
      }
      next := Mod(currentWindow + 1, windowCounts[selectedIndex]);
    }

    /** `_previousWindow`: the window before the current one, cyclically;
     *  an unset current window first becomes 1. */
    method PreviousWindow() returns (prev: int)
      requires 0 <= selectedIndex < |windowCounts| && windowCounts[selectedIndex] >= 1
      modifies this
      ensures currentWindow == (if old(currentWindow) == -1 then 1 else old(currentWindow))
      ensures windowCounts == old(windowCounts) && selectedIndex == old(selectedIndex)
      ensures prev == Mod(currentWindow - 1, windowCounts[selectedIndex])
    {
      if currentWindow == -1 {
        currentWindow := 1;
      }
      prev := Mod(currentWindow - 1, windowCounts[selectedIndex]);
    }

    /** Application `n` leaves the list, then `_itemRemovedHandler(n)` runs. */
    method ItemRemoved(n: int)
      requires 0 <= n < |windowCounts|
      modifies this
      ensures windowCounts == old(windowCounts)[..n] + old(windowCounts)[n + 1..]
      ensures |windowCounts| == 0 ==>
        destroyed && selectedIndex == old(selectedIndex) && currentWindow == old(currentWindow) &&
        hasThumbnails == old(hasThumbnails) && thumbnailsFocused == old(thumbnailsFocused) &&
        thumbnailTimeoutPending == old(thumbnailTimeoutPending)
      ensures |windowCounts| > 0 ==> destroyed == old(destroyed)
      // a later application: nothing to select
      ensures |windowCounts| > 0 && n > old(selectedIndex) ==>
        selectedIndex == old(selectedIndex) && currentWindow == old(currentWindow) &&
        hasThumbnails == old(hasThumbnails) && thumbnailsFocused == old(thumbnailsFocused) &&
        thumbnailTimeoutPending == old(thumbnailTimeoutPending)
      // an earlier application: the selection shifts down, keeping a thumbnail window
      ensures |windowCounts| > 0 && n < old(selectedIndex) ==> selectedIndex == old(selectedIndex) - 1
      ensures |windowCounts| > 0 && n < old(selectedIndex) && old(hasThumbnails) && old(currentWindow) >= 0 ==>
        currentWindow == old(currentWindow) && hasThumbnails && thumbnailsFocused && !thumbnailTimeoutPending
      ensures |windowCounts| > 0 && n < old(selectedIndex) && !(old(hasThumbnails) && old(currentWindow) >= 0) ==>
        currentWindow == -1 && !hasThumbnails && !thumbnailsFocused &&
        (thumbnailTimeoutPending <==> selectedIndex < |windowCounts| && windowCounts[selectedIndex] > 1)
      // the selected application: the same index, or the last when it was last
      ensures |windowCounts| > 0 && n == old(selectedIndex) ==>
        selectedIndex == (if n != |windowCounts| then n else |windowCounts| - 1) && currentWindow == -1 &&
        !hasThumbnails && !thumbnailsFocused && (thumbnailTimeoutPending <==> windowCounts[selectedIndex] > 1)
    {
      windowCounts := windowCounts[..n] + windowCounts[n + 1..];
      if |windowCounts| > 0 {
        var newIndex := |windowCounts| - 1;
        if n < selectedIndex {
          newIndex := selectedIndex - 1;
        } else if n == selectedIndex && n != |windowCounts| {
          newIndex := selectedIndex;
        } else if n > selectedIndex {
          return;
        }
        if hasThumbnails && currentWindow >= 0 && n != selectedIndex {
          hasThumbnails := false;
          Select(newIndex, Some(currentWindow), false);
        } else {
          Select(newIndex, None, false);
        }
      } else {
        destroyed := true;
      }
    }

    /** Window `n` of the selected application has gone, leaving it
     *  `windowCount` windows; the application's count is updated and then
     *  `_windowRemoved(n)` runs. The handler belongs to the selected
     *  application's thumbnails, so the count is the selected one's. */
    method WindowRemoved(n: int, windowCount: nat)
      requires 0 <= selectedIndex < |windowCounts| && windowCounts[selectedIndex] == windowCount + 1
      modifies this
      ensures windowCounts == old(windowCounts)[old(selectedIndex) := windowCount]
      ensures selectedIndex == old(selectedIndex) && destroyed == old(destroyed)
      // focused, one window left: the application alone is selected, no popup
      ensures old(thumbnailsFocused) && windowCount == 1 ==>
        currentWindow == -1 && !hasThumbnails && !thumbnailsFocused && !thumbnailTimeoutPending
      // focused, several left: the thumbnail selection follows the removal
      ensures old(thumbnailsFocused) && windowCount != 1 && n > old(currentWindow) ==>
        currentWindow == old(currentWindow) && hasThumbnails == old(hasThumbnails) && thumbnailsFocused &&
        thumbnailTimeoutPending == old(thumbnailTimeoutPending)
      ensures old(thumbnailsFocused) && windowCount != 1 && n <= old(currentWindow) ==>
        currentWindow == (if n < old(currentWindow) then old(currentWindow) - 1
                          else if n != windowCount then n else windowCount - 1) &&
        hasThumbnails && thumbnailsFocused && !thumbnailTimeoutPending
      // not focused: only a last remaining window drops the thumbnails
      ensures !old(thumbnailsFocused) ==>
        currentWindow == old(currentWindow) && !thumbnailsFocused &&
        thumbnailTimeoutPending == old(thumbnailTimeoutPending) &&
        hasThumbnails == (old(hasThumbnails) && windowCount != 1)
    {
      windowCounts := windowCounts[selectedIndex := windowCount];
      if thumbnailsFocused {
        if windowCount == 1 {
          Select(selectedIndex, None, false);
        } else {
          var newIndex := windowCount - 1;
          if n < currentWindow {
            newIndex := currentWindow - 1;
          } else if n == currentWindow && n != windowCount {
            newIndex := currentWindow;
          } else if n > currentWindow {
            return;
          }
          Select(selectedIndex, Some(newIndex), false);
        }
      } else if windowCount == 1 {
        hasThumbnails := false;
        thumbnailsFocused := false;
      }
    }
  }

  /** One removal keeps a selection that was in range in range. */
  lemma RemovalKeepsSelectionInRange(oldSelected: int, n: int, len: nat)
    requires len > 0 && 0 <= oldSelected <= len && 0 <= n <= len
    ensures var s := if n < oldSelected then oldSelected - 1
                     else if n == oldSelected then (if n != len then n else len - 1)
                     else oldSelected;
      0 <= s < len
  {
  }

  /** The next and previous windows are inverse steps. */
  lemma NextPreviousInverse(w: int, count: int)
    requires count >= 1 && 0 <= w < count
    ensures Mod(Mod(w + 1, count) - 1, count) == w
    ensures Mod(Mod(w - 1, count) + 1, count) == w
  {
    if w + 1 < count {
      DivModUnique(w + 1, count, 0, w + 1);
      DivModUnique(w, count, 0, w);
    } else {
      DivModUnique(w + 1, count, 1, 0);
      DivModUnique(-1, count, -1, count - 1);
      DivModUnique(w, count, 0, w);
    }
    if w > 0 {
      DivModUnique(w - 1, count, 0, w - 1);
      DivModUnique(w, count, 0, w);
    } else {
      DivModUnique(-1, count, -1, count - 1);
      DivModUnique(count, count, 1, 0);
    }
  }

  // ---------------------------------------------------------------------
  // Icon size
  // ---------------------------------------------------------------------

  /** `baseIconSizes` */
  const BaseIconSizes: seq<int> := [96, 64, 48, 32, 22]

  /** Whether a row of `nItems` icons of base size `BaseIconSizes[i]` fits. */
  predicate RowFits(i: int, nItems: int, iconSpacing: real, spacing: real, availWidth: real, scaleFactor: int)
    requires 0 <= i < |BaseIconSizes|
  {
    var height := (BaseIconSizes[i] * scaleFactor) as real + iconSpacing;
    height * nItems as real + spacing * (nItems - 1) as real <= availWidth
  }

  /** The first base size from index `i` on whose row fits, else the last. */
  function FirstFitting(i: nat, nItems: int, iconSpacing: real, spacing: real, availWidth: real, scaleFactor: int)
    : (r: nat)
    requires i < |BaseIconSizes|
    ensures i <= r < |BaseIconSizes|
    ensures r < |BaseIconSizes| - 1 ==> RowFits(r, nItems, iconSpacing, spacing, availWidth, scaleFactor)
    ensures forall j :: i <= j < r ==> !RowFits(j, nItems, iconSpacing, spacing, availWidth, scaleFactor)
    decreases |BaseIconSizes| - i
  {
    if i == |BaseIconSizes| - 1 || RowFits(i, nItems, iconSpacing, spacing, availWidth, scaleFactor) then i
    else FirstFitting(i + 1, nItems, iconSpacing, spacing, availWidth, scaleFactor)
  }

  /** The application list's icon size; 0 until it is chosen. */
  class AppList {
    var iconSize: int

    constructor ()
      ensures iconSize == 0
    {
      iconSize := 0;
    }

    /** `_setIconSize`: chosen once; 96 for a single item, otherwise the
     *  first base size whose row fits, ending at 22. */
    method SetIconSize(nItems: int, iconSpacing: real, spacing: real, availWidth: real, scaleFactor: int)
      modifies this
      ensures old(iconSize) != 0 ==> iconSize == old(iconSize)
      ensures old(iconSize) == 0 && nItems == 1 ==> iconSize == 96
      ensures old(iconSize) == 0 && nItems != 1 ==>
        iconSize == BaseIconSizes[FirstFitting(0, nItems, iconSpacing, spacing, availWidth, scaleFactor)]
    {
      if iconSize != 0 {
        return;
      }
      if nItems == 1 {
        iconSize := BaseIconSizes[0];
      } else {
        var i := 0;
        while i < |BaseIconSizes|
          invariant 0 <= i <= |BaseIconSizes|
          invariant forall j :: 0 <= j < i ==> !RowFits(j, nItems, iconSpacing, spacing, availWidth, scaleFactor)
          invariant i > 0 ==> iconSize == BaseIconSizes[i - 1]
        {
          iconSize := BaseIconSizes[i];
          if RowFits(i, nItems, iconSpacing, spacing, availWidth, scaleFactor) {
            FirstFittingIsFirst(i, nItems, iconSpacing, spacing, availWidth, scaleFactor);
            return;
          }
          i := i + 1;
        }
        FirstFittingIsFirst(|BaseIconSizes| - 1, nItems, iconSpacing, spacing, availWidth, scaleFactor);
      }
    }
  }

  /** `FirstFitting` from 0 is the index `i` when no earlier row fits and
   *  `i` fits or is the last one. */
  lemma FirstFittingIsFirst(i: nat, nItems: int, iconSpacing: real, spacing: real, availWidth: real, scaleFactor: int)
    requires i < |BaseIconSizes|
    requires forall j :: 0 <= j < i ==> !RowFits(j, nItems, iconSpacing, spacing, availWidth, scaleFactor)
    requires i == |BaseIconSizes| - 1 || RowFits(i, nItems, iconSpacing, spacing, availWidth, scaleFactor)
    ensures FirstFitting(0, nItems, iconSpacing, spacing, availWidth, scaleFactor) == i
  {
  }

  /** Larger icons are preferred: the chosen size is the largest base size
   *  whose row fits, when any fits. */
  lemma IconSizeIsLargestFitting(nItems: int, iconSpacing: real, spacing: real, availWidth: real, scaleFactor: int, j: int)
    requires 0 <= j < |BaseIconSizes| && RowFits(j, nItems, iconSpacing, spacing, availWidth, scaleFactor)
    ensures BaseIconSizes[FirstFitting(0, nItems, iconSpacing, spacing, availWidth, scaleFactor)] >= BaseIconSizes[j]
  {
    var r := FirstFitting(0, nItems, iconSpacing, spacing, availWidth, scaleFactor);
    assert r <= j;
  }
}

=== FILE: appdisplay.dfy ===
/** The app grid's bookkeeping (js/ui/appDisplay.js): desktop-file
 *  categories, naming a new folder after the categories its apps share,
 *  mapping items to (page, position), ordering items, choosing the drop
 *  target while dragging, and the folder's saved app lists. */
module AppDisplay {
  import opened Common

  // ---------------------------------------------------------------------
  // Categories
  // ---------------------------------------------------------------------

  /** `_getCategories`: nothing for a missing or empty Categories key,
   *  otherwise the ';'-separated fields, which join back to the key. */
  function GetCategories(categories: Option<string>): (r: seq<string>)
    ensures r == [] <==> categories == None || categories.value == ""
    ensures r != [] ==> Join(r, ';') == categories.value
    ensures forall i :: 0 <= i < |r| ==> ';' !in r[i]
  {
    if categories.None? || categories.value == "" then []
    else JoinSplit(categories.value, ';'); Split(categories.value, ';')
  }

  /** `_listsIntersect`: some element of `a` is in `b`. */
  method ListsIntersect(a: seq<string>, b: seq<string>) returns (r: bool)
    ensures r <==> exists i :: 0 <= i < |a| && a[i] in b
  {
    for i := 0 to |a|
      invariant forall j :: 0 <= j < i ==> a[j] !in b
    {
      if a[i] in b {
        return true;
      }
    }
    return false;
  }

  // ---------------------------------------------------------------------
  // Naming a folder after shared categories
  // ---------------------------------------------------------------------

  /** Occurrences of `x` in `xs`. */
  function Count(x: string, xs: seq<string>): nat
  {
    if |xs| == 0 then 0
    else Count(x, xs[..|xs| - 1]) + (if xs[|xs| - 1] == x then 1 else 0)
  }

  lemma {:induction false} CountConcat(x: string, a: seq<string>, b: seq<string>)
    ensures Count(x, a + b) == Count(x, a) + Count(x, b)
  {
    if |b| > 0 {
      var m := |b| - 1;
      assert (a + b)[..|a + b| - 1] == a + b[..m];
      assert (a + b)[|a + b| - 1] == b[m];
      CountConcat(x, a, b[..m]);
    } else {
      assert a + b == a;
    }
  }

  lemma {:induction false} CountPositive(x: string, xs: seq<string>)
    ensures Count(x, xs) > 0 <==> x in xs
  {
    if |xs| > 0 {
      var m := |xs| - 1;
      CountPositive(x, xs[..m]);
      assert xs == xs[..m] + [xs[m]];
    }
  }

  function Flatten(lists: seq<seq<string>>): seq<string>
  {
    if |lists| == 0 then [] else Flatten(lists[..|lists| - 1]) + lists[|lists| - 1]
  }

  /** The `reduce` in `_findBestFolderName` over the categories in `flat`,
   *  all apps' lists one after another: a non-empty category is collected
   *  at the moment its counter reaches `n`. */
  function CommonFrom(flat: seq<string>, n: int): seq<string>
  {
    if |flat| == 0 then []
    else
      var k := |flat| - 1;
      CommonFrom(flat[..k], n) + (if |flat[k]| > 0 && Count(flat[k], flat) == n then [flat[k]] else [])
  }

  /** A category is collected iff it is non-empty and occurs at least `n`
   *  times; none is collected twice. */
  lemma {:induction false} CommonFromMembers(flat: seq<string>, n: int)
    requires n >= 1
    ensures forall x :: x in CommonFrom(flat, n) <==> |x| > 0 && Count(x, flat) >= n
    ensures forall i, j :: 0 <= i < j < |CommonFrom(flat, n)| ==> CommonFrom(flat, n)[i] != CommonFrom(flat, n)[j]
  {
    if |flat| > 0 {
      var k := |flat| - 1;
      CommonFromMembers(flat[..k], n);
      assert flat[..k + 1] == flat;
      forall x
        ensures Count(x, flat) == Count(x, flat[..k]) + (if flat[k] == x then 1 else 0)
      {
      }
    }
  }

  /** Each value once, first occurrences kept in order. */
  function Dedup(s: seq<string>): (r: seq<string>)
    ensures forall x :: x in r <==> x in s
  {
    if |s| == 0 then []
    else
      var k := |s| - 1;
      if s[k] in s[..k] then Dedup(s[..k]) else Dedup(s[..k]) + [s[k]]
  }

  lemma {:induction false} DedupCount(x: string, s: seq<string>)
    ensures Count(x, Dedup(s)) == if x in s then 1 else 0
  {
    if |s| > 0 {
      var k := |s| - 1;
      DedupCount(x, s[..k]);
      assert s == s[..k] + [s[k]];
      assert x in s <==> x in s[..k] || x == s[k];
      if s[k] !in s[..k] {
        var d := Dedup(s[..k]);
        assert Dedup(s) == d + [s[k]];
        assert (d + [s[k]])[..|d|] == d;
        assert Count(x, Dedup(s)) == Count(x, d) + (if s[k] == x then 1 else 0);
      }
    }
  }

  function DedupAll(lists: seq<seq<string>>): (r: seq<seq<string>>)
    ensures |r| == |lists|
    ensures forall i :: 0 <= i < |r| ==> r[i] == Dedup(lists[i])
  {
    seq(|lists|, i requires 0 <= i < |lists| => Dedup(lists[i]))
  }

  /** The number of lists holding `x`. */
  function ListsWith(x: string, lists: seq<seq<string>>): nat
  {
    if |lists| == 0 then 0
    else ListsWith(x, lists[..|lists| - 1]) + (if x in lists[|lists| - 1] then 1 else 0)
  }

  lemma {:induction false} ListsWithAll(x: string, lists: seq<seq<string>>)
    ensures ListsWith(x, lists) <= |lists|
    ensures ListsWith(x, lists) == |lists| <==> forall i :: 0 <= i < |lists| ==> x in lists[i]
  {
    if |lists| > 0 {
      var k := |lists| - 1;
      ListsWithAll(x, lists[..k]);
      assert forall i :: 0 <= i < k ==> lists[..k][i] == lists[i];
    }
  }

  lemma {:induction false} CountFlattenDedup(x: string, lists: seq<seq<string>>)
    ensures Count(x, Flatten(DedupAll(lists))) == ListsWith(x, lists)
  {
    if |lists| > 0 {
      var k := |lists| - 1;
      CountFlattenDedup(x, lists[..k]);
      assert DedupAll(lists)[..k] == DedupAll(lists[..k]);
      CountConcat(x, Flatten(DedupAll(lists[..k])), Dedup(lists[k]));
      DedupCount(x, lists[k]);
    }
  }

  /** The categories shared by every app, each app's list taken once per
   *  category (see Findings). */
  function CommonCategories(lists: seq<seq<string>>): seq<string>
  {
    CommonFrom(Flatten(DedupAll(lists)), |lists|)
  }

  /** A category is shared iff it is non-empty and every app lists it. */
  lemma CommonCategoriesInEveryApp(lists: seq<seq<string>>, x: string)
    requires |lists| >= 1
    ensures x in CommonCategories(lists) <==> |x| > 0 && forall i :: 0 <= i < |lists| ==> x in lists[i]
  {
    CommonFromMembers(Flatten(DedupAll(lists)), |lists|);
    CountFlattenDedup(x, lists);
    ListsWithAll(x, lists);
  }

  /** As written, the counter counts occurrences, not apps: a category
   *  listed twice by one of two apps is taken as shared by both. */
  lemma CountingOccurrencesIsNotSharing()
    ensures var lists := [["Game", "Game"], ["Utility"]];
      "Game" in CommonFrom(Flatten(lists), |lists|) && "Game" !in lists[1]
  {
    var lists := [["Game", "Game"], ["Utility"]];
    assert lists[..1] == [["Game", "Game"]];
    assert Flatten(lists) == ["Game", "Game", "Utility"];
    var flat := ["Game", "Game", "Utility"];
    assert flat[..2][..1] == ["Game"] && ["Game"][..0] == [];
    assert Count("Game", ["Game"]) == 1;
    assert flat[..2] == ["Game", "Game"];
    assert Count("Game", flat[..2]) == 2;
    assert Count("Game", flat) == 2;
    CommonFromMembers(flat, 2);
  }

  /** The first shared category that has a translated `.directory` name. */
  function FirstTranslated(common: seq<string>, translated: map<string, string>): (r: Option<string>)
    ensures r.None? <==> forall i :: 0 <= i < |common| ==> common[i] + ".directory" !in translated
    ensures r.Some? ==>
      exists i :: 0 <= i < |common| && common[i] + ".directory" in translated &&
        r.value == translated[common[i] + ".directory"] &&
        forall j :: 0 <= j < i ==> common[j] + ".directory" !in translated
  {
    if |common| == 0 then None
    else if common[0] + ".directory" in translated then Some(translated[common[0] + ".directory"])
    else
      var rest := FirstTranslated(common[1..], translated);
      assert forall i :: 1 <= i < |common| ==> common[i] == common[1..][i - 1];
      rest
  }

  /** The categories of each app. */
  function CategoryLists(apps: seq<Option<string>>): (r: seq<seq<string>>)
    ensures |r| == |apps| && forall i :: 0 <= i < |r| ==> r[i] == GetCategories(apps[i])
  {
    seq(|apps|, i requires 0 <= i < |apps| => GetCategories(apps[i]))
  }

  /** `categoryCounter` holds the number of times each category seen so far occurred. */
  ghost predicate CounterMatches(counter: map<string, int>, seen: seq<string>)
  {
    forall c :: (c in counter <==> Count(c, seen) > 0) && (c in counter ==> counter[c] == Count(c, seen))
  }

  lemma CounterStep(counter: map<string, int>, seen: seq<string>, c: string)
    requires CounterMatches(counter, seen)
    ensures CounterMatches(counter[c := (if c in counter then counter[c] else 0) + 1], seen + [c])
    ensures Count(c, seen + [c]) == (if c in counter then counter[c] else 0) + 1
  {
    assert (seen + [c])[..|seen|] == seen;
  }

  /** One app's categories through the counter: `counter` counts what has
   *  been seen, and a category reaching `n` is collected. */
  method CountCategories(counter: map<string, int>, common: seq<string>, seen: seq<string>,
                         cats: seq<string>, n: int)
    returns (counter': map<string, int>, common': seq<string>)
    requires CounterMatches(counter, seen)
    requires common == CommonFrom(seen, n)
    ensures CounterMatches(counter', seen + cats)
    ensures common' == CommonFrom(seen + cats, n)
  {
    counter', common' := counter, common;
    assert seen + cats[..0] == seen;
    for j := 0 to |cats|
      invariant CounterMatches(counter', seen + cats[..j])
      invariant common' == CommonFrom(seen + cats[..j], n)
    {
      var c := cats[j];
      var done := seen + cats[..j];
      assert seen + cats[..j + 1] == done + [c];
      assert (done + [c])[..|done|] == done;
      CounterStep(counter', done, c);
      var count := if c in counter' then counter'[c] else 0;
      counter' := counter'[c := count + 1];
      if |c| > 0 && count + 1 == n {
        common' := common' + [c];
      }
    }
    assert cats[..|cats|] == cats;
  }

  /** The `reduce` of `_findBestFolderName` over the apps' category lists. */
  method CollectCommon(lists: seq<seq<string>>, n: int) returns (common: seq<string>)
    ensures common == CommonFrom(Flatten(lists), n)
  {
    var counter: map<string, int> := map[];
    common := [];
    for i := 0 to |lists|
      invariant CounterMatches(counter, Flatten(lists[..i]))
      invariant common == CommonFrom(Flatten(lists[..i]), n)
    {
      assert lists[..i + 1][..i] == lists[..i];
      counter, common := CountCategories(counter, common, Flatten(lists[..i]), lists[i], n);
    }
    assert lists[..|lists|] == lists;
  }

  /** `_findBestFolderName`: the translated name of the first category all
   *  the apps share, or none. `translated` stands for
   *  `Shell.util_get_translated_folder_name`. */
  method FindBestFolderName(apps: seq<Option<string>>, translated: map<string, string>)
    returns (name: Option<string>)
    ensures name == FirstTranslated(CommonCategories(CategoryLists(apps)), translated)
  {
    var common := CollectCommon(DedupAll(CategoryLists(apps)), |apps|);
    assert common[0..] == common;
    for i := 0 to |common|
      invariant FirstTranslated(common[i..], translated) == FirstTranslated(common, translated)
    {
      var directory := common[i] + ".directory";
      if directory in translated {
        return Some(translated[directory]);
      }
      assert common[i..][1..] == common[i + 1..];
    }
    return None;
  }

  /** The folder name found is the translation of a category every app lists. */
  lemma FolderNameIsShared(apps: seq<Option<string>>, translated: map<string, string>, name: string)
    requires |apps| >= 1
    requires FirstTranslated(CommonCategories(CategoryLists(apps)), translated) == Some(name)
    ensures exists x ::
      x + ".directory" in translated && name == translated[x + ".directory"] &&
      |x| > 0 && forall i :: 0 <= i < |apps| ==> x in GetCategories(apps[i])
  {
    var lists := CategoryLists(apps);
    var common := CommonCategories(lists);
    var i :| 0 <= i < |common| && common[i] + ".directory" in translated &&
      name == translated[common[i] + ".directory"];
    CommonCategoriesInEveryApp(lists, common[i]);
  }

  // ---------------------------------------------------------------------
  // Item positions
  // ---------------------------------------------------------------------

  /** `Array.prototype.indexOf`. */
  function IndexOf(xs: seq<string>, x: string): (r: int)
    ensures -1 <= r < |xs|
    ensures r == -1 <==> x !in xs
    ensures r >= 0 ==> xs[r] == x && x !in xs[..r]
  {
    if |xs| == 0 then -1
    else if xs[0] == x then 0
    else
      var r := IndexOf(xs[1..], x);
      assert forall i :: 1 <= i < |xs| ==> xs[i] == xs[1..][i - 1];
      if r == -1 then -1
      else
        assert xs[..r + 1] == [xs[0]] + xs[1..][..r];
        r + 1
  }

  /** `BaseAppView._getItemPosition`: the item's index (the last index when
   *  the item is absent) as a page and a position within the page. */
  function ItemPosition(ordered: seq<string>, id: string, itemsPerPage: int): (r: (int, int))
    requires itemsPerPage >= 1
  {
    var index := if IndexOf(ordered, id) == -1 then |ordered| - 1 else IndexOf(ordered, id);
    (FloorDiv(index, itemsPerPage), JsRem(index, itemsPerPage))
  }

  /** Page and position locate the item again; an absent item gets the
   *  last slot, and with no items at all the page is -1. */
  lemma ItemPositionLocates(ordered: seq<string>, id: string, itemsPerPage: int)
    requires itemsPerPage >= 1
    ensures var r := ItemPosition(ordered, id, itemsPerPage);
      (|ordered| > 0 ==> 0 <= r.1 < itemsPerPage && 0 <= r.0 * itemsPerPage + r.1 < |ordered|) &&
      (id in ordered ==> ordered[r.0 * itemsPerPage + r.1] == id) &&
      (id !in ordered && |ordered| > 0 ==> r.0 * itemsPerPage + r.1 == |ordered| - 1) &&
      (|ordered| == 0 ==> r.0 == -1)
  {
    var index := if IndexOf(ordered, id) == -1 then |ordered| - 1 else IndexOf(ordered, id);
    if index >= 0 {
      assert index == (index / itemsPerPage) * itemsPerPage + index % itemsPerPage;
    }
  }

  /** `FolderView._getItemPosition`: (-1, -1) for an app not in the folder. */
  function FolderItemPosition(apps: seq<string>, app: string, itemsPerPage: int): (r: (int, int))
    requires itemsPerPage >= 1
    ensures app !in apps <==> r == (-1, -1)
    ensures app in apps ==>
      0 <= r.1 < itemsPerPage && 0 <= r.0 * itemsPerPage + r.1 < |apps| &&
      apps[r.0 * itemsPerPage + r.1] == app
  {
    var index := IndexOf(apps, app);
    if index == -1 then (-1, -1)
    else
      assert index == (index / itemsPerPage) * itemsPerPage + index % itemsPerPage;
      (FloorDiv(index, itemsPerPage), index % itemsPerPage)
  }

  /** `PageManager.getAppPosition`: the first page holding the app and the
   *  position stored there, or (-1, -1). */
  method GetAppPosition(pages: seq<map<string, int>>, appId: string) returns (page: int, position: int)
    ensures page == -1 <==> forall p :: 0 <= p < |pages| ==> appId !in pages[p]
    ensures page == -1 ==> position == -1
    ensures page != -1 ==>
      0 <= page < |pages| && appId in pages[page] && position == pages[page][appId] &&
      forall p :: 0 <= p < page ==> appId !in pages[p]
  {
    position, page := -1, -1;
    for pageIndex := 0 to |pages|
      invariant forall p :: 0 <= p < pageIndex ==> appId !in pages[p]
    {
      if appId in pages[pageIndex] {
        page := pageIndex;
        position := pages[pageIndex][appId];
        return;
      }
    }
  }

  // ---------------------------------------------------------------------
  // Ordering items
  // ---------------------------------------------------------------------

  /** `localeCompare`, modelled as code-point lexicographic order. */
  function StrCompare(a: string, b: string): (r: int)
    ensures -1 <= r <= 1
  {
    if |a| == 0 && |b| == 0 then 0
    else if |a| == 0 then -1
    else if |b| == 0 then 1
    else if a[0] < b[0] then -1
    else if a[0] > b[0] then 1
    else StrCompare(a[1..], b[1..])
  }

  lemma {:induction false} StrCompareAntisymmetric(a: string, b: string)
    ensures StrCompare(a, b) == -StrCompare(b, a)
    ensures StrCompare(a, b) == 0 <==> a == b
  {
    if |a| > 0 && |b| > 0 && a[0] == b[0] {
      StrCompareAntisymmetric(a[1..], b[1..]);
      if a[1..] == b[1..] {
        assert a == [a[0]] + a[1..] && b == [b[0]] + b[1..];
      }
    }
  }

  lemma {:induction false} StrCompareTransitive(a: string, b: string, c: string)
    requires StrCompare(a, b) < 0 && StrCompare(b, c) < 0
    ensures StrCompare(a, c) < 0
  {
    if |a| > 0 && |b| > 0 && |c| > 0 && a[0] == b[0] && b[0] == c[0] {
      StrCompareTransitive(a[1..], b[1..], c[1..]);
    }
  }

  /** An app icon as `AppDisplay._compareItems` sees it: the page and
   *  position `getAppPosition` reports, and its name. */
  datatype Item = Item(page: int, position: int, name: string)

  /** `AppDisplay._compareItems`. */
  function CompareItems(a: Item, b: Item): int
  {
    if a.page == -1 && b.page == -1 then StrCompare(a.name, b.name)
    else if a.page == -1 then 1
    else if b.page == -1 then -1
    else if a.page != b.page then a.page - b.page
    else a.position - b.position
  }

  /** Placed items come first, in (page, position) order; unplaced ones
   *  follow by name. */
  lemma CompareItemsOrder(a: Item, b: Item)
    ensures a.page != -1 && b.page == -1 ==> CompareItems(a, b) < 0
    ensures a.page != -1 && b.page != -1 ==>
      (CompareItems(a, b) < 0 <==> a.page < b.page || (a.page == b.page && a.position < b.position))
    ensures a.page == -1 && b.page == -1 ==> (CompareItems(a, b) == 0 <==> a.name == b.name)
  {
    StrCompareAntisymmetric(a.name, b.name);
  }

  /** The comparator is antisymmetric and its strict part is transitive,
   *  so sorting by it is well defined. */
  lemma CompareItemsAntisymmetric(a: Item, b: Item)
    ensures CompareItems(a, b) < 0 <==> CompareItems(b, a) > 0
    ensures CompareItems(a, b) == 0 <==> CompareItems(b, a) == 0
  {
    StrCompareAntisymmetric(a.name, b.name);
  }

  lemma CompareItemsTransitive(a: Item, b: Item, c: Item)
    requires CompareItems(a, b) < 0 && CompareItems(b, c) < 0
    ensures CompareItems(a, c) < 0
  {
    if a.page == -1 && b.page == -1 && c.page == -1 {
      StrCompareTransitive(a.name, b.name, c.name);
    }
  }

  /** `FolderView._compareItems` on indices into the folder's app list. */
  function CompareFolderItems(aIndex: int, aName: string, bIndex: int, bName: string): (r: int)
    requires aIndex >= -1 && bIndex >= -1
  {
    if aIndex == -1 && bIndex == -1 then StrCompare(aName, bName)
    else if aIndex == -1 then 1
    else if bIndex == -1 then -1
    else aIndex - bIndex
  }

  lemma CompareFolderItemsOrder(aIndex: int, aName: string, bIndex: int, bName: string)
    requires aIndex >= -1 && bIndex >= -1
    ensures aIndex >= 0 && bIndex == -1 ==> CompareFolderItems(aIndex, aName, bIndex, bName) < 0
    ensures aIndex >= 0 && bIndex >= 0 ==> (CompareFolderItems(aIndex, aName, bIndex, bName) < 0 <==> aIndex < bIndex)
    ensures CompareFolderItems(aIndex, aName, bIndex, bName) == -CompareFolderItems(bIndex, bName, aIndex, aName)
  {
    StrCompareAntisymmetric(aName, bName);
  }

  // ---------------------------------------------------------------------
  // Paging and dropping
  // ---------------------------------------------------------------------

  /** The part of a view that tracks the page shown. */
  class PagedView {
    var currentPage: int
    var nPages: int

    constructor (nPages: int)
      ensures this.nPages == nPages && currentPage == 0
    {
      this.nPages := nPages;
      currentPage := 0;
    }

    /** `goToPage`: clamp to the pages there are; nothing happens when the
     *  view is already there. */
    method GoToPage(pageNumber: int) returns (moved: bool)
      modifies this
      ensures nPages == old(nPages)
      ensures moved <==> old(currentPage) != ClampPage(pageNumber, nPages)
      ensures currentPage == ClampPage(pageNumber, nPages)
    {
      var target := ClampPage(pageNumber, nPages);
      if currentPage == target {
        return false;
      }
      currentPage := target;
      moved := true;
    }
  }

  /** `Math.clamp(pageNumber, 0, nPages - 1)` on integers. */
  function ClampPage(pageNumber: int, nPages: int): (r: int)
    ensures nPages >= 1 ==> 0 <= r < nPages
    ensures 0 <= pageNumber < nPages ==> r == pageNumber
    ensures nPages >= 1 && pageNumber < 0 ==> r == 0
    ensures pageNumber >= nPages ==> r == nPages - 1
  {
    var low := if pageNumber >= 0 then pageNumber else 0;
    if low <= nPages - 1 then low else nPages - 1
  }

  /** Going to the page just reached again does nothing. */
  lemma ClampPageIdempotent(pageNumber: int, nPages: int)
    requires nPages >= 1
    ensures ClampPage(ClampPage(pageNumber, nPages), nPages) == ClampPage(pageNumber, nPages)
  {
  }

  /** `IconGrid.DragLocation` (defined in a file that is not part of this model). */
  datatype DragLocation = Invalid | StartEdge | OnIcon | EndEdge | EmptySpace

  datatype Reflow = NoReflow | Left | Right

  /** The direction the other icons move when the dragged one lands. */
  function ReflowDirection(sourcePage: int, sourcePosition: int, targetPage: int, targetPosition: int,
                           allowIncompletePages: bool): (r: Reflow)
    ensures r == Left <==>
      (sourcePage == targetPage && sourcePosition < targetPosition) ||
      (!allowIncompletePages && sourcePage < targetPage)
    ensures r == NoReflow <==> r != Left && sourcePosition == targetPosition
  {
    var r := if sourcePosition == targetPosition then NoReflow else Right;
    var r := if sourcePage == targetPage && sourcePosition < targetPosition then Left else r;
    if !allowIncompletePages && sourcePage < targetPage then Left else r
  }

  /** `_getDropTarget`: hovering over an icon's edge that the reflow would
   *  not push away moves the target to the neighbour it does push, unless
   *  the target sits in the first (leftwards) or last (rightwards) column. */
  function DropTarget(sourcePage: int, sourcePosition: int, targetPage: int, targetPosition: int,
                      location: DragLocation, allowIncompletePages: bool, nColumns: int)
    : (r: (int, int, DragLocation))
    requires nColumns >= 1
    ensures r.0 == targetPage
  {
    var reflow := ReflowDirection(sourcePage, sourcePosition, targetPage, targetPosition, allowIncompletePages);
    var column := JsRem(targetPosition, nColumns);
    if location == StartEdge && reflow == Left && column > 0 then (targetPage, targetPosition - 1, EndEdge)
    else if location == EndEdge && reflow == Right && column < nColumns - 1 then (targetPage, targetPosition + 1, StartEdge)
    else (targetPage, targetPosition, location)
  }

  /** The adjusted target is the neighbour in the reflow direction, in the
   *  same row, and otherwise the hovered icon itself. */
  lemma DropTargetStaysInRow(sourcePage: int, sourcePosition: int, targetPage: int, targetPosition: int,
                             location: DragLocation, allowIncompletePages: bool, nColumns: int)
    requires nColumns >= 1 && targetPosition >= 0
    ensures var r := DropTarget(sourcePage, sourcePosition, targetPage, targetPosition,
                                location, allowIncompletePages, nColumns);
      var reflow := ReflowDirection(sourcePage, sourcePosition, targetPage, targetPosition, allowIncompletePages);
      r.1 >= 0 && r.1 / nColumns == targetPosition / nColumns &&
      (r.1 == targetPosition - 1 ==> reflow == Left && location == StartEdge && r.2 == EndEdge) &&
      (r.1 == targetPosition + 1 ==> reflow == Right && location == EndEdge && r.2 == StartEdge) &&
      (r.1 == targetPosition ==> r.2 == location) &&
      targetPosition - 1 <= r.1 <= targetPosition + 1
  {
    RowNeighbours(targetPosition, nColumns);
    var reflow := ReflowDirection(sourcePage, sourcePosition, targetPage, targetPosition, allowIncompletePages);
    var column := JsRem(targetPosition, nColumns);
    assert column == targetPosition % nColumns;
  }

  /** The icons just before and after a position share its row, unless it
   *  sits in the first or the last column. */
  lemma RowNeighbours(p: int, n: int)
    requires n >= 1 && p >= 0
    ensures p % n > 0 ==> p - 1 >= 0 && (p - 1) / n == p / n
    ensures p % n < n - 1 ==> (p + 1) / n == p / n
  {
    var q := p / n;
    var c := p % n;
    assert p == q * n + c;
    if c > 0 {
      DivModUnique(p - 1, n, q, c - 1);
    }
    if c < n - 1 {
      DivModUnique(p + 1, n, q, c + 1);
    }
  }

  // ---------------------------------------------------------------------
  // Ordered items and the saved folder layout
  // ---------------------------------------------------------------------

  /** `xs.filter(x => !ys.includes(x))`. */
  function Without(xs: seq<string>, ys: seq<string>): (r: seq<string>)
    ensures forall x :: x in r <==> x in xs && x !in ys
    ensures |r| <= |xs|
  {
    if |xs| == 0 then []
    else
      var k := |xs| - 1;
      Without(xs[..k], ys) + (if xs[k] in ys then [] else [xs[k]])
  }

  /** A view's items: `_orderedItems` (by id) and the ids in `_items`. */
  class AppView {
    var ordered: seq<string>
    var items: set<string>

    /** Every item appears exactly once in the order. */
    ghost predicate Valid()
      reads this
    {
      (forall x :: x in ordered <==> x in items) &&
      (forall i, j :: 0 <= i < j < |ordered| ==> ordered[i] != ordered[j])
    }

    constructor ()
      ensures Valid() && ordered == [] && items == {}
    {
      ordered, items := [], {};
    }

    /** `_addItem`: insert at the item's linear grid position (splice
     *  clamps a start past the end to the end). */
    method AddItem(id: string, linearPosition: nat)
      requires Valid() && id !in items
      modifies this
      ensures var p := if linearPosition <= |old(ordered)| then linearPosition else |old(ordered)|;
        ordered == old(ordered)[..p] + [id] + old(ordered)[p..]
      ensures items == old(items) + {id}
      ensures Valid()
    {
      var p := if linearPosition <= |ordered| then linearPosition else |ordered|;
      ghost var before := ordered;
      ordered := ordered[..p] + [id] + ordered[p..];
      items := items + {id};
      assert before == before[..p] + before[p..];
      forall i, j | 0 <= i < j < |ordered|
        ensures ordered[i] != ordered[j]
      {
        if i < p && j > p {
          assert ordered[j] == before[j - 1];
        } else if i > p {
          assert ordered[i] == before[i - 1] && ordered[j] == before[j - 1];
        }
      }
    }

    /** `_removeItem`: splice the item out at its index. For an item not
     *  in the order, `indexOf` gives -1 and `splice(-1, 1)` drops the last
     *  item instead. */
    method RemoveItem(id: string)
      requires Valid()
      modifies this
      ensures id in old(items) ==>
        var i := IndexOf(old(ordered), id);
        ordered == old(ordered)[..i] + old(ordered)[i + 1..]
      ensures id !in old(items) && |old(ordered)| > 0 ==> ordered == old(ordered)[..|old(ordered)| - 1]
      ensures id !in old(items) && |old(ordered)| == 0 ==> ordered == []
      ensures items == old(items) - {id}
      ensures id in old(items) ==> Valid() && id !in ordered
    {
      var i := IndexOf(ordered, id);
      ghost var before := ordered;
      if i == -1 {
        if |ordered| > 0 {
          ordered := ordered[..|ordered| - 1];
        }
      } else {
        ordered := ordered[..i] + ordered[i + 1..];
        RemoveAtKeepsDistinct(before, i, ordered);
      }
      items := items - {id};
    }
  }

  /** Splicing one entry out of a list without repeats leaves the others,
   *  still without repeats. */
  lemma RemoveAtKeepsDistinct(xs: seq<string>, i: int, ys: seq<string>)
    requires 0 <= i < |xs| && ys == xs[..i] + xs[i + 1..]
    requires forall a, b :: 0 <= a < b < |xs| ==> xs[a] != xs[b]
    ensures forall x :: x in ys <==> x in xs && x != xs[i]
    ensures forall a, b :: 0 <= a < b < |ys| ==> ys[a] != ys[b]
  {
    assert xs == xs[..i] + [xs[i]] + xs[i + 1..];
    forall x | x in ys
      ensures x != xs[i]
    {
      var k :| 0 <= k < |ys| && ys[k] == x;
      if k >= i {
        assert ys[k] == xs[k + 1];
      }
    }
    forall a, b | 0 <= a < b < |ys|
      ensures ys[a] != ys[b]
    {
      var a' := if a < i then a else a + 1;
      var b' := if b < i then b else b + 1;
      assert ys[a] == xs[a'] && ys[b] == xs[b'];
    }
  }

  /** The folder's GSettings keys. */
  class FolderSettings {
    var apps: seq<string>
    var excludedApps: seq<string>
    const categories: seq<string>

    constructor (apps: seq<string>, excludedApps: seq<string>, categories: seq<string>)
      ensures this.apps == apps && this.excludedApps == excludedApps && this.categories == categories
    {
      this.apps, this.excludedApps, this.categories := apps, excludedApps, categories;
    }

    /** `FolderView._saveCurrentLayout`: 'apps' becomes the items in order;
     *  a category folder also stops excluding apps that were added and
     *  excludes those that were removed. */
    method SaveCurrentLayout(newFolderApps: seq<string>)
      modifies this
      ensures apps == newFolderApps
      ensures |categories| > 0 ==>
        excludedApps == Without(old(excludedApps), Without(newFolderApps, old(apps))) +
                        Without(old(apps), newFolderApps)
      ensures |categories| == 0 ==> excludedApps == old(excludedApps)
    {
      if |categories| > 0 {
        var oldFolderApps := apps;
        var removedApps := Without(oldFolderApps, newFolderApps);
        var addedApps := Without(newFolderApps, oldFolderApps);
        excludedApps := Without(excludedApps, addedApps) + removedApps;
      }
      apps := newFolderApps;
    }
  }

  /** After saving a category folder, an app is excluded iff it was
   *  removed from the folder, or it was excluded before and not added. */
  lemma SavedExclusions(oldApps: seq<string>, oldExcluded: seq<string>, newApps: seq<string>, x: string)
    ensures var excluded := Without(oldExcluded, Without(newApps, oldApps)) + Without(oldApps, newApps);
      x in excluded <==>
        (x in oldApps && x !in newApps) || (x in oldExcluded && !(x in newApps && x !in oldApps))
    ensures x in newApps && x !in oldApps ==>
      x !in Without(oldExcluded, Without(newApps, oldApps)) + Without(oldApps, newApps)
  {
  }
}

=== FILE: background.dfy ===
/**
 * The desktop background caches (js/ui/background.js): the process-wide
 * cache of background sources, counted by their users, and of file
 * monitors; each source's per-monitor backgrounds; and each background's
 * load and change bookkeeping. Idle callbacks are explicit events, and the
 * idles scheduled, run and removed are counted so that the coalescing can
 * be stated.
 */
module Backgrounds {
  import opened Common

  /** The events a file monitor reports. */
  datatype FileMonitorEvent =
    | Changed | ChangesDoneHint | Deleted | Created | AttributeChanged
    | PreUnmount | Unmounted | Moved | Renamed | MovedIn | MovedOut

  /** Whether the cache's monitor passes an event on as 'file-changed':
   *  CHANGED and CREATED are always followed by CHANGES_DONE_HINT. */
  predicate ForwardsEvent(e: FileMonitorEvent) {
    e != Changed && e != Created
  }

  /** One background: a picture for one monitor. */
  class Background {
    const monitorIndex: int
    const file: Option<string>
    var isLoaded: bool
    /** The 'loaded' idles scheduled. */
    var loadedIdles: nat
    /** Whether a 'bg-changed' idle is pending (a non-zero idle id). */
    var changedIdlePending: bool
    var changedIdlesScheduled: nat
    var changedIdlesRun: nat
    var changedIdlesRemoved: nat
    var bgChangedEmitted: nat
    var destroyed: bool

    /** At most one 'loaded' idle, scheduled exactly when the background
     *  becomes loaded; every 'bg-changed' idle scheduled is run, removed or
     *  still pending, and each run emits once. */
    ghost predicate Valid()
      reads this
    {
      loadedIdles == (if isLoaded then 1 else 0)
      && changedIdlesScheduled == changedIdlesRun + changedIdlesRemoved + (if changedIdlePending then 1 else 0)
      && bgChangedEmitted == changedIdlesRun
      && (destroyed ==> !changedIdlePending)
    }

    /** `_init` and `_load`: without a file, or with an image already in
     *  the image cache, the background is loaded at once. */
    constructor(monitorIndex: int, file: Option<string>, imageLoaded: bool)
      ensures Valid()
      ensures this.monitorIndex == monitorIndex && this.file == file
      ensures isLoaded == (file.None? || imageLoaded)
      ensures !changedIdlePending && changedIdlesScheduled == 0 && !destroyed
    {
      this.monitorIndex := monitorIndex;
      this.file := file;
      isLoaded := false;
      loadedIdles := 0;
      changedIdlePending := false;
      changedIdlesScheduled := 0;
      changedIdlesRun := 0;
      changedIdlesRemoved := 0;
      bgChangedEmitted := 0;
      destroyed := false;
      new;
      if file.None? || imageLoaded {
        SetLoaded();
      }
    }

    /** `_setLoaded`: the first call marks the background loaded and
     *  schedules the 'loaded' idle; later calls do nothing. */
    method SetLoaded()
      requires Valid()
      modifies this
      ensures Valid() && isLoaded
      ensures loadedIdles == old(loadedIdles) + (if old(isLoaded) then 0 else 1)
      ensures changedIdlePending == old(changedIdlePending)
      ensures changedIdlesScheduled == old(changedIdlesScheduled) && destroyed == old(destroyed)
      ensures bgChangedEmitted == old(bgChangedEmitted)
    {
      if isLoaded {
        return;
      }
      isLoaded := true;
      loadedIdles := loadedIdles + 1;
    }

    /** `_emitChangedSignal`: schedules a 'bg-changed' idle unless one is
     *  already pending. */
    method EmitChangedSignal()
      requires Valid() && !destroyed
      modifies this
      ensures Valid() && changedIdlePending
      ensures changedIdlesScheduled == old(changedIdlesScheduled) + (if old(changedIdlePending) then 0 else 1)
      ensures isLoaded == old(isLoaded) && loadedIdles == old(loadedIdles) && !destroyed
      ensures bgChangedEmitted == old(bgChangedEmitted)
    {
      if changedIdlePending {
        return;
      }
      changedIdlePending := true;
      changedIdlesScheduled := changedIdlesScheduled + 1;
    }

    /** The 'file-changed' handler of `_watchFile`: only this background's
     *  own file counts. */
    method FileChanged(changedFile: string)
      requires Valid() && !destroyed
      modifies this
      ensures Valid()
      ensures file == Some(changedFile) ==>
        changedIdlePending
        && changedIdlesScheduled == old(changedIdlesScheduled) + (if old(changedIdlePending) then 0 else 1)
      ensures file != Some(changedFile) ==>
        changedIdlePending == old(changedIdlePending) && changedIdlesScheduled == old(changedIdlesScheduled)
      ensures isLoaded == old(isLoaded) && !destroyed && bgChangedEmitted == old(bgChangedEmitted)
    {
      if file == Some(changedFile) {
        EmitChangedSignal();
      }
    }

    /** The pending 'bg-changed' idle runs: the id is cleared and the signal
     *  emitted. */
    method RunChangedIdle()
      requires Valid() && changedIdlePending
      modifies this
      ensures Valid() && !changedIdlePending
      ensures bgChangedEmitted == old(bgChangedEmitted) + 1
      ensures changedIdlesScheduled == old(changedIdlesScheduled)
      ensures isLoaded == old(isLoaded) && destroyed == old(destroyed)
    {
      changedIdlePending := false;
      changedIdlesRun := changedIdlesRun + 1;
      bgChangedEmitted := bgChangedEmitted + 1;
    }

    /** `destroy`: a pending 'bg-changed' idle is removed. */
    method Destroy()
      modifies this
      ensures destroyed && !changedIdlePending
      ensures changedIdlesRemoved == old(changedIdlesRemoved) + (if old(changedIdlePending) then 1 else 0)
      ensures old(Valid()) ==> Valid()
      ensures isLoaded == old(isLoaded) && bgChangedEmitted == old(bgChangedEmitted)
    {
      if changedIdlePending {
        changedIdlePending := false;
        changedIdlesRemoved := changedIdlesRemoved + 1;
      }
      destroyed := true;
    }
  }

  /** The backgrounds of one settings schema, one per monitor index. */
  class BackgroundSource {
    const schema: string
    var useCount: int
    var backgrounds: map<int, Background>
    var destroyed: bool
    /** Gets and releases of this source since it was created. */
    ghost var gets: nat
    ghost var releases: nat

    /** Each cached background is live and sits under its own monitor
     *  index, so no background is cached twice. */
    ghost predicate Valid()
      reads this, backgrounds.Values
    {
      forall i :: i in backgrounds ==>
        backgrounds[i].monitorIndex == i && !backgrounds[i].destroyed && backgrounds[i].Valid()
    }

    constructor(schema: string)
      ensures Valid() && this.schema == schema
      ensures backgrounds == map[] && useCount == 0 && !destroyed && gets == 0 && releases == 0
    {
      this.schema := schema;
      useCount := 0;
      gets := 0;
      releases := 0;
      backgrounds := map[];
      destroyed := false;
    }

    /** `getBackground`: the background cached for the monitor, created on
     *  first use. Without a file every monitor shares index 0. */
    method GetBackground(monitorIndex: int, file: Option<string>, imageLoaded: bool)
      returns (b: Background)
      requires Valid()
      modifies this
      ensures Valid()
      ensures var index := if file.None? then 0 else monitorIndex;
        index in backgrounds && b == backgrounds[index]
        && (index in old(backgrounds) ==> backgrounds == old(backgrounds))
        && (index !in old(backgrounds) ==> fresh(b) && backgrounds == old(backgrounds)[index := b])
      ensures useCount == old(useCount) && destroyed == old(destroyed)
    {
      var index := monitorIndex;
      if file.None? {
        index := 0;
      }
      if index !in backgrounds {
        var background := new Background(index, file, imageLoaded);
        backgrounds := backgrounds[index := background];
      }
      b := backgrounds[index];
    }

    /** Disconnects, destroys and forgets the background of one index. */
    method Evict(index: int)
      requires index in backgrounds
      modifies this, backgrounds[index]
      ensures backgrounds == old(backgrounds) - {index}
      ensures old(backgrounds[index]).destroyed
      ensures old(backgrounds[index]).bgChangedEmitted == old(backgrounds[index].bgChangedEmitted)
      ensures old(Valid()) ==> Valid()
      ensures useCount == old(useCount) && destroyed == old(destroyed)
    {
      var b := backgrounds[index];
      b.Destroy();
      backgrounds := backgrounds - {index};
    }

    /** The 'bg-changed' handler: the pending idle of the background runs,
     *  and the background leaves the cache. */
    method BackgroundChanged(index: int)
      requires Valid() && index in backgrounds && backgrounds[index].changedIdlePending
      modifies this, backgrounds[index]
      ensures Valid()
      ensures backgrounds == old(backgrounds) - {index}
      ensures old(backgrounds[index]).destroyed
      ensures old(backgrounds[index]).bgChangedEmitted == old(backgrounds[index].bgChangedEmitted) + 1
      ensures useCount == old(useCount) && destroyed == old(destroyed)
    {
      var b := backgrounds[index];
      b.RunChangedIdle();
      Evict(index);
    }

    /** Evicts every cached background whose index is in `doomed`. */
    method EvictAll(doomed: set<int>)
      requires Valid()
      modifies this, backgrounds.Values
      ensures Valid()
      ensures backgrounds == map i | i in old(backgrounds) && i !in doomed :: old(backgrounds)[i]
      ensures forall i :: i in old(backgrounds) && i in doomed ==> old(backgrounds)[i].destroyed
      ensures useCount == old(useCount) && destroyed == old(destroyed)
    {
      var keys := backgrounds.Keys;
      while keys != {}
        invariant Valid()
        invariant keys <= old(backgrounds).Keys
        invariant backgrounds == map i | i in old(backgrounds) && (i in keys || i !in doomed) :: old(backgrounds)[i]
        invariant forall i :: i in old(backgrounds) && i !in keys && i in doomed ==> old(backgrounds)[i].destroyed
        invariant useCount == old(useCount) && destroyed == old(destroyed)
        decreases keys
      {
        NonEmptyHasMember(keys);
        var index :| index in keys;
        keys := keys - {index};
        if index in doomed {
          Evict(index);
        }
      }
    }

    /** `_onMonitorsChanged`: the backgrounds of monitors that are gone are
     *  evicted; the others stay. */
    method OnMonitorsChanged(monitorCount: int)
      requires Valid()
      modifies this, backgrounds.Values
      ensures Valid()
      ensures backgrounds == map i | i in old(backgrounds) && i < monitorCount :: old(backgrounds)[i]
      ensures forall i :: i in old(backgrounds) && i >= monitorCount ==> old(backgrounds)[i].destroyed
      ensures useCount == old(useCount) && destroyed == old(destroyed)
    {
      EvictAll(set i | i in backgrounds && i >= monitorCount);
    }

    /** One use fewer. */
    method Unref()
      modifies this`useCount, this`releases
      ensures useCount == old(useCount) - 1 && releases == old(releases) + 1
    {
      useCount := useCount - 1;
      releases := releases + 1;
    }

    /** `destroy`: every background is destroyed. */
    method Destroy()
      requires Valid()
      modifies this, backgrounds.Values
      ensures destroyed && backgrounds == map[]
      ensures forall i :: i in old(backgrounds) ==> old(backgrounds)[i].destroyed
      ensures useCount == old(useCount)
    {
      EvictAll(backgrounds.Keys);
      destroyed := true;
    }
  }

  /** A cached source is live, in use, filed under its own schema, and
   *  counts its gets minus its releases. */
  ghost predicate EntryOK(s: string, src: BackgroundSource)
    reads src
  {
    src.schema == s && src.useCount >= 1 && !src.destroyed
    && src.useCount == src.gets as int - src.releases as int
  }

  /** The process-wide cache. */
  class BackgroundCache {
    /** The file each monitor watches, by file hash. */
    var fileMonitors: map<int, string>
    var monitorsCreated: nat
    /** The files announced by 'file-changed', oldest first. */
    var fileChanged: seq<string>
    var sources: map<string, BackgroundSource>

    /** One monitor per hash; every cached source is live, in use, filed
     *  under its own schema, and counts its gets minus its releases. */
    ghost predicate Valid()
      reads this, sources.Values
    {
      monitorsCreated == |fileMonitors.Keys|
      && forall s :: s in sources ==> EntryOK(s, sources[s])
    }

    constructor()
      ensures Valid() && fileMonitors == map[] && sources == map[] && fileChanged == []
    {
      fileMonitors := map[];
      monitorsCreated := 0;
      fileChanged := [];
      sources := map[];
    }

    /** `monitorFile`: a monitor is created only for a hash not yet
     *  watched. */
    method MonitorFile(file: string, hash: int)
      requires Valid()
      modifies this
      ensures Valid()
      ensures hash in old(fileMonitors) ==> fileMonitors == old(fileMonitors) && monitorsCreated == old(monitorsCreated)
      ensures hash !in old(fileMonitors) ==>
        fileMonitors == old(fileMonitors)[hash := file] && monitorsCreated == old(monitorsCreated) + 1
      ensures sources == old(sources) && fileChanged == old(fileChanged)
    {
      if hash in fileMonitors {
        return;
      }
      assert fileMonitors[hash := file].Keys == fileMonitors.Keys + {hash};
      fileMonitors := fileMonitors[hash := file];
      monitorsCreated := monitorsCreated + 1;
    }

    /** A monitor reports an event: everything but CHANGED and CREATED is
     *  passed on for the watched file. */
    method MonitorEvent(hash: int, event: FileMonitorEvent)
      requires Valid() && hash in fileMonitors
      modifies this
      ensures Valid()
      ensures fileChanged == old(fileChanged) + (if ForwardsEvent(event) then [old(fileMonitors[hash])] else [])
      ensures fileMonitors == old(fileMonitors) && sources == old(sources)
    {
      if event != Changed && event != Created {
        fileChanged := fileChanged + [fileMonitors[hash]];
      }
    }

    /** `getBackgroundSource`: one source per schema, counted per use. */
    method GetBackgroundSource(schema: string) returns (src: BackgroundSource)
      requires Valid()
      modifies this, if schema in sources then {sources[schema]} else {}
      ensures Valid()
      ensures schema in sources && src == sources[schema]
      ensures schema in old(sources) ==>
        src == old(sources[schema]) && sources == old(sources) && src.useCount == old(src.useCount) + 1
      ensures schema !in old(sources) ==>
        fresh(src) && sources == old(sources)[schema := src] && src.useCount == 1 && src.backgrounds == map[]
      ensures schema in old(sources) ==> src.backgrounds == old(src.backgrounds)
      ensures fileMonitors == old(fileMonitors) && fileChanged == old(fileChanged)
    {
      if schema !in sources {
        var created := new BackgroundSource(schema);
        sources := sources[schema := created];
        created.useCount := 1;
        created.gets := 1;
      } else {
        var existing := sources[schema];
        existing.useCount := existing.useCount + 1;
        existing.gets := existing.gets + 1;
      }
      src := sources[schema];
    }

    /** `releaseBackgroundSource`: one use fewer; the last release removes
     *  and destroys the source; an unknown schema changes nothing. */
    method ReleaseBackgroundSource(schema: string)
      requires Valid()
      requires schema in sources ==> sources[schema].Valid()
      modifies this, if schema in sources then {sources[schema]} + sources[schema].backgrounds.Values else {}
      ensures Valid()
      ensures schema in old(sources) ==> old(sources[schema]).useCount == old(sources[schema].useCount) - 1
      ensures sources == if schema in old(sources) && old(sources[schema].useCount) == 1
                         then old(sources) - {schema} else old(sources)
      ensures schema in old(sources) && old(sources[schema].useCount) == 1 ==> old(sources[schema]).destroyed
      ensures fileMonitors == old(fileMonitors) && fileChanged == old(fileChanged)
    {
      if schema in sources {
        var src := sources[schema];
        assert forall s :: s in sources && s != schema ==> sources[s] != src;
        src.Unref();
        if src.useCount == 0 {
          Forget(schema, src);
        } else {
          assert EntryOK(schema, src);
          assert forall s :: s in sources ==> EntryOK(s, sources[s]);
        }
      }
    }

    /** The last release: the source leaves the cache and is destroyed. */
    method Forget(schema: string, src: BackgroundSource)
      requires schema in sources && sources[schema] == src && src.Valid()
      requires monitorsCreated == |fileMonitors.Keys|
      requires forall s :: s in sources && s != schema ==> sources[s] != src && EntryOK(s, sources[s])
      modifies this`sources, src, src.backgrounds.Values
      ensures Valid()
      ensures sources == old(sources) - {schema} && src.destroyed && src.useCount == old(src.useCount)
    {
      var others := sources - {schema};
      sources := others;
      src.Destroy();
      assert forall s :: s in others ==> EntryOK(s, others[s]);
    }
  }

}

=== FILE: cldr2json.dfy ===
/**
 * The converter that turns CLDR keyboard descriptions into the on-screen
 * keyboard's JSON layouts (data/cldr2json/cldr2json.py): unescaping of key
 * strings, parsing and ordering of key rows, the level heuristics, the
 * locale-to-XKB mapping, the JSON key objects and the terminal row of the
 * mobile variant.
 */
module Cldr2Json {
  import opened Common

  /** The JSON values the converter writes. */
  datatype Json = JStr(s: string) | JNum(n: real) | JList(items: seq<Json>) | JObj(fields: map<string, Json>)

  // ------------------------------------------------------------ key strings

  predicate IsHexDigit(c: char) {
    '0' <= c <= '9' || 'a' <= c <= 'f' || 'A' <= c <= 'F'
  }

  predicate AllHex(s: string) {
    forall i :: 0 <= i < |s| ==> IsHexDigit(s[i])
  }

  function HexDigitValue(c: char): (v: nat)
    requires IsHexDigit(c)
    ensures v < 16
  {
    if '0' <= c <= '9' then c as int - '0' as int
    else if 'a' <= c <= 'f' then c as int - 'a' as int + 10
    else c as int - 'A' as int + 10
  }

  /** `int(digits, 16)`. */
  function HexValue(digits: string): nat
    requires AllHex(digits)
  {
    if |digits| == 0 then 0
    else HexValue(digits[..|digits| - 1]) * 16 + HexDigitValue(digits[|digits| - 1])
  }

  /** Length of the run of hexadecimal digits at the head of `s`. */
  function HexRun(s: string): (n: nat)
    ensures n <= |s|
    ensures AllHex(s[..n])
    ensures n < |s| ==> !IsHexDigit(s[n])
  {
    if |s| > 0 && IsHexDigit(s[0]) then
      var n := 1 + HexRun(s[1..]);
      assert s[..n] == [s[0]] + s[1..][..n - 1];
      n
    else 0
  }

  /** A match of the escape pattern `\u{hex}` at the head of `s`: the code
   *  it names and the number of characters it spans. The pattern's lazy
   *  digit run must be followed by `}`, which is not a digit, so it takes
   *  the whole run. */
  function MatchEscape(s: string): (m: Option<(nat, nat)>)
    ensures m.Some? ==> 5 <= m.value.1 <= |s|
  {
    if |s| >= 3 && s[0] == '\\' && s[1] == 'u' && s[2] == '{' then
      var n := HexRun(s[3..]);
      if n >= 1 && 3 + n < |s| && s[3 + n] == '}' then
        assert s[3..3 + n] == s[3..][..n];
        Some((HexValue(s[3..3 + n]), n + 4))
      else None
    else None
  }

  /** Whether `chr(code)` gives a character the UTF-8 output can hold:
   *  a code above U+10FFFF makes `chr` raise, and a lone surrogate makes
   *  the final write raise. */
  predicate IsScalar(code: int) {
    0 <= code < 0xD800 || 0xE000 <= code < 0x11_0000
  }

  /** parse_single_key: every `\u{hex}` escape replaced, left to right, by
   *  the character it names; any other character is kept. */
  function ParseSingleKey(s: string): (r: Result<string>)
    ensures r.Ok? ==> |r.value| <= |s|
    decreases |s|
  {
    if |s| == 0 then Ok("")
    else match MatchEscape(s)
      case Some((code, len)) =>
        if !IsScalar(code) then Err("chr() argument out of range")
        else
          var rest := ParseSingleKey(s[len..]);
          if rest.Err? then rest else Ok([code as char] + rest.value)
      case None =>
        var rest := ParseSingleKey(s[1..]);
        if rest.Err? then rest else Ok([s[0]] + rest.value)
  }

  /** Text without a backslash holds no escape and is kept as it is. */
  lemma {:induction false} PlainKeyUnchanged(s: string)
    requires '\\' !in s
    ensures ParseSingleKey(s) == Ok(s)
  {
    if |s| > 0 {
      assert '\\' !in s[1..] by {
        forall i | 0 <= i < |s| - 1 ensures s[1..][i] != '\\' {
          assert s[1..][i] == s[i + 1];
        }
      }
      PlainKeyUnchanged(s[1..]);
      assert s == [s[0]] + s[1..];
    }
  }

  function HexDigitChar(v: nat): (c: char)
    requires v < 16
    ensures IsHexDigit(c) && HexDigitValue(c) == v
  {
    if v < 10 then ('0' as int + v) as char else ('a' as int + v - 10) as char
  }

  /** Lower-case hexadecimal digits of `n`, the encoder `HexValue` undoes. */
  function HexString(n: nat): (h: string)
    ensures |h| >= 1 && AllHex(h)
    ensures HexValue(h) == n
  {
    if n < 16 then [HexDigitChar(n)]
    else
      var high := HexString(n / 16);
      var h := high + [HexDigitChar(n % 16)];
      assert h[..|h| - 1] == high;
      h
  }

  /** The escape that names `c`. */
  function Escape(c: char): string {
    "\\u{" + HexString(c as int) + "}"
  }

  /** Every character written as an escape. */
  function EscapeAll(s: string): string {
    if |s| == 0 then "" else Escape(s[0]) + EscapeAll(s[1..])
  }

  lemma {:induction false} HexRunStops(h: string, t: string)
    requires AllHex(h)
    requires |t| > 0 && !IsHexDigit(t[0])
    ensures HexRun(h + t) == |h|
  {
    if |h| > 0 {
      assert (h + t)[1..] == h[1..] + t;
      HexRunStops(h[1..], t);
    }
  }

  lemma EscapeAtHead(c: char, rest: string)
    ensures MatchEscape(Escape(c) + rest) == Some((c as int, |Escape(c)|))
  {
    var h := HexString(c as int);
    var s := Escape(c) + rest;
    assert s == "\\u{" + (h + ("}" + rest));
    assert s[3..] == h + ("}" + rest);
    HexRunStops(h, "}" + rest);
    assert s[3..3 + |h|] == h;
  }

  /** An escape at the head is replaced by its character, and parsing
   *  goes on after it. */
  lemma ParseEscapeAtHead(c: char, rest: string)
    ensures ParseSingleKey(Escape(c) + rest)
         == if ParseSingleKey(rest).Err? then ParseSingleKey(rest) else Ok([c] + ParseSingleKey(rest).value)
  {
    var s := Escape(c) + rest;
    EscapeAtHead(c, rest);
    assert s[|Escape(c)|..] == rest;
  }

  /** Round trip: unescaping text written entirely as escapes gives the
   *  text back. */
  lemma {:induction false} EscapeRoundTrip(s: string)
    ensures ParseSingleKey(EscapeAll(s)) == Ok(s)
  {
    if |s| > 0 {
      ParseEscapeAtHead(s[0], EscapeAll(s[1..]));
      EscapeRoundTrip(s[1..]);
      assert s == [s[0]] + s[1..];
    }
  }

  // ---------------------------------------------------------------- ISO names

  predicate IsRowLetter(c: char) { 'A' <= c <= 'E' }

  predicate IsDecimalDigit(c: char) { '0' <= c <= '9' }

  predicate AllDigits(s: string) {
    forall i :: 0 <= i < |s| ==> IsDecimalDigit(s[i])
  }

  /** How an ISO key name is recognised: the pattern matched at the start
   *  only, as the converter does, or matched in full. */
  datatype IsoCheck = PrefixMatch | FullMatch

  /** A row letter `A`..`E` followed by digits. */
  predicate IsoAccepted(iso: string, check: IsoCheck) {
    |iso| >= 2 && IsRowLetter(iso[0]) && IsDecimalDigit(iso[1])
    && (check == FullMatch ==> AllDigits(iso[1..]))
  }

  function DecimalValue(digits: string): nat
    requires AllDigits(digits)
  {
    if |digits| == 0 then 0
    else DecimalValue(digits[..|digits| - 1]) * 10 + (digits[|digits| - 1] as int - '0' as int)
  }

  /** The characters Python counts as white space (`str.isspace`), which
   *  `int()` skips around a number: tab to carriage return, the
   *  separators 28 to 31, the space, and the Unicode spaces and breaks. */
  predicate IsPySpace(c: char) {
    var k := c as int;
    k == 32 || 9 <= k <= 13 || 28 <= k <= 31 || k == 0x85 || k == 0xA0 || k == 0x1680
    || 0x2000 <= k <= 0x200A || k == 0x2028 || k == 0x2029 || k == 0x202F || k == 0x205F || k == 0x3000
  }

  predicate AllSpace(s: string) {
    forall i :: 0 <= i < |s| ==> IsPySpace(s[i])
  }

  function StripLeading(s: string): string {
    if |s| > 0 && IsPySpace(s[0]) then StripLeading(s[1..]) else s
  }

  function StripTrailing(s: string): string {
    if |s| > 0 && IsPySpace(s[|s| - 1]) then StripTrailing(s[..|s| - 1]) else s
  }

  /** The text without white space at either end. */
  function Strip(s: string): string {
    StripTrailing(StripLeading(s))
  }

  /** Decimal digits in groups, each `_` standing alone between two digits. */
  predicate DigitGroups(b: string) {
    |b| >= 1 && IsDecimalDigit(b[0]) && IsDecimalDigit(b[|b| - 1])
    && (forall i :: 0 <= i < |b| ==> IsDecimalDigit(b[i]) || b[i] == '_')
    && (forall i :: 0 <= i < |b| - 1 ==> b[i] == '_' ==> b[i + 1] != '_')
  }

  function WithoutUnderscores(b: string): (r: string)
    ensures (forall i :: 0 <= i < |b| ==> IsDecimalDigit(b[i]) || b[i] == '_') ==> AllDigits(r)
  {
    if |b| == 0 then ""
    else
      var front := WithoutUnderscores(b[..|b| - 1]);
      assert forall i :: 0 <= i < |b| - 1 ==> b[..|b| - 1][i] == b[i];
      front + (if b[|b| - 1] == '_' then "" else [b[|b| - 1]])
  }

  /** Python's `int()` on a string, in base 10: white space, an optional
   *  sign, digit groups and white space again; anything else raises. Only
   *  ASCII digits are recognised. */
  function PyInt(s: string): (r: Result<int>)
    ensures |s| >= 1 && AllDigits(s) ==> r == Ok(DecimalValue(s))
  {
    PlainDigits(s);
    SignedGroups(Strip(s))
  }

  /** An optional sign and digit groups, white space already stripped. */
  function SignedGroups(t: string): Result<int> {
    var body := if |t| > 0 && (t[0] == '+' || t[0] == '-') then t[1..] else t;
    if DigitGroups(body) then
      var v: int := DecimalValue(WithoutUnderscores(body));
      if |t| > 0 && t[0] == '-' then Ok(-v) else Ok(v)
    else
      Err("invalid literal for int() with base 10")
  }

  /** A plain run of digits is its own stripped text and digit group. */
  lemma PlainDigits(s: string)
    ensures |s| >= 1 && AllDigits(s) ==>
      Strip(s) == s && DigitGroups(s) && WithoutUnderscores(s) == s
  {
    if |s| >= 1 && AllDigits(s) {
      assert StripLeading(s) == s;
      assert StripTrailing(s) == s;
      DigitsWithoutUnderscores(s);
    }
  }

  lemma {:induction false} DigitsWithoutUnderscores(s: string)
    requires AllDigits(s)
    ensures WithoutUnderscores(s) == s
  {
    if |s| > 0 {
      var n := |s| - 1;
      assert AllDigits(s[..n]) by {
        forall i | 0 <= i < n ensures IsDecimalDigit(s[..n][i]) {
          assert s[..n][i] == s[i];
        }
      }
      DigitsWithoutUnderscores(s[..n]);
      assert s[n] != '_';
      assert s == s[..n] + [s[n]];
    }
  }

  lemma {:induction false} StripLeadingSpace(pre: string, x: string)
    requires AllSpace(pre)
    ensures StripLeading(pre + x) == StripLeading(x)
  {
    if |pre| > 0 {
      assert (pre + x)[0] == pre[0];
      assert (pre + x)[1..] == pre[1..] + x;
      StripLeadingSpace(pre[1..], x);
    } else {
      assert pre + x == x;
    }
  }

  lemma {:induction false} StripTrailingSpace(x: string, post: string)
    requires AllSpace(post)
    ensures StripTrailing(x + post) == StripTrailing(x)
  {
    if |post| > 0 {
      var n := |post| - 1;
      assert (x + post)[|x + post| - 1] == post[n];
      assert (x + post)[..|x + post| - 1] == x + post[..n];
      StripTrailingSpace(x, post[..n]);
    } else {
      assert x + post == x;
    }
  }

  lemma {:induction false} StripLeadingAppend(x: string, z: string)
    ensures StripLeading(x + z) == if StripLeading(x) == "" then StripLeading(z) else StripLeading(x) + z
  {
    if |x| > 0 {
      assert (x + z)[0] == x[0];
      if IsPySpace(x[0]) {
        assert (x + z)[1..] == x[1..] + z;
        StripLeadingAppend(x[1..], z);
      }
    } else {
      assert x + z == z;
    }
  }

  lemma {:induction false} StripAllSpace(s: string)
    requires AllSpace(s)
    ensures StripLeading(s) == ""
  {
    if |s| > 0 {
      StripAllSpace(s[1..]);
    }
  }

  /** White space around a text does not change what `int()` reads. */
  lemma PyIntIgnoresSurroundingSpace(pre: string, s: string, post: string)
    requires AllSpace(pre) && AllSpace(post)
    ensures PyInt(pre + s + post) == PyInt(s)
  {
    assert Strip(pre + s + post) == Strip(s) by {
      assert pre + s + post == pre + (s + post);
      StripLeadingSpace(pre, s + post);
      StripLeadingAppend(s, post);
      if StripLeading(s) == "" {
        StripAllSpace(post);
      } else {
        StripTrailingSpace(StripLeading(s), post);
      }
    }
  }

  lemma {:induction false} WithoutUnderscoresAppend(x: string, y: string)
    ensures WithoutUnderscores(x + y) == WithoutUnderscores(x) + WithoutUnderscores(y)
  {
    if |y| > 0 {
      var n := |y| - 1;
      assert (x + y)[..|x + y| - 1] == x + y[..n];
      assert (x + y)[|x + y| - 1] == y[n];
      WithoutUnderscoresAppend(x, y[..n]);
    } else {
      assert x + y == x;
    }
  }

  /** A text that starts with a digit and does not end in white space is
   *  read as digit groups or refused. */
  lemma UnpaddedDigits(s: string)
    requires |s| >= 1 && IsDecimalDigit(s[0]) && !IsPySpace(s[|s| - 1])
    ensures PyInt(s) == if DigitGroups(s) then Ok(DecimalValue(WithoutUnderscores(s)))
                        else Err("invalid literal for int() with base 10")
  {
    assert StripLeading(s) == s;
    assert StripTrailing(s) == s;
  }

  /** An underscore between two runs of digits is only a separator. */
  lemma PyIntUnderscoreSeparates(a: string, b: string)
    requires |a| >= 1 && |b| >= 1 && AllDigits(a) && AllDigits(b)
    ensures PyInt(a + "_" + b) == PyInt(a + b)
  {
    JoinedGroups(a, b);
    UnpaddedDigits(a + "_" + b);
    SeparatorDropped(a, b);
  }

  lemma SeparatorDropped(a: string, b: string)
    requires AllDigits(a) && AllDigits(b)
    ensures WithoutUnderscores(a + "_" + b) == a + b
  {
    var sep: string := "_";
    assert WithoutUnderscores(sep) == [] by {
      assert sep[..0] == [];
    }
    WithoutUnderscoresAppend(a, sep);
    DigitsWithoutUnderscores(a);
    assert WithoutUnderscores(a + sep) == a;
    WithoutUnderscoresAppend(a + sep, b);
    DigitsWithoutUnderscores(b);
  }

  lemma JoinedGroups(a: string, b: string)
    requires |a| >= 1 && |b| >= 1 && AllDigits(a) && AllDigits(b)
    ensures DigitGroups(a + "_" + b) && |a + b| >= 1 && AllDigits(a + b)
    ensures (a + "_" + b)[0] == a[0] && !IsPySpace((a + "_" + b)[|a + "_" + b| - 1])
  {
    var u := a + "_" + b;
    var w := a + b;
    assert u[0] == a[0] && u[|u| - 1] == b[|b| - 1];
    forall i | 0 <= i < |u|
      ensures IsDecimalDigit(u[i]) || u[i] == '_'
    {
      if i < |a| { assert u[i] == a[i]; } else if i > |a| { assert u[i] == b[i - |a| - 1]; }
    }
    forall i | 0 <= i < |u| - 1
      ensures u[i] == '_' ==> u[i + 1] != '_'
    {
      if i < |a| { assert u[i] == a[i]; } else { assert u[i + 1] == b[i - |a|]; }
    }
    forall i | 0 <= i < |w| ensures IsDecimalDigit(w[i]) {
      if i < |a| { assert w[i] == a[i]; } else { assert w[i] == b[i - |a|]; }
    }
  }

  /** A stray underscore at either end, or two in a row, make `int()` raise. */
  lemma PyIntRejectsStrayUnderscores(a: string, b: string)
    requires |a| >= 1 && |b| >= 1 && AllDigits(a) && AllDigits(b)
    ensures PyInt("_" + a).Err? && PyInt(a + "_").Err? && PyInt(a + "__" + b).Err?
  {
    var x, y, z := "_" + a, a + "_", a + "__" + b;
    assert x[0] == '_' && StripLeading(x) == x && StripTrailing(x) == x;
    assert y[0] == a[0] && y[|y| - 1] == '_' && StripLeading(y) == y && StripTrailing(y) == y;
    assert z[0] == a[0] && z[|z| - 1] == b[|b| - 1] && StripLeading(z) == z && StripTrailing(z) == z;
    assert z[|a|] == '_' && z[|a| + 1] == '_';
  }

  // -------------------------------------------------------------------- rows

  /** One `map` element of a CLDR key map. */
  datatype MapEntry = MapEntry(to: string, iso: string, longPress: Option<string>)

  /** A parsed key: its column number and its strings (the key's own string
   *  followed by its long-press alternatives). */
  datatype Key = Key(column: int, strings: seq<string>)

  /** Every string unescaped; the first failure is the result. */
  function ParseAll(parts: seq<string>): (r: Result<seq<string>>)
    ensures r.Ok? <==> forall i :: 0 <= i < |parts| ==> ParseSingleKey(parts[i]).Ok?
    ensures r.Ok? ==>
      |r.value| == |parts| && (forall i :: 0 <= i < |parts| ==> r.value[i] == ParseSingleKey(parts[i]).value)
  {
    if |parts| == 0 then Ok([])
    else
      var head := ParseAll(parts[..|parts| - 1]);
      var last := ParseSingleKey(parts[|parts| - 1]);
      if head.Err? then head
      else if last.Err? then Err(last.error)
      else Ok(head.value + [last.value])
  }

  /** The long-press alternatives of an entry. */
  function Subkeys(longPress: Option<string>): Result<seq<string>> {
    if longPress.Some? && longPress.value != "" then ParseAll(Split(longPress.value, ' '))
    else Ok([])
  }

  /** One entry of parse_rows: `Ok(None)` when its ISO name is refused,
   *  otherwise its row letter and key. */
  function ParseEntry(e: MapEntry, check: IsoCheck): (r: Result<Option<(char, Key)>>)
    ensures r.Ok? && r.value.None? <==> ParseSingleKey(e.to).Ok? && !IsoAccepted(e.iso, check)
    ensures r.Ok? && r.value.Some? ==>
      IsoAccepted(e.iso, check) && r.value.value.0 == e.iso[0] && IsRowLetter(r.value.value.0)
      && ParseSingleKey(e.to).Ok? && Subkeys(e.longPress).Ok?
      && r.value.value.1.strings == [ParseSingleKey(e.to).value] + Subkeys(e.longPress).value
      && PyInt(e.iso[1..]).Ok? && r.value.value.1.column == PyInt(e.iso[1..]).value
  {
    var to := ParseSingleKey(e.to);
    if to.Err? then Err(to.error)
    else if !IsoAccepted(e.iso, check) then Ok(None)
    else
      var column := PyInt(e.iso[1..]);
      if column.Err? then Err(column.error)
      else
        var subkeys := Subkeys(e.longPress);
        if subkeys.Err? then Err(subkeys.error)
        else Ok(Some((e.iso[0], Key(column.value, [to.value] + subkeys.value))))
  }

  /** As written, a name such as `C01x` matches the start-anchored pattern and
   *  then makes `int("01x")` raise, aborting the whole conversion. */
  lemma PrefixMatchRaises()
    ensures ParseEntry(MapEntry("a", "C01x", None), PrefixMatch).Err?
    ensures ParseEntry(MapEntry("a", "C01x", None), FullMatch) == Ok(None)
  {
    PlainKeyUnchanged("a");
    var tail := "C01x"[1..];
    assert tail == "01x";
    UnpaddedDigits(tail);
    assert !IsDecimalDigit(tail[2]);
  }

  /** As written, `int()` also skips white space, so an ISO name such as
   *  `C01 ` is read as column 1 of row C, where the full match refuses it. */
  lemma PrefixMatchSkipsSpace(e: MapEntry, digits: string, space: string)
    requires |e.iso| >= 1 && IsRowLetter(e.iso[0]) && e.iso[1..] == digits + space
    requires |digits| >= 1 && AllDigits(digits) && |space| >= 1 && AllSpace(space)
    requires ParseSingleKey(e.to).Ok? && Subkeys(e.longPress).Ok?
    ensures ParseEntry(e, PrefixMatch)
      == Ok(Some((e.iso[0], Key(DecimalValue(digits), [ParseSingleKey(e.to).value] + Subkeys(e.longPress).value))))
    ensures ParseEntry(e, FullMatch) == Ok(None)
  {
    var tail := e.iso[1..];
    assert PyInt(tail) == Ok(DecimalValue(digits)) by {
      var none: string := [];
      PyIntIgnoresSurroundingSpace(none, digits, space);
      assert none + digits == digits;
    }
    assert IsoAccepted(e.iso, PrefixMatch) by {
      assert e.iso[1] == tail[0] == digits[0];
    }
    assert !IsoAccepted(e.iso, FullMatch) by {
      assert tail[|tail| - 1] == space[|space| - 1];
      assert !IsDecimalDigit(tail[|tail| - 1]);
    }
  }

  /** Matched in full, an ISO name always yields its column: an entry then
   *  fails only on a string it cannot unescape. */
  lemma FullMatchFailsOnlyOnStrings(e: MapEntry)
    ensures ParseEntry(e, FullMatch).Err? ==>
      ParseSingleKey(e.to).Err? || Subkeys(e.longPress).Err?
  {
  }

  /** The keys of each row letter, in entry order; the first failing entry
   *  is the result. */
  function CollectRows(entries: seq<MapEntry>, check: IsoCheck): (r: Result<map<char, seq<Key>>>)
    ensures r.Ok? ==> forall l :: l in r.value ==> IsRowLetter(l) && |r.value[l]| >= 1
  {
    if |entries| == 0 then Ok(map[])
    else
      var before := CollectRows(entries[..|entries| - 1], check);
      if before.Err? then before
      else
        var parsed := ParseEntry(entries[|entries| - 1], check);
        if parsed.Err? then Err(parsed.error)
        else if parsed.value.None? then before
        else
          var l := parsed.value.value.0;
          var m := before.value;
          Ok(m[l := (if l in m then m[l] else []) + [parsed.value.value.1]])
  }

  /** Once an entry fails, later entries do not change the result. */
  lemma {:induction false} CollectStopsAtError(a: seq<MapEntry>, b: seq<MapEntry>, check: IsoCheck)
    requires CollectRows(a, check).Err?
    ensures CollectRows(a + b, check) == CollectRows(a, check)
  {
    if |b| > 0 {
      var n := |b| - 1;
      assert (a + b)[..|a + b| - 1] == a + b[..n];
      CollectStopsAtError(a, b[..n], check);
    } else {
      assert a + b == a;
    }
  }

  function CompareInts(x: int, y: int): int {
    if x < y then -1 else if x > y then 1 else 0
  }

  /** Python string comparison: code point by code point, a proper prefix
   *  first. */
  function CompareStrings(a: string, b: string): int {
    if |a| == 0 || |b| == 0 then CompareInts(|a|, |b|)
    else if a[0] != b[0] then CompareInts(a[0] as int, b[0] as int)
    else CompareStrings(a[1..], b[1..])
  }

  /** Python list comparison on lists of strings. */
  function CompareStringLists(a: seq<string>, b: seq<string>): int {
    if |a| == 0 || |b| == 0 then CompareInts(|a|, |b|)
    else if CompareStrings(a[0], b[0]) != 0 then CompareStrings(a[0], b[0])
    else CompareStringLists(a[1..], b[1..])
  }

  /** The order of `sorted` on `(column, strings)` pairs. */
  function CompareKeys(a: Key, b: Key): int {
    if a.column != b.column then CompareInts(a.column, b.column)
    else CompareStringLists(a.strings, b.strings)
  }

  lemma {:induction false} CompareStringsAntisymmetric(a: string, b: string)
    ensures CompareStrings(b, a) == -CompareStrings(a, b)
    ensures CompareStrings(a, b) == 0 <==> a == b
  {
    if |a| > 0 && |b| > 0 && a[0] == b[0] {
      CompareStringsAntisymmetric(a[1..], b[1..]);
      assert a == [a[0]] + a[1..];
      assert b == [b[0]] + b[1..];
    }
  }

  lemma {:induction false} CompareStringListsAntisymmetric(a: seq<string>, b: seq<string>)
    ensures CompareStringLists(b, a) == -CompareStringLists(a, b)
    ensures CompareStringLists(a, b) == 0 <==> a == b
  {
    if |a| > 0 && |b| > 0 {
      CompareStringsAntisymmetric(a[0], b[0]);
      if a[0] == b[0] {
        CompareStringListsAntisymmetric(a[1..], b[1..]);
        assert a == [a[0]] + a[1..];
        assert b == [b[0]] + b[1..];
      }
    }
  }

  /** Swapping the operands flips the comparison, and only equal keys
   *  compare equal, so the order is total. */
  lemma CompareKeysAntisymmetric(a: Key, b: Key)
    ensures CompareKeys(b, a) == -CompareKeys(a, b)
    ensures CompareKeys(a, b) == 0 <==> a == b
  {
    CompareStringListsAntisymmetric(a.strings, b.strings);
  }

  predicate KeysSorted(ks: seq<Key>) {
    forall i :: 0 <= i < |ks| - 1 ==> CompareKeys(ks[i], ks[i + 1]) <= 0
  }

  function Insert(k: Key, ks: seq<Key>): (r: seq<Key>)
    requires KeysSorted(ks)
    ensures KeysSorted(r)
    ensures multiset(r) == multiset(ks) + multiset{k}
    ensures |r| == |ks| + 1 && (r[0] == k || (|ks| > 0 && r[0] == ks[0]))
  {
    if |ks| == 0 then [k]
    else if CompareKeys(k, ks[0]) <= 0 then [k] + ks
    else
      CompareKeysAntisymmetric(k, ks[0]);
      var r := [ks[0]] + Insert(k, ks[1..]);
      assert ks == [ks[0]] + ks[1..];
      r
  }

  /** `sorted` on a row's keys: ordered, and a permutation of its input. */
  function SortKeys(ks: seq<Key>): (r: seq<Key>)
    ensures KeysSorted(r)
    ensures multiset(r) == multiset(ks)
  {
    if |ks| == 0 then []
    else
      var n := |ks| - 1;
      assert ks == ks[..n] + [ks[n]];
      Insert(ks[n], SortKeys(ks[..n]))
  }

  /** In a sorted row the columns never decrease. */
  lemma {:induction false} SortedColumnsAscending(ks: seq<Key>)
    requires KeysSorted(ks)
    ensures forall i, j :: 0 <= i <= j < |ks| ==> ks[i].column <= ks[j].column
  {
    if |ks| > 1 {
      var n := |ks| - 1;
      var front := ks[..n];
      assert KeysSorted(front) by {
        forall i | 0 <= i < |front| - 1 ensures CompareKeys(front[i], front[i + 1]) <= 0 {
          assert front[i] == ks[i] && front[i + 1] == ks[i + 1];
        }
      }
      SortedColumnsAscending(front);
      assert CompareKeys(ks[n - 1], ks[n]) <= 0;
      forall i, j | 0 <= i <= j < |ks| ensures ks[i].column <= ks[j].column {
        if j < n {
          assert ks[i] == front[i] && ks[j] == front[j];
        } else if i < n {
          assert ks[i] == front[i] && ks[n - 1] == front[n - 1];
        }
      }
    }
  }

  /** The JSON object a key becomes: only its strings. */
  function KeyObject(k: Key): Json {
    JObj(map["strings" := JList(seq(|k.strings|, i requires 0 <= i < |k.strings| => JStr(k.strings[i])))])
  }

  function KeyObjects(ks: seq<Key>): (r: seq<Json>)
    ensures |r| == |ks| && forall i :: 0 <= i < |ks| ==> r[i] == KeyObject(ks[i])
  {
    if |ks| == 0 then [] else KeyObjects(ks[..|ks| - 1]) + [KeyObject(ks[|ks| - 1])]
  }

  /** The rows in descending letter order: `E` (the top row) first. */
  const ROW_LETTERS: string := "EDCBA"

  /** The rows of the letters present, in the order of `letters`, each
   *  sorted. */
  function RowsOf(m: map<char, seq<Key>>, letters: string): seq<seq<Json>> {
    if |letters| == 0 then []
    else
      var l := letters[|letters| - 1];
      RowsOf(m, letters[..|letters| - 1]) + (if l in m then [KeyObjects(SortKeys(m[l]))] else [])
  }

  /** The rows of a key map, or the error of its first failing entry. */
  function RowsFromEntries(entries: seq<MapEntry>, check: IsoCheck): Result<seq<seq<Json>>> {
    var m := CollectRows(entries, check);
    if m.Err? then Err(m.error) else Ok(RowsOf(m.value, ROW_LETTERS))
  }

  /** The first loop of parse_rows: the keys grouped by row letter. */
  method CollectEntries(entries: seq<MapEntry>, check: IsoCheck) returns (r: Result<map<char, seq<Key>>>)
    ensures r == CollectRows(entries, check)
  {
    var unsorted: map<char, seq<Key>> := map[];
    var i := 0;
    while i < |entries|
      invariant 0 <= i <= |entries|
      invariant CollectRows(entries[..i], check) == Ok(unsorted)
    {
      CollectStep(entries, i, check, unsorted);
      var parsed := ParseEntry(entries[i], check);
      if parsed.Err? {
        CollectStopsAtError(entries[..i + 1], entries[i + 1..], check);
        assert entries[..i + 1] + entries[i + 1..] == entries;
        return Err(parsed.error);
      }
      if parsed.value.Some? {
        var l := parsed.value.value.0;
        var keys := if l in unsorted then unsorted[l] else [];
        unsorted := unsorted[l := keys + [parsed.value.value.1]];
      }
      i := i + 1;
    }
    assert entries[..i] == entries;
    return Ok(unsorted);
  }

  /** One entry more: the grouping so far gains the entry's key under its
   *  letter, is kept for an entry without a key, or stops at its error. */
  lemma CollectStep(entries: seq<MapEntry>, i: nat, check: IsoCheck, unsorted: map<char, seq<Key>>)
    requires i < |entries| && CollectRows(entries[..i], check) == Ok(unsorted)
    ensures var parsed := ParseEntry(entries[i], check);
      CollectRows(entries[..i + 1], check) ==
        if parsed.Err? then Err(parsed.error)
        else if parsed.value.None? then Ok(unsorted)
        else
          var l := parsed.value.value.0;
          Ok(unsorted[l := (if l in unsorted then unsorted[l] else []) + [parsed.value.value.1]])
  {
    assert entries[..i + 1][..i] == entries[..i];
  }

  /** The JSON objects of a sorted row. */
  method RowObjects(sorted: seq<Key>) returns (row: seq<Json>)
    ensures row == KeyObjects(sorted)
  {
    row := [];
    var k := 0;
    while k < |sorted|
      invariant 0 <= k <= |sorted|
      invariant row == KeyObjects(sorted[..k])
    {
      assert sorted[..k + 1][..k] == sorted[..k];
      row := row + [KeyObject(sorted[k])];
      k := k + 1;
    }
    assert sorted[..k] == sorted;
  }

  /** The second loop of parse_rows: one sorted row per letter present,
   *  top row first. */
  method BuildRows(unsorted: map<char, seq<Key>>) returns (rows: seq<seq<Json>>)
    ensures rows == RowsOf(unsorted, ROW_LETTERS)
  {
    rows := [];
    var j := 0;
    while j < |ROW_LETTERS|
      invariant 0 <= j <= |ROW_LETTERS|
      invariant rows == RowsOf(unsorted, ROW_LETTERS[..j])
    {
      assert ROW_LETTERS[..j + 1][..j] == ROW_LETTERS[..j];
      var letter := ROW_LETTERS[j];
      if letter in unsorted {
        var row := RowObjects(SortKeys(unsorted[letter]));
        rows := rows + [row];
      }
      j := j + 1;
    }
    assert ROW_LETTERS[..j] == ROW_LETTERS;
  }

  /** parse_rows. */
  method ParseRows(entries: seq<MapEntry>, check: IsoCheck) returns (r: Result<seq<seq<Json>>>)
    ensures r == RowsFromEntries(entries, check)
  {
    var unsorted := CollectEntries(entries, check);
    if unsorted.Err? {
      return Err(unsorted.error);
    }
    var rows := BuildRows(unsorted.value);
    return Ok(rows);
  }

  // ------------------------------------------------------------------ levels

  datatype Mode = Default | Latched | Locked

  datatype Level = Level(level: string, mode: Mode, rows: seq<seq<Json>>)

  /** One `keyMap` element: its modifiers attribute and its entries. */
  datatype KeyMap = KeyMap(modifiers: Option<string>, entries: seq<MapEntry>)

  /** The level name and mode guessed from a key map's modifiers. */
  function LevelName(modifiers: Option<string>): (string, Mode) {
    if modifiers.None? || modifiers.value == "" then ("", Default)
    else if "shift" in Split(modifiers.value, ' ') then ("shift", Latched)
    else (modifiers.value, Locked)
  }

  /** The level name alone tells the mode: no modifiers is the only way to
   *  the unnamed level, and a key map whose modifiers are exactly `shift`
   *  is latched, never locked. */
  lemma LevelNameDeterminesMode(a: Option<string>, b: Option<string>)
    requires LevelName(a).0 == LevelName(b).0
    ensures LevelName(a).1 == LevelName(b).1
  {
    ShiftAloneIsLatched();
  }

  lemma ShiftAloneIsLatched()
    ensures LevelName(Some("shift")) == ("shift", Latched)
  {
    SplitWithoutSeparator("shift", ' ');
  }

  /** Different modifier sets that mention `shift` share one level. */
  lemma ShiftLevelsMerge()
    ensures LevelName(Some("shift opt")) == LevelName(Some("shift"))
  {
    ShiftAloneIsLatched();
    var s := "shift opt";
    assert s[..5] == "shift";
    ShiftPrefix(s);
  }

  lemma ShiftPrefix(s: string)
    requires |s| >= 6 && s[..5] == "shift" && s[5] == ' '
    ensures "shift" in Split(s, ' ')
  {
    SplitKeepsEarlierFields(s[..6], s[6..]);
    assert s[..6] + s[6..] == s;
    var s6 := s[..6];
    assert s6[..5] == s[..5];
    SplitWithoutSeparator(s6[..5], ' ');
    assert Split(s6, ' ') == Split(s6[..5], ' ') + [""];
  }

  /** Appending text changes only the last field of a split. */
  lemma {:induction false} SplitKeepsEarlierFields(a: string, b: string)
    ensures |Split(a + b, ' ')| >= |Split(a, ' ')|
    ensures Split(a + b, ' ')[..|Split(a, ' ')| - 1] == Split(a, ' ')[..|Split(a, ' ')| - 1]
  {
    if |b| > 0 {
      var n := |b| - 1;
      assert (a + b)[..|a + b| - 1] == a + b[..n];
      SplitKeepsEarlierFields(a, b[..n]);
    } else {
      assert a + b == a;
    }
  }

  /** Whether the transform separator `-t-` starts at index `i` of `s`. */
  predicate TransformAt(s: string, i: int) {
    0 <= i && i + 3 <= |s| && s[i] == '-' && s[i + 1] == 't' && s[i + 2] == '-'
  }

  /** The text before the first `-t-`, as `partition("-t-")` gives it. */
  function BeforeTransform(s: string): (r: string)
    ensures r <= s
    ensures r == s || TransformAt(s, |r|)
    ensures forall i :: 0 <= i < |r| ==> !TransformAt(s, i)
  {
    if |s| < 3 then s
    else if TransformAt(s, 0) then ""
    else
      var rest := BeforeTransform(s[1..]);
      assert forall i :: 1 <= i <= |s| ==> (TransformAt(s, i) <==> TransformAt(s[1..], i - 1));
      [s[0]] + rest
  }

  /** The layout converted from one CLDR document. `locale` is `None` when
   *  the document has no `keyboard` element: the name then still refers to
   *  Python's `locale` module, which is what ends up in the result. */
  datatype Layout = Layout(locale: Option<string>, name: string, levels: seq<Level>)

  /** The level a key map becomes, or the error its rows raise. */
  function LevelOf(km: KeyMap): Result<Level> {
    var rows := RowsFromEntries(km.entries, PrefixMatch);
    if rows.Err? then Err(rows.error)
    else Ok(Level(LevelName(km.modifiers).0, LevelName(km.modifiers).1, rows.value))
  }

  /** The level loop of convert_xml. */
  method ConvertLevels(keyMaps: seq<KeyMap>) returns (r: Result<seq<Level>>)
    ensures r.Ok? <==> forall i :: 0 <= i < |keyMaps| ==> LevelOf(keyMaps[i]).Ok?
    ensures r.Ok? ==>
      |r.value| == |keyMaps| && forall i :: 0 <= i < |keyMaps| ==> r.value[i] == LevelOf(keyMaps[i]).value
  {
    var levels: seq<Level> := [];
    for i := 0 to |keyMaps|
      invariant |levels| == i
      invariant forall j :: 0 <= j < i ==> LevelOf(keyMaps[j]).Ok? && levels[j] == LevelOf(keyMaps[j]).value
    {
      var rows := ParseRows(keyMaps[i].entries, PrefixMatch);
      if rows.Err? {
        return Err(rows.error);
      }
      var (levelName, mode) := LevelName(keyMaps[i].modifiers);
      levels := levels + [Level(levelName, mode, rows.value)];
    }
    return Ok(levels);
  }

  /** convert_xml, over the `locale` attributes of the `keyboard` elements,
   *  the `value` attributes of the `name` elements and the key maps, each
   *  in document order. */
  method ConvertXml(keyboardLocales: seq<string>, names: seq<string>, keyMaps: seq<KeyMap>)
    returns (r: Result<Layout>)
    ensures r.Ok? <==> |names| >= 1 && forall i :: 0 <= i < |keyMaps| ==> LevelOf(keyMaps[i]).Ok?
    ensures r.Ok? ==>
      r.value.locale == (if |keyboardLocales| == 0 then None
                         else Some(BeforeTransform(keyboardLocales[|keyboardLocales| - 1])))
      && r.value.name == names[|names| - 1]
      && |r.value.levels| == |keyMaps|
      && forall i :: 0 <= i < |keyMaps| ==> r.value.levels[i] == LevelOf(keyMaps[i]).value
  {
    var locale: Option<string> := None;
    for i := 0 to |keyboardLocales|
      invariant locale == (if i == 0 then None else Some(BeforeTransform(keyboardLocales[i - 1])))
    {
      locale := Some(BeforeTransform(keyboardLocales[i]));
    }
    if |names| == 0 {
      return Err("name 'name' is not defined");
    }
    var name := names[0];
    for i := 1 to |names|
      invariant name == names[i - 1]
    {
      name := names[i];
    }
    var levels := ConvertLevels(keyMaps);
    if levels.Err? {
      return Err(levels.error);
    }
    return Ok(Layout(locale, name, levels.value));
  }

  // ----------------------------------------------------------- XKB mapping

  /** The locales whose layout is fixed by hand; `None` disables one. */
  const LOCALE_OVERRIDES: map<string, Option<string>> := map[
    "af" := Some("za"),
    "en" := Some("us"),
    "en-GB" := Some("uk"),
    "es-US" := Some("latam"),
    "fr-CA" := Some("ca"),
    "hi" := Some("in+bolnagri"),
    "ky" := Some("kg"),
    "nl-BE" := Some("be"),
    "zu" := None
  ]

  /** `strip('()')`: parentheses removed from both ends. */
  function StripParens(s: string): (r: string)
    ensures |r| <= |s|
    ensures |r| > 0 ==> r[0] != '(' && r[0] != ')' && r[|r| - 1] != '(' && r[|r| - 1] != ')'
  {
    if |s| > 0 && (s[0] == '(' || s[0] == ')') then StripParens(s[1..])
    else if |s| > 0 && (s[|s| - 1] == '(' || s[|s| - 1] == ')') then StripParens(s[..|s| - 1])
    else s
  }

  /** Stripping twice is stripping once. */
  lemma StripParensIdempotent(s: string)
    ensures StripParens(StripParens(s)) == StripParens(s)
  {
    var r := StripParens(s);
    if |r| > 0 {
      assert StripParens(r) == r;
    }
  }

  /** The layout of the first word of the name that is an XKB name. */
  function WordMatch(words: seq<string>, table: map<string, string>): (r: Option<string>)
    ensures r.None? <==> forall i :: 0 <= i < |words| ==> words[i] !in table
    ensures r.Some? ==> exists i :: 0 <= i < |words| && words[i] in table && r.value == table[words[i]]
  {
    if |words| == 0 then None
    else if words[0] in table then Some(table[words[0]])
    else
      var r := WordMatch(words[1..], table);
      assert forall i :: 1 <= i < |words| ==> words[i] == words[1..][i - 1];
      r
  }

  /** Whether a word of `xkbName`, stripped of parentheses, is `name`. */
  predicate HasStrippedWord(xkbName: string, name: string) {
    exists w :: w in Split(xkbName, ' ') && StripParens(w) == name
  }

  /** The first XKB name, in the given order, with a word that is `name`. */
  function XkbWordMatch(xkbNames: seq<string>, name: string): (r: Option<string>)
    ensures r.None? <==> forall i :: 0 <= i < |xkbNames| ==> !HasStrippedWord(xkbNames[i], name)
    ensures r.Some? ==> r.value in xkbNames && HasStrippedWord(r.value, name)
  {
    if |xkbNames| == 0 then None
    else if HasStrippedWord(xkbNames[0], name) then Some(xkbNames[0])
    else
      var r := XkbWordMatch(xkbNames[1..], name);
      assert forall i :: 1 <= i < |xkbNames| ==> xkbNames[i] == xkbNames[1..][i - 1];
      r
  }

  /** locale_to_xkb: the override, else the exact name, else a word of the
   *  name, else an XKB name with a word equal to the name. `locale` is
   *  `None` for the `locale` module (which is no key of the overrides),
   *  `table` maps XKB display names to layouts and `xkbNames` is its keys
   *  in sorted order. */
  function XkbLookup(locale: Option<string>, name: string, table: map<string, string>,
                     xkbNames: seq<string>): Result<string>
  {
    if locale.Some? && locale.value in LOCALE_OVERRIDES then
      var o := LOCALE_OVERRIDES[locale.value];
      if o.Some? then Ok(o.value) else Err("layout explicitly disabled in overrides")
    else if name in table then Ok(table[name])
    else
      var byWord := WordMatch(Split(name, ' '), table);
      if byWord.Some? then Ok(byWord.value)
      else
        var byXkbWord := XkbWordMatch(xkbNames, name);
        if byXkbWord.Some? && byXkbWord.value in table then Ok(table[byXkbWord.value])
        else Err("failed to find XKB mapping")
  }

  /** Overrides come first; otherwise the lookup fails exactly when neither
   *  the name, nor a word of it, nor a stripped word of an XKB name
   *  matches. */
  lemma XkbLookupFails(locale: Option<string>, name: string, table: map<string, string>,
                       xkbNames: seq<string>)
    requires forall n :: n in xkbNames <==> n in table
    ensures locale.Some? && locale.value in LOCALE_OVERRIDES ==>
      XkbLookup(locale, name, table, xkbNames) ==
        (if LOCALE_OVERRIDES[locale.value].Some? then Ok(LOCALE_OVERRIDES[locale.value].value)
         else Err("layout explicitly disabled in overrides"))
    ensures !(locale.Some? && locale.value in LOCALE_OVERRIDES) ==>
      (XkbLookup(locale, name, table, xkbNames).Err? <==>
        name !in table
        && (forall i :: 0 <= i < |Split(name, ' ')| ==> Split(name, ' ')[i] !in table)
        && forall n :: n in table ==> !HasStrippedWord(n, name))
  {
    if !(locale.Some? && locale.value in LOCALE_OVERRIDES) && name !in table
      && WordMatch(Split(name, ' '), table).None?
    {
      var m := XkbWordMatch(xkbNames, name);
      if m.None? {
        forall n | n in table ensures !HasStrippedWord(n, name) {
          var i :| 0 <= i < |xkbNames| && xkbNames[i] == n;
        }
      }
    }
  }

  /** The result is always one of the tables' layouts. */
  lemma XkbLookupFromTables(locale: Option<string>, name: string, table: map<string, string>,
                            xkbNames: seq<string>)
    ensures XkbLookup(locale, name, table, xkbNames).Ok? ==>
      XkbLookup(locale, name, table, xkbNames).value in table.Values
      || Some(XkbLookup(locale, name, table, xkbNames).value) in LOCALE_OVERRIDES.Values
  {
  }

  /** locale_to_xkb, with its loops. */
  method LocaleToXkb(locale: Option<string>, name: string, table: map<string, string>,
                     xkbNames: seq<string>) returns (r: Result<string>)
    requires forall n :: n in xkbNames <==> n in table
    ensures r == XkbLookup(locale, name, table, xkbNames)
  {
    if locale.Some? && locale.value in LOCALE_OVERRIDES {
      var o := LOCALE_OVERRIDES[locale.value];
      if o.Some? {
        return Ok(o.value);
      }
      return Err("layout explicitly disabled in overrides");
    }
    if name in xkbNames {
      return Ok(table[name]);
    }
    var byWord := FindWord(Split(name, ' '), table, xkbNames);
    if byWord.Some? {
      return Ok(byWord.value);
    }
    var byXkbWord := FindXkbWord(xkbNames, name);
    if byXkbWord.Some? {
      return Ok(table[byXkbWord.value]);
    }
    return Err("failed to find XKB mapping");
  }

  /** The loop over the words of the name: the layout of the first word that
   *  is an XKB name. */
  method FindWord(words: seq<string>, table: map<string, string>, xkbNames: seq<string>)
    returns (r: Option<string>)
    requires forall n :: n in xkbNames <==> n in table
    ensures r == WordMatch(words, table)
  {
    for i := 0 to |words|
      invariant WordMatch(words, table) == WordMatch(words[i..], table)
    {
      assert words[i..][1..] == words[i + 1..];
      if words[i] in xkbNames {
        return Some(table[words[i]]);
      }
    }
    return None;
  }

  /** The loop over the XKB names: the first one with a word that, stripped
   *  of parentheses, is the name. */
  method FindXkbWord(xkbNames: seq<string>, name: string) returns (r: Option<string>)
    ensures r == XkbWordMatch(xkbNames, name)
  {
    for i := 0 to |xkbNames|
      invariant XkbWordMatch(xkbNames, name) == XkbWordMatch(xkbNames[i..], name)
    {
      assert xkbNames[i..][1..] == xkbNames[i + 1..];
      var found := HasWord(xkbNames[i], name);
      if found {
        return Some(xkbNames[i]);
      }
    }
    return None;
  }

  /** The loop over the words of one XKB name. */
  method HasWord(xkbName: string, name: string) returns (found: bool)
    ensures found == HasStrippedWord(xkbName, name)
  {
    var subNames := Split(xkbName, ' ');
    for k := 0 to |subNames|
      invariant forall m :: 0 <= m < k ==> StripParens(subNames[m]) != name
    {
      if StripParens(subNames[k]) == name {
        assert subNames[k] in subNames;
        return true;
      }
    }
    return false;
  }

  // ------------------------------------------------------------- key objects

  /** create_char_key: a keyLabel hides the strings. */
  function CreateCharKey(strings: Option<seq<string>>, keyval: Option<string>, keyLabel: Option<string>,
                         iconName: Option<string>, width: Option<real>): (k: Json)
    ensures k.JObj?
    ensures "keyval" in k.fields <==> keyval.Some?
    ensures "label" in k.fields <==> keyLabel.Some?
    ensures "strings" in k.fields <==> keyLabel.None? && strings.Some?
    ensures "iconName" in k.fields <==> iconName.Some?
    ensures "width" in k.fields <==> width.Some?
    ensures "action" !in k.fields
  {
    var a := if keyval.Some? then map["keyval" := JStr(keyval.value)] else map[];
    var b := if keyLabel.Some? then a["label" := JStr(keyLabel.value)]
             else if strings.Some? then a["strings" := StringList(strings.value)]
             else a;
    var c := if iconName.Some? then b["iconName" := JStr(iconName.value)] else b;
    JObj(if width.Some? then c["width" := JNum(width.value)] else c)
  }

  function StringList(strings: seq<string>): Json {
    JList(seq(|strings|, i requires 0 <= i < |strings| => JStr(strings[i])))
  }

  /** create_action_key. */
  function CreateActionKey(action: string, level: Option<int>, keyLabel: Option<string>,
                           iconName: Option<string>, width: Option<real>): (k: Json)
    ensures k.JObj? && "action" in k.fields && k.fields["action"] == JStr(action)
    ensures "level" in k.fields <==> level.Some?
    ensures "label" in k.fields <==> keyLabel.Some?
    ensures "iconName" in k.fields <==> iconName.Some?
    ensures "width" in k.fields <==> width.Some?
    ensures "keyval" !in k.fields && "strings" !in k.fields
  {
    var a := map["action" := JStr(action)];
    var b := if level.Some? then a["level" := JNum(level.value as real)] else a;
    var c := if keyLabel.Some? then b["label" := JStr(keyLabel.value)] else b;
    var d := if iconName.Some? then c["iconName" := JStr(iconName.value)] else c;
    JObj(if width.Some? then d["width" := JNum(width.value)] else d)
  }

  /** create_modifier_key: the action is always `modifier`. */
  function CreateModifierKey(keyval: string, keyLabel: Option<string>, iconName: Option<string>,
                             width: Option<real>): (k: Json)
    ensures k.JObj? && "keyval" in k.fields && k.fields["keyval"] == JStr(keyval)
    ensures "action" in k.fields && k.fields["action"] == JStr("modifier")
    ensures "label" in k.fields <==> keyLabel.Some?
    ensures "iconName" in k.fields <==> iconName.Some?
    ensures "width" in k.fields <==> width.Some?
    ensures "strings" !in k.fields
  {
    var a := map["keyval" := JStr(keyval), "action" := JStr("modifier")];
    var b := if keyLabel.Some? then a["label" := JStr(keyLabel.value)] else a;
    var c := if iconName.Some? then b["iconName" := JStr(iconName.value)] else b;
    JObj(if width.Some? then c["width" := JNum(width.value)] else c)
  }

  /** The row of the terminal variant: Tab, Ctrl, Alt and the four arrows. */
  function TerminalRow(): seq<Json> {
    [
      CreateCharKey(None, Some("0xff09"), Some("Tab"), None, Some(2.0)),
      CreateModifierKey("0xffe3", Some("Ctrl"), None, Some(2.0)),
      CreateModifierKey("0xffe9", Some("Alt"), None, Some(2.0)),
      CreateCharKey(None, Some("0xff51"), None, Some("go-previous-symbolic"), Some(1.0)),
      CreateCharKey(None, Some("0xff52"), None, Some("go-up-symbolic"), Some(1.0)),
      CreateCharKey(None, Some("0xff54"), None, Some("go-down-symbolic"), Some(1.0)),
      CreateCharKey(None, Some("0xff53"), None, Some("go-next-symbolic"), Some(1.0))
    ]
  }

  /** The terminal row has seven keys, each with a key value; exactly the
   *  second and third are modifiers, and none types a string. */
  lemma TerminalRowKeys()
    ensures |TerminalRow()| == 7
    ensures forall i :: 0 <= i < 7 ==>
      TerminalRow()[i].JObj? && "keyval" in TerminalRow()[i].fields
      && "strings" !in TerminalRow()[i].fields
      && ("action" in TerminalRow()[i].fields <==> i == 1 || i == 2)
  {
  }

  // --------------------------------------------------------------- layers

  /** The index of the first level named `layer`, or the number of levels. */
  function FirstLevel(levels: seq<Level>, layer: string): (i: nat)
    ensures i <= |levels|
    ensures i < |levels| ==> levels[i].level == layer
    ensures forall j :: 0 <= j < i ==> levels[j].level != layer
  {
    if |levels| == 0 then 0
    else if levels[0].level == layer then 0
    else
      var i := 1 + FirstLevel(levels[1..], layer);
      assert forall j :: 1 <= j < |levels| ==> levels[j] == levels[1..][j - 1];
      i
  }

  /** Which level comes first under a name depends only on the names. */
  lemma {:induction false} FirstLevelByNames(a: seq<Level>, b: seq<Level>, layer: string)
    requires |a| == |b| && forall i :: 0 <= i < |a| ==> a[i].level == b[i].level
    ensures FirstLevel(a, layer) == FirstLevel(b, layer)
  {
    if |a| > 0 && a[0].level != layer {
      FirstLevelByNames(a[1..], b[1..], layer);
    }
  }

  /** find_layer. */
  method FindLayer(root: Layout, layer: string) returns (r: Option<Level>)
    ensures r.None? <==> forall i :: 0 <= i < |root.levels| ==> root.levels[i].level != layer
    ensures r.Some? ==> r.value == root.levels[FirstLevel(root.levels, layer)]
  {
    for i := 0 to |root.levels|
      invariant forall j :: 0 <= j < i ==> root.levels[j].level != layer
    {
      if root.levels[i].level == layer {
        return Some(root.levels[i]);
      }
    }
    return None;
  }

  /** create_mobile_terminal: the terminal row goes on top of every level. */
  method CreateMobileTerminal(root: Layout) returns (r: Layout)
    ensures r.locale == root.locale && r.name == root.name
    ensures |r.levels| == |root.levels|
    ensures forall i :: 0 <= i < |r.levels| ==>
      r.levels[i] == root.levels[i].(rows := [TerminalRow()] + root.levels[i].rows)
  {
    var terminalRow := TerminalRow();
    var levels := root.levels;
    for i := 0 to |levels|
      invariant |levels| == |root.levels|
      invariant forall j :: 0 <= j < i ==> levels[j] == root.levels[j].(rows := [terminalRow] + root.levels[j].rows)
      invariant forall j :: i <= j < |levels| ==> levels[j] == root.levels[j]
    {
      levels := levels[i := levels[i].(rows := [terminalRow] + levels[i].rows)];
    }
    return root.(levels := levels);
  }

  /** The terminal variant finds the same layers as the layout it extends. */
  lemma TerminalKeepsLayers(root: Layout, terminal: Layout, layer: string)
    requires |terminal.levels| == |root.levels|
    requires forall i :: 0 <= i < |root.levels| ==>
      terminal.levels[i] == root.levels[i].(rows := [TerminalRow()] + root.levels[i].rows)
    ensures FirstLevel(terminal.levels, layer) == FirstLevel(root.levels, layer)
  {
    FirstLevelByNames(terminal.levels, root.levels, layer);
  }
}

=== FILE: common.dfy ===
/** Shared vocabulary: optional values, error returns, and the JavaScript
 *  number helpers (Math.floor/ceil/round/abs/min/max/sign and the truncating
 *  integer remainder) used by every module that models a JavaScript file. */
module Common {

  /** A value that may be absent: JavaScript `null`/`undefined`, a C NULL pointer. */
  datatype Option<T> = None | Some(value: T)

  /** The outcome of an operation that may throw (JavaScript `throw`, a Python exception). */
  datatype Result<T> = Ok(value: T) | Err(error: string)

  /** Math.floor */
  function Floor(x: real): (r: int)
    ensures r as real <= x < r as real + 1.0
  {
    x.Floor
  }

  /** Math.ceil */
  function Ceil(x: real): (r: int)
    ensures r as real - 1.0 < x <= r as real
  {
    -((-x).Floor)
  }

  /** Math.round: the nearest integer, halves rounded up. */
  function Round(x: real): (r: int)
    ensures x - 0.5 < r as real <= x + 0.5
  {
    (x + 0.5).Floor
  }

  function Abs(x: real): (r: real)
    ensures r >= 0.0 && (r == x || r == -x)
  {
    if x < 0.0 then -x else x
  }

  function Min(a: real, b: real): (r: real)
    ensures r <= a && r <= b && (r == a || r == b)
  {
    if a <= b then a else b
  }

  function Max(a: real, b: real): (r: real)
    ensures r >= a && r >= b && (r == a || r == b)
  {
    if a >= b then a else b
  }

  /** Math.sign (NaN aside). */
  function Sign(x: real): (r: real)
    ensures (x > 0.0 ==> r == 1.0) && (x < 0.0 ==> r == -1.0) && (x == 0.0 ==> r == 0.0)
  {
    if x > 0.0 then 1.0 else if x < 0.0 then -1.0 else 0.0
  }

  /** The `Math.clamp(x, lower, upper)` GNOME Shell installs: min(max(x, lower), upper). */
  function Clamp(x: real, lower: real, upper: real): (r: real)
    ensures r <= upper
    ensures lower <= upper ==> lower <= r
    ensures lower <= x <= upper ==> r == x
  {
    Min(Max(x, lower), upper)
  }

  /** Clamping a clamped value changes nothing. */
  lemma ClampIdempotent(x: real, lower: real, upper: real)
    ensures Clamp(Clamp(x, lower, upper), lower, upper) == Clamp(x, lower, upper)
  {
  }

  /** JavaScript `a % b` on integers: the remainder keeps the sign of the dividend. */
  function JsRem(a: int, b: int): (r: int)
    requires b != 0
    ensures a >= 0 ==> r == a % b
    ensures a < 0 ==> r == -((-a) % b)
  {
    if a >= 0 then a % b else -((-a) % b)
  }

  /** JavaScript `Math.floor(a / b)` on integers with a positive divisor. */
  function FloorDiv(a: int, b: int): (r: int)
    requires b > 0
    ensures r * b <= a < r * b + b
  {
    a / b
  }

  lemma {:induction false} MulAtLeast(d: int, k: int)
    requires d >= 1 && k >= 1
    ensures d * k >= k
  {
    if d > 1 {
      MulAtLeast(d - 1, k);
      assert d * k == (d - 1) * k + k;
    }
  }

  /** Quotient and remainder are the only pair with `a == q * k + r`, `0 <= r < k`. */
  lemma DivModUnique(a: int, k: int, q: int, r: int)
    requires k >= 1 && 0 <= r < k && a == q * k + r
    ensures a / k == q && a % k == r
  {
    var q', r' := a / k, a % k;
    assert a == q' * k + r';
    assert (q - q') * k == r' - r;
    if q > q' {
      MulAtLeast(q - q', k);
    } else if q < q' {
      MulAtLeast(q' - q, k);
    }
  }

  /** Util.lerp(start, end, progress), the linear interpolation of misc/util.js. */
  function Lerp(start: real, end: real, progress: real): (r: real)
    ensures progress == 0.0 ==> r == start
    ensures progress == 1.0 ==> r == end
  {
    start + progress * (end - start)
  }

  /** Between progress 0 and 1 the interpolation stays between its ends. */
  lemma LerpBetween(start: real, end: real, progress: real)
    requires 0.0 <= progress <= 1.0
    ensures Min(start, end) <= Lerp(start, end, progress) <= Max(start, end)
  {
    OffsetBetween(start, end - start, progress);
    assert start + (end - start) == end;
  }

  /** A fraction of the gap `d`, added to `start`, stays between `start`
   *  and `start + d`. */
  lemma OffsetBetween(start: real, d: real, t: real)
    requires 0.0 <= t <= 1.0
    ensures Min(start, start + d) <= start + t * d <= Max(start, start + d)
  {
    ScaleWithinUnit(t, d);
  }

  /** Multiplying by a non-negative factor keeps an order. */
  lemma MulLe(a: real, b: real, c: real)
    requires a <= b && c >= 0.0
    ensures a * c <= b * c
  {
  }

  /** A fraction in [0, 1] of d lies between 0 and d. */
  lemma ScaleWithinUnit(t: real, d: real)
    ensures 0.0 <= t <= 1.0 && d >= 0.0 ==> 0.0 <= t * d <= d
    ensures 0.0 <= t <= 1.0 && d < 0.0 ==> d <= t * d <= 0.0
  {
    if t < 0.0 || t > 1.0 {
      return;
    }
    if d >= 0.0 {
      MulLe(0.0, t, d);
      MulLe(t, 1.0, d);
    } else {
      MulLe(0.0, t, -d);
      MulLe(t, 1.0, -d);
      assert t * d == -(t * (-d));
    }
  }

  /** Splitting at every separator (JavaScript `split(sep)`, Python
   *  `split(sep)`): empty fields are kept. */
  function Split(s: string, sep: char): (r: seq<string>)
    ensures |r| >= 1
    ensures forall i :: 0 <= i < |r| ==> sep !in r[i]
  {
    if |s| == 0 then [""]
    else
      var n := |s| - 1;
      var before := Split(s[..n], sep);
      if s[n] == sep then before + [""]
      else before[..|before| - 1] + [before[|before| - 1] + [s[n]]]
  }

  /** Text without the separator is a single field. */
  lemma {:induction false} SplitWithoutSeparator(s: string, sep: char)
    requires sep !in s
    ensures Split(s, sep) == [s]
  {
    if |s| > 0 {
      var n := |s| - 1;
      assert sep !in s[..n] by {
        forall i | 0 <= i < n ensures s[..n][i] != sep {
          assert s[..n][i] == s[i];
        }
      }
      SplitWithoutSeparator(s[..n], sep);
      assert s[..n] + [s[n]] == s;
    }
  }

  /** Joining with the separator, the inverse of `Split`. */
  function Join(parts: seq<string>, sep: char): string
    requires |parts| >= 1
  {
    if |parts| == 1 then parts[0]
    else Join(parts[..|parts| - 1], sep) + [sep] + parts[|parts| - 1]
  }

  lemma {:induction false} JoinSplit(s: string, sep: char)
    ensures Join(Split(s, sep), sep) == s
  {
    if |s| > 0 {
      var n := |s| - 1;
      var before := Split(s[..n], sep);
      JoinSplit(s[..n], sep);
      assert s == s[..n] + [s[n]];
      if s[n] == sep {
        assert Split(s, sep) == before + [""];
        assert (before + [""])[..|before|] == before;
      } else {
        assert Split(s, sep) == before[..|before| - 1] + [before[|before| - 1] + [s[n]]];
        JoinExtendLast(before, s[n], sep);
      }
    }
  }

  /** Adding a character to the last field adds it to the end of the join. */
  lemma JoinExtendLast(parts: seq<string>, c: char, sep: char)
    requires |parts| >= 1
    ensures Join(parts[..|parts| - 1] + [parts[|parts| - 1] + [c]], sep) == Join(parts, sep) + [c]
  {
    var m := |parts| - 1;
    var r := parts[..m] + [parts[m] + [c]];
    assert r[..m] == parts[..m];
    if m > 0 {
      assert parts[..m + 1][..m] == parts[..m];
    }
  }

  /** A non-empty set has a member to pick. */
  lemma NonEmptyHasMember(s: set<int>)
    requires s != {}
    ensures exists x :: x in s
  {
    if forall x :: x !in s {
      assert false;
    }
  }
}

=== FILE: dnd.dfy ===
/**
 * Drag and drop (js/ui/dnd.js): the global list of drag monitors, the
 * real scale of an actor, the drag gesture's start threshold, and the
 * dispatch of hover and drop to the monitors and then to the target's
 * ancestors. What a monitor or a drop target answers is code outside this
 * model, so each answer is an input, listed in call order.
 */
module Dnd {
  import opened Common

  // ---------------------------------------------------------------------
  // Drag monitors
  // ---------------------------------------------------------------------

  /** The list without the first entry equal to `m`. */
  function RemoveFirst(s: seq<int>, m: int): (r: seq<int>)
    ensures m !in s ==> r == s
    ensures m in s ==> |r| == |s| - 1
    ensures multiset(r) == multiset(s) - multiset{m}
  {
    if |s| == 0 then []
    else if s[0] == m then
      assert s == [s[0]] + s[1..];
      s[1..]
    else
      assert s == [s[0]] + s[1..];
      [s[0]] + RemoveFirst(s[1..], m)
  }

  /** RemoveFirst cuts the list at the first occurrence. */
  lemma {:induction false} RemoveFirstAt(s: seq<int>, m: int, i: int)
    requires 0 <= i < |s| && s[i] == m && m !in s[..i]
    ensures RemoveFirst(s, m) == s[..i] + s[i + 1..]
  {
    if i > 0 {
      NotInTail(s, m, i);
      RemoveFirstAt(s[1..], m, i - 1);
      RemoveFirstPast(s, m);
      SpliceCons(s, i);
    }
  }

  lemma NotInTail(s: seq<int>, m: int, i: int)
    requires 0 < i <= |s| && m !in s[..i]
    ensures s[0] != m && m !in s[1..][..i - 1]
  {
    assert s[0] in s[..i];
    assert s[1..][..i - 1] == s[..i][1..];
  }

  lemma RemoveFirstPast(s: seq<int>, m: int)
    requires |s| > 0 && s[0] != m
    ensures RemoveFirst(s, m) == [s[0]] + RemoveFirst(s[1..], m)
  {
  }

  lemma SpliceCons(s: seq<int>, i: int)
    requires 0 < i < |s|
    ensures [s[0]] + (s[1..][..i - 1] + s[1..][i..]) == s[..i] + s[i + 1..]
  {
    assert s[1..][..i - 1] == s[1..i] && s[1..][i..] == s[i + 1..];
    assert s[..i] == [s[0]] + s[1..i];
  }

  /** Removing a monitor just added, when it was not yet present, gives
   *  the list back. */
  lemma {:induction false} RemoveUndoesAdd(s: seq<int>, m: int)
    requires m !in s
    ensures RemoveFirst(s + [m], m) == s
  {
    assert (s + [m])[..|s|] == s;
    RemoveFirstAt(s + [m], m, |s|);
  }

  /** The module-level `dragMonitors` array; a monitor is identified by
   *  its object identity. */
  class DragMonitors {
    var monitors: seq<int>

    constructor()
      ensures monitors == []
    {
      monitors := [];
    }

    /** `addDragMonitor`. */
    method Add(monitor: int)
      modifies this
      ensures monitors == old(monitors) + [monitor]
    {
      monitors := monitors + [monitor];
    }

    /** `removeDragMonitor`: the first identical entry goes; an absent
     *  monitor leaves the list alone. */
    method Remove(monitor: int)
      modifies this
      ensures monitors == RemoveFirst(old(monitors), monitor)
    {
      var i := 0;
      while i < |monitors|
        invariant 0 <= i <= |monitors|
        invariant monitors == old(monitors)
        invariant monitor !in monitors[..i]
      {
        if monitors[i] == monitor {
          RemoveFirstAt(monitors, monitor, i);
          monitors := monitors[..i] + monitors[i + 1..];
          return;
        }
        assert monitors[..i + 1] == monitors[..i] + [monitors[i]];
        i := i + 1;
      }
      assert monitors[..i] == monitors;
    }
  }

  // ---------------------------------------------------------------------
  // The real scale of an actor
  // ---------------------------------------------------------------------

  /** The product of the scales, the actor's own first and the stage's
   *  last. */
  function Product(scales: seq<real>): real {
    if |scales| == 0 then 1.0 else Product(scales[..|scales| - 1]) * scales[|scales| - 1]
  }

  /** `_getRealActorScale`: `chain` holds scale_x of the actor and of each
   *  ancestor in turn. */
  method RealActorScale(chain: seq<real>) returns (scale: real)
    ensures scale == Product(chain)
  {
    scale := 1.0;
    var i := 0;
    while i < |chain|
      invariant 0 <= i <= |chain|
      invariant scale == Product(chain[..i])
    {
      assert chain[..i + 1][..i] == chain[..i];
      scale := scale * chain[i];
      i := i + 1;
    }
    assert chain[..i] == chain;
  }

  /** The real scale of an actor is its own scale times that of its
   *  parent chain. */
  lemma {:induction false} ProductConcat(a: seq<real>, b: seq<real>)
    ensures Product(a + b) == Product(a) * Product(b)
    decreases |b|
  {
    if |b| == 0 {
      assert a + b == a;
    } else {
      var b' := b[..|b| - 1];
      assert (a + b)[..|a + b| - 1] == a + b';
      ProductConcat(a, b');
    }
  }

  /** Positive scales along the chain give a positive real scale, and a
   *  chain of unscaled actors has scale 1. */
  lemma {:induction false} ProductPositive(chain: seq<real>)
    requires forall i :: 0 <= i < |chain| ==> chain[i] > 0.0
    ensures Product(chain) > 0.0
    ensures (forall i :: 0 <= i < |chain| ==> chain[i] == 1.0) ==> Product(chain) == 1.0
  {
    if |chain| > 0 {
      ProductPositive(chain[..|chain| - 1]);
    }
  }

  // ---------------------------------------------------------------------
  // Hover and drop dispatch
  // ---------------------------------------------------------------------

  /** DragMotionResult. */
  datatype MotionResult = NoDrop | CopyDrop | MoveDrop | Continue

  /** DragDropResult. */
  datatype DropResult = Failure | Success | DropContinue

  /** The cursors the drag sets. */
  datatype Cursor = DndUnsupportedTarget | DndCopy | DndMove | DndInDrag | DefaultCursor

  /** DRAG_CURSOR_MAP. */
  function CursorFor(r: MotionResult): (c: Cursor)
    requires r != Continue
    ensures c != DndInDrag && c != DefaultCursor
  {
    match r
    case NoDrop => DndUnsupportedTarget
    case CopyDrop => DndCopy
    case MoveDrop => DndMove
  }

  /** An answer that decides the hover: a handler exists (Some) and did
   *  not say CONTINUE. */
  predicate Decisive(o: Option<MotionResult>) {
    o.Some? && o.value != Continue
  }

  /** The first decisive answer, or -1. */
  function FirstDecisive(rs: seq<Option<MotionResult>>): (i: int)
    ensures -1 <= i < |rs|
    ensures i >= 0 ==> Decisive(rs[i])
    ensures forall j :: 0 <= j < |rs| && (i == -1 || j < i) ==> !Decisive(rs[j])
  {
    if |rs| == 0 then -1
    else if Decisive(rs[0]) then 0
    else
      var k := FirstDecisive(rs[1..]);
      if k == -1 then -1 else k + 1
  }

  /** The cursor `_updateDragHover` leaves set: the monitors' answers
   *  (None where a monitor has no dragMotion) come first, then the
   *  answers of the target and its ancestors (None where there is no
   *  handleDragOver). */
  function HoverCursor(monitors: seq<Option<MotionResult>>, targets: seq<Option<MotionResult>>): Cursor {
    var i := FirstDecisive(monitors);
    if i >= 0 then CursorFor(monitors[i].value)
    else
      var j := FirstDecisive(targets);
      if j >= 0 then CursorFor(targets[j].value) else DndInDrag
  }

  /** A decisive monitor settles the hover whatever the targets say. */
  lemma MonitorsDecideFirst(monitors: seq<Option<MotionResult>>, targets: seq<Option<MotionResult>>, others: seq<Option<MotionResult>>)
    requires exists i :: 0 <= i < |monitors| && Decisive(monitors[i])
    ensures HoverCursor(monitors, targets) == HoverCursor(monitors, others)
  {
  }

  /** The in-drag cursor is left exactly when nobody decides. */
  lemma InDragWhenUndecided(monitors: seq<Option<MotionResult>>, targets: seq<Option<MotionResult>>)
    ensures HoverCursor(monitors, targets) == DndInDrag <==>
      (forall i :: 0 <= i < |monitors| ==> !Decisive(monitors[i]))
      && (forall j :: 0 <= j < |targets| ==> !Decisive(targets[j]))
  {
    var i := FirstDecisive(monitors);
    if i >= 0 {
      assert HoverCursor(monitors, targets) == CursorFor(monitors[i].value);
    } else {
      var j := FirstDecisive(targets);
      if j >= 0 {
        assert HoverCursor(monitors, targets) == CursorFor(targets[j].value);
      }
    }
  }

  predicate DropDecisive(o: Option<DropResult>) {
    o.Some? && o.value != DropContinue
  }

  function FirstDropDecisive(ds: seq<Option<DropResult>>): (i: int)
    ensures -1 <= i < |ds|
    ensures i >= 0 ==> DropDecisive(ds[i])
    ensures forall j :: 0 <= j < |ds| && (i == -1 || j < i) ==> !DropDecisive(ds[j])
  {
    if |ds| == 0 then -1
    else if DropDecisive(ds[0]) then 0
    else
      var k := FirstDropDecisive(ds[1..]);
      if k == -1 then -1 else k + 1
  }

  /** The first target whose acceptDrop returned true, or -1. A target
   *  without acceptDrop is None, and one whose acceptDrop throws is
   *  skipped, as Some(false). */
  function FirstAccepting(accepts: seq<Option<bool>>): (i: int)
    ensures -1 <= i < |accepts|
    ensures i >= 0 ==> accepts[i] == Some(true)
    ensures forall j :: 0 <= j < |accepts| && (i == -1 || j < i) ==> accepts[j] != Some(true)
  {
    if |accepts| == 0 then -1
    else if accepts[0] == Some(true) then 0
    else
      var k := FirstAccepting(accepts[1..]);
      if k == -1 then -1 else k + 1
  }

  /** How `_dragActorDropped` ends. */
  datatype DropOutcome =
    | MonitorFailed(monitor: nat)
    | MonitorSucceeded(monitor: nat)
    | Accepted(target: nat)
    | NoTarget

  /** The drop's outcome: monitors in order, then the target and its
   *  ancestors in order. */
  function DropDecision(drops: seq<Option<DropResult>>, accepts: seq<Option<bool>>): (r: DropOutcome)
    ensures r.MonitorFailed? ==> (r.monitor < |drops| && drops[r.monitor] == Some(Failure)
      && forall j :: 0 <= j < r.monitor ==> !DropDecisive(drops[j]))
    ensures r.MonitorSucceeded? ==> (r.monitor < |drops| && drops[r.monitor] == Some(Success)
      && forall j :: 0 <= j < r.monitor ==> !DropDecisive(drops[j]))
    ensures r.Accepted? ==> (r.target < |accepts| && accepts[r.target] == Some(true)
      && (forall j :: 0 <= j < r.target ==> accepts[j] != Some(true))
      && (forall i :: 0 <= i < |drops| ==> !DropDecisive(drops[i])))
    ensures r.NoTarget? <==>
      (forall i :: 0 <= i < |drops| ==> !DropDecisive(drops[i]))
      && (forall j :: 0 <= j < |accepts| ==> accepts[j] != Some(true))
  {
    var i := FirstDropDecisive(drops);
    if i >= 0 then
      (if drops[i].value == Failure then MonitorFailed(i) else MonitorSucceeded(i))
    else
      var j := FirstAccepting(accepts);
      if j >= 0 then Accepted(j) else NoTarget
  }

  // ---------------------------------------------------------------------
  // The drag gesture
  // ---------------------------------------------------------------------

  /** Clutter.GestureState. */
  datatype GestureState = Waiting | Possible | Recognizing | Recognized | Completed | Cancelled

  /** A touch or pointer point: where it began, where it is now, the time
   *  of its event and whether its device is a pointer or a touchpad. */
  datatype Point = Point(beginX: real, beginY: real, latestX: real, latestY: real, eventTime: int, pointerOrTouchpad: bool)

  /** The parameters of `DndGesture`'s `_init`. */
  datatype DndParams = DndParams(manualMode: bool, timeoutThreshold: int, restoreOnSuccess: bool)

  /** The signals the gesture emits. */
  datatype DndSignal = DragBegin(time: int) | DragEnd(time: int, success: bool)

  /** Whether a point has moved further than the threshold on some axis. */
  predicate BeyondThreshold(p: Point, startX: real, startY: real, threshold: real) {
    Abs(p.latestX - startX) > threshold || Abs(p.latestY - startY) > threshold
  }

  class DndGesture {
    /** The field `vfunc_points_began`/`_moved` read as `this._manualMode`. */
    const manualMode: bool
    const timeoutThreshold: int
    const restoreOnSuccess: bool
    var state: GestureState
    var dragCancellable: bool
    var dragThresholdIgnored: bool
    var dragStartX: real
    var dragStartY: real
    var dragStartTime: int
    var dragX: real
    var dragY: real
    /** Whether a hover update is queued (a non-zero `_updateHoverId`). */
    var hoverQueued: bool
    /** The last cursor the gesture set. */
    var cursor: Cursor
    var signals: seq<DndSignal>

    /** `_init`, storing `manualMode` as the documented behaviour needs. */
    constructor(params: DndParams)
      ensures manualMode == params.manualMode
      ensures timeoutThreshold == params.timeoutThreshold && restoreOnSuccess == params.restoreOnSuccess
      ensures state == Waiting && dragCancellable && !dragThresholdIgnored && !hoverQueued && signals == []
    {
      manualMode := params.manualMode;
      timeoutThreshold := params.timeoutThreshold;
      restoreOnSuccess := params.restoreOnSuccess;
      state := Waiting;
      dragCancellable := true;
      dragThresholdIgnored := false;
      dragStartX, dragStartY, dragStartTime := 0.0, 0.0, 0;
      dragX, dragY := 0.0, 0.0;
      hoverQueued := false;
      cursor := DefaultCursor;
      signals := [];
    }

    /** `_init` as written: `manualMode` is parsed but never stored, so
     *  `this._manualMode` reads `undefined`, which is falsy. */
    constructor AsWritten(params: DndParams)
      ensures !manualMode
      ensures timeoutThreshold == params.timeoutThreshold && restoreOnSuccess == params.restoreOnSuccess
      ensures state == Waiting && dragCancellable && !dragThresholdIgnored && !hoverQueued && signals == []
    {
      manualMode := false;
      timeoutThreshold := params.timeoutThreshold;
      restoreOnSuccess := params.restoreOnSuccess;
      state := Waiting;
      dragCancellable := true;
      dragThresholdIgnored := false;
      dragStartX, dragStartY, dragStartTime := 0.0, 0.0, 0;
      dragX, dragY := 0.0, 0.0;
      hoverQueued := false;
      cursor := DefaultCursor;
      signals := [];
    }

    /** `startDrag`: with exactly one point, a POSSIBLE gesture becomes
     *  RECOGNIZING; `_gestureRecognizing` then emits 'drag-begin', sets
     *  the in-drag cursor and starts the drag at the press. */
    method StartDrag(pointCount: int, press: Point)
      modifies this
      ensures pointCount == 1 && old(state) == Possible ==>
        state == Recognizing && signals == old(signals) + [DragBegin(press.eventTime)]
        && cursor == DndInDrag
        && dragX == dragStartX == press.beginX && dragY == dragStartY == press.beginY
      ensures !(pointCount == 1 && old(state) == Possible) ==>
        state == old(state) && signals == old(signals) && cursor == old(cursor)
        && dragX == old(dragX) && dragY == old(dragY)
        && dragStartX == old(dragStartX) && dragStartY == old(dragStartY)
      ensures dragCancellable == old(dragCancellable) && dragThresholdIgnored == old(dragThresholdIgnored)
      ensures dragStartTime == old(dragStartTime) && hoverQueued == old(hoverQueued)
    {
      if pointCount != 1 {
        return;
      }
      if state == Possible {
        state := Recognizing;
        signals := signals + [DragBegin(press.eventTime)];
        cursor := DndInDrag;
        dragStartX, dragStartY := press.beginX, press.beginY;
        dragX, dragY := press.beginX, press.beginY;
      }
    }

    /** `_maybeStartDrag`: `threshold` is the drag threshold times the
     *  scale factor. Beyond it, a pointer or touchpad starts the drag at
     *  once; a touch starts it only after the timeout threshold, and a
     *  touch too early ignores the threshold until the next press. */
    method MaybeStartDrag(p: Point, pointCount: int, threshold: real)
      modifies this
      ensures old(dragThresholdIgnored) || !BeyondThreshold(p, old(dragStartX), old(dragStartY), threshold) ==>
        state == old(state) && dragThresholdIgnored == old(dragThresholdIgnored)
        && dragX == old(dragX) && dragY == old(dragY) && signals == old(signals) && hoverQueued == old(hoverQueued)
        && dragStartX == old(dragStartX) && dragStartY == old(dragStartY)
      ensures state == Recognizing && old(state) != Recognizing ==>
        !old(dragThresholdIgnored) && BeyondThreshold(p, old(dragStartX), old(dragStartY), threshold)
        && (p.pointerOrTouchpad || p.eventTime - dragStartTime > timeoutThreshold)
        && pointCount == 1 && old(state) == Possible
      ensures dragThresholdIgnored <==>
        old(dragThresholdIgnored)
        || (BeyondThreshold(p, old(dragStartX), old(dragStartY), threshold)
            && !p.pointerOrTouchpad && p.eventTime - dragStartTime <= timeoutThreshold)
      ensures (!old(dragThresholdIgnored) && BeyondThreshold(p, old(dragStartX), old(dragStartY), threshold)
        && (p.pointerOrTouchpad || p.eventTime - dragStartTime > timeoutThreshold)) ==>
        dragX == p.latestX && dragY == p.latestY && hoverQueued
        && (pointCount == 1 && old(state) == Possible ==> state == Recognizing)
      ensures state == old(state) || state == Recognizing
      ensures dragCancellable == old(dragCancellable) && dragStartTime == old(dragStartTime)
    {
      if dragThresholdIgnored {
        return;
      }
      if Abs(p.latestX - dragStartX) > threshold || Abs(p.latestY - dragStartY) > threshold {
        var elapsed := p.eventTime - dragStartTime;
        if p.pointerOrTouchpad || elapsed > timeoutThreshold {
          StartDrag(pointCount, p);
          UpdateDragPosition(p);
        } else {
          dragThresholdIgnored := true;
        }
      }
    }

    /** `_updateDragPosition`: follows the point and queues a hover
     *  update. */
    method UpdateDragPosition(p: Point)
      modifies this
      ensures dragX == p.latestX && dragY == p.latestY && hoverQueued
      ensures state == old(state) && signals == old(signals) && cursor == old(cursor)
      ensures dragThresholdIgnored == old(dragThresholdIgnored) && dragCancellable == old(dragCancellable)
      ensures dragStartX == old(dragStartX) && dragStartY == old(dragStartY) && dragStartTime == old(dragStartTime)
    {
      dragX, dragY := p.latestX, p.latestY;
      hoverQueued := true;
    }

    /** `vfunc_points_began`: a second point cancels; otherwise the press
     *  is recorded, the threshold is honoured again, and outside manual
     *  mode a POSSIBLE gesture may start. */
    method PointsBegan(p: Point, pointCount: int, threshold: real)
      modifies this
      ensures pointCount > 1 ==> (state == Cancelled && signals == old(signals)
        && dragThresholdIgnored == old(dragThresholdIgnored))
      ensures pointCount <= 1 ==>
        dragStartTime == p.eventTime
        && (state == Recognizing || !dragThresholdIgnored || (BeyondThreshold(p, p.beginX, p.beginY, threshold) && !p.pointerOrTouchpad))
      ensures pointCount <= 1 && (manualMode || old(state) != Possible || !BeyondThreshold(p, p.beginX, p.beginY, threshold)) ==>
        state == old(state) && signals == old(signals)
        && !dragThresholdIgnored && dragStartX == p.beginX && dragStartY == p.beginY
      ensures manualMode ==> state == old(state) || state == Cancelled
      ensures dragCancellable == old(dragCancellable)
    {
      if pointCount > 1 {
        state := Cancelled;
        return;
      }
      dragStartTime := p.eventTime;
      dragThresholdIgnored := false;
      dragStartX := p.beginX;
      dragStartY := p.beginY;
      if !manualMode && state == Possible {
        MaybeStartDrag(p, pointCount, threshold);
      }
    }

    /** `vfunc_points_moved`: outside manual mode a POSSIBLE gesture may
     *  start; a recognizing one follows the point. */
    method PointsMoved(p: Point, pointCount: int, threshold: real)
      modifies this
      ensures manualMode ==> state == old(state)
      ensures state == Recognizing ==> dragX == p.latestX && dragY == p.latestY && hoverQueued
      ensures old(state) != Possible || manualMode ==> state == old(state) && signals == old(signals)
      ensures state == old(state) || (old(state) == Possible && state == Recognizing)
      ensures (!manualMode && old(state) == Possible && !old(dragThresholdIgnored) && pointCount == 1
        && BeyondThreshold(p, old(dragStartX), old(dragStartY), threshold)
        && (p.pointerOrTouchpad || p.eventTime - dragStartTime > timeoutThreshold)) ==> state == Recognizing
      ensures dragCancellable == old(dragCancellable) && dragStartTime == old(dragStartTime)
    {
      if !manualMode && state == Possible {
        MaybeStartDrag(p, pointCount, threshold);
      }
      if state == Recognizing {
        UpdateDragPosition(p);
      }
    }

    /** `_updateDragHover`: the cursor is set by the first decisive monitor,
     *  else by the first decisive target, else to the in-drag cursor. */
    method UpdateDragHover(monitors: seq<Option<MotionResult>>, targets: seq<Option<MotionResult>>)
      modifies this
      ensures cursor == HoverCursor(monitors, targets)
      ensures !hoverQueued
      ensures state == old(state) && signals == old(signals) && dragX == old(dragX) && dragY == old(dragY)
      ensures dragCancellable == old(dragCancellable) && dragThresholdIgnored == old(dragThresholdIgnored)
    {
      hoverQueued := false;
      var i := 0;
      while i < |monitors|
        invariant 0 <= i <= |monitors|
        invariant forall j :: 0 <= j < i ==> !Decisive(monitors[j])
      {
        if monitors[i].Some? && monitors[i].value != Continue {
          cursor := CursorFor(monitors[i].value);
          return;
        }
        i := i + 1;
      }
      var k := 0;
      while k < |targets|
        invariant 0 <= k <= |targets|
        invariant forall j :: 0 <= j < k ==> !Decisive(targets[j])
      {
        if targets[k].Some? && targets[k].value != Continue {
          cursor := CursorFor(targets[k].value);
          return;
        }
        k := k + 1;
      }
      cursor := DndInDrag;
    }

    /** `_dragActorDropped`: a failing monitor cancels, a succeeding one
     *  completes; past the monitors the drag can no longer be cancelled,
     *  the first accepting target completes it and otherwise it is
     *  cancelled. `inUiGroup` says whether the accepting target left the
     *  drag actor in the UI group. */
    method DragActorDropped(drops: seq<Option<DropResult>>, accepts: seq<Option<bool>>, inUiGroup: bool, time: int)
      returns (outcome: DropOutcome)
      modifies this
      ensures outcome == DropDecision(drops, accepts)
      ensures state == Completed <==> outcome.MonitorSucceeded? || outcome.Accepted?
      ensures state == Cancelled <==> outcome.MonitorFailed? || outcome.NoTarget?
      ensures dragCancellable == (old(dragCancellable) && (outcome.MonitorFailed? || outcome.MonitorSucceeded?))
      ensures outcome.Accepted? && !(inUiGroup && restoreOnSuccess) ==>
        signals == old(signals) + [DragEnd(time, true)] && cursor == DefaultCursor
      ensures !(outcome.Accepted? && !(inUiGroup && restoreOnSuccess)) ==>
        signals == old(signals) && cursor == old(cursor)
      ensures dragX == old(dragX) && dragY == old(dragY) && dragThresholdIgnored == old(dragThresholdIgnored)
    {
      var i := 0;
      while i < |drops|
        invariant 0 <= i <= |drops|
        invariant forall j :: 0 <= j < i ==> !DropDecisive(drops[j])
      {
        if drops[i].Some? {
          match drops[i].value {
            case Failure =>
              state := Cancelled;
              return MonitorFailed(i);
            case Success =>
              state := Completed;
              return MonitorSucceeded(i);
            case DropContinue =>
          }
        }
        i := i + 1;
      }
      dragCancellable := false;
      var k := 0;
      while k < |accepts|
        invariant 0 <= k <= |accepts|
        invariant forall j :: 0 <= j < k ==> accepts[j] != Some(true)
      {
        if accepts[k].Some? {
          var accepted := accepts[k].value;
          if accepted {
            state := Completed;
            if inUiGroup && restoreOnSuccess {
              return Accepted(k);
            }
            cursor := DefaultCursor;
            signals := signals + [DragEnd(time, true)];
            return Accepted(k);
          }
        }
        k := k + 1;
      }
      state := Cancelled;
      outcome := NoTarget;
    }

    /** `vfunc_points_ended`: a recognizing gesture drops; a gesture still
     *  POSSIBLE when all its points are gone was never started and is
     *  cancelled. */
    method PointsEnded(pointCount: int, endedCount: int, drops: seq<Option<DropResult>>, accepts: seq<Option<bool>>, inUiGroup: bool, time: int)
      modifies this
      ensures old(state) == Recognizing ==> state == Completed || state == Cancelled
      ensures old(state) == Recognizing ==>
        (state == Completed <==> DropDecision(drops, accepts).MonitorSucceeded? || DropDecision(drops, accepts).Accepted?)
      ensures old(state) == Possible ==> state == (if pointCount == endedCount then Cancelled else Possible)
      ensures old(state) != Recognizing && old(state) != Possible ==> state == old(state)
    {
      if state == Recognizing {
        var outcome := DragActorDropped(drops, accepts, inUiGroup, time);
      }
      if state == Possible && pointCount == endedCount {
        state := Cancelled;
      }
    }

    /** `vfunc_points_cancelled`. */
    method PointsCancelled()
      modifies this
      ensures state == Cancelled
      ensures signals == old(signals) && dragCancellable == old(dragCancellable)
    {
      state := Cancelled;
    }
  }

  /** As written, a gesture made with `manualMode: true` still starts a
   *  drag by itself: a mouse pressed at the origin and moved 10 px with a
   *  threshold of 4 px starts dragging. */
  method ManualModeIgnoredAsWritten() returns (g: DndGesture)
    ensures g.state == Recognizing
  {
    g := new DndGesture.AsWritten(DndParams(true, 0, false));
    g.state := Possible;
    g.PointsBegan(Point(0.0, 0.0, 0.0, 0.0, 100, true), 1, 4.0);
    g.PointsMoved(Point(0.0, 0.0, 10.0, 0.0, 120, true), 1, 4.0);
  }

  /** With `manualMode` stored, the same press and move leave the gesture
   *  waiting for `startDrag`. */
  method ManualModeHonoured() returns (g: DndGesture)
    ensures g.state == Possible && g.signals == []
  {
    g := new DndGesture(DndParams(true, 0, false));
    g.state := Possible;
    g.PointsBegan(Point(0.0, 0.0, 0.0, 0.0, 100, true), 1, 4.0);
    g.PointsMoved(Point(0.0, 0.0, 10.0, 0.0, 120, true), 1, 4.0);
  }
}

=== FILE: edgedrag.dfy ===
/**
 * The edge-drag gesture: a single touch that starts within a few pixels of
 * one side of a monitor and is dragged inwards.  It reports its progress
 * along the drag axis, activates once the touch is far enough from the
 * edge, and gives up when the touch strays sideways, lingers at the edge
 * or ends early.
 */
module EdgeDrag {
  import opened Common
  import Dnd
  import WindowPolicy

  const EDGE_THRESHOLD: real := 20.0
  const DRAG_DISTANCE: real := 80.0
  const CANCEL_THRESHOLD: real := 100.0
  const CANCEL_TIMEOUT_MS: nat := 200

  /** St.Side: the monitor edge the gesture starts from. */
  datatype Side = Top | Right | Bottom | Left

  datatype Axis = X | Y

  datatype Coords = Coords(x: real, y: real)

  /** The monitor rectangle the display reports for some coordinates. */
  datatype MonitorRect = MonitorRect(x: real, y: real, width: real, height: real)

  /** A gesture point: where it began, its latest and its move coordinates,
   *  and the monitors the display reports for the latest and the begin
   *  coordinates. */
  datatype EdgePoint = EdgePoint(
    begin: Coords, latest: Coords, move: Coords,
    latestMonitor: MonitorRect, beginMonitor: MonitorRect)

  /** The signals the gesture emits. */
  datatype EdgeSignal = Activated | Progress(offset: real) | CancelledSignal

  // ---------------------------------------------------------------------
  // Geometry of a side
  // ---------------------------------------------------------------------

  /** The axis a drag from `side` travels along. */
  function DragAxis(side: Side): Axis {
    if side == Top || side == Bottom then Y else X
  }

  function Other(a: Axis): Axis {
    if a == X then Y else X
  }

  function Component(c: Coords, a: Axis): real {
    if a == X then c.x else c.y
  }

  /** How far `c` lies inside `m`, measured from the edge on `side`
   *  (negative when it lies beyond that edge). */
  function InsetFromEdge(side: Side, c: Coords, m: MonitorRect): real {
    match side
    case Left => c.x - m.x
    case Right => m.x + m.width - c.x
    case Top => c.y - m.y
    case Bottom => m.y + m.height - c.y
  }

  /** The absolute offset between two coordinates along one axis, as the
   *  point distance reports it. */
  function OffsetAlong(a: Coords, b: Coords, axis: Axis): (r: real)
    ensures r >= 0.0
    ensures r == 0.0 <==> Component(a, axis) == Component(b, axis)
  {
    Abs(Component(a, axis) - Component(b, axis))
  }

  /** `_isNearMonitorEdge`: the coordinates lie less than 20 px inside the
   *  gesture's edge of their monitor. */
  predicate NearMonitorEdge(side: Side, c: Coords, m: MonitorRect)
  {
    match side
    case Left => c.x < m.x + EDGE_THRESHOLD
    case Right => c.x > m.x + m.width - EDGE_THRESHOLD
    case Top => c.y < m.y + EDGE_THRESHOLD
    case Bottom => c.y > m.y + m.height - EDGE_THRESHOLD
  }

  /** `_passesDistanceNeeded`: the coordinates lie more than 80 px inside
   *  the gesture's edge of the monitor. */
  predicate PassesDistanceNeeded(side: Side, c: Coords, m: MonitorRect)
  {
    match side
    case Left => c.x > m.x + DRAG_DISTANCE
    case Right => c.x < m.x + m.width - DRAG_DISTANCE
    case Top => c.y > m.y + DRAG_DISTANCE
    case Bottom => c.y < m.y + m.height - DRAG_DISTANCE
  }

  /** `_exceedsCancelThreshold`: the point has strayed more than 100 px
   *  across the drag axis. */
  predicate ExceedsCancelThreshold(side: Side, begin: Coords, latest: Coords)
  {
    if side == Left || side == Right then OffsetAlong(begin, latest, Y) > CANCEL_THRESHOLD
    else OffsetAlong(begin, latest, X) > CANCEL_THRESHOLD
  }

  /** The value a 'progress' signal carries: the offset along the drag axis. */
  function ProgressOffset(side: Side, begin: Coords, move: Coords): (r: real)
    ensures r >= 0.0
    ensures r == 0.0 <==> Component(begin, DragAxis(side)) == Component(move, DragAxis(side))
  {
    if side == Top || side == Bottom then OffsetAlong(begin, move, Y)
    else OffsetAlong(begin, move, X)
  }

  /** Near the edge means an inset below 20 px; passing the distance means
   *  an inset above 80 px, whichever side the gesture watches. */
  lemma {:induction false} EdgeZones(side: Side, c: Coords, m: MonitorRect)
    ensures NearMonitorEdge(side, c, m) <==> InsetFromEdge(side, c, m) < EDGE_THRESHOLD
    ensures PassesDistanceNeeded(side, c, m) <==> InsetFromEdge(side, c, m) > DRAG_DISTANCE
  {
    match side
    case Left =>
    case Right =>
    case Top =>
    case Bottom =>
  }

  /** No coordinates are both near the edge and past the drag distance. */
  lemma NearEdgeNeverPassesDistance(side: Side, c: Coords, m: MonitorRect)
    ensures !(NearMonitorEdge(side, c, m) && PassesDistanceNeeded(side, c, m))
  {
    EdgeZones(side, c, m);
  }

  /** The cancel threshold looks only across the drag axis: a movement along
   *  it never cancels, and a sideways offset of more than 100 px always does. */
  lemma CancelIsAcrossDragAxis(side: Side, begin: Coords, latest: Coords)
    ensures ExceedsCancelThreshold(side, begin, latest)
        <==> OffsetAlong(begin, latest, Other(DragAxis(side))) > CANCEL_THRESHOLD
    ensures Component(begin, Other(DragAxis(side))) == Component(latest, Other(DragAxis(side)))
        ==> !ExceedsCancelThreshold(side, begin, latest)
  {
  }

  /** Progress is measured along the drag axis, across from what the cancel
   *  threshold measures. */
  lemma ProgressIsAlongDragAxis(side: Side, begin: Coords, move: Coords)
    ensures ProgressOffset(side, begin, move) == OffsetAlong(begin, move, DragAxis(side))
  {
  }

  /** Whether `points_began` accepts the touch: one point, an allowed action
   *  mode, and a start near the edge. */
  predicate BeganAccepted(side: Side, allowedModes: WindowPolicy.ActionMode, actionMode: WindowPolicy.ActionMode,
                          point: EdgePoint, nPoints: nat)
  {
    nPoints <= 1 && allowedModes & actionMode != 0
    && NearMonitorEdge(side, point.latest, point.latestMonitor)
  }

  /** The states that end a gesture attempt. */
  predicate Terminal(s: Dnd.GestureState) {
    s == Dnd.Cancelled || s == Dnd.Recognized
  }

  /** What `vfunc_state_changed` emits for a transition. */
  function StateChangeSignals(oldState: Dnd.GestureState, newState: Dnd.GestureState): (r: seq<EdgeSignal>)
    ensures Activated in r <==> newState == Dnd.Recognized
    ensures CancelledSignal in r <==> oldState == Dnd.Recognizing && newState == Dnd.Cancelled
    ensures |r| <= 1
    ensures forall e :: e in r ==> !e.Progress?
  {
    (if newState == Dnd.Recognized then [Activated] else [])
    + (if oldState == Dnd.Recognizing && newState == Dnd.Cancelled then [CancelledSignal] else [])
  }

  // ---------------------------------------------------------------------
  // The gesture
  // ---------------------------------------------------------------------

  class EdgeDragAction {
    const side: Side
    const allowedModes: WindowPolicy.ActionMode
    var state: Dnd.GestureState
    /** Whether `_cancelTimeoutId` holds a scheduled cancel timeout. */
    var cancelTimeoutPending: bool
    var timeoutsAdded: nat
    var sourcesRemoved: nat
    var signals: seq<EdgeSignal>

    constructor(side: Side, allowedModes: WindowPolicy.ActionMode)
      ensures this.side == side && this.allowedModes == allowedModes
      ensures state == Dnd.Waiting && !cancelTimeoutPending && signals == []
      ensures timeoutsAdded == 0 && sourcesRemoved == 0
    {
      this.side := side;
      this.allowedModes := allowedModes;
      state := Dnd.Waiting;
      cancelTimeoutPending := false;
      timeoutsAdded := 0;
      sourcesRemoved := 0;
      signals := [];
    }

    /** `set_state` followed by `vfunc_state_changed`: a terminal state
     *  removes the pending cancel timeout. */
    method SetState(newState: Dnd.GestureState)
      modifies this
      ensures state == newState
      ensures signals == old(signals) + StateChangeSignals(old(state), newState)
      ensures Terminal(newState) ==> !cancelTimeoutPending
      ensures sourcesRemoved == old(sourcesRemoved) + (if Terminal(newState) && old(cancelTimeoutPending) then 1 else 0)
      ensures !Terminal(newState) ==> cancelTimeoutPending == old(cancelTimeoutPending)
      ensures timeoutsAdded == old(timeoutsAdded)
    {
      var oldState := state;
      state := newState;
      if newState == Dnd.Recognized {
        signals := signals + [Activated];
      }
      if oldState == Dnd.Recognizing && newState == Dnd.Cancelled {
        signals := signals + [CancelledSignal];
      }
      if newState == Dnd.Cancelled || newState == Dnd.Recognized {
        if cancelTimeoutPending {
          sourcesRemoved := sourcesRemoved + 1;
          cancelTimeoutPending := false;
        }
      }
    }

    /** `vfunc_points_began`: reject the touch or schedule the cancel
     *  timeout. */
    method PointsBegan(point: EdgePoint, nPoints: nat, actionMode: WindowPolicy.ActionMode)
      modifies this
      ensures !BeganAccepted(side, allowedModes, actionMode, point, nPoints) ==>
        state == Dnd.Cancelled && !cancelTimeoutPending && timeoutsAdded == old(timeoutsAdded)
        && signals == old(signals) + StateChangeSignals(old(state), Dnd.Cancelled)
      ensures BeganAccepted(side, allowedModes, actionMode, point, nPoints) ==>
        state == old(state) && cancelTimeoutPending && timeoutsAdded == old(timeoutsAdded) + 1
        && signals == old(signals) && sourcesRemoved == old(sourcesRemoved)
    {
      if nPoints > 1 || allowedModes & actionMode == 0 || !NearMonitorEdge(side, point.latest, point.latestMonitor) {
        SetState(Dnd.Cancelled);
        return;
      }
      cancelTimeoutPending := true;
      timeoutsAdded := timeoutsAdded + 1;
    }

    /** The cancel timeout's callback, `CANCEL_TIMEOUT_MS` after an accepted
     *  `points_began`: a touch still at the edge cancels the gesture. */
    method CancelTimeoutFired(point: EdgePoint)
      requires cancelTimeoutPending
      modifies this
      ensures !cancelTimeoutPending && timeoutsAdded == old(timeoutsAdded)
      ensures NearMonitorEdge(side, point.latest, point.latestMonitor) ==>
        state == Dnd.Cancelled && signals == old(signals) + StateChangeSignals(old(state), Dnd.Cancelled)
        && sourcesRemoved == old(sourcesRemoved) + 1
      ensures !NearMonitorEdge(side, point.latest, point.latestMonitor) ==>
        state == old(state) && signals == old(signals) && sourcesRemoved == old(sourcesRemoved)
    {
      if NearMonitorEdge(side, point.latest, point.latestMonitor) {
        SetState(Dnd.Cancelled);
      }
      cancelTimeoutPending := false;
    }

    /** `vfunc_points_moved`: cancel on a sideways stray, start recognizing
     *  once the touch leaves the edge, report progress and activate past
     *  the drag distance. */
    method PointsMoved(point: EdgePoint)
      modifies this
      ensures timeoutsAdded == old(timeoutsAdded)
      ensures state != old(state) && Terminal(state) ==> !cancelTimeoutPending
      ensures !Terminal(state) ==>
        cancelTimeoutPending == old(cancelTimeoutPending) && sourcesRemoved == old(sourcesRemoved)
      ensures Terminal(state) && !Terminal(old(state)) ==>
        sourcesRemoved == old(sourcesRemoved) + (if old(cancelTimeoutPending) then 1 else 0)
      ensures ExceedsCancelThreshold(side, point.begin, point.latest) ==>
        state == Dnd.Cancelled && signals == old(signals) + StateChangeSignals(old(state), Dnd.Cancelled)
      ensures (!ExceedsCancelThreshold(side, point.begin, point.latest)
               && (old(state) == Dnd.Recognizing
                   || (old(state) == Dnd.Possible && !NearMonitorEdge(side, point.latest, point.latestMonitor)))) ==>
        (state == if PassesDistanceNeeded(side, point.latest, point.beginMonitor) then Dnd.Recognized else Dnd.Recognizing)
        && signals == old(signals) + [Progress(ProgressOffset(side, point.begin, point.move))]
                      + (if PassesDistanceNeeded(side, point.latest, point.beginMonitor) then [Activated] else [])
      ensures (!ExceedsCancelThreshold(side, point.begin, point.latest)
               && old(state) != Dnd.Recognizing
               && (old(state) != Dnd.Possible || NearMonitorEdge(side, point.latest, point.latestMonitor))) ==>
        state == old(state) && signals == old(signals) && cancelTimeoutPending == old(cancelTimeoutPending)
        && sourcesRemoved == old(sourcesRemoved)
    {
      if ExceedsCancelThreshold(side, point.begin, point.latest) {
        SetState(Dnd.Cancelled);
        return;
      }
      if state == Dnd.Possible && !NearMonitorEdge(side, point.latest, point.latestMonitor) {
        SetState(Dnd.Recognizing);
      }
      if state == Dnd.Recognizing {
        signals := signals + [Progress(ProgressOffset(side, point.begin, point.move))];
        if PassesDistanceNeeded(side, point.latest, point.beginMonitor) {
          SetState(Dnd.Recognized);
        }
      }
    }

    /** `vfunc_points_ended`: lifting the touch before activation cancels. */
    method PointsEnded()
      modifies this
      ensures state == Dnd.Cancelled && !cancelTimeoutPending
      ensures signals == old(signals) + (if old(state) == Dnd.Recognizing then [CancelledSignal] else [])
      ensures timeoutsAdded == old(timeoutsAdded)
    {
      SetState(Dnd.Cancelled);
    }

    /** `vfunc_points_cancelled`. */
    method PointsCancelled()
      modifies this
      ensures state == Dnd.Cancelled && !cancelTimeoutPending
      ensures signals == old(signals) + (if old(state) == Dnd.Recognizing then [CancelledSignal] else [])
      ensures timeoutsAdded == old(timeoutsAdded)
    {
      SetState(Dnd.Cancelled);
    }
  }

  /** A touch that begins 5 px inside the left edge and moves 100 px inwards
   *  reports its progress once and activates. */
  method SwipeFromLeftActivates() returns (g: EdgeDragAction)
    ensures g.state == Dnd.Recognized
    ensures g.signals == [Progress(100.0), Activated]
    ensures !g.cancelTimeoutPending
  {
    var m := MonitorRect(0.0, 0.0, 1920.0, 1080.0);
    g := new EdgeDragAction(Left, WindowPolicy.MODE_NORMAL);
    g.state := Dnd.Possible;
    var start := Coords(5.0, 500.0);
    g.PointsBegan(EdgePoint(start, start, start, m, m), 1, WindowPolicy.MODE_NORMAL);
    var next := Coords(105.0, 520.0);
    g.PointsMoved(EdgePoint(start, next, next, m, m));
  }
}

=== FILE: icongrid.dfy ===
/** The icon grid (js/ui/iconGrid.js): how many columns fit in a row, the
 *  spacing that spreads them, the grid shape that fills a box, and the
 *  bookkeeping of which items animate when items are added or moved. */
module IconGrid {
  import opened Common

  // ---------------------------------------------------------------------
  // Layout arithmetic
  // ---------------------------------------------------------------------

  lemma QuotientStep(a: real, step: real)
    requires step > 0.0
    ensures (a - step) / step == a / step - 1.0
  {
    assert step / step == 1.0;
    assert (a - step) / step == a / step - step / step;
  }

  /** `nColumnsForWidth`: add items (each followed by the spacing) while the
   *  next item still fits. The loop ends only when an item and a spacing
   *  together are wider than zero. */
  method NColumnsForWidth(childWidth: real, hSpacing: real, rowWidth: real) returns (n: int)
    requires childWidth >= 0.0
    requires childWidth > 0.0 ==> childWidth + hSpacing > 0.0
    ensures childWidth == 0.0 ==> n == 0
    ensures childWidth > 0.0 ==>
      n >= 0 &&
      (n >= 1 ==> (n - 1) as real * (childWidth + hSpacing) + childWidth <= rowWidth) &&
      n as real * (childWidth + hSpacing) + childWidth > rowWidth
  {
    if childWidth == 0.0 {
      return 0;
    }
    var step := childWidth + hSpacing;
    var curWidth := 0.0;
    n := 0;
    while curWidth + childWidth <= rowWidth
      invariant n >= 0 && curWidth == n as real * step
      invariant n >= 1 ==> (n - 1) as real * step + childWidth <= rowWidth
      decreases Floor((rowWidth - curWidth) / step) + 1
    {
      ghost var x := (rowWidth - curWidth) / step;
      QuotientStep(rowWidth - curWidth, step);
      assert x >= 0.0 by {
        assert rowWidth - curWidth >= childWidth >= 0.0;
      }
      curWidth := curWidth + step;
      n := n + 1;
    }
  }

  /** Every larger count overflows the row: the result is the largest that fits. */
  lemma NColumnsIsLargest(childWidth: real, hSpacing: real, rowWidth: real, n: int, m: int)
    requires childWidth > 0.0 && childWidth + hSpacing > 0.0
    requires n as real * (childWidth + hSpacing) + childWidth > rowWidth
    requires m > n
    ensures (m - 1) as real * (childWidth + hSpacing) + childWidth > rowWidth
  {
    MulLe(n as real, (m - 1) as real, childWidth + hSpacing);
  }

  /** `_calculateHSpacing`: 0 with one column; otherwise the width left
   *  after the items, shared by the gaps between them. */
  function HSpacing(childWidth: real, nChildrenPerRow: int, forWidth: real): (r: real)
    ensures nChildrenPerRow == 1 ==> r == 0.0
    ensures nChildrenPerRow != 1 ==>
      r * (nChildrenPerRow - 1) as real == forWidth - childWidth * nChildrenPerRow as real
  {
    if nChildrenPerRow == 1 then 0.0
    else (forWidth - childWidth * nChildrenPerRow as real) / (nChildrenPerRow - 1) as real
  }

  /** With two or more columns the items and gaps fill the width exactly;
   *  with none the spacing is minus the width. */
  lemma HSpacingFillsRow(childWidth: real, n: int, forWidth: real)
    ensures n >= 2 ==>
      childWidth * n as real + HSpacing(childWidth, n, forWidth) * (n - 1) as real == forWidth
    ensures n == 0 ==> HSpacing(childWidth, n, forWidth) == -forWidth
  {
  }

  /** `clamp` of iconGrid.js: `Math.max(Math.min(value, max), min)`. */
  function GridClamp(value: real, min: real, max: real): (r: real)
    ensures min <= max ==> min <= r <= max
    ensures min <= value <= max ==> r == value
    ensures min > max ==> r == min
  {
    Max(Min(value, max), min)
  }

  // ---------------------------------------------------------------------
  // Fill layout
  // ---------------------------------------------------------------------

  /** How far a `nCols`-column layout of `nItems` is from the aspect ratio. */
  function ARDiff(aspectRatio: real, nCols: int, nItems: int): real
    requires nCols >= 1 && nItems >= 1
  {
    var nRows := nItems as real / nCols as real;
    Abs(aspectRatio - nCols as real / nRows)
  }

  lemma ExactDivision(n: int, d: int)
    requires d >= 1 && n % d == 0
    ensures d * (n / d) == n
  {
  }

  /** `_calculateFillLayout`: walk the divisors of `nItems` from 1 column
   *  upwards while the aspect-ratio difference does not grow. */
  method CalculateFillLayout(width: real, height: real, nItems: int) returns (cols: int, rows: int)
    requires height != 0.0
    ensures nItems < 1 ==> cols == 0 && rows == 0
    ensures nItems >= 1 ==> 1 <= cols <= nItems && cols * rows == nItems
    ensures nItems >= 1 ==>
      forall d :: 1 <= d < cols && nItems % d == 0 ==>
        ARDiff(width / height, d, nItems) >= ARDiff(width / height, cols, nItems)
    ensures nItems >= 1 ==>
      forall d :: (cols < d <= nItems && nItems % d == 0 &&
                   forall e :: cols < e < d ==> nItems % e != 0) ==>
        ARDiff(width / height, d, nItems) > ARDiff(width / height, cols, nItems)
  {
    var aspectRatio := width / height;
    cols, rows := 0, 0;
    var lastDiff := 0.0;
    var nCols := 1;
    while nCols <= nItems
      invariant 1 <= nCols && (nItems >= 1 ==> nCols <= nItems + 1)
      invariant cols == 0 <==> nCols == 1
      invariant cols == 0 ==> rows == 0
      invariant cols != 0 ==>
        nItems >= 1 && 1 <= cols < nCols && cols * rows == nItems &&
        lastDiff == ARDiff(aspectRatio, cols, nItems)
      invariant nItems >= 1 ==>
        forall d :: 1 <= d < nCols && nItems % d == 0 ==> ARDiff(aspectRatio, d, nItems) >= lastDiff
      invariant forall e :: cols < e < nCols ==> nItems % e != 0
      decreases nItems - nCols
    {
      if nItems % nCols == 0 {
        var layoutDiff := ARDiff(aspectRatio, nCols, nItems);
        if cols != 0 && layoutDiff > lastDiff {
          return;
        }
        ExactDivision(nItems, nCols);
        cols, rows := nCols, nItems / nCols;
        lastDiff := layoutDiff;
      } else if cols == 0 {
        assert false;
      }
      nCols := nCols + 1;
    }
  }

  // ---------------------------------------------------------------------
  // Add, move, remove: animation bookkeeping
  // ---------------------------------------------------------------------

  /** `index <= i ? i + 1 : i`: where child i ends up after an insertion at `index`. */
  function Shifted(i: int, index: int): int
  {
    if index <= i then i + 1 else i
  }

  /** `_noAnimationIndexes.map(i => index <= i ? i + 1 : i)`. */
  function ShiftIndexes(xs: seq<int>, index: int): (r: seq<int>)
    ensures |r| == |xs| && forall k :: 0 <= k < |r| ==> r[k] == Shifted(xs[k], index)
  {
    seq(|xs|, k requires 0 <= k < |xs| => Shifted(xs[k], index))
  }

  /** Inserting `item` at `index` (Clutter appends an index past the end). */
  function InsertAt(children: seq<int>, item: int, index: int): (r: seq<int>)
    ensures |r| == |children| + 1
  {
    if 0 <= index <= |children| then children[..index] + [item] + children[index..]
    else children + [item]
  }

  /** A recorded index still names the same child after the insertion. */
  lemma ShiftTracksChildren(children: seq<int>, item: int, index: int, i: int)
    requires 0 <= index <= |children| && 0 <= i < |children|
    ensures InsertAt(children, item, index)[Shifted(i, index)] == children[i]
    ensures InsertAt(children, item, index)[index] == item
  {
  }

  /** `_getAnimationDelayForIndex` on the start index. */
  function AnimationDelay(animationStartIndex: int, index: int): (r: int)
    ensures animationStartIndex == -1 ==> r == 0
    ensures animationStartIndex != -1 ==> r >= 0 && r % 20 == 0
    ensures animationStartIndex != -1 && r == 0 ==> index == animationStartIndex
  {
    if animationStartIndex == -1 then 0
    else
      var distance := if animationStartIndex >= index then animationStartIndex - index else index - animationStartIndex;
      distance * 20
  }

  /** The fade-in delay as written: `index == get_n_children()` is evaluated
   *  after the insertion, when the count already includes the new item. */
  function FadeInDelayAsWritten(animationStartIndex: int, index: int, nChildrenAfter: int): int
  {
    if index == nChildrenAfter then AnimationDelay(animationStartIndex, index)
    else AnimationDelay(animationStartIndex, index + 1) + 350
  }

  /** As written, the last-index branch is unreachable: an item inserted at
   *  the end waits for a following item that does not exist. */
  lemma FadeInDelayAsWrittenNeverLast(animationStartIndex: int, index: int, nChildrenBefore: nat)
    requires 0 <= index <= nChildrenBefore
    ensures FadeInDelayAsWritten(animationStartIndex, index, nChildrenBefore + 1) ==
            AnimationDelay(animationStartIndex, index + 1) + 350
  {
  }

  /** The fade-in delay as intended: the last item uses its own delay, an
   *  item with others after it waits until the next one has finished. */
  function FadeInDelay(animationStartIndex: int, index: int, nChildrenAfter: int): int
  {
    if index == nChildrenAfter - 1 then AnimationDelay(animationStartIndex, index)
    else AnimationDelay(animationStartIndex, index + 1) + 350
  }

  lemma FadeInDelayLast(animationStartIndex: int, nChildrenBefore: nat)
    ensures FadeInDelay(animationStartIndex, nChildrenBefore, nChildrenBefore + 1) ==
            AnimationDelay(animationStartIndex, nChildrenBefore)
    ensures animationStartIndex == nChildrenBefore ==>
            FadeInDelay(animationStartIndex, nChildrenBefore, nChildrenBefore + 1) == 0
  {
  }

  /** The grid's children (by id) and its animation bookkeeping. */
  class Grid {
    var children: seq<int>
    var noAnimationIndexes: seq<int>
    var animationStartIndex: int

    constructor ()
      ensures children == [] && noAnimationIndexes == [] && animationStartIndex == -1
    {
      children, noAnimationIndexes, animationStartIndex := [], [], -1;
    }

    /** The layout's 'children-layout' signal: forget everything. */
    method ChildrenLayout()
      modifies this
      ensures animationStartIndex == -1 && noAnimationIndexes == [] && children == old(children)
    {
      animationStartIndex := -1;
      noAnimationIndexes := [];
    }

    /** `_setAnimationStart`: the smallest index changed so far. */
    method SetAnimationStart(changedIndex: int)
      modifies this
      ensures animationStartIndex == (if old(animationStartIndex) == -1 then changedIndex
                                      else if changedIndex < old(animationStartIndex) then changedIndex
                                      else old(animationStartIndex))
      ensures old(animationStartIndex) != -1 ==>
        animationStartIndex <= old(animationStartIndex) && animationStartIndex <= changedIndex
      ensures children == old(children) && noAnimationIndexes == old(noAnimationIndexes)
    {
      if animationStartIndex == -1 {
        animationStartIndex := changedIndex;
      } else if changedIndex < animationStartIndex {
        animationStartIndex := changedIndex;
      }
    }

    /** `addItem`: shift the recorded indices at or after `index`, record
     *  `index`, insert the item there and return its fade-in delay. */
    method AddItem(item: int, index: int) returns (delay: int)
      modifies this
      ensures noAnimationIndexes == ShiftIndexes(old(noAnimationIndexes), index) + [index]
      ensures children == InsertAt(old(children), item, index)
      ensures animationStartIndex == (if old(animationStartIndex) == -1 then index
                                      else if index < old(animationStartIndex) then index
                                      else old(animationStartIndex))
      ensures delay == FadeInDelay(animationStartIndex, index, |children|)
    {
      noAnimationIndexes := ShiftIndexes(noAnimationIndexes, index);
      noAnimationIndexes := noAnimationIndexes + [index];
      SetAnimationStart(index);
      children := InsertAt(children, item, index);
      delay := FadeInDelay(animationStartIndex, index, |children|);
    }

    /** `moveItem`: nothing for an item not in the grid; otherwise shift and
     *  record as `addItem` does, start at the smaller of the two indices,
     *  and move the child. */
    method MoveItem(item: int, newIndex: int) returns (delay: Option<int>)
      modifies this
      ensures item !in old(children) ==>
        delay == None && children == old(children) && noAnimationIndexes == old(noAnimationIndexes) &&
        animationStartIndex == old(animationStartIndex)
      ensures item in old(children) ==>
        var oldIndex := IndexOf(old(children), item);
        var low := if oldIndex < newIndex then oldIndex else newIndex;
        noAnimationIndexes == ShiftIndexes(old(noAnimationIndexes), newIndex) + [newIndex] &&
        children == InsertAt(old(children)[..oldIndex] + old(children)[oldIndex + 1..], item, newIndex) &&
        animationStartIndex == (if old(animationStartIndex) == -1 then low
                                else if low < old(animationStartIndex) then low
                                else old(animationStartIndex)) &&
        delay == Some(FadeInDelay(animationStartIndex, newIndex, |children|))
    {
      var oldIndex := IndexOf(children, item);
      if oldIndex == -1 {
        return None;
      }
      noAnimationIndexes := ShiftIndexes(noAnimationIndexes, newIndex) + [newIndex];
      SetAnimationStart(if oldIndex < newIndex then oldIndex else newIndex);
      children := InsertAt(children[..oldIndex] + children[oldIndex + 1..], item, newIndex);
      delay := Some(FadeInDelay(animationStartIndex, newIndex, |children|));
    }

    /** `removeItem`: nothing for an item not in the grid; otherwise the
     *  animation starts at its index (the child goes when its fade-out ends). */
    method RemoveItem(item: int)
      modifies this
      ensures children == old(children) && noAnimationIndexes == old(noAnimationIndexes)
      ensures item !in old(children) ==> animationStartIndex == old(animationStartIndex)
      ensures item in old(children) ==>
        var index := IndexOf(old(children), item);
        animationStartIndex == (if old(animationStartIndex) == -1 then index
                                else if index < old(animationStartIndex) then index
                                else old(animationStartIndex))
    {
      var index := IndexOf(children, item);
      if index == -1 {
        return;
      }
      SetAnimationStart(index);
    }
  }

  /** `Array.prototype.indexOf`. */
  function IndexOf(xs: seq<int>, x: int): (r: int)
    ensures -1 <= r < |xs|
    ensures r == -1 <==> x !in xs
    ensures r >= 0 ==> xs[r] == x && x !in xs[..r]
  {
    if |xs| == 0 then -1
    else if xs[0] == x then 0
    else
      var r := IndexOf(xs[1..], x);
      assert forall i :: 1 <= i < |xs| ==> xs[i] == xs[1..][i - 1];
      if r == -1 then -1
      else
        assert xs[..r + 1] == [xs[0]] + xs[1..][..r];
        r + 1
  }
}

=== FILE: keyboard.dfy ===
/** The on-screen keyboard's data structures (js/ui/keyboard.js): the key grid
 *  a `KeyContainer` builds row by row, the sparse row/column table its touch
 *  gesture searches, emoji pagination, the latched-modifier set, the
 *  fall-back list of layout names and the layout-group name. */
module Keyboard {
  import opened Common

  /** A 1:1 key takes KEY_SIZE grid cells in each direction. */
  const KeySize: real := 4.0

  // ---------------------------------------------------------------------
  // KeyContainer: the key grid
  // ---------------------------------------------------------------------

  /** `keyInfo`: the key (an identifier here), its column offset, the row
   *  number it was appended under, and its size in key units. */
  datatype KeyInfo = KeyInfo(key: int, left: real, top: int, width: real, height: real)

  /** A row of `_rows`: its keys and their summed width. */
  datatype KeyRow = KeyRow(keys: seq<KeyInfo>, width: real)

  /** Total width of `keys`, accumulated from the end so that a prefix one
   *  longer adds exactly the width of its last key. */
  function SumWidths(keys: seq<KeyInfo>): real
  {
    if |keys| == 0 then 0.0 else SumWidths(keys[..|keys| - 1]) + keys[|keys| - 1].width
  }

  /** A row whose keys sit side by side from column 0, whose width field is
   *  the right edge of its last key, and whose keys all carry row number `top`. */
  ghost predicate RowOK(row: KeyRow, top: int)
  {
    var keys := row.keys;
    row.width == (if |keys| == 0 then 0.0 else keys[|keys| - 1].left + keys[|keys| - 1].width) &&
    (|keys| > 0 ==> keys[0].left == 0.0) &&
    (forall j, k :: 0 <= j < k < |keys| && k == j + 1 ==> keys[k].left == keys[j].left + keys[j].width) &&
    (forall j :: 0 <= j < |keys| ==> keys[j].top == top)
  }

  /** The style classes a key receives from `layoutButtons`. */
  datatype EdgeClass = TopmostRow | BottommostRow | LeftmostColumn | RightmostColumn

  /** What `layoutButtons` hands to the grid layout (and to the gesture) for one key. */
  datatype Attachment = Attachment(key: int, col: real, row: real, width: real, height: real,
                                   classes: set<EdgeClass>)

  /** The left padding of a row: half the gap to the widest row when that gap
   *  is at least one key, otherwise the whole gap. */
  function Pad(maxCols: real, rowWidth: real): (r: real)
    ensures maxCols - rowWidth >= 1.0 ==> r + rowWidth + r == maxCols
    ensures maxCols - rowWidth < 1.0 ==> r + rowWidth == maxCols
  {
    var diff := maxCols - rowWidth;
    if diff >= 1.0 then diff * 0.5 else diff
  }

  function EdgeClasses(i: nat, nRows: nat, j: nat, nKeys: nat): (r: set<EdgeClass>)
    ensures TopmostRow in r <==> i == 0
    ensures BottommostRow in r <==> i != 0 && i == nRows - 1
    ensures LeftmostColumn in r <==> j == 0
    ensures RightmostColumn in r <==> j != 0 && j == nKeys - 1
  {
    (if i == 0 then {TopmostRow} else if i == nRows - 1 then {BottommostRow} else {}) +
    (if j == 0 then {LeftmostColumn} else if j == nKeys - 1 then {RightmostColumn} else {})
  }

  /** The attachment of key `j` of row `i` (of `nRows`). */
  function KeyAttachment(i: nat, nRows: nat, row: KeyRow, maxCols: real, j: nat): Attachment
    requires j < |row.keys|
  {
    var k := row.keys[j];
    Attachment(k.key, (Pad(maxCols, row.width) + SumWidths(row.keys[..j])) * KeySize,
               i as real * KeySize, k.width * KeySize, k.height * KeySize,
               EdgeClasses(i, nRows, j, |row.keys|))
  }

  /** The attachments of the first `n` keys of row `i`. */
  function RowAttachments(i: nat, nRows: nat, row: KeyRow, maxCols: real, n: nat): (r: seq<Attachment>)
    requires n <= |row.keys|
    ensures |r| == n
  {
    seq(n, j requires 0 <= j < n => KeyAttachment(i, nRows, row, maxCols, j))
  }

  /** The attachments of the first `n` rows, row after row. */
  function GridAttachments(rows: seq<KeyRow>, maxCols: real, n: nat): seq<Attachment>
    requires n <= |rows|
  {
    if n == 0 then []
    else GridAttachments(rows, maxCols, n - 1) +
         RowAttachments(n - 1, |rows|, rows[n - 1], maxCols, |rows[n - 1].keys|)
  }

  /** The row and every key in it end at or left of column `maxCols`. */
  ghost predicate RowWithin(row: KeyRow, maxCols: real)
  {
    row.width <= maxCols &&
    forall j :: 0 <= j < |row.keys| ==> row.keys[j].left + row.keys[j].width <= maxCols
  }

  /** The invariant of a `KeyContainer`: the row counter counts the rows,
   *  the current column is the width of the last row, every key lies within
   *  `maxCols`, and `maxCols` is 0 or the right edge of key `widest`. */
  ghost predicate GridOK(currentRow: int, currentCol: real, maxCols: real, rows: seq<KeyRow>,
                         widest: (int, int))
  {
    currentRow == |rows| && 0.0 <= maxCols &&
    currentCol == (if |rows| == 0 then 0.0 else rows[|rows| - 1].width) &&
    (forall i :: 0 <= i < |rows| ==> RowOK(rows[i], i + 1) && RowWithin(rows[i], maxCols)) &&
    (maxCols == 0.0 ||
     (0 <= widest.0 < |rows| && 0 <= widest.1 < |rows[widest.0].keys| &&
      rows[widest.0].keys[widest.1].left + rows[widest.0].keys[widest.1].width == maxCols))
  }

  lemma AppendRowKeepsGridOK(currentRow: int, currentCol: real, maxCols: real, rows: seq<KeyRow>,
                             widest: (int, int))
    requires GridOK(currentRow, currentCol, maxCols, rows, widest)
    ensures GridOK(currentRow + 1, 0.0, maxCols, rows + [KeyRow([], 0.0)], widest)
  {
    var rows' := rows + [KeyRow([], 0.0)];
    assert forall i :: 0 <= i < |rows| ==> rows'[i] == rows[i];
  }

  /** The row list after `appendKey` puts `info` at the end of the last row. */
  function WithKeyAppended(rows: seq<KeyRow>, info: KeyInfo): (r: seq<KeyRow>)
    requires |rows| > 0
    ensures |r| == |rows| && forall i :: 0 <= i < |rows| - 1 ==> r[i] == rows[i]
    ensures r[|rows| - 1].keys == rows[|rows| - 1].keys + [info]
    ensures r[|rows| - 1].width == rows[|rows| - 1].width + info.width
  {
    var last := rows[|rows| - 1];
    rows[..|rows| - 1] + [KeyRow(last.keys + [info], last.width + info.width)]
  }

  lemma AppendKeyKeepsGridOK(currentRow: int, currentCol: real, maxCols: real, rows: seq<KeyRow>,
                             widest: (int, int), info: KeyInfo,
                             col': real, m: real, rows': seq<KeyRow>, widest': (int, int))
    requires GridOK(currentRow, currentCol, maxCols, rows, widest) && |rows| > 0
    requires info.left == currentCol && info.top == currentRow
    requires col' == currentCol + info.width && m == Max(col', maxCols)
    requires rows' == WithKeyAppended(rows, info)
    requires widest' == if maxCols <= col' then (|rows| - 1, |rows[|rows| - 1].keys|) else widest
    ensures GridOK(currentRow, col', m, rows', widest')
  {
    var n := |rows| - 1;
    var last := KeyRow(rows[n].keys + [info], rows[n].width + info.width);
    assert rows'[n] == last;
    AppendKeepsRowOK(rows[n], info, n + 1);
    LastRowWithin(rows[n], info, maxCols, m);
    assert |rows'| == n + 1;
    forall i | 0 <= i < |rows'|
      ensures RowOK(rows'[i], i + 1) && RowWithin(rows'[i], m)
    {
      if i < n {
        assert rows'[i] == rows[..n][i] == rows[i];
        RowWithinWider(rows[i], maxCols, m);
      }
    }
    assert col' == rows'[n].width;
    if maxCols <= currentCol + info.width {
      assert rows'[n].keys[|rows[n].keys|] == info;
    } else if maxCols != 0.0 && widest.0 == n {
      assert rows'[n].keys[widest.1] == rows[n].keys[widest.1];
    }
  }

  lemma RowWithinWider(row: KeyRow, a: real, b: real)
    requires RowWithin(row, a) && a <= b
    ensures RowWithin(row, b)
  {
  }

  lemma LastRowWithin(row: KeyRow, info: KeyInfo, maxCols: real, m: real)
    requires RowWithin(row, maxCols) && info.left == row.width
    requires m == Max(info.left + info.width, maxCols)
    ensures RowWithin(KeyRow(row.keys + [info], row.width + info.width), m)
  {
    var keys := row.keys + [info];
    forall j | 0 <= j < |keys| ensures keys[j].left + keys[j].width <= m {
      if j < |row.keys| {
        assert keys[j] == row.keys[j];
      }
    }
  }

  class KeyContainer {
    /** `_currentRow`: null before the first row; `null++` makes the first row 1. */
    var currentRow: int
    var currentCol: real
    var maxCols: real
    var rows: seq<KeyRow>
    /** The (row, key) whose right edge is `maxCols`, when it is not 0. */
    ghost var widest: (int, int)

    ghost predicate Valid()
      reads this
    {
      GridOK(currentRow, currentCol, maxCols, rows, widest)
    }

    constructor ()
      ensures Valid() && rows == [] && maxCols == 0.0
    {
      currentRow, currentCol, maxCols, rows := 0, 0.0, 0.0, [];
      widest := (0, 0);
    }

    /** `appendRow`: open a new, empty row. */
    method AppendRow()
      requires Valid()
      modifies this
      ensures Valid()
      ensures rows == old(rows) + [KeyRow([], 0.0)]
      ensures currentRow == old(currentRow) + 1 && currentCol == 0.0 && maxCols == old(maxCols)
    {
      AppendRowKeepsGridOK(currentRow, currentCol, maxCols, rows, widest);
      currentRow := currentRow + 1;
      currentCol := 0.0;
      rows := rows + [KeyRow([], 0.0)];
    }

    /** `appendKey`: put a key at the end of the last row. Without a row the
     *  source throws a TypeError before changing anything: `ok` is false. */
    method AppendKey(key: int, width: real, height: real) returns (ok: bool)
      requires Valid()
      modifies this
      ensures Valid()
      ensures ok <==> |old(rows)| > 0
      ensures !ok ==> unchanged(this)
      ensures ok ==>
        rows == WithKeyAppended(old(rows), KeyInfo(key, old(currentCol), old(currentRow), width, height)) &&
        currentRow == old(currentRow) &&
        currentCol == old(currentCol) + width &&
        maxCols == Max(old(currentCol) + width, old(maxCols))
    {
      if |rows| == 0 {
        return false;
      }
      var info := KeyInfo(key, currentCol, currentRow, width, height);
      ghost var oldCol, oldMax, oldRows, oldWidest := currentCol, maxCols, rows, widest;
      rows, currentCol, maxCols := WithKeyAppended(rows, info), currentCol + width, Max(currentCol + width, maxCols);
      widest := if oldMax <= currentCol then (|rows| - 1, |oldRows[|rows| - 1].keys|) else widest;
      AppendKeyKeepsGridOK(currentRow, oldCol, oldMax, oldRows, oldWidest, info, currentCol, maxCols, rows, widest);
      ok := true;
    }

  /** `getSize`: [maxCols, number of rows]; every row fits in the first. */
    function GetSize(): (r: (real, int))
      reads this
      requires Valid()
      ensures r.1 == |rows|
      ensures forall i :: 0 <= i < |rows| ==> rows[i].width <= r.0
      ensures forall i, j :: 0 <= i < |rows| && 0 <= j < |rows[i].keys| ==>
        rows[i].keys[j].left + rows[i].keys[j].width <= r.0
      ensures r.0 == 0.0 ||
              exists i, j :: 0 <= i < |rows| && 0 <= j < |rows[i].keys| &&
                             rows[i].keys[j].left + rows[i].keys[j].width == r.0
    {
      (maxCols, |rows|)
    }

    /** `layoutButtons`: each row left-padded, keys placed one after another,
     *  row `i` on grid row `i * KEY_SIZE`, with its edge style classes. */
    method LayoutButtons() returns (attached: seq<Attachment>)
      ensures attached == GridAttachments(rows, maxCols, |rows|)
    {
      attached := [];
      var nRow := 0;
      while nRow < |rows|
        invariant 0 <= nRow <= |rows|
        invariant attached == GridAttachments(rows, maxCols, nRow)
      {
        var row := rows[nRow];
        var nCol := Pad(maxCols, row.width);
        var j := 0;
        var placed: seq<Attachment> := [];
        while j < |row.keys|
          invariant 0 <= j <= |row.keys|
          invariant nCol == Pad(maxCols, row.width) + SumWidths(row.keys[..j])
          invariant placed == RowAttachments(nRow, |rows|, row, maxCols, j)
        {
          var info := row.keys[j];
          var a := Attachment(info.key, nCol * KeySize, nRow as real * KeySize,
                              info.width * KeySize, info.height * KeySize,
                              EdgeClasses(nRow, |rows|, j, |row.keys|));
          assert a == KeyAttachment(nRow, |rows|, row, maxCols, j);
          placed := placed + [a];
          nCol := nCol + info.width;
          assert row.keys[..j + 1][..j] == row.keys[..j];
          j := j + 1;
        }
        attached := attached + placed;
        nRow := nRow + 1;
      }
    }
  }

  lemma AppendKeepsRowOK(row: KeyRow, info: KeyInfo, top: int)
    requires RowOK(row, top) && info.top == top && info.left == row.width
    ensures RowOK(KeyRow(row.keys + [info], row.width + info.width), top)
  {
  }

  /** In a well-formed row, a key's `left` is the summed width of the keys before it. */
  lemma {:induction false} LeftIsSumOfWidths(row: KeyRow, top: int, j: nat)
    requires RowOK(row, top) && j < |row.keys|
    ensures row.keys[j].left == SumWidths(row.keys[..j])
  {
    if j > 0 {
      LeftIsSumOfWidths(row, top, j - 1);
      assert row.keys[..j][..j - 1] == row.keys[..j - 1];
    }
  }

  /** So `layoutButtons` puts each key of a well-formed row at its padded `left`. */
  lemma LayoutColumnIsLeft(i: nat, nRows: nat, row: KeyRow, top: int, maxCols: real, j: nat)
    requires RowOK(row, top) && j < |row.keys|
    ensures KeyAttachment(i, nRows, row, maxCols, j).col == (Pad(maxCols, row.width) + row.keys[j].left) * KeySize
  {
    LeftIsSumOfWidths(row, top, j);
  }

  /** Within a laid-out row, each key starts where the one before it ends. */
  lemma {:induction false} KeysAbut(i: nat, nRows: nat, row: KeyRow, maxCols: real, j: nat)
    requires 0 < j < |row.keys|
    ensures KeyAttachment(i, nRows, row, maxCols, j).col ==
            KeyAttachment(i, nRows, row, maxCols, j - 1).col + row.keys[j - 1].width * KeySize
  {
    assert row.keys[..j][..j - 1] == row.keys[..j - 1];
  }

  lemma {:induction false} SumWidthsGrows(keys: seq<KeyInfo>, a: nat, b: nat)
    requires a < b <= |keys|
    requires forall k :: 0 <= k < |keys| ==> keys[k].width > 0.0
    ensures SumWidths(keys[..a]) < SumWidths(keys[..b])
  {
    assert keys[..b][..b - 1] == keys[..b - 1];
    if a < b - 1 {
      SumWidthsGrows(keys, a, b - 1);
    }
  }

  /** With positive key widths, the columns of a row strictly increase. */
  lemma ColumnsIncrease(i: nat, nRows: nat, row: KeyRow, maxCols: real, a: nat, b: nat)
    requires a < b < |row.keys|
    requires forall k :: 0 <= k < |row.keys| ==> row.keys[k].width > 0.0
    ensures KeyAttachment(i, nRows, row, maxCols, a).col < KeyAttachment(i, nRows, row, maxCols, b).col
  {
    SumWidthsGrows(row.keys, a, b);
  }

  /** Every row of a valid container, once padded, starts at or right of
   *  column 0 and ends at or left of `maxCols`; a gap of a key or more is
   *  split evenly between the two sides. */
  lemma PaddedRowFits(c: KeyContainer, i: nat)
    requires c.Valid() && i < |c.rows|
    ensures 0.0 <= Pad(c.maxCols, c.rows[i].width)
    ensures Pad(c.maxCols, c.rows[i].width) + c.rows[i].width <= c.maxCols
  {
  }

  lemma {:induction false} GridAttachmentsCount(rows: seq<KeyRow>, maxCols: real, n: nat)
    requires n <= |rows|
    ensures |GridAttachments(rows, maxCols, n)| == KeyCount(rows[..n])
  {
    if n > 0 {
      GridAttachmentsCount(rows, maxCols, n - 1);
      assert rows[..n][..n - 1] == rows[..n - 1];
    }
  }

  function KeyCount(rows: seq<KeyRow>): nat
  {
    if |rows| == 0 then 0 else KeyCount(rows[..|rows| - 1]) + |rows[|rows| - 1].keys|
  }

  // ---------------------------------------------------------------------
  // KeyContainerGesture: the sparse row/column table
  // ---------------------------------------------------------------------

  /** A `{size, key}` entry of a row's `cols`. */
  datatype Cell = Cell(size: int, key: int)

  /** A `{size, cols}` entry of `_rows`; `length` is the JavaScript length of `cols`. */
  datatype GridRow = GridRow(size: int, cols: map<int, Cell>, length: nat)

  /** `length` is the JavaScript `length` of a sparse entries holding `m`:
   *  one past its largest index. */
  ghost predicate IsArrayLength<T>(m: map<int, T>, length: nat)
  {
    (forall k :: k in m ==> 0 <= k < length) && (length > 0 ==> length - 1 in m)
  }

  /** The first index from `Math.floor(index)` down to 0 that holds an entry. */
  method FindPrev<T>(entries: map<int, T>, index: real) returns (prev: Option<int>)
    ensures prev.Some? ==>
      0 <= prev.value <= Floor(index) && prev.value in entries &&
      forall k :: prev.value < k <= Floor(index) ==> k !in entries
    ensures prev.None? ==> forall k :: 0 <= k <= Floor(index) ==> k !in entries
  {
    var i := Floor(index);
    while i >= 0
      invariant i <= Floor(index)
      invariant forall k :: i < k <= Floor(index) ==> k !in entries
      decreases i + 1
    {
      if i in entries {
        return Some(i);
      }
      i := i - 1;
    }
    return None;
  }

  /** The first index from `Math.ceil(index)` up to the length that holds an entry. */
  method FindNext<T>(entries: map<int, T>, length: nat, index: real) returns (next: Option<int>)
    ensures next.Some? ==>
      Ceil(index) <= next.value < length && next.value in entries &&
      forall k :: Ceil(index) <= k < next.value ==> k !in entries
    ensures next.None? ==> forall k :: Ceil(index) <= k < length ==> k !in entries
  {
    var i := Ceil(index);
    while i < length
      invariant Ceil(index) <= i
      invariant forall k :: Ceil(index) <= k < i ==> k !in entries
      decreases length - i
    {
      if i in entries {
        return Some(i);
      }
      i := i + 1;
    }
    return None;
  }

  /** `_findNearestRowOrCol`: the entry whose span covers `index`, else the
   *  nearer of its neighbours (ties to the earlier one); none only when the
   *  entries is empty. `size` reads an entry's `size`. */
  method FindNearest<T>(entries: map<int, T>, length: nat, index: real, size: T -> int)
    returns (r: Option<T>, prev: Option<int>, next: Option<int>)
    requires IsArrayLength(entries, length)
    ensures r.None? <==> forall k :: k !in entries
    ensures prev.Some? ==>
      prev.value in entries && forall k :: prev.value < k <= Floor(index) ==> k !in entries
    ensures next.Some? ==>
      next.value in entries && forall k :: Ceil(index) <= k < next.value ==> k !in entries
    ensures prev.Some? && (prev.value + size(entries[prev.value])) as real >= index ==>
      r == Some(entries[prev.value])
    ensures prev.Some? && (prev.value + size(entries[prev.value])) as real < index && next.Some? ==>
      r == Some(if next.value as real - index < index - prev.value as real
                then entries[next.value] else entries[prev.value])
    ensures prev.Some? && next.None? ==> r == Some(entries[prev.value])
    ensures prev.None? ==> r == (if next.Some? then Some(entries[next.value]) else None)
  {
    prev := FindPrev(entries, index);
    next := FindNext(entries, length, index);
    if prev.Some? {
      var p := prev.value;
      if (p + size(entries[p])) as real >= index {
        return Some(entries[p]), prev, next;
      }
      if next.Some? {
        var n := next.value;
        var distanceToPrev := index - p as real;
        var distanceToNext := n as real - index;
        if distanceToNext < distanceToPrev {
          return Some(entries[n]), prev, next;
        } else {
          return Some(entries[p]), prev, next;
        }
      }
      return Some(entries[p]), prev, next;
    }
    if next.Some? {
      return Some(entries[next.value]), prev, next;
    }
    assert forall k :: k in entries ==> k <= Floor(index) || Ceil(index) <= k;
    return None, prev, next;
  }

  /** The JavaScript length of an array after writing to index `index`. */
  function LengthAfterWrite(length: nat, index: nat): (r: nat)
    ensures r >= length && r > index
    ensures index < length ==> r == length
  {
    if length <= index then index + 1 else length
  }

  /** The table after `addKey` stores `Cell(width, key)` at (`rowIndex`, `colIndex`). */
  function PlaceCell(rows: map<int, GridRow>, key: int, colIndex: nat, rowIndex: nat,
                     width: int, height: int): (r: map<int, GridRow>)
    ensures rowIndex in r && colIndex in r[rowIndex].cols
    ensures r[rowIndex].cols[colIndex] == Cell(width, key)
    ensures r[rowIndex].size == (if rowIndex in rows then rows[rowIndex].size else height)
    ensures r.Keys == rows.Keys + {rowIndex}
    ensures forall i :: i in r && i != rowIndex ==> r[i] == rows[i]
    ensures rowIndex in rows ==> r[rowIndex].cols.Keys == rows[rowIndex].cols.Keys + {colIndex}
    ensures rowIndex !in rows ==> r[rowIndex].cols.Keys == {colIndex}
    ensures forall c :: c in r[rowIndex].cols && c != colIndex ==>
      r[rowIndex].cols[c] == rows[rowIndex].cols[c]
  {
    var row := if rowIndex in rows then rows[rowIndex] else GridRow(height, map[], 0);
    rows[rowIndex := GridRow(row.size, row.cols[colIndex := Cell(width, key)],
                             LengthAfterWrite(row.length, colIndex))]
  }

  /** The gesture's table is a sparse array of sparse arrays with correct lengths. */
  ghost predicate TableOK(rows: map<int, GridRow>, rowsLength: nat)
  {
    IsArrayLength(rows, rowsLength) &&
    forall i :: i in rows ==> IsArrayLength(rows[i].cols, rows[i].length)
  }

  lemma PlaceCellKeepsTableOK(rows: map<int, GridRow>, rowsLength: nat, key: int, colIndex: nat,
                              rowIndex: nat, width: int, height: int,
                              rows': map<int, GridRow>, rowsLength': nat)
    requires TableOK(rows, rowsLength)
    requires rows' == PlaceCell(rows, key, colIndex, rowIndex, width, height)
    requires rowsLength' == LengthAfterWrite(rowsLength, rowIndex)
    ensures TableOK(rows', rowsLength')
  {
    var row := if rowIndex in rows then rows[rowIndex] else GridRow(height, map[], 0);
    assert IsArrayLength(row.cols, row.length);
    assert rows'[rowIndex].length == LengthAfterWrite(row.length, colIndex);
  }

  class KeyContainerGesture {
    var rows: map<int, GridRow>
    var rowsLength: nat
    var height: int
    var width: int

    ghost predicate Valid()
      reads this
    {
      TableOK(rows, rowsLength)
    }

    constructor ()
      ensures Valid() && rows == map[] && height == 0 && width == 0
    {
      rows, rowsLength, height, width := map[], 0, 0, 0;
    }

    /** `addKey`: record a key in the table, creating its row on first use,
     *  and grow the grid extent to cover it; the extent never shrinks. */
    method AddKey(key: int, colIndex: nat, rowIndex: nat, keyWidth: int, keyHeight: int)
      requires Valid()
      modifies this
      ensures Valid()
      ensures rows == PlaceCell(old(rows), key, colIndex, rowIndex, keyWidth, keyHeight)
      ensures rowsLength == LengthAfterWrite(old(rowsLength), rowIndex)
      ensures height == (if old(height) < rowIndex + keyHeight then rowIndex + keyHeight else old(height))
      ensures width == (if old(width) < colIndex + keyWidth then colIndex + keyWidth else old(width))
      ensures height >= old(height) && height >= rowIndex + keyHeight
      ensures width >= old(width) && width >= colIndex + keyWidth
    {
      ghost var oldRows, oldLength := rows, rowsLength;
      rows := PlaceCell(rows, key, colIndex, rowIndex, keyWidth, keyHeight);
      rowsLength := LengthAfterWrite(rowsLength, rowIndex);
      PlaceCellKeepsTableOK(oldRows, oldLength, key, colIndex, rowIndex, keyWidth, keyHeight,
                            rows, rowsLength);
      if height < rowIndex + keyHeight {
        height := rowIndex + keyHeight;
      }
      if width < colIndex + keyWidth {
        width := colIndex + keyWidth;
      }
    }
  }

  // ---------------------------------------------------------------------
  // EmojiPager: pagination
  // ---------------------------------------------------------------------

  /** `_nextPage`: one page on, wrapping to the first. */
  function NextPage(nPage: nat, nPages: nat): (r: nat)
    requires nPages > 0
    ensures r < nPages
    ensures nPage + 1 < nPages ==> r == nPage + 1
  {
    (nPage + 1) % nPages
  }

  /** `_prevPage`: one page back, wrapping to the last. */
  function PrevPage(nPage: nat, nPages: nat): (r: nat)
    requires nPages > 0
    ensures r < nPages
    ensures 0 < nPage < nPages ==> r == nPage - 1
  {
    (nPage + nPages - 1) % nPages
  }

  /** The two steps undo each other on every valid page number. */
  lemma {:induction false} PageStepsInverse(nPage: nat, nPages: nat)
    requires nPage < nPages
    ensures PrevPage(NextPage(nPage, nPages), nPages) == nPage
    ensures NextPage(PrevPage(nPage, nPages), nPages) == nPage
  {
    if nPage + 1 < nPages {
      assert NextPage(nPage, nPages) == nPage + 1;
      DivModUnique(nPage + nPages, nPages, 1, nPage);
    } else {
      DivModUnique(nPage + 1, nPages, 1, 0);
      DivModUnique(nPages - 1, nPages, 0, nPages - 1);
    }
    if nPage > 0 {
      assert PrevPage(nPage, nPages) == nPage - 1;
      DivModUnique(nPage, nPages, 0, nPage);
    } else {
      DivModUnique(nPages - 1, nPages, 0, nPages - 1);
      DivModUnique(nPages, nPages, 1, 0);
    }
  }

  /** One element more: the remainder steps by one, wrapping at `k`. */
  lemma ModSucc(a: nat, k: nat)
    requires k >= 1
    ensures (a + 1) % k == (if a % k == k - 1 then 0 else a % k + 1)
  {
    var q, r := a / k, a % k;
    if r == k - 1 {
      DivModUnique(a + 1, k, q + 1, 0);
    } else {
      DivModUnique(a + 1, k, q, r + 1);
    }
  }

  /** A page: its keys, the number of pages of its section, its number
   *  within the section, and the section's index. */
  datatype Page = Page(pageKeys: seq<int>, nPages: int, page: nat, section: nat)

  /** Keys cut into consecutive pages of `k`, the way `_initPagingInfo`
   *  does it: a new page opens at every index that is a multiple of `k`,
   *  otherwise the key joins the newest page. */
  function Chunks(keys: seq<int>, k: nat): (r: seq<seq<int>>)
    requires k >= 1
    ensures |keys| == 0 <==> |r| == 0
  {
    if |keys| == 0 then []
    else
      var n := |keys| - 1;
      var before := Chunks(keys[..n], k);
      if n % k == 0 then before + [[keys[n]]]
      else before[..|before| - 1] + [before[|before| - 1] + [keys[n]]]
  }

  /** Every chunk but the last is full; the last holds the remainder. */
  lemma {:induction false} ChunksShape(keys: seq<int>, k: nat)
    requires k >= 1
    ensures var r := Chunks(keys, k);
      (|keys| > 0 ==> |r[|r| - 1]| == (|keys| - 1) % k + 1) &&
      (forall p :: 0 <= p < |r| - 1 ==> |r[p]| == k)
  {
    if |keys| > 0 {
      var n := |keys| - 1;
      ChunksShape(keys[..n], k);
      var before := Chunks(keys[..n], k);
      var r := Chunks(keys, k);
      if n > 0 {
        ModSucc(n - 1, k);
      }
      if n % k == 0 {
        assert r == before + [[keys[n]]];
      } else {
        assert r == before[..|before| - 1] + [before[|before| - 1] + [keys[n]]];
      }
    }
  }

  function ConcatKeys(chunks: seq<seq<int>>): seq<int>
  {
    if |chunks| == 0 then [] else ConcatKeys(chunks[..|chunks| - 1]) + chunks[|chunks| - 1]
  }

  /** The chunks, put back together, are the keys in their original order. */
  lemma {:induction false} ChunksKeepOrder(keys: seq<int>, k: nat)
    requires k >= 1
    ensures ConcatKeys(Chunks(keys, k)) == keys
  {
    if |keys| > 0 {
      var n := |keys| - 1;
      var before := Chunks(keys[..n], k);
      ChunksKeepOrder(keys[..n], k);
      assert keys == keys[..n] + [keys[n]];
      if n % k == 0 {
        assert Chunks(keys, k) == before + [[keys[n]]];
        assert (before + [[keys[n]]])[..|before|] == before;
      } else {
        assert Chunks(keys, k) == before[..|before| - 1] + [before[|before| - 1] + [keys[n]]];
        ConcatExtendLast(before, keys[n]);
      }
    }
  }

  /** Adding a key to the last chunk adds it to the end of the keys. */
  lemma ConcatExtendLast(chunks: seq<seq<int>>, x: int)
    requires |chunks| >= 1
    ensures ConcatKeys(chunks[..|chunks| - 1] + [chunks[|chunks| - 1] + [x]]) == ConcatKeys(chunks) + [x]
  {
    var m := |chunks| - 1;
    var r := chunks[..m] + [chunks[m] + [x]];
    assert r[..m] == chunks[..m];
    assert chunks[..m + 1][..m] == chunks[..m];
  }

  lemma {:induction false} ConcatFullLength(chunks: seq<seq<int>>, k: nat)
    requires forall p :: 0 <= p < |chunks| ==> |chunks[p]| == k
    ensures |ConcatKeys(chunks)| == |chunks| * k
  {
    if |chunks| > 0 {
      var m := |chunks| - 1;
      ConcatFullLength(chunks[..m], k);
      assert |chunks| * k == m * k + k;
    }
  }

  /** Math.ceil(n / k) is p when n is p - 1 full pages of k plus 1 … k more. */
  lemma CeilQuotient(n: int, k: int, p: int, l: int)
    requires k >= 1 && 1 <= l <= k && n == (p - 1) * k + l
    ensures Ceil(n as real / k as real) == p
  {
    var x := n as real / k as real;
    assert n as real == (p - 1) as real * k as real + l as real;
    assert x == (p - 1) as real + l as real / k as real;
    assert 0.0 < l as real / k as real <= 1.0;
  }

  /** There are exactly Math.ceil(n / k) chunks. */
  lemma ChunksCount(keys: seq<int>, k: nat)
    requires k >= 1
    ensures |Chunks(keys, k)| == Ceil(|keys| as real / k as real)
  {
    var r := Chunks(keys, k);
    if |keys| > 0 {
      var p := |r|;
      ChunksShape(keys, k);
      ChunksKeepOrder(keys, k);
      assert ConcatKeys(r) == ConcatKeys(r[..p - 1]) + r[p - 1];
      ConcatFullLength(r[..p - 1], k);
      CeilQuotient(|keys|, k, p, (|keys| - 1) % k + 1);
    } else {
      assert |keys| as real / k as real == 0.0;
    }
  }

  /** The pages of section `section`, built from its chunks. */
  function SectionPages(chunks: seq<seq<int>>, nPages: int, section: nat): (r: seq<Page>)
    ensures |r| == |chunks|
    ensures forall p :: 0 <= p < |r| ==>
      r[p].page == p && r[p].section == section && r[p].nPages == nPages && r[p].pageKeys == chunks[p]
  {
    seq(|chunks|, p requires 0 <= p < |chunks| => Page(chunks[p], nPages, p, section))
  }

  lemma SectionPagesPush(chunks: seq<seq<int>>, c: seq<int>, nPages: int, section: nat)
    ensures SectionPages(chunks + [c], nPages, section) ==
            SectionPages(chunks, nPages, section) + [Page(c, nPages, |chunks|, section)]
  {
    var a := SectionPages(chunks + [c], nPages, section);
    var b := SectionPages(chunks, nPages, section) + [Page(c, nPages, |chunks|, section)];
    assert forall p :: 0 <= p < |a| ==> a[p] == b[p];
  }

  lemma SectionPagesExtend(chunks: seq<seq<int>>, x: int, nPages: int, section: nat)
    requires |chunks| > 0
    ensures var m := |chunks| - 1;
      SectionPages(chunks[..m] + [chunks[m] + [x]], nPages, section) ==
      SectionPages(chunks, nPages, section)[..m] + [Page(chunks[m] + [x], nPages, m, section)]
  {
    var m := |chunks| - 1;
    var a := SectionPages(chunks[..m] + [chunks[m] + [x]], nPages, section);
    var b := SectionPages(chunks, nPages, section)[..m] + [Page(chunks[m] + [x], nPages, m, section)];
    assert forall p :: 0 <= p < |a| ==> a[p] == b[p];
  }

  /** `_pages` after `_initPagingInfo` over the first `n` sections. */
  function Paginate(sections: seq<seq<int>>, k: nat, n: nat): seq<Page>
    requires k >= 1 && n <= |sections|
  {
    if n == 0 then []
    else
      Paginate(sections, k, n - 1) +
      SectionPages(Chunks(sections[n - 1], k), Ceil(|sections[n - 1]| as real / k as real), n - 1)
  }

  /** A section yields Math.ceil(n / k) pages numbered 0 … nPages - 1, each
   *  holding one to `k` keys, which in page order are the section's keys. */
  lemma SectionPagesShape(keys: seq<int>, k: nat, section: nat)
    requires k >= 1
    ensures var pages := SectionPages(Chunks(keys, k), Ceil(|keys| as real / k as real), section);
      |pages| == Ceil(|keys| as real / k as real) &&
      (forall p :: 0 <= p < |pages| ==>
         1 <= |pages[p].pageKeys| <= k && pages[p].page == p && pages[p].nPages == |pages|) &&
      ConcatKeys(Chunks(keys, k)) == keys
  {
    ChunksCount(keys, k);
    ChunksKeepOrder(keys, k);
    ChunksShape(keys, k);
    var ch := Chunks(keys, k);
    if |keys| > 0 {
      assert 0 <= (|keys| - 1) % k < k;
    }
  }

  /** A page of section below `n`, numbered below its section's page
   *  count, holding one to `k` keys. */
  predicate PageOK(pg: Page, n: nat, k: nat)
  {
    pg.section < n && pg.page < pg.nPages && 1 <= |pg.pageKeys| <= k
  }

  lemma SectionPagesOK(keys: seq<int>, k: nat, section: nat, pages: seq<Page>)
    requires k >= 1
    requires pages == SectionPages(Chunks(keys, k), Ceil(|keys| as real / k as real), section)
    ensures forall p :: 0 <= p < |pages| ==> PageOK(pages[p], section + 1, k)
  {
    SectionPagesShape(keys, k, section);
  }

  /** Every page of the whole list names a section before `n`, has a page
   *  number below its section's page count, and holds one to `k` keys. */
  lemma {:induction false} PaginateShape(sections: seq<seq<int>>, k: nat, n: nat)
    requires k >= 1 && n <= |sections|
    ensures forall p :: 0 <= p < |Paginate(sections, k, n)| ==> PageOK(Paginate(sections, k, n)[p], n, k)
  {
    if n > 0 {
      var before := Paginate(sections, k, n - 1);
      var keys := sections[n - 1];
      var last := SectionPages(Chunks(keys, k), Ceil(|keys| as real / k as real), n - 1);
      PaginateShape(sections, k, n - 1);
      SectionPagesOK(keys, k, n - 1, last);
      ConcatPagesOK(before, last, n - 1, n, k);
    }
  }

  lemma ConcatPagesOK(a: seq<Page>, b: seq<Page>, m: nat, n: nat, k: nat)
    requires m <= n
    requires forall p :: 0 <= p < |a| ==> PageOK(a[p], m, k)
    requires forall p :: 0 <= p < |b| ==> PageOK(b[p], n, k)
    ensures forall p :: 0 <= p < |a + b| ==> PageOK((a + b)[p], n, k)
  {
    forall p | 0 <= p < |a + b|
      ensures PageOK((a + b)[p], n, k)
    {
      if p < |a| {
        assert PageOK(a[p], m, k);
      } else {
        assert (a + b)[p] == b[p - |a|];
      }
    }
  }

  /** The inner loop of `_initPagingInfo` for one section: a new page opens
   *  at every multiple of `k`, and each key goes to the newest page. */
  method PaginateSection(keys: seq<int>, k: nat, nPages: int, section: nat)
    returns (pages: seq<Page>)
    requires k >= 1
    ensures pages == SectionPages(Chunks(keys, k), nPages, section)
  {
    pages := [];
    var page := -1;
    for j := 0 to |keys|
      invariant pages == SectionPages(Chunks(keys[..j], k), nPages, section)
      invariant page == |pages| - 1
    {
      assert keys[..j + 1][..j] == keys[..j];
      var before := Chunks(keys[..j], k);
      if j % k == 0 {
        page := page + 1;
        pages := pages + [Page([keys[j]], nPages, page, section)];
        SectionPagesPush(before, [keys[j]], nPages, section);
      } else {
        var last := pages[page];
        pages := pages[..page] + [Page(last.pageKeys + [keys[j]], nPages, last.page, section)];
        SectionPagesExtend(before, keys[j], nPages, section);
      }
    }
    assert keys[..|keys|] == keys;
  }

  /** The outer loop of `_initPagingInfo`: the sections' pages one after another. */
  method PaginateAll(sections: seq<seq<int>>, k: nat) returns (pages: seq<Page>)
    requires k >= 1
    ensures pages == Paginate(sections, k, |sections|)
  {
    pages := [];
    for i := 0 to |sections|
      invariant pages == Paginate(sections, k, i)
    {
      var keys := sections[i];
      var nPages := Ceil(|keys| as real / k as real);
      var sectionPages := PaginateSection(keys, k, nPages, i);
      pages := pages + sectionPages;
    }
  }

  class EmojiPager {
    const sections: seq<seq<int>>
    var nCols: int
    var nRows: int
    var pages: seq<Page>
    var curPage: nat
    var delta: real

    constructor (sections: seq<seq<int>>)
      ensures this.sections == sections && pages == [] && curPage == 0 && delta == 0.0
    {
      this.sections := sections;
      nCols, nRows, pages, curPage, delta := 0, 0, [], 0, 0.0;
    }

    /** `getFollowingPage`: the page a swipe reveals, null when not swiping. */
    function FollowingPage(): (r: Option<nat>)
      reads this
      requires curPage < |pages|
      ensures r.None? <==> delta == 0.0
      ensures r.Some? ==> r.value < |pages|
      ensures delta < 0.0 ==> r == Some(NextPage(curPage, |pages|))
      ensures delta > 0.0 ==> r == Some(PrevPage(curPage, |pages|))
    {
      if delta == 0.0 then None
      else if delta < 0.0 then Some(NextPage(curPage, |pages|))
      else Some(PrevPage(curPage, |pages|))
    }

    /** `setSize`: whole numbers of columns and rows, then `_initPagingInfo`. */
    method SetSize(cols: real, rows: real)
      requires Floor(cols) >= 1 && Floor(rows) >= 1
      modifies this
      ensures nCols == Floor(cols) && nRows == Floor(rows)
      ensures nCols * nRows >= 1 && pages == Paginate(sections, nCols * nRows, |sections|)
      ensures curPage == old(curPage) && delta == old(delta)
    {
      nCols := Floor(cols);
      nRows := Floor(rows);
      MulAtLeast(nCols, nRows);
      InitPagingInfo();
    }

    /** `_initPagingInfo`: cut every section into pages of `nCols * nRows` keys. */
    method InitPagingInfo()
      requires nCols * nRows >= 1
      modifies this
      ensures nCols == old(nCols) && nRows == old(nRows)
      ensures pages == Paginate(sections, nCols * nRows, |sections|)
      ensures curPage == old(curPage) && delta == old(delta)
    {
      pages := PaginateAll(sections, nCols * nRows);
    }
  }

  // ---------------------------------------------------------------------
  // Keyboard: latched modifiers
  // ---------------------------------------------------------------------

  /** The set with `keyval`'s membership flipped. */
  function Toggled(s: set<int>, keyval: int): (r: set<int>)
    ensures keyval in r <==> keyval !in s
    ensures forall x :: x != keyval ==> (x in r <==> x in s)
  {
    if keyval in s then s - {keyval} else s + {keyval}
  }

  /** Toggling twice restores the set. */
  lemma ToggleTwice(s: set<int>, keyval: int)
    ensures Toggled(Toggled(s, keyval), keyval) == s
  {
    assert forall x :: x in Toggled(Toggled(s, keyval), keyval) <==> x in s;
  }

  /** The buttons registered for the keyvals in `s`. */
  function ButtonsOf(modifierKeys: map<int, seq<int>>, s: set<int>): set<int>
  {
    set kv, b | kv in s && kv in modifierKeys && b in modifierKeys[kv] :: b
  }

  /** The buttons of one more keyval are those of the others plus its own. */
  lemma ButtonsAdd(modifierKeys: map<int, seq<int>>, s: set<int>, keyval: int)
    requires keyval in modifierKeys
    ensures ButtonsOf(modifierKeys, s + {keyval}) ==
            ButtonsOf(modifierKeys, s) + set b | b in modifierKeys[keyval]
  {
    var own := set b | b in modifierKeys[keyval];
    forall b | b in ButtonsOf(modifierKeys, s) + own
      ensures b in ButtonsOf(modifierKeys, s + {keyval})
    {
      if b !in own {
        var kv :| kv in s && kv in modifierKeys && b in modifierKeys[kv];
      }
    }
  }

  /** `key.setLatched(enabled)` for each of `buttons`, on the set of buttons
   *  showing the 'latched' pseudo class. */
  method SetLatched(latched: set<int>, buttons: seq<int>, enabled: bool) returns (r: set<int>)
    ensures enabled ==> r == latched + set b | b in buttons
    ensures !enabled ==> r == latched - set b | b in buttons
  {
    r := latched;
    for i := 0 to |buttons|
      invariant enabled ==> r == latched + set b | b in buttons[..i]
      invariant !enabled ==> r == latched - set b | b in buttons[..i]
    {
      assert buttons[..i + 1] == buttons[..i] + [buttons[i]];
      if enabled {
        r := r + {buttons[i]};
      } else {
        r := r - {buttons[i]};
      }
    }
    assert buttons[..|buttons|] == buttons;
  }

  class ModifierState {
    /** `_modifiers`: the keyvals currently latched. */
    var modifiers: set<int>
    /** `_modifierKeys`: the buttons created for each modifier keyval. */
    var modifierKeys: map<int, seq<int>>
    /** The buttons showing the 'latched' pseudo class. */
    var latched: set<int>

    /** Only keyvals with buttons are ever latched (they are latched by
     *  releasing one of their buttons). */
    ghost predicate Valid()
      reads this
    {
      modifiers <= modifierKeys.Keys
    }

    constructor ()
      ensures Valid() && modifiers == {} && modifierKeys == map[] && latched == {}
    {
      modifiers, modifierKeys, latched := {}, map[], {};
    }

    /** A modifier button is created: append it to its keyval's list. */
    method RegisterModifierKey(keyval: int, button: int)
      requires Valid()
      modifies this
      ensures modifierKeys == old(modifierKeys)[keyval :=
        (if keyval in old(modifierKeys) then old(modifierKeys)[keyval] else []) + [button]]
      ensures modifiers == old(modifiers) && latched == old(latched)
      ensures Valid()
    {
      var buttons := if keyval in modifierKeys then modifierKeys[keyval] else [];
      modifierKeys := modifierKeys[keyval := buttons + [button]];
    }

    /** `_setModifierEnabled`: add or drop the keyval and (un)latch its buttons. */
    method SetModifierEnabled(keyval: int, enabled: bool)
      requires Valid() && keyval in modifierKeys
      modifies this
      ensures modifierKeys == old(modifierKeys)
      ensures modifiers == if enabled then old(modifiers) + {keyval} else old(modifiers) - {keyval}
      ensures enabled ==> latched == old(latched) + set b | b in modifierKeys[keyval]
      ensures !enabled ==> latched == old(latched) - set b | b in modifierKeys[keyval]
      ensures Valid()
    {
      if enabled {
        modifiers := modifiers + {keyval};
      } else {
        modifiers := modifiers - {keyval};
      }
      latched := SetLatched(latched, modifierKeys[keyval], enabled);
    }

    /** `_toggleModifier`: flip the keyval's membership. */
    method ToggleModifier(keyval: int)
      requires Valid() && keyval in modifierKeys
      modifies this
      ensures modifierKeys == old(modifierKeys)
      ensures modifiers == Toggled(old(modifiers), keyval)
      ensures keyval in modifiers ==> latched == old(latched) + set b | b in modifierKeys[keyval]
      ensures keyval !in modifiers ==> latched == old(latched) - set b | b in modifierKeys[keyval]
      ensures Valid()
    {
      var isActive := keyval in modifiers;
      SetModifierEnabled(keyval, !isActive);
    }

    /** `_disableAllModifiers`: every latched keyval is released, and every
     *  button of a latched keyval stops showing as latched. */
    method DisableAllModifiers()
      requires Valid()
      modifies this
      ensures modifierKeys == old(modifierKeys)
      ensures modifiers == {}
      ensures latched == old(latched) - ButtonsOf(modifierKeys, old(modifiers))
      ensures Valid()
    {
      ghost var done: set<int> := {};
      while modifiers != {}
        invariant Valid() && modifierKeys == old(modifierKeys)
        invariant modifiers == old(modifiers) - done && done <= old(modifiers)
        invariant latched == old(latched) - ButtonsOf(modifierKeys, done)
        decreases |modifiers|
      {
        NonEmptyHasMember(modifiers);
        var keyval :| keyval in modifiers;
        ghost var before := latched;
        SetModifierEnabled(keyval, false);
        ButtonsAdd(modifierKeys, done, keyval);
        done := done + {keyval};
        assert latched == before - set b | b in modifierKeys[keyval];
      }
      assert done == old(modifiers);
    }
  }

  // ---------------------------------------------------------------------
  // KeyboardModel and KeyboardController
  // ---------------------------------------------------------------------

  /** The text before the first '+' (`replace(/\+.*\/, '')` on a one-line name). */
  function BeforePlus(s: string): (r: string)
    ensures |r| <= |s| && r == s[..|r|]
    ensures '+' !in r
    ensures '+' in s ==> s[|r|] == '+'
    ensures '+' !in s ==> r == s
  {
    if |s| == 0 then ""
    else if s[0] == '+' then ""
    else [s[0]] + BeforePlus(s[1..])
  }

  /** The layout names `KeyboardModel` tries, in order. */
  function NameCandidates(groupName: string): (r: seq<string>)
    ensures |r| == (if '+' in groupName then 3 else 2)
    ensures r[0] == groupName && r[|r| - 1] == "us"
    ensures '+' in groupName ==> r[1] == BeforePlus(groupName) && '+' !in r[1]
  {
    [groupName] + (if '+' in groupName then [BeforePlus(groupName)] else []) + ["us"]
  }

  /** The constructor's loop: the first candidate whose layout loads; none
   *  when every load throws. `available` are the layouts that load. */
  method LoadModel(groupName: string, available: set<string>) returns (model: Option<string>)
    ensures model.Some? ==>
      model.value in available &&
      exists i :: 0 <= i < |NameCandidates(groupName)| && NameCandidates(groupName)[i] == model.value &&
                  forall j :: 0 <= j < i ==> NameCandidates(groupName)[j] !in available
    ensures model.None? <==> forall i :: 0 <= i < |NameCandidates(groupName)| ==>
      NameCandidates(groupName)[i] !in available
    ensures "us" in available ==> model.Some?
  {
    var names := NameCandidates(groupName);
    for i := 0 to |names|
      invariant forall j :: 0 <= j < i ==> names[j] !in available
    {
      if names[i] in available {
        return Some(names[i]);
      }
    }
    return None;
  }

  datatype PropType = Toggle | OtherPropType
  datatype PropState = Checked | Unchecked | Inconsistent

  /** An IBus property of the current input source. */
  datatype IBusProperty = IBusProperty(key: string, propType: PropType, state: PropState)

  /** The property that says Hangul mode is off. */
  predicate HangulModeOff(p: IBusProperty)
  {
    p.key == "InputMode" && p.propType == Toggle && p.state != Checked
  }

  /** `getCurrentGroup`: 'us' for Hangul with Hangul mode off; otherwise the
   *  XKB id, then '-extended' in terminal mode, then '-mobile' on a phone. */
  method GetCurrentGroup(sourceId: string, xkbId: string, properties: seq<IBusProperty>,
                         terminalMode: bool, isPhone: bool) returns (group: string)
    ensures sourceId == "hangul" && (exists i :: 0 <= i < |properties| && HangulModeOff(properties[i])) ==>
      group == "us"
    ensures !(sourceId == "hangul" && exists i :: 0 <= i < |properties| && HangulModeOff(properties[i])) ==>
      group == xkbId + (if terminalMode then "-extended" else "") + (if isPhone then "-mobile" else "")
    ensures sourceId != "hangul" && terminalMode && isPhone ==> group == xkbId + "-extended-mobile"
  {
    if sourceId == "hangul" {
      for i := 0 to |properties|
        invariant forall j :: 0 <= j < i ==> !HangulModeOff(properties[j])
      {
        if HangulModeOff(properties[i]) {
          return "us";
        }
      }
    }
    group := xkbId;
    if terminalMode {
      group := group + "-extended";
    }
    if isPhone {
      group := group + "-mobile";
    }
  }

  /** Clutter.InputContentPurpose */
  datatype Purpose = Normal | Alpha | Digits | Number | Phone | Url | Email | Name | Password | Pin | Terminal

  /** `_onContentPurposeHintsChanged`: (emoji-visible, keypad-visible). */
  function PurposeVisibility(purpose: Purpose): (r: (bool, bool))
    ensures !(r.0 && r.1)
    ensures r.0 <==> purpose in {Normal, Alpha, Password, Terminal}
    ensures r.1 <==> purpose in {Digits, Number, Phone}
  {
    var emojiVisible := purpose == Normal || purpose == Alpha || purpose == Password || purpose == Terminal;
    var keypadVisible := purpose == Digits || purpose == Number || purpose == Phone;
    (emojiVisible, keypadVisible)
  }
}

=== FILE: osd.dfy ===
/**
 * On-screen display windows (js/ui/osdWindow.js): the level bar, one OSD
 * window per monitor with its hide timeout, and the manager that keeps
 * exactly one window per monitor and shows or cancels them. Timeouts and
 * the end of a fade-out are explicit events; animations are left out.
 */
module Osd {
  import opened Common

  const HIDE_TIMEOUT: int := 1500

  /** The level the bar's setter stores: the value held in [0, 100]. */
  function ClampLevel(value: real): (r: real)
    ensures 0.0 <= r <= 100.0
    ensures 0.0 <= value <= 100.0 ==> r == value
    ensures value < 0.0 ==> r == 0.0
    ensures value > 100.0 ==> r == 100.0
  {
    Max(0.0, Min(value, 100.0))
  }

  /** The bar's width for a level and the allocated width of the bar's
   *  container. */
  function BarWidth(allocWidth: real, level: real): int {
    Round(allocWidth * level / 100.0)
  }

  /** Clamping twice is clamping once: the 'notify::width' handler that
   *  writes the level back to itself keeps the level. */
  lemma ClampLevelIdempotent(value: real)
    ensures ClampLevel(ClampLevel(value)) == ClampLevel(value)
  {
  }

  /** A stored level fills a share of the allocation between nothing and
   *  all of it, rounded to a pixel. */
  lemma {:induction false} BarWidthWithinAllocation(allocWidth: real, value: real)
    requires allocWidth >= 0.0
    ensures 0 <= BarWidth(allocWidth, ClampLevel(value)) <= Round(allocWidth)
    ensures ClampLevel(value) == 100.0 ==> BarWidth(allocWidth, ClampLevel(value)) == Round(allocWidth)
    ensures ClampLevel(value) == 0.0 ==> BarWidth(allocWidth, ClampLevel(value)) == 0
  {
    var l := ClampLevel(value);
    var x := allocWidth * l / 100.0;
    assert 0.0 <= x <= allocWidth by {
      ScaleWithinUnit(l / 100.0, allocWidth);
      assert x == (l / 100.0) * allocWidth;
    }
    RoundMonotone(x, allocWidth);
    RoundMonotone(0.0, x);
    assert Round(0.0) == 0;
  }

  lemma RoundMonotone(x: real, y: real)
    requires x <= y
    ensures Round(x) <= Round(y)
  {
  }

  /** `LevelBar`: the stored level, the bar's width and how many times the
   *  width was written. */
  class LevelBar {
    var level: real
    var barWidth: int
    var widthWrites: nat

    ghost predicate Valid()
      reads this
    {
      0.0 <= level <= 100.0
    }

    constructor()
      ensures Valid() && level == 0.0 && barWidth == 0 && widthWrites == 0
    {
      level := 0.0;
      barWidth := 0;
      widthWrites := 0;
    }

    /** The `level` setter: the level is clamped and the bar resized to
     *  match, the width written only when it changes. */
    method SetLevel(value: real, allocWidth: real)
      modifies this
      ensures Valid()
      ensures level == ClampLevel(value)
      ensures barWidth == BarWidth(allocWidth, level)
      ensures widthWrites == old(widthWrites) + (if BarWidth(allocWidth, level) != old(barWidth) then 1 else 0)
    {
      level := Max(0.0, Min(value, 100.0));
      var newWidth := Round(allocWidth * level / 100.0);
      if newWidth != barWidth {
        barWidth := newWidth;
        widthWrites := widthWrites + 1;
      }
    }
  }

  /** A monitor's size in logical pixels. */
  datatype Monitor = Monitor(width: real, height: real)

  /** The popup's size: 110 px on a 640x480 monitor, scaled with the
   *  smaller ratio and never below 110. */
  function PopupSize(m: Monitor): real {
    110.0 * Max(1.0, Min(m.width / 640.0, m.height / 480.0))
  }

  /** The popup is at least 110 px, exactly 110 px up to 640x480, and a
   *  monitor at least as large on both axes never gets a smaller one. */
  lemma {:induction false} PopupSizeBounds(m: Monitor, larger: Monitor)
    requires m.width <= larger.width && m.height <= larger.height
    ensures PopupSize(m) >= 110.0
    ensures m.width <= 640.0 || m.height <= 480.0 ==> PopupSize(m) == 110.0
    ensures PopupSize(m) <= PopupSize(larger)
  {
    assert m.width / 640.0 <= larger.width / 640.0;
    assert m.height / 480.0 <= larger.height / 480.0;
  }

  /** The popup grows in proportion once the monitor is larger than
   *  640x480 on both axes: a 1280x960 monitor gets 220 px. */
  lemma PopupSizeDoubles()
    ensures PopupSize(Monitor(1280.0, 960.0)) == 220.0
  {
  }

  /** One OSD window. */
  class OsdWindow {
    const monitorIndex: int
    const bar: LevelBar
    var popupSize: real
    var iconSize: real
    /** Whether the icon has a GIcon. */
    var hasIcon: bool
    var visible: bool
    var labelVisible: bool
    var labelText: string
    var levelVisible: bool
    /** The targets of the level tweens started while visible. */
    var levelTweens: seq<real>
    /** Whether a hide timeout is pending (a non-zero `_hideTimeoutId`). */
    var hideTimeoutPending: bool
    var timeoutsScheduled: nat
    var timeoutsRemoved: nat
    var timeoutsFired: nat
    /** Fade-outs started by `_hide`. */
    var fadeOuts: nat
    var destroyed: bool

    /** Every hide timeout scheduled was removed, fired or is pending, so
     *  at most one is ever pending; the bar's level is in range. */
    ghost predicate Valid()
      reads this, bar
    {
      timeoutsScheduled == timeoutsRemoved + timeoutsFired + (if hideTimeoutPending then 1 else 0)
      && bar.Valid()
    }

    /** `_init`: the window starts hidden with no label or level, and sizes
     *  itself for its monitor. */
    constructor(monitorIndex: int, monitors: seq<Monitor>, scaleFactor: real)
      requires scaleFactor > 0.0
      ensures Valid() && fresh(bar)
      ensures this.monitorIndex == monitorIndex
      ensures 0 <= monitorIndex < |monitors| ==> popupSize == PopupSize(monitors[monitorIndex])
      ensures !(0 <= monitorIndex < |monitors|) ==> popupSize == 0.0
      ensures !visible && !labelVisible && !levelVisible && !hasIcon && !hideTimeoutPending && !destroyed
      ensures timeoutsScheduled == 0 && fadeOuts == 0
    {
      this.monitorIndex := monitorIndex;
      bar := new LevelBar();
      popupSize := 0.0;
      iconSize := 0.0;
      hasIcon := false;
      visible := false;
      labelVisible := false;
      labelText := "";
      levelVisible := false;
      levelTweens := [];
      hideTimeoutPending := false;
      timeoutsScheduled, timeoutsRemoved, timeoutsFired := 0, 0, 0;
      fadeOuts := 0;
      destroyed := false;
      new;
      MonitorsChanged(monitors, scaleFactor);
    }

    /** `_monitorsChanged`: a window whose monitor is gone keeps its size;
     *  otherwise the popup is sized for the monitor and the icon takes
     *  half of it in unscaled pixels. */
    method MonitorsChanged(monitors: seq<Monitor>, scaleFactor: real)
      requires scaleFactor > 0.0
      modifies this
      ensures 0 <= monitorIndex < |monitors| ==>
        popupSize == PopupSize(monitors[monitorIndex]) && iconSize == popupSize / (2.0 * scaleFactor)
      ensures !(0 <= monitorIndex < |monitors|) ==> popupSize == old(popupSize) && iconSize == old(iconSize)
      ensures hasIcon == old(hasIcon) && visible == old(visible) && labelVisible == old(labelVisible)
      ensures labelText == old(labelText) && levelVisible == old(levelVisible) && levelTweens == old(levelTweens)
      ensures hideTimeoutPending == old(hideTimeoutPending) && timeoutsScheduled == old(timeoutsScheduled)
      ensures timeoutsRemoved == old(timeoutsRemoved) && timeoutsFired == old(timeoutsFired)
      ensures fadeOuts == old(fadeOuts) && destroyed == old(destroyed)
    {
      if !(0 <= monitorIndex < |monitors|) {
        return;
      }
      var monitor := monitors[monitorIndex];
      var scale := Min(monitor.width / 640.0, monitor.height / 480.0);
      popupSize := 110.0 * Max(1.0, scale);
      iconSize := popupSize / (2.0 * scaleFactor);
    }

    /** `setIcon`. */
    method SetIcon(icon: bool)
      modifies this
      ensures hasIcon == icon
      ensures visible == old(visible) && labelVisible == old(labelVisible) && labelText == old(labelText)
      ensures levelVisible == old(levelVisible) && levelTweens == old(levelTweens)
      ensures hideTimeoutPending == old(hideTimeoutPending) && timeoutsScheduled == old(timeoutsScheduled)
      ensures timeoutsRemoved == old(timeoutsRemoved) && timeoutsFired == old(timeoutsFired)
      ensures fadeOuts == old(fadeOuts) && destroyed == old(destroyed)
      ensures popupSize == old(popupSize) && iconSize == old(iconSize)
    {
      hasIcon := icon;
    }

    /** `setLabel`: a null or undefined label hides the label; an empty
     *  one shows it without changing its text. */
    method SetLabel(text: Option<string>)
      modifies this
      ensures labelVisible == text.Some?
      ensures labelText == (if text.Some? && text.value != "" then text.value else old(labelText))
      ensures hasIcon == old(hasIcon) && visible == old(visible)
      ensures levelVisible == old(levelVisible) && levelTweens == old(levelTweens)
      ensures hideTimeoutPending == old(hideTimeoutPending) && timeoutsScheduled == old(timeoutsScheduled)
      ensures timeoutsRemoved == old(timeoutsRemoved) && timeoutsFired == old(timeoutsFired)
      ensures fadeOuts == old(fadeOuts) && destroyed == old(destroyed)
      ensures popupSize == old(popupSize) && iconSize == old(iconSize)
    {
      labelVisible := text.Some?;
      if text.Some? && text.value != "" {
        labelText := text.value;
      }
    }

    /** `setLevel`: a visible window animates the bar towards the level,
     *  a hidden one sets it at once. */
    method SetLevel(level: Option<real>, allocWidth: real)
      requires Valid()
      modifies this, bar
      ensures Valid()
      ensures levelVisible == level.Some?
      ensures level.Some? && visible ==> levelTweens == old(levelTweens) + [level.value] && bar.level == old(bar.level)
      ensures level.Some? && !visible ==> (levelTweens == old(levelTweens) && bar.level == ClampLevel(level.value)
        && bar.barWidth == BarWidth(allocWidth, bar.level))
      ensures level.None? ==> levelTweens == old(levelTweens) && bar.level == old(bar.level)
      ensures hasIcon == old(hasIcon) && visible == old(visible) && labelVisible == old(labelVisible) && labelText == old(labelText)
      ensures hideTimeoutPending == old(hideTimeoutPending) && timeoutsScheduled == old(timeoutsScheduled)
      ensures timeoutsRemoved == old(timeoutsRemoved) && timeoutsFired == old(timeoutsFired)
      ensures fadeOuts == old(fadeOuts) && destroyed == old(destroyed)
      ensures popupSize == old(popupSize) && iconSize == old(iconSize)
    {
      levelVisible := level.Some?;
      if level.Some? {
        if visible {
          levelTweens := levelTweens + [level.value];
        } else {
          bar.SetLevel(level.value, allocWidth);
        }
      }
    }

    /** `show`: nothing without an icon; otherwise the window becomes
     *  visible and its hide timeout is restarted. */
    method Show()
      requires Valid()
      modifies this
      ensures Valid()
      ensures !hasIcon ==> (visible == old(visible) && hideTimeoutPending == old(hideTimeoutPending)
        && timeoutsScheduled == old(timeoutsScheduled) && timeoutsRemoved == old(timeoutsRemoved))
      ensures hasIcon ==> (visible && hideTimeoutPending && timeoutsScheduled == old(timeoutsScheduled) + 1
        && timeoutsRemoved == old(timeoutsRemoved) + (if old(hideTimeoutPending) then 1 else 0))
      ensures hasIcon == old(hasIcon) && labelVisible == old(labelVisible) && labelText == old(labelText)
      ensures levelVisible == old(levelVisible) && levelTweens == old(levelTweens)
      ensures timeoutsFired == old(timeoutsFired) && fadeOuts == old(fadeOuts) && destroyed == old(destroyed)
      ensures popupSize == old(popupSize) && iconSize == old(iconSize)
    {
      if !hasIcon {
        return;
      }
      if !visible {
        visible := true;
      }
      if hideTimeoutPending {
        timeoutsRemoved := timeoutsRemoved + 1;
      }
      hideTimeoutPending := true;
      timeoutsScheduled := timeoutsScheduled + 1;
    }

    /** `cancel`: without a pending hide timeout nothing happens;
     *  otherwise the timeout is removed and the window hides now. */
    method Cancel()
      requires Valid()
      modifies this
      ensures Valid()
      ensures !hideTimeoutPending
      ensures !old(hideTimeoutPending) ==> timeoutsRemoved == old(timeoutsRemoved) && fadeOuts == old(fadeOuts)
      ensures old(hideTimeoutPending) ==> timeoutsRemoved == old(timeoutsRemoved) + 1 && fadeOuts == old(fadeOuts) + 1
      ensures hasIcon == old(hasIcon) && visible == old(visible) && labelVisible == old(labelVisible)
      ensures labelText == old(labelText) && levelVisible == old(levelVisible) && levelTweens == old(levelTweens)
      ensures timeoutsScheduled == old(timeoutsScheduled) && timeoutsFired == old(timeoutsFired)
      ensures destroyed == old(destroyed) && popupSize == old(popupSize) && iconSize == old(iconSize)
    {
      if !hideTimeoutPending {
        return;
      }
      timeoutsRemoved := timeoutsRemoved + 1;
      hideTimeoutPending := false;
      Hide();
    }

    /** `_hide`: the timeout is forgotten and a fade-out starts. */
    method Hide()
      modifies this
      ensures !hideTimeoutPending && fadeOuts == old(fadeOuts) + 1
      ensures hasIcon == old(hasIcon) && visible == old(visible) && labelVisible == old(labelVisible)
      ensures labelText == old(labelText) && levelVisible == old(levelVisible) && levelTweens == old(levelTweens)
      ensures timeoutsScheduled == old(timeoutsScheduled) && timeoutsRemoved == old(timeoutsRemoved)
      ensures timeoutsFired == old(timeoutsFired)
      ensures destroyed == old(destroyed) && popupSize == old(popupSize) && iconSize == old(iconSize)
    {
      hideTimeoutPending := false;
      fadeOuts := fadeOuts + 1;
    }

    /** The hide timeout fires after HIDE_TIMEOUT ms. */
    method HideTimeoutFired()
      requires Valid() && hideTimeoutPending
      modifies this
      ensures Valid() && !hideTimeoutPending
      ensures timeoutsFired == old(timeoutsFired) + 1 && fadeOuts == old(fadeOuts) + 1
      ensures visible == old(visible) && hasIcon == old(hasIcon)
    {
      timeoutsFired := timeoutsFired + 1;
      Hide();
    }

    /** The fade-out completes: `_reset` hides the window, its label and
     *  its level. */
    method FadeOutCompleted()
      requires Valid()
      modifies this
      ensures Valid()
      ensures !visible && !labelVisible && !levelVisible
      ensures hasIcon == old(hasIcon) && labelText == old(labelText) && levelTweens == old(levelTweens)
      ensures hideTimeoutPending == old(hideTimeoutPending) && timeoutsScheduled == old(timeoutsScheduled)
      ensures timeoutsRemoved == old(timeoutsRemoved) && timeoutsFired == old(timeoutsFired)
      ensures fadeOuts == old(fadeOuts) && destroyed == old(destroyed)
    {
      visible := false;
      labelVisible := false;
      levelVisible := false;
    }

    /** The actor is destroyed when its monitor goes away. */
    method Destroy()
      modifies this
      ensures destroyed
      ensures hasIcon == old(hasIcon) && visible == old(visible) && hideTimeoutPending == old(hideTimeoutPending)
      ensures timeoutsScheduled == old(timeoutsScheduled) && timeoutsRemoved == old(timeoutsRemoved)
      ensures timeoutsFired == old(timeoutsFired)
    {
      destroyed := true;
    }
  }

  /** A window after `_showOsdWindow`: it shows the icon, label and level
   *  asked for and, with an icon, is visible with a fresh hide timeout. */
  ghost predicate Shown(w: OsdWindow, icon: bool, text: Option<string>, level: Option<real>)
    reads w
  {
    w.hasIcon == icon && w.labelVisible == text.Some? && w.levelVisible == level.Some?
    && (icon ==> w.visible && w.hideTimeoutPending)
  }

  /** A window after `cancel`, given whether it had a pending timeout and
   *  how many fade-outs it had started. */
  ghost predicate Cancelled(w: OsdWindow, wasPending: bool, fadeOuts: nat)
    reads w
  {
    !w.hideTimeoutPending && w.fadeOuts == fadeOuts + (if wasPending then 1 else 0)
  }

  /** `OsdWindowManager`: one OSD window per monitor. */
  class OsdWindowManager {
    var windows: seq<OsdWindow>

    /** Window i serves monitor i, is alive and keeps its own invariant. */
    ghost predicate Valid()
      reads this, set i | 0 <= i < |windows| :: windows[i]
      reads set i | 0 <= i < |windows| :: windows[i].bar
    {
      (forall i :: 0 <= i < |windows| ==> windows[i].monitorIndex == i && !windows[i].destroyed && windows[i].Valid())
      && (forall i, j :: 0 <= i < |windows| && 0 <= j < |windows| && i != j ==> windows[i].bar != windows[j].bar)
    }

    ghost function Repr(): set<object>
      reads this
    {
      (set i | 0 <= i < |windows| :: windows[i]) + (set i | 0 <= i < |windows| :: windows[i].bar)
    }

    constructor(monitors: seq<Monitor>, scaleFactor: real)
      requires scaleFactor > 0.0
      ensures Valid()
      ensures |windows| == |monitors|
    {
      windows := [];
      new;
      MonitorsChanged(monitors, scaleFactor);
    }

    /** `_monitorsChanged`: windows are created for new monitors, the
     *  windows of monitors that are gone are destroyed, and the list is
     *  cut to the number of monitors. */
    method MonitorsChanged(monitors: seq<Monitor>, scaleFactor: real)
      requires Valid() && scaleFactor > 0.0
      modifies this, Repr()
      ensures Valid()
      ensures |windows| == |monitors|
      ensures forall i :: 0 <= i < |monitors| && i < |old(windows)| ==> windows[i] == old(windows)[i]
      ensures forall i :: |old(windows)| <= i < |monitors| ==> fresh(windows[i]) && fresh(windows[i].bar)
      ensures forall i :: |monitors| <= i < |old(windows)| ==> old(windows)[i].destroyed
      ensures forall i :: 0 <= i < |monitors| && i < |old(windows)| ==> unchanged(windows[i])
    {
      CreateMissing(monitors, scaleFactor);
      DestroyExtra(|monitors|);
    }

    /** The first loop of `_monitorsChanged`: a window for each monitor
     *  that has none. */
    method CreateMissing(monitors: seq<Monitor>, scaleFactor: real)
      requires Valid() && scaleFactor > 0.0
      modifies this
      ensures Valid()
      ensures |windows| == (if |old(windows)| >= |monitors| then |old(windows)| else |monitors|)
      ensures windows[..|old(windows)|] == old(windows)
      ensures forall k :: |old(windows)| <= k < |windows| ==> fresh(windows[k]) && fresh(windows[k].bar)
      ensures forall k :: 0 <= k < |old(windows)| ==> unchanged(windows[k], windows[k].bar)
    {
      var n := |windows|;
      var i := n;
      while i < |monitors|
        invariant i == |windows| && n <= i && (n <= |monitors| ==> i <= |monitors|) && (n > |monitors| ==> i == n)
        invariant n == |old(windows)| && windows[..n] == old(windows)
        invariant Valid()
        invariant forall k :: n <= k < |windows| ==> fresh(windows[k]) && fresh(windows[k].bar)
        invariant forall k :: 0 <= k < n ==> unchanged(windows[k], windows[k].bar)
      {
        var w := new OsdWindow(i, monitors, scaleFactor);
        Append(w);
        i := i + 1;
      }
    }

    /** Adds a new window for the next monitor index. */
    method Append(w: OsdWindow)
      requires Valid() && w.Valid() && !w.destroyed && w.monitorIndex == |windows|
      requires w.bar !in Repr()
      modifies this`windows
      ensures Valid() && windows == old(windows) + [w]
    {
      windows := windows + [w];
    }

    /** The second loop of `_monitorsChanged` and the cut: windows past
     *  the last monitor are destroyed and dropped. */
    method DestroyExtra(count: int)
      requires Valid() && 0 <= count <= |windows|
      modifies this, set k | count <= k < |windows| :: windows[k]
      ensures Valid()
      ensures windows == old(windows)[..count]
      ensures forall k :: count <= k < |old(windows)| ==> old(windows)[k].destroyed
      ensures forall k :: 0 <= k < count ==> unchanged(windows[k], windows[k].bar)
    {
      var j := count;
      while j < |windows|
        invariant count <= j <= |windows| && windows == old(windows)
        invariant forall k :: 0 <= k < count ==> unchanged(windows[k], windows[k].bar)
        invariant forall k :: count <= k < j ==> windows[k].destroyed
      {
        windows[j].Destroy();
        j := j + 1;
      }
      windows := windows[..count];
    }

    /** `show`: with -1 every window is shown; otherwise only the window
     *  of that monitor is shown and every other one is cancelled. */
    method Show(monitorIndex: int, icon: bool, text: Option<string>, level: Option<real>, allocWidth: real)
      requires Valid()
      modifies Repr()
      ensures Valid()
      ensures forall i :: 0 <= i < |windows| && (monitorIndex == -1 || i == monitorIndex) ==>
        Shown(windows[i], icon, text, level)
      ensures forall i :: 0 <= i < |windows| && monitorIndex != -1 && i != monitorIndex ==>
        Cancelled(windows[i], old(windows[i].hideTimeoutPending), old(windows[i].fadeOuts))
    {
      var i := 0;
      while i < |windows|
        invariant 0 <= i <= |windows|
        invariant Valid()
        invariant forall k :: 0 <= k < i && (monitorIndex == -1 || k == monitorIndex) ==>
          Shown(windows[k], icon, text, level)
        invariant forall k :: 0 <= k < i && monitorIndex != -1 && k != monitorIndex ==>
          Cancelled(windows[k], old(windows[k].hideTimeoutPending), old(windows[k].fadeOuts))
        invariant forall k :: i <= k < |windows| ==> unchanged(windows[k], windows[k].bar)
      {
        if monitorIndex == -1 || i == monitorIndex {
          ShowOsdWindow(i, icon, text, level, allocWidth);
        } else {
          CancelAt(i);
        }
        i := i + 1;
      }
    }

    /** `hideAll`: every window is cancelled, and a window with a pending
     *  hide timeout starts fading out at once. */
    method HideAll()
      requires Valid()
      modifies Repr()
      ensures Valid()
      ensures windows == old(windows)
      ensures forall i :: 0 <= i < |windows| ==>
        Cancelled(windows[i], old(windows[i].hideTimeoutPending), old(windows[i].fadeOuts))
    {
      var i := 0;
      while i < |windows|
        invariant 0 <= i <= |windows| && windows == old(windows)
        invariant Valid()
        invariant forall k :: 0 <= k < i ==>
          Cancelled(windows[k], old(windows[k].hideTimeoutPending), old(windows[k].fadeOuts))
        invariant forall k :: i <= k < |windows| ==> unchanged(windows[k], windows[k].bar)
      {
        CancelAt(i);
        i := i + 1;
      }
    }

    /** Cancelling the window at `i` touches no other window. */
    method CancelAt(i: int)
      requires Valid() && 0 <= i < |windows|
      modifies windows[i]
      ensures Valid()
      ensures Cancelled(windows[i], old(windows[i].hideTimeoutPending), old(windows[i].fadeOuts))
    {
      windows[i].Cancel();
    }

    /** `_showOsdWindow`. */
    method ShowOsdWindow(i: int, icon: bool, text: Option<string>, level: Option<real>, allocWidth: real)
      requires Valid() && 0 <= i < |windows|
      modifies windows[i], windows[i].bar
      ensures Valid()
      ensures Shown(windows[i], icon, text, level)
    {
      var w := windows[i];
      w.SetIcon(icon);
      w.SetLabel(text);
      w.SetLevel(level, allocWidth);
      w.Show();
    }
  }
}

=== FILE: overviewcontrols.dfy ===
/** The overview's state arithmetic (js/ui/overviewControls.js): the three
 *  controls states, the rounding of a running transition to whole states and
 *  its progress, one-step state shifting, and the visibility rules derived
 *  from the transition parameters. */
module OverviewControls {
  import opened Common

  // ---------------------------------------------------------------------
  // States and the adjustment
  // ---------------------------------------------------------------------

  /** ControlsState, as the values the state adjustment takes. */
  const HIDDEN: real := 0.0
  const WINDOW_PICKER: real := 1.0
  const APP_GRID: real := 2.0

  predicate IsState(x: real) {
    x == HIDDEN || x == WINDOW_PICKER || x == APP_GRID
  }

  /** The running transition of the adjustment's value, if any. */
  datatype Interval = Interval(initial: real, final: real)

  datatype StateTransitionParams = StateTransitionParams(
    transitioning: bool,
    currentState: real,
    initialState: real,
    finalState: real,
    progress: real)

  /** The state a transition starts from: its initial value, or the current one without a transition. */
  function RawInitial(current: real, transition: Option<Interval>): real {
    if transition.Some? then transition.value.initial else current
  }

  function RawFinal(current: real, transition: Option<Interval>): real {
    if transition.Some? then transition.value.final else current
  }

  /** The ends of a transition rounded outwards to whole states: a falling
   *  transition ceils its start and floors its end, any other floors its
   *  start and ceils its end. */
  function RoundOutwards(i: real, f: real): (r: (real, real))
    ensures i > f ==> r.0 == Ceil(i) as real && r.1 == Floor(f) as real
    ensures i <= f ==> r.0 == Floor(i) as real && r.1 == Ceil(f) as real
    ensures Min(r.0, r.1) <= Min(i, f) && Max(i, f) <= Max(r.0, r.1)
    ensures i > f ==> r.0 >= r.1
    ensures i <= f ==> r.0 <= r.1
  {
    if i > f then (Ceil(i) as real, Floor(f) as real) else (Floor(i) as real, Ceil(f) as real)
  }

  /** The progress from `initialState` towards `finalState`: the distance
   *  covered over the length, or complete when the two coincide. */
  function Progress(current: real, initialState: real, finalState: real): (r: real)
    ensures r >= 0.0
    ensures initialState != finalState ==>
      r * Abs(finalState - initialState) == Abs(current - initialState)
    ensures initialState == finalState ==> r == 1.0
  {
    var length := Abs(finalState - initialState);
    if length > 0.0 then
      var q := (current - initialState) / length;
      assert q * length == current - initialState;
      assert Abs(q) * length == Abs(q * length);
      Abs(q)
    else 1.0
  }

  /** `getStateTransitionParams` */
  function TransitionParams(current: real, transition: Option<Interval>, gestureInProgress: bool)
    : (p: StateTransitionParams)
    ensures p.currentState == current
    ensures p.transitioning <==> transition.Some? || gestureInProgress
    ensures (p.initialState, p.finalState) ==
      RoundOutwards(RawInitial(current, transition), RawFinal(current, transition))
    ensures p.progress == Progress(current, p.initialState, p.finalState)
  {
    var ends := RoundOutwards(RawInitial(current, transition), RawFinal(current, transition));
    StateTransitionParams(transition.Some? || gestureInProgress, current, ends.0, ends.1,
                          Progress(current, ends.0, ends.1))
  }

  /** While the current value lies between the two ends of the transition,
   *  the progress is a fraction between 0 and 1. */
  lemma ProgressIsFraction(current: real, transition: Option<Interval>, gestureInProgress: bool)
    requires Min(RawInitial(current, transition), RawFinal(current, transition)) <= current
    requires current <= Max(RawInitial(current, transition), RawFinal(current, transition))
    ensures 0.0 <= TransitionParams(current, transition, gestureInProgress).progress <= 1.0
  {
    var p := TransitionParams(current, transition, gestureInProgress);
    ProgressBetweenEnds(current, p.initialState, p.finalState);
  }

  lemma ProgressBetweenEnds(current: real, a: real, b: real)
    requires Min(a, b) <= current <= Max(a, b)
    ensures 0.0 <= Progress(current, a, b) <= 1.0
  {
    if a != b {
      var length := Abs(b - a);
      var r := Progress(current, a, b);
      if a < b {
        assert Abs(current - a) == current - a <= b - a == length;
      } else {
        assert Abs(current - a) == a - current <= a - b == length;
      }
      assert Abs(current - a) <= length;
      FractionOfLength(r, length, Abs(current - a));
    }
  }

  /** A factor that scales a positive length to at most that length is at most 1. */
  lemma FractionOfLength(r: real, length: real, covered: real)
    requires length > 0.0 && r * length == covered && covered <= length
    ensures r <= 1.0
  {
    assert r * length <= length;
  }

  /** Resting on a whole state (no transition), both ends are that state and
   *  the progress is complete; resting between two states, the ends are the
   *  two neighbouring states and the progress is the fraction past the lower. */
  lemma AtRest(current: real, gestureInProgress: bool)
    ensures
      var p := TransitionParams(current, None, gestureInProgress);
      p.initialState == Floor(current) as real &&
      (current == Floor(current) as real ==> p.finalState == current && p.progress == 1.0) &&
      (current != Floor(current) as real ==>
        p.finalState == Floor(current) as real + 1.0 && p.progress == current - Floor(current) as real)
  {
    var p := TransitionParams(current, None, gestureInProgress);
    var lo := Floor(current);
    assert p.initialState == lo as real && p.finalState == Ceil(current) as real;
    if current == lo as real {
      assert Ceil(current) == lo;
    } else {
      assert Ceil(current) == lo + 1;
      assert p.progress * 1.0 == current - lo as real;
    }
  }

  /** OverviewAdjustment: the state adjustment, starting in the window
   *  picker, bounded by HIDDEN and APP_GRID. */
  class OverviewAdjustment {
    var value: real
    var transition: Option<Interval>
    var gestureInProgress: bool
    const lower: real
    const upper: real

    constructor ()
      ensures value == WINDOW_PICKER && lower == HIDDEN && upper == APP_GRID
      ensures transition == None && !gestureInProgress
    {
      value := WINDOW_PICKER;
      lower := HIDDEN;
      upper := APP_GRID;
      transition := None;
      gestureInProgress := false;
    }

    function GetStateTransitionParams(): StateTransitionParams
      reads this
    {
      TransitionParams(value, transition, gestureInProgress)
    }
  }

  // ---------------------------------------------------------------------
  // Shifting the state one step
  // ---------------------------------------------------------------------

  datatype MotionDirection = Up | Down | OtherDirection

  /** What `_shiftState` does: nothing, show or hide the overview, or ease
   *  the adjustment to a state, checking the show-apps button at the end
   *  exactly when that state is APP_GRID. */
  datatype ShiftAction = NoShift | ShowOverview | HideOverview | EaseTo(target: real, appsChecked: bool)

  /** The final state moved one step in the direction, kept within the states. */
  function ShiftedFinal(finalState: real, direction: MotionDirection): (r: real)
    ensures direction == OtherDirection ==> r == finalState
    ensures direction == Down ==> r == HIDDEN || r == finalState - 1.0
    ensures direction == Up ==> r == APP_GRID || r == finalState + 1.0
    ensures HIDDEN <= finalState <= APP_GRID ==> HIDDEN <= r <= APP_GRID
  {
    match direction
    case Down => Max(finalState - 1.0, HIDDEN)
    case Up => Min(finalState + 1.0, APP_GRID)
    case OtherDirection => finalState
  }

  /** `_shiftState` */
  function ShiftState(p: StateTransitionParams, direction: MotionDirection): (a: ShiftAction)
    ensures a == NoShift <==> ShiftedFinal(p.finalState, direction) == p.currentState
    ensures a == ShowOverview <==>
      ShiftedFinal(p.finalState, direction) != p.currentState &&
      p.currentState == HIDDEN && ShiftedFinal(p.finalState, direction) == WINDOW_PICKER
    ensures a == HideOverview ==> ShiftedFinal(p.finalState, direction) == HIDDEN && p.currentState != HIDDEN
    ensures a.EaseTo? ==>
      a.target == ShiftedFinal(p.finalState, direction) && a.target != p.currentState &&
      a.target != HIDDEN && (a.appsChecked <==> a.target == APP_GRID)
  {
    var finalState := ShiftedFinal(p.finalState, direction);
    if finalState == p.currentState then NoShift
    else if p.currentState == HIDDEN && finalState == WINDOW_PICKER then ShowOverview
    else if finalState == HIDDEN then HideOverview
    else EaseTo(finalState, finalState == APP_GRID)
  }

  /** Stepping up then down (or down then up) from a state that is not at
   *  that end returns to it. */
  lemma ShiftStepsInverse(s: real)
    requires IsState(s)
    ensures s != APP_GRID ==> ShiftedFinal(ShiftedFinal(s, Up), Down) == s
    ensures s != HIDDEN ==> ShiftedFinal(ShiftedFinal(s, Down), Up) == s
    ensures ShiftedFinal(APP_GRID, Up) == APP_GRID && ShiftedFinal(HIDDEN, Down) == HIDDEN
  {
  }

  /** From rest on a state, shifting never leaves the three states, and it
   *  does nothing exactly at the end the direction points to. */
  lemma ShiftFromRest(s: real, direction: MotionDirection)
    requires IsState(s)
    ensures
      var a := ShiftState(TransitionParams(s, None, false), direction);
      (a.EaseTo? ==> IsState(a.target)) &&
      (a == NoShift <==>
        direction == OtherDirection || (direction == Up && s == APP_GRID) || (direction == Down && s == HIDDEN))
  {
    AtRest(s, false);
    var p := TransitionParams(s, None, false);
    assert p.currentState == s && p.finalState == s;
  }

  // ---------------------------------------------------------------------
  // Visibility rules
  // ---------------------------------------------------------------------

  datatype BoxParams = BoxParams(opacity: real, scale: real, translationY: real)

  /** `paramsForState` of `_getThumbnailsBoxParams`: the workspace
   *  thumbnails fade out and shrink to half size, sliding down by half their
   *  height, on the app grid, and are fully shown in every other state. */
  function ThumbnailsParamsForState(s: real, boxHeight: real): (b: BoxParams)
    ensures s == APP_GRID ==> b == BoxParams(0.0, 0.5, boxHeight / 2.0)
    ensures s != APP_GRID ==> b == BoxParams(255.0, 1.0, 0.0)
  {
    if s == HIDDEN || s == WINDOW_PICKER then BoxParams(255.0, 1.0, 0.0)
    else if s == APP_GRID then BoxParams(0.0, 0.5, boxHeight / 2.0)
    else BoxParams(255.0, 1.0, 0.0)
  }

  /** `_getThumbnailsBoxParams`: the state parameters interpolated by the progress. */
  function ThumbnailsBoxParams(p: StateTransitionParams, boxHeight: real): BoxParams {
    var a := ThumbnailsParamsForState(p.initialState, boxHeight);
    var b := ThumbnailsParamsForState(p.finalState, boxHeight);
    BoxParams(Lerp(a.opacity, b.opacity, p.progress), Lerp(a.scale, b.scale, p.progress),
              Lerp(a.translationY, b.translationY, p.progress))
  }

  /** The thumbnails' opacity and scale stay within the two states' values
   *  during a transition, and are the full ones when neither end is APP_GRID. */
  lemma ThumbnailsBounds(p: StateTransitionParams, boxHeight: real)
    requires 0.0 <= p.progress <= 1.0
    ensures 0.0 <= ThumbnailsBoxParams(p, boxHeight).opacity <= 255.0
    ensures 0.5 <= ThumbnailsBoxParams(p, boxHeight).scale <= 1.0
    ensures p.initialState != APP_GRID && p.finalState != APP_GRID ==>
      ThumbnailsBoxParams(p, boxHeight).opacity == 255.0 && ThumbnailsBoxParams(p, boxHeight).scale == 1.0
  {
    var a := ThumbnailsParamsForState(p.initialState, boxHeight);
    var b := ThumbnailsParamsForState(p.finalState, boxHeight);
    LerpBetween(a.opacity, b.opacity, p.progress);
    LerpBetween(a.scale, b.scale, p.progress);
  }

  /** `_updateThumbnailsBox`: the box is shown only off the phone, when it
   *  wants to be shown, without a search, and with some opacity. */
  function ThumbnailsBoxVisible(isPhone: bool, shouldShow: bool, searchActive: bool, opacity: real): bool {
    !isPhone && shouldShow && !searchActive && opacity != 0.0
  }

  /** `_updateAppDisplayVisibility`: the app grid is shown on the phone or
   *  when the later of the two ends lies past the window picker, and never
   *  during a search. */
  function AppDisplayVisible(p: StateTransitionParams, isPhone: bool, searchActive: bool): (v: bool)
    ensures searchActive ==> !v
    ensures isPhone ==> v == !searchActive
    ensures IsState(p.initialState) && IsState(p.finalState) ==>
      (v <==> !searchActive && (isPhone || p.initialState == APP_GRID || p.finalState == APP_GRID))
  {
    var state := Max(p.initialState, p.finalState);
    (isPhone || state > WINDOW_PICKER) && !searchActive
  }

  /** At rest on a state, off the phone and without a search, the app grid
   *  and the thumbnails are never both shown: the app grid is shown exactly
   *  on APP_GRID, where the thumbnails are fully transparent. */
  lemma AppGridExcludesThumbnails(s: real, boxHeight: real, shouldShow: bool)
    requires IsState(s)
    ensures
      var p := TransitionParams(s, None, false);
      (AppDisplayVisible(p, false, false) <==> s == APP_GRID) &&
      !(AppDisplayVisible(p, false, false) &&
        ThumbnailsBoxVisible(false, shouldShow, false, ThumbnailsBoxParams(p, boxHeight).opacity))
  {
    AtRest(s, false);
  }

  // ---------------------------------------------------------------------
  // Fit mode
  // ---------------------------------------------------------------------

  datatype FitMode = Single | All

  /** `_getFitModeForState`: an unconditional early return makes every
   *  state fit a single workspace. */
  function FitModeForState(state: real): (m: FitMode)
    ensures m == Single
  {
    Single
  }

  /** The state switch that follows the early return and is never reached. */
  function FitModeSwitch(state: real): FitMode {
    if state == HIDDEN || state == WINDOW_PICKER then Single
    else if state == APP_GRID then All
    else Single
  }

  /** The early return differs from the unreachable switch on APP_GRID only. */
  lemma FitModeDiffersOnAppGrid(state: real)
    ensures FitModeForState(state) != FitModeSwitch(state) <==> state == APP_GRID
  {
  }
}

=== FILE: rounded_clip.dfy ===
/** The rounded-rectangle clip effect: a state object holding optional custom
 *  bounds and four elliptical corner sizes, the uniform values derived from
 *  it, and the per-pixel coverage function of its fragment shader. */
module RoundedClip {
  import opened Common

  /** graphene_size_t; for a corner, its horizontal and vertical radius. */
  datatype Size = Size(width: real, height: real)

  /** graphene_rect_t: origin and size. */
  datatype Rect = Rect(x: real, y: real, width: real, height: real)

  datatype Vec2 = Vec2(x: real, y: real)

  /** A GLSL vec4 with its components named as the shader names them. */
  datatype Vec4 = Vec4(x: real, y: real, z: real, w: real)

  datatype Corners = Corners(topLeft: Size, topRight: Size, bottomLeft: Size, bottomRight: Size)

  /** The four uniforms uploaded to the pipeline. A pixel-step component is
   *  None where the texture dimension is 0 (IEEE division gives infinity). */
  datatype Uniforms = Uniforms(bounds: Vec4, centers1: Vec4, centers2: Vec4,
                               stepX: Option<real>, stepY: Option<real>)

  /** The properties whose change the effect announces. */
  datatype Prop = BoundsProp | RadiusProp

  /** What a setter does besides changing fields, in order. */
  datatype Event = UniformsUpdated | QueueRepaint | Notify(prop: Prop)

  const NoCorners := Corners(Size(0.0, 0.0), Size(0.0, 0.0), Size(0.0, 0.0), Size(0.0, 0.0))

  function Circle(radius: real): Size { Size(radius, radius) }

  function Uniform(radius: real): Corners
  {
    Corners(Circle(radius), Circle(radius), Circle(radius), Circle(radius))
  }

  /** 1/v in single-precision arithmetic, with infinity as None. */
  function Reciprocal(v: real): (r: Option<real>)
    ensures r.Some? <==> v != 0.0
    ensures r.Some? ==> r.value * v == 1.0
  {
    if v == 0.0 then None else Some(1.0 / v)
  }

  /** The clip bounds (x1, y1, x2, y2): the custom rectangle when one is
   *  set, otherwise the whole texture. */
  function ClipBounds(texture: Size, customSet: bool, custom: Rect): (b: Vec4)
    ensures !customSet ==> b == Vec4(0.0, 0.0, texture.width, texture.height)
    ensures customSet ==> b.z - b.x == custom.width && b.w - b.y == custom.height
                          && b.x == custom.x && b.y == custom.y
  {
    if customSet then Vec4(custom.x, custom.y, custom.x + custom.width, custom.y + custom.height)
    else Vec4(0.0, 0.0, texture.width, texture.height)
  }

  /** Corner centres of the top-left and top-right corners. */
  function Centers1(b: Vec4, c: Corners): Vec4
  {
    Vec4(b.x + c.topLeft.width, b.y + c.topLeft.height, b.z - c.topRight.width, b.y + c.topRight.height)
  }

  /** Corner centres of the bottom-right and bottom-left corners. */
  function Centers2(b: Vec4, c: Corners): Vec4
  {
    Vec4(b.z - c.bottomRight.width, b.w - c.bottomRight.height, b.x + c.bottomLeft.width, b.w - c.bottomLeft.height)
  }

  /** The values update_uniforms writes, as a function of the effect's state. */
  function DeriveUniforms(texture: Size, customSet: bool, custom: Rect, c: Corners): Uniforms
  {
    var b := ClipBounds(texture, customSet, custom);
    Uniforms(b, Centers1(b, c), Centers2(b, c), Reciprocal(texture.width), Reciprocal(texture.height))
  }

  /** Each corner centre is its bounds corner moved inward by that corner's
   *  own width and height. */
  lemma CentresMoveInward(texture: Size, customSet: bool, custom: Rect, c: Corners)
    ensures var u := DeriveUniforms(texture, customSet, custom, c);
            var b := u.bounds;
            // top left: right and down
            u.centers1.x == b.x + c.topLeft.width && u.centers1.y == b.y + c.topLeft.height &&
            // top right: left and down
            u.centers1.z == b.z - c.topRight.width && u.centers1.w == b.y + c.topRight.height &&
            // bottom right: left and up
            u.centers2.x == b.z - c.bottomRight.width && u.centers2.y == b.w - c.bottomRight.height &&
            // bottom left: right and up
            u.centers2.z == b.x + c.bottomLeft.width && u.centers2.w == b.w - c.bottomLeft.height
  {
  }

  /** The radius vectors the shader recomputes from the uniforms:
   *  (top left, top right, bottom right, bottom left). */
  function ShaderRadii(b: Vec4, c1: Vec4, c2: Vec4): seq<Vec2>
  {
    [Vec2(c1.x - b.x, c1.y - b.y), Vec2(c1.z - b.z, c1.w - b.y),
     Vec2(c2.x - b.z, c2.y - b.w), Vec2(c2.z - b.x, c2.w - b.w)]
  }

  /** Deriving the uniforms and recovering the radii in the shader gives back
   *  the configured corner sizes, up to the sign that points inward. */
  lemma RadiiRoundTrip(texture: Size, customSet: bool, custom: Rect, c: Corners)
    ensures var u := DeriveUniforms(texture, customSet, custom, c);
            var rad := ShaderRadii(u.bounds, u.centers1, u.centers2);
            rad == [Vec2(c.topLeft.width, c.topLeft.height), Vec2(-c.topRight.width, c.topRight.height),
                    Vec2(-c.bottomRight.width, -c.bottomRight.height), Vec2(c.bottomLeft.width, -c.bottomLeft.height)]
  {
  }

  /** With non-negative corner sizes the recovered radii have exactly the
   *  configured sizes as absolute components. */
  lemma RadiiRoundTripAbs(texture: Size, customSet: bool, custom: Rect, c: Corners)
    requires NonNegative(c)
    ensures var u := DeriveUniforms(texture, customSet, custom, c);
            var rad := ShaderRadii(u.bounds, u.centers1, u.centers2);
            var sizes := [c.topLeft, c.topRight, c.bottomRight, c.bottomLeft];
            forall i :: 0 <= i < 4 ==> Abs(rad[i].x) == sizes[i].width && Abs(rad[i].y) == sizes[i].height
  {
    RadiiRoundTrip(texture, customSet, custom, c);
  }

  predicate NonNegative(c: Corners)
  {
    c.topLeft.width >= 0.0 && c.topLeft.height >= 0.0 &&
    c.topRight.width >= 0.0 && c.topRight.height >= 0.0 &&
    c.bottomLeft.width >= 0.0 && c.bottomLeft.height >= 0.0 &&
    c.bottomRight.width >= 0.0 && c.bottomRight.height >= 0.0
  }

  // ---------------------------------------------------------------------
  // The fragment shader

  /** A shader distance: a finite value, minus infinity (at the centre of a
   *  non-degenerate ellipse the divisor is 0), or not a number (exactly one
   *  radius component is 0, so a component divides by 0). */
  datatype Dist = Finite(d: real) | NegInfinity | NotANumber

  /** A length function over vec2, abstract but positive on non-zero vectors. */
  ghost predicate PositiveLength(length: (real, real) -> real)
  {
    forall x: real, y: real :: (x != 0.0 || y != 0.0) ==> length(x, y) > 0.0
  }

  /** ellipsis_dist: the approximate signed distance of p to the ellipse. */
  function EllipsisDist(p: Vec2, radius: Vec2, length: (real, real) -> real): (r: Dist)
    requires PositiveLength(length)
    ensures radius == Vec2(0.0, 0.0) ==> r == Finite(0.0)
    ensures r == NotANumber <==> (radius.x == 0.0) != (radius.y == 0.0)
  {
    if radius.x == 0.0 && radius.y == 0.0 then Finite(0.0)
    else if radius.x == 0.0 || radius.y == 0.0 then NotANumber
    else
      var p0 := Vec2(p.x / radius.x, p.y / radius.y);
      var p1 := Vec2(2.0 * p0.x / radius.x, 2.0 * p0.y / radius.y);
      if p1.x == 0.0 && p1.y == 0.0 then NegInfinity
      else Finite((p0.x * p0.x + p0.y * p0.y - 1.0) / length(p1.x, p1.y))
  }

  /** ellipsis_coverage: clamp(0.5 - d, 0, 1); None where d is not a number. */
  function EllipsisCoverage(point: Vec2, center: Vec2, radius: Vec2, length: (real, real) -> real): (r: Option<real>)
    requires PositiveLength(length)
    ensures r.Some? ==> 0.0 <= r.value <= 1.0
    ensures radius == Vec2(0.0, 0.0) ==> r == Some(0.5)
    ensures r.None? <==> (radius.x == 0.0) != (radius.y == 0.0)
  {
    match EllipsisDist(Vec2(point.x - center.x, point.y - center.y), radius, length)
    case Finite(d) => Some(Clamp(0.5 - d, 0.0, 1.0))
    case NegInfinity => Some(1.0)
    case NotANumber => None
  }

  predicate OutsideBounds(b: Vec4, p: Vec2)
  {
    p.x < b.x || p.y < b.y || p.x >= b.z || p.y >= b.w
  }

  /** The four is_out conditions, one per corner quadrant (tl, tr, br, bl). */
  function QuadrantTests(c1: Vec4, c2: Vec4, p: Vec2): seq<bool>
  {
    [p.x < c1.x && p.y < c1.y, p.x > c1.z && p.y < c1.w,
     p.x > c2.x && p.y > c2.y, p.x < c2.z && p.y > c2.w]
  }

  /** rounded_rect_coverage: 0 outside the bounds; otherwise 1 minus the
   *  uncovered part of every corner whose quadrant contains p. None where a
   *  corner distance is not a number (it poisons the dot product). */
  function RoundedRectCoverage(b: Vec4, c1: Vec4, c2: Vec4, p: Vec2, length: (real, real) -> real): (r: Option<real>)
    requires PositiveLength(length)
    ensures OutsideBounds(b, p) ==> r == Some(0.0)
  {
    if OutsideBounds(b, p) then Some(0.0)
    else
      var rad := ShaderRadii(b, c1, c2);
      var refs := [Vec2(c1.x, c1.y), Vec2(c1.z, c1.w), Vec2(c2.x, c2.y), Vec2(c2.z, c2.w)];
      var cov := seq(4, i requires 0 <= i < 4 => EllipsisCoverage(p, refs[i], rad[i], length));
      var out := QuadrantTests(c1, c2, p);
      if exists i :: 0 <= i < 4 && cov[i].None? then None
      else Some(1.0 - Uncovered(out, cov, 0))
  }

  /** dot(vec4(is_out), 1.0 - coverages), from index i on. */
  function Uncovered(out: seq<bool>, cov: seq<Option<real>>, i: nat): real
    requires |out| == |cov| && i <= |out|
    requires forall k :: 0 <= k < |cov| ==> cov[k].Some?
    decreases |out| - i
  {
    if i == |out| then 0.0
    else (if out[i] then 1.0 - cov[i].value else 0.0) + Uncovered(out, cov, i + 1)
  }

  lemma {:induction false} UncoveredNone(out: seq<bool>, cov: seq<Option<real>>, i: nat)
    requires |out| == |cov| && i <= |out|
    requires forall k :: 0 <= k < |cov| ==> cov[k].Some?
    requires forall k :: i <= k < |out| ==> !out[k]
    ensures Uncovered(out, cov, i) == 0.0
    decreases |out| - i
  {
    if i < |out| {
      UncoveredNone(out, cov, i + 1);
    }
  }

  lemma {:induction false} UncoveredOne(out: seq<bool>, cov: seq<Option<real>>, i: nat, j: nat)
    requires |out| == |cov| && i <= j < |out|
    requires forall k :: 0 <= k < |cov| ==> cov[k].Some?
    requires forall k :: i <= k < |out| ==> (out[k] <==> k == j)
    ensures Uncovered(out, cov, i) == 1.0 - cov[j].value
    decreases |out| - i
  {
    if i < j {
      UncoveredOne(out, cov, i + 1, j);
    } else {
      UncoveredNone(out, cov, i + 1);
    }
  }

  /** A corner whose radius is zero in both directions or in neither. */
  predicate NonDegenerate(s: Size)
  {
    (s.width == 0.0) == (s.height == 0.0)
  }

  predicate AllNonDegenerate(c: Corners)
  {
    NonDegenerate(c.topLeft) && NonDegenerate(c.topRight) &&
    NonDegenerate(c.bottomLeft) && NonDegenerate(c.bottomRight)
  }

  /** An in-bounds point in none of the four corner quadrants is fully
   *  covered, provided no corner is degenerate. */
  lemma InteriorFullyCovered(texture: Size, customSet: bool, custom: Rect, c: Corners, p: Vec2, length: (real, real) -> real)
    requires PositiveLength(length) && AllNonDegenerate(c)
    requires var u := DeriveUniforms(texture, customSet, custom, c);
             !OutsideBounds(u.bounds, p) && QuadrantTests(u.centers1, u.centers2, p) == [false, false, false, false]
    ensures var u := DeriveUniforms(texture, customSet, custom, c);
            RoundedRectCoverage(u.bounds, u.centers1, u.centers2, p, length) == Some(1.0)
  {
    var u := DeriveUniforms(texture, customSet, custom, c);
    RadiiRoundTrip(texture, customSet, custom, c);
    var rad := ShaderRadii(u.bounds, u.centers1, u.centers2);
    var refs := [Vec2(u.centers1.x, u.centers1.y), Vec2(u.centers1.z, u.centers1.w),
                 Vec2(u.centers2.x, u.centers2.y), Vec2(u.centers2.z, u.centers2.w)];
    var cov := seq(4, i requires 0 <= i < 4 => EllipsisCoverage(p, refs[i], rad[i], length));
    assert forall k :: 0 <= k < 4 ==> cov[k].Some?;
    UncoveredNone(QuadrantTests(u.centers1, u.centers2, p), cov, 0);
  }

  /** With all corners (0, 0) every in-bounds point has coverage 1: the
   *  effect then clips to a plain rectangle. */
  lemma SquareCornersClipToRectangle(texture: Size, customSet: bool, custom: Rect, p: Vec2, length: (real, real) -> real)
    requires PositiveLength(length)
    requires !OutsideBounds(DeriveUniforms(texture, customSet, custom, NoCorners).bounds, p)
    ensures var u := DeriveUniforms(texture, customSet, custom, NoCorners);
            RoundedRectCoverage(u.bounds, u.centers1, u.centers2, p, length) == Some(1.0)
  {
    InteriorFullyCovered(texture, customSet, custom, NoCorners, p, length);
  }

  /** Corners no larger than half the clip rectangle in each direction. */
  predicate FitInHalves(b: Vec4, c: Corners)
  {
    NonNegative(c) &&
    2.0 * c.topLeft.width <= b.z - b.x && 2.0 * c.topRight.width <= b.z - b.x &&
    2.0 * c.bottomLeft.width <= b.z - b.x && 2.0 * c.bottomRight.width <= b.z - b.x &&
    2.0 * c.topLeft.height <= b.w - b.y && 2.0 * c.topRight.height <= b.w - b.y &&
    2.0 * c.bottomLeft.height <= b.w - b.y && 2.0 * c.bottomRight.height <= b.w - b.y
  }

  /** When the corners fit in the halves of the rectangle, a point lies in at
   *  most one corner quadrant and its coverage is that corner's coverage, a
   *  value in [0, 1]. */
  lemma CoverageInUnitInterval(texture: Size, customSet: bool, custom: Rect, c: Corners, p: Vec2, length: (real, real) -> real)
    requires PositiveLength(length) && AllNonDegenerate(c)
    requires FitInHalves(ClipBounds(texture, customSet, custom), c)
    ensures var u := DeriveUniforms(texture, customSet, custom, c);
            var r := RoundedRectCoverage(u.bounds, u.centers1, u.centers2, p, length);
            r.Some? && 0.0 <= r.value <= 1.0
  {
    var u := DeriveUniforms(texture, customSet, custom, c);
    if !OutsideBounds(u.bounds, p) {
      RadiiRoundTrip(texture, customSet, custom, c);
      var rad := ShaderRadii(u.bounds, u.centers1, u.centers2);
      var refs := [Vec2(u.centers1.x, u.centers1.y), Vec2(u.centers1.z, u.centers1.w),
                   Vec2(u.centers2.x, u.centers2.y), Vec2(u.centers2.z, u.centers2.w)];
      var cov := seq(4, i requires 0 <= i < 4 => EllipsisCoverage(p, refs[i], rad[i], length));
      assert forall k :: 0 <= k < 4 ==> cov[k].Some?;
      var out := QuadrantTests(u.centers1, u.centers2, p);
      if exists j :: 0 <= j < 4 && out[j] {
        var j :| 0 <= j < 4 && out[j];
        assert forall k :: 0 <= k < 4 ==> (out[k] <==> k == j);
        UncoveredOne(out, cov, 0, j);
      } else {
        UncoveredNone(out, cov, 0);
      }
    }
  }

  // ---------------------------------------------------------------------
  // Corner equality and the radius property

  /** corners_equal: every corner circular and all four of the same size. */
  predicate CornersEqual(c: Corners)
  {
    c.topLeft.height == c.topLeft.width && c.topRight.height == c.topRight.width &&
    c.bottomLeft.height == c.bottomLeft.width && c.bottomRight.height == c.bottomRight.width &&
    c.topLeft.height == c.topRight.height && c.bottomLeft.height == c.bottomRight.height &&
    c.topLeft.height == c.bottomLeft.height
  }

  /** get_radius as a function of the corners. */
  function RadiusOf(c: Corners): real
  {
    if CornersEqual(c) then c.topLeft.width else 0.0
  }

  /** The radius reads 0 unless the corners are four equal circles, and the
   *  equal circles are exactly the uniform corners of that radius. */
  lemma RadiusCharacterised(c: Corners)
    ensures CornersEqual(c) <==> c == Uniform(c.topLeft.width)
    ensures RadiusOf(c) != 0.0 ==> c == Uniform(RadiusOf(c))
    ensures !CornersEqual(c) ==> RadiusOf(c) == 0.0
  {
  }

  /** Setting a uniform radius and reading it back round-trips. */
  lemma RadiusRoundTrip(r: real)
    ensures CornersEqual(Uniform(r)) && RadiusOf(Uniform(r)) == r
  {
  }

  // ---------------------------------------------------------------------
  // The effect object

  class ClipEffect {
    var textureSize: Size
    var customBoundsSet: bool
    var customBounds: Rect
    var corners: Corners
    /** Whether the effect is attached to an actor. */
    var hasActor: bool
    /** The uniform values last written to the pipeline. */
    var uniforms: Uniforms
    /** Uniform updates, repaints and notifications, in order. */
    var events: seq<Event>

    ghost predicate Valid()
      reads this
    {
      uniforms == DeriveUniforms(textureSize, customBoundsSet, customBounds, corners)
    }

    /** shell_rounded_clip_effect_init: zeroed private state, then update_uniforms. */
    constructor ()
      ensures Valid()
      ensures textureSize == Size(0.0, 0.0) && !customBoundsSet && corners == NoCorners && !hasActor
      ensures events == [UniformsUpdated]
    {
      textureSize := Size(0.0, 0.0);
      customBoundsSet := false;
      customBounds := Rect(0.0, 0.0, 0.0, 0.0);
      corners := NoCorners;
      hasActor := false;
      uniforms := DeriveUniforms(Size(0.0, 0.0), false, Rect(0.0, 0.0, 0.0, 0.0), NoCorners);
      events := [UniformsUpdated];
    }

    /** update_uniforms */
    method UpdateUniforms()
      modifies this
      ensures Valid()
      ensures textureSize == old(textureSize) && customBoundsSet == old(customBoundsSet)
      ensures customBounds == old(customBounds) && corners == old(corners) && hasActor == old(hasActor)
      ensures events == old(events) + [UniformsUpdated]
    {
      uniforms := DeriveUniforms(textureSize, customBoundsSet, customBounds, corners);
      events := events + [UniformsUpdated];
    }

    /** create_pipeline: record the texture size, then update the uniforms. */
    method CreatePipeline(width: nat, height: nat)
      modifies this
      ensures Valid()
      ensures textureSize == Size(width as real, height as real)
      ensures customBoundsSet == old(customBoundsSet) && customBounds == old(customBounds)
      ensures corners == old(corners) && hasActor == old(hasActor)
      ensures events == old(events) + [UniformsUpdated]
    {
      textureSize := Size(width as real, height as real);
      UpdateUniforms();
    }

    /** get_bounds: the custom bounds, if set. */
    method GetBounds() returns (b: Option<Rect>)
      ensures b.Some? <==> customBoundsSet
      ensures b.Some? ==> b.value == customBounds
    {
      b := if customBoundsSet then Some(customBounds) else None;
    }

    /** set_bounds: None removes the custom bounds. Nothing happens when the
     *  value already matches; otherwise the uniforms are updated and the
     *  bounds property is notified once. */
    method SetBounds(bounds: Option<Rect>)
      requires Valid()
      modifies this
      ensures Valid()
      ensures var changed := if bounds.None? then old(customBoundsSet)
                             else !(old(customBoundsSet) && old(customBounds) == bounds.value);
              (!changed ==> unchanged(this)) &&
              (changed ==> events == old(events) + [UniformsUpdated, Notify(BoundsProp)] &&
                           customBoundsSet == bounds.Some? &&
                           (bounds.Some? ==> customBounds == bounds.value) &&
                           (bounds.None? ==> customBounds == old(customBounds)))
      ensures textureSize == old(textureSize) && corners == old(corners) && hasActor == old(hasActor)
    {
      if bounds.None? {
        if !customBoundsSet {
          return;
        }
        customBoundsSet := false;
      } else {
        if customBoundsSet && customBounds == bounds.value {
          return;
        }
        customBoundsSet := true;
        customBounds := bounds.value;
      }
      UpdateUniforms();
      events := events + [Notify(BoundsProp)];
    }

    /** Attaching the effect to an actor, or detaching it: the actor meta's
     *  `set_actor`, which decides whether set_radius queues a repaint. */
    method SetActor(attached: bool)
      modifies this
      ensures hasActor == attached
      ensures textureSize == old(textureSize) && customBoundsSet == old(customBoundsSet)
      ensures customBounds == old(customBounds) && corners == old(corners)
      ensures uniforms == old(uniforms) && events == old(events)
    {
      hasActor := attached;
    }

    method GetCorners() returns (c: Corners)
      ensures c == corners
    {
      c := corners;
    }

    /** set_corners: nothing happens when all four sizes are unchanged;
     *  otherwise all four are replaced and the uniforms updated, with no
     *  property notification. */
    method SetCorners(c: Corners)
      requires Valid()
      modifies this
      ensures Valid()
      ensures c == old(corners) ==> unchanged(this)
      ensures c != old(corners) ==> corners == c && events == old(events) + [UniformsUpdated]
      ensures textureSize == old(textureSize) && customBoundsSet == old(customBoundsSet)
      ensures customBounds == old(customBounds) && hasActor == old(hasActor)
    {
      if corners == c {
        return;
      }
      corners := c;
      UpdateUniforms();
    }

    /** get_radius: 0 unless all four corners are equal circles. */
    method GetRadius() returns (r: real)
      ensures !CornersEqual(corners) ==> r == 0.0
      ensures CornersEqual(corners) ==> corners == Uniform(r)
    {
      r := if CornersEqual(corners) then corners.topLeft.width else 0.0;
    }

    /** set_radius: a no-op when the corners already are circles of that
     *  radius; otherwise all corners become circles of that radius, the
     *  uniforms are updated, a repaint is queued when an actor is attached,
     *  and the radius property is notified once. Either way the radius then
     *  reads back as `radius`. */
    method SetRadius(radius: real)
      requires Valid()
      modifies this
      ensures Valid()
      ensures RadiusOf(corners) == radius
      ensures old(corners) == Uniform(radius) ==> unchanged(this)
      ensures old(corners) != Uniform(radius) ==>
                corners == Uniform(radius) &&
                events == old(events) + [UniformsUpdated] + (if hasActor then [QueueRepaint] else []) + [Notify(RadiusProp)]
      ensures textureSize == old(textureSize) && customBoundsSet == old(customBoundsSet)
      ensures customBounds == old(customBounds) && hasActor == old(hasActor)
    {
      if CornersEqual(corners) && radius == corners.topLeft.width {
        return;
      }
      corners := Uniform(radius);
      UpdateUniforms();
      if hasActor {
        events := events + [QueueRepaint];
      }
      events := events + [Notify(RadiusProp)];
    }
  }
}

=== FILE: screencast.dfy ===
/** The screencast D-Bus service (js/dbusServices/screencast/screencastService.js):
 *  the `%`-escape file name template, the thread-count substitution in the
 *  pipeline descriptions, the hold/release counting of the service's
 *  recorders, and each recorder's pipeline and session state machine. */
module Screencast {
  import opened Common

  // ---------------------------------------------------------------------
  // File name template
  // ---------------------------------------------------------------------

  /** `s.replace(/from/g, to)` for a single character. */
  function ReplaceChar(s: string, from: char, to: char): (r: string)
    ensures |r| == |s|
    ensures forall i :: 0 <= i < |s| ==> r[i] == (if s[i] == from then to else s[i])
    ensures from != to ==> from !in r
  {
    seq(|s|, i requires 0 <= i < |s| => if s[i] == from then to else s[i])
  }

  /** The text an escape `%c` stands for: `%%` is a percent sign, `%d` the
   *  local date with its slashes turned into dashes, `%t` the local time with
   *  its slashes turned into colons; any other escape stands for nothing. */
  function EscapeText(c: char, date: string, time: string): (r: string)
    ensures c == 'd' ==> '/' !in r && |r| == |date|
    ensures c == 't' ==> '/' !in r && |r| == |time|
    ensures c != '%' && c != 'd' && c != 't' ==> r == ""
  {
    if c == '%' then "%"
    else if c == 'd' then ReplaceChar(date, '/', '-')
    else if c == 't' then ReplaceChar(time, '/', ':')
    else ""
  }

  /** The two variables of the template loop: the name so far and whether
   *  the previous character opened an escape. */
  datatype ScanState = ScanState(filename: string, escape: bool)

  /** One iteration of the template loop. */
  function ScanStep(st: ScanState, c: char, date: string, time: string): ScanState {
    if st.escape then ScanState(st.filename + EscapeText(c, date, time), false)
    else if c == '%' then ScanState(st.filename, true)
    else ScanState(st.filename + [c], false)
  }

  /** The loop's state after the characters of `t`. */
  function Scan(t: string, date: string, time: string): ScanState
    decreases |t|
  {
    if |t| == 0 then ScanState("", false)
    else ScanStep(Scan(t[..|t| - 1], date, time), t[|t| - 1], date, time)
  }

  /** The expanded name: a trailing lone `%` is kept. */
  function ExpandTemplate(t: string, date: string, time: string): string {
    var st := Scan(t, date, time);
    if st.escape then st.filename + "%" else st.filename
  }

  /** The same expansion read from the front, one escape or character at a time. */
  function ExpandReference(t: string, date: string, time: string): string
    decreases |t|
  {
    if |t| == 0 then ""
    else if t[0] != '%' then [t[0]] + ExpandReference(t[1..], date, time)
    else if |t| == 1 then "%"
    else EscapeText(t[1], date, time) + ExpandReference(t[2..], date, time)
  }

  /** Scanning a second part after a first part that closed its escapes
   *  appends the second part's name to the first's. */
  lemma {:induction false} ScanConcat(a: string, b: string, date: string, time: string)
    requires !Scan(a, date, time).escape
    ensures Scan(a + b, date, time) ==
      ScanState(Scan(a, date, time).filename + Scan(b, date, time).filename, Scan(b, date, time).escape)
    decreases |b|
  {
    if |b| == 0 {
      assert a + b == a;
    } else {
      var b' := b[..|b| - 1];
      ScanConcat(a, b', date, time);
      assert (a + b)[..|a + b| - 1] == a + b';
    }
  }

  /** The loop computes exactly the front-to-back reading of the template. */
  lemma {:induction false} ExpandMatchesReference(t: string, date: string, time: string)
    ensures ExpandTemplate(t, date, time) == ExpandReference(t, date, time)
    decreases |t|
  {
    if |t| == 0 {
    } else if t[0] != '%' {
      ScanPlainHead(t, date, time);
      ScanConcat(t[..1], t[1..], date, time);
      assert t[..1] + t[1..] == t;
      ExpandMatchesReference(t[1..], date, time);
    } else if |t| == 1 {
      assert t[..0] == [];
      assert Scan(t, date, time) == ScanState("", true);
    } else {
      ScanEscapeHead(t, date, time);
      ScanConcat(t[..2], t[2..], date, time);
      assert t[..2] + t[2..] == t;
      ExpandMatchesReference(t[2..], date, time);
    }
  }

  lemma ScanPlainHead(t: string, date: string, time: string)
    requires |t| >= 1 && t[0] != '%'
    ensures Scan(t[..1], date, time) == ScanState([t[0]], false)
  {
    assert t[..1][..0] == [];
  }

  lemma ScanEscapeHead(t: string, date: string, time: string)
    requires |t| >= 2 && t[0] == '%'
    ensures Scan(t[..2], date, time) == ScanState(EscapeText(t[1], date, time), false)
  {
    assert t[..2][..1] == [t[0]] && t[..2][..1][..0] == [];
    assert Scan(t[..2][..1], date, time) == ScanState("", true);
    assert "" + EscapeText(t[1], date, time) == EscapeText(t[1], date, time);
  }

  /** A template without escapes is the name itself. */
  lemma {:induction false} PlainTemplateUnchanged(t: string, date: string, time: string)
    requires '%' !in t
    ensures ExpandTemplate(t, date, time) == t
  {
    ExpandMatchesReference(t, date, time);
    PlainReference(t, date, time);
  }

  lemma {:induction false} PlainReference(t: string, date: string, time: string)
    requires '%' !in t
    ensures ExpandReference(t, date, time) == t
    decreases |t|
  {
    if |t| > 0 {
      assert t == [t[0]] + t[1..];
      PlainReference(t[1..], date, time);
    }
  }

  /** `GLib.path_is_absolute` */
  predicate IsAbsolute(path: string) {
    |path| > 0 && path[0] == '/'
  }

  /** `_getAbsolutePath`: an absolute name is kept; a relative one is put in
   *  the videos directory. */
  function AbsolutePath(filename: string, videoDir: string): (r: string)
    ensures IsAbsolute(filename) ==> r == filename
    ensures !IsAbsolute(filename) ==> r == videoDir + "/" + filename
    ensures IsAbsolute(videoDir) ==> IsAbsolute(r)
  {
    if IsAbsolute(filename) then filename else videoDir + "/" + filename
  }

  /** Once absolute, a path stays as it is. */
  lemma AbsolutePathIdempotent(filename: string, videoDir: string)
    requires IsAbsolute(videoDir)
    ensures AbsolutePath(AbsolutePath(filename, videoDir), videoDir) == AbsolutePath(filename, videoDir)
  {
  }

  /** `_generateFilePath`: expand the template character by character, keep
   *  a trailing lone `%`, then make the name absolute. The clock's date and
   *  time strings are parameters. */
  method GenerateFilePath(template: string, date: string, time: string, videoDir: string)
    returns (path: string)
    ensures path == AbsolutePath(ExpandTemplate(template, date, time), videoDir)
  {
    var filename := "";
    var escape := false;
    var i := 0;
    while i < |template|
      invariant 0 <= i <= |template|
      invariant ScanState(filename, escape) == Scan(template[..i], date, time)
    {
      var c := template[i];
      assert template[..i + 1][..i] == template[..i];
      if escape {
        filename := filename + EscapeText(c, date, time);
        escape := false;
      } else if c == '%' {
        escape := true;
      } else {
        filename := filename + [c];
      }
      i := i + 1;
    }
    assert template[..i] == template;
    if escape {
      filename := filename + "%";
    }
    path := AbsolutePath(filename, videoDir);
  }

  // ---------------------------------------------------------------------
  // Pipelines and the thread count
  // ---------------------------------------------------------------------

  /** The file extensions of the five candidate pipelines, in the order they
   *  are tried: four H.264 encoders into MP4, then VP8 into WebM. */
  const PIPELINE_EXTENSIONS: seq<string> := ["mp4", "mp4", "mp4", "mp4", "webm"]

  /** The decimal digits of a natural number. */
  function DecimalString(n: nat): (r: string)
    ensures |r| >= 1
    ensures forall i :: 0 <= i < |r| ==> '0' <= r[i] <= '9'
  {
    if n < 10 then [(48 + n) as char] else DecimalString(n / 10) + [(48 + n % 10) as char]
  }

  /** The number of encoder threads: the processor count clamped to [1, 64]. */
  function ThreadCount(numProcessors: int): (r: int)
    ensures 1 <= r <= 64
    ensures 1 <= numProcessors <= 64 ==> r == numProcessors
  {
    if numProcessors < 1 then 1 else if numProcessors > 64 then 64 else numProcessors
  }

  /** `s.replaceAll('%T', rep)`, scanning left to right. */
  function ReplaceThreadMarker(s: string, rep: string): (r: string)
    ensures |s| > 0 ==> |r| > 0 || rep == []
    decreases |s|
  {
    if |s| == 0 then ""
    else if |s| >= 2 && s[0] == '%' && s[1] == 'T' then rep + ReplaceThreadMarker(s[2..], rep)
    else [s[0]] + ReplaceThreadMarker(s[1..], rep)
  }

  /** `s` contains `%T` somewhere. */
  predicate HasThreadMarker(s: string) {
    exists i :: 0 <= i < |s| - 1 && s[i] == '%' && s[i + 1] == 'T'
  }

  /** A non-empty replacement without `%` and `T` leaves no `%T` behind, and
   *  the result starts with `T` only where the input did. */
  lemma {:induction false} ReplaceLeavesNoMarker(s: string, rep: string)
    requires |rep| > 0 && '%' !in rep && 'T' !in rep
    ensures !HasThreadMarker(ReplaceThreadMarker(s, rep))
    ensures |s| > 0 ==>
      |ReplaceThreadMarker(s, rep)| > 0 && (ReplaceThreadMarker(s, rep)[0] == 'T' ==> s[0] == 'T')
    decreases |s|
  {
    if |s| == 0 {
    } else if |s| >= 2 && s[0] == '%' && s[1] == 'T' {
      var tail := ReplaceThreadMarker(s[2..], rep);
      ReplaceLeavesNoMarker(s[2..], rep);
      var r := rep + tail;
      forall i | 0 <= i < |r| - 1
        ensures !(r[i] == '%' && r[i + 1] == 'T')
      {
        if i < |rep| {
          assert r[i] == rep[i];
        } else {
          assert r[i] == tail[i - |rep|] && r[i + 1] == tail[i - |rep| + 1];
        }
      }
    } else {
      var tail := ReplaceThreadMarker(s[1..], rep);
      ReplaceLeavesNoMarker(s[1..], rep);
      var r := [s[0]] + tail;
      forall i | 0 <= i < |r| - 1
        ensures !(r[i] == '%' && r[i + 1] == 'T')
      {
        if i == 0 {
          assert r[1] == tail[0];
        } else {
          assert r[i] == tail[i - 1] && r[i + 1] == tail[i];
        }
      }
    }
  }

  /** `_substituteThreadCount` */
  function SubstituteThreadCount(pipelineDescr: string, numProcessors: int): (r: string)
    ensures r == ReplaceThreadMarker(pipelineDescr, DecimalString(ThreadCount(numProcessors)))
    ensures !HasThreadMarker(r)
    ensures !HasThreadMarker(pipelineDescr) ==> r == pipelineDescr
  {
    var rep := DecimalString(ThreadCount(numProcessors));
    ReplaceLeavesNoMarker(pipelineDescr, rep);
    NoMarkerUnchanged(pipelineDescr, rep);
    ReplaceThreadMarker(pipelineDescr, rep)
  }

  /** Every `%T` is replaced where it stands: what comes before and after a
   *  marker is replaced independently of it. */
  lemma ReplaceAtMarker(a: string, b: string, rep: string)
    ensures ReplaceThreadMarker(a + "%T" + b, rep)
         == ReplaceThreadMarker(a, rep) + rep + ReplaceThreadMarker(b, rep)
  {
    var m: string := "%T";
    ReplaceAround(a, m, b, rep);
    ConcatAssoc(ReplaceThreadMarker(a, rep), rep, ReplaceThreadMarker(b, rep));
  }

  lemma ConcatAssoc<T>(x: seq<T>, y: seq<T>, z: seq<T>)
    ensures x + (y + z) == x + y + z
  {
  }

  lemma {:induction false} ReplaceAround(a: string, m: string, b: string, rep: string)
    requires |m| == 2 && m[0] == '%' && m[1] == 'T'
    ensures ReplaceThreadMarker(a + m + b, rep)
         == ReplaceThreadMarker(a, rep) + (rep + ReplaceThreadMarker(b, rep))
    decreases |a|
  {
    var s := a + m + b;
    var left := ReplaceThreadMarker(a, rep);
    var right := ReplaceThreadMarker(b, rep);
    if |a| == 0 {
      assert s[0] == '%' && s[1] == 'T' && s[2..] == b;
      assert ReplaceThreadMarker(s, rep) == rep + right;
      assert left + rep + right == rep + right;
    } else if |a| >= 2 && a[0] == '%' && a[1] == 'T' {
      assert s[0] == '%' && s[1] == 'T';
      assert s[2..] == a[2..] + m + b;
      var inner := ReplaceThreadMarker(a[2..], rep);
      ReplaceAround(a[2..], m, b, rep);
      assert ReplaceThreadMarker(s, rep) == rep + (inner + (rep + right));
      assert left == rep + inner;
      ConcatAssoc(rep, inner, rep + right);
    } else {
      assert s[0] == a[0];
      assert !(s[0] == '%' && s[1] == 'T') by {
        assert |a| == 1 ==> s[1] == '%';
        assert |a| >= 2 ==> s[1] == a[1];
      }
      assert s[1..] == a[1..] + m + b;
      var inner := ReplaceThreadMarker(a[1..], rep);
      ReplaceAround(a[1..], m, b, rep);
      assert ReplaceThreadMarker(s, rep) == [a[0]] + (inner + (rep + right));
      assert left == [a[0]] + inner;
      ConcatAssoc([a[0]], inner, rep + right);
    }
  }

  lemma {:induction false} NoMarkerUnchanged(s: string, rep: string)
    ensures !HasThreadMarker(s) ==> ReplaceThreadMarker(s, rep) == s
    decreases |s|
  {
    if |s| > 0 && !HasThreadMarker(s) {
      assert !(s[0] == '%' && |s| >= 2 && s[1] == 'T');
      forall i | 0 <= i < |s[1..]| - 1
        ensures !(s[1..][i] == '%' && s[1..][i + 1] == 'T')
      {
        assert s[1..][i] == s[i + 1] && s[1..][i + 1] == s[i + 2];
      }
      NoMarkerUnchanged(s[1..], rep);
      assert s == [s[0]] + s[1..];
    }
  }

  /** `String.prototype.replace` with a string pattern: the first occurrence only. */
  function ReplaceFirst(s: string, pat: string, rep: string): (r: string)
    requires |pat| > 0
    decreases |s|
  {
    if |s| < |pat| then s
    else if s[..|pat|] == pat then rep + s[|pat|..]
    else [s[0]] + ReplaceFirst(s[1..], pat, rep)
  }

  /** A path without the pattern is kept, and replacing the pattern by itself changes nothing. */
  lemma {:induction false} ReplaceFirstUnchanged(s: string, pat: string)
    requires |pat| > 0
    ensures ReplaceFirst(s, pat, pat) == s
    decreases |s|
  {
    if |s| >= |pat| && s[..|pat|] != pat {
      ReplaceFirstUnchanged(s[1..], pat);
      assert s == [s[0]] + s[1..];
    } else if |s| >= |pat| {
      assert s == s[..|pat|] + s[|pat|..];
    }
  }

  // ---------------------------------------------------------------------
  // The recorder
  // ---------------------------------------------------------------------

  datatype PipelineState = PipelineInit | Starting | Playing | Flushing | PipelineStopped | PipelineError
  datatype SessionState = SessionInit | SessionActive | SessionStopped

  /** A request promise: not made, waiting, or settled one way or the other. */
  datatype Promise = NoPromise | Pending | Resolved | Rejected

  /** What GStreamer does with the candidate pipeline at an index: the
   *  description does not parse (an exception or no pipeline), the pipeline
   *  refuses to start (and then whether tearing it down succeeds), or it
   *  accepts the start and will report on its bus. */
  datatype PipelineOutcome = ParseFails | StartRefused(teardownOk: bool) | StartAccepted

  datatype GstState = GstNull | GstReady | GstPaused | GstPlaying

  /** The bus messages the recorder reacts to. */
  datatype BusMessage =
    | StateChanged(fromOwnPipeline: bool, oldState: GstState, newState: GstState)
    | EndOfStream
    | ErrorMessage
    | OtherMessage

  /** The messages after which the pipeline is torn down. */
  predicate IsTeardownMessage(m: BusMessage) {
    m.EndOfStream? || m.ErrorMessage?
  }

  /** Whether the pipeline at an index ends the search: it accepted the start
   *  or could not be torn down after refusing it. */
  predicate StopsSearch(o: PipelineOutcome) {
    o == StartAccepted || o == StartRefused(false)
  }

  /** The first index from `i` on whose pipeline ends the search, or the
   *  number of pipelines when none does. */
  function FirstStop(outcomes: seq<PipelineOutcome>, i: nat): (j: nat)
    requires i <= |outcomes|
    ensures i <= j <= |outcomes|
    ensures j < |outcomes| ==> StopsSearch(outcomes[j])
    ensures forall k :: i <= k < j ==> !StopsSearch(outcomes[k])
    decreases |outcomes| - i
  {
    if i == |outcomes| then i
    else if StopsSearch(outcomes[i]) then i
    else FirstStop(outcomes, i + 1)
  }

  class Recorder {
    var pipelineState: PipelineState
    var sessionState: SessionState
    var currentPipelineIndex: int
    var hasPipeline: bool
    var startPromise: Promise
    var stopPromise: Promise
    var watchingSender: bool
    var errorCallbacks: nat
    var recentItemAdded: bool
    var filePath: string
    const origFilePath: string

    /** The error callback runs at most once, the pipeline index stays within
     *  the candidates, and no pipeline exists before starting or after
     *  stopping or a fatal error. */
    predicate Valid()
      reads this
    {
      0 <= currentPipelineIndex <= |PIPELINE_EXTENSIONS| &&
      errorCallbacks <= 1 &&
      (pipelineState == PipelineInit || pipelineState == PipelineStopped || pipelineState == PipelineError ==>
        !hasPipeline)
    }

    constructor (origFilePath: string)
      ensures Valid()
      ensures this.origFilePath == origFilePath && filePath == ""
      ensures pipelineState == PipelineInit && sessionState == SessionInit
      ensures currentPipelineIndex == 0 && !hasPipeline
      ensures startPromise == NoPromise && stopPromise == NoPromise
      ensures watchingSender && errorCallbacks == 0 && !recentItemAdded
    {
      this.origFilePath := origFilePath;
      filePath := "";
      pipelineState := PipelineInit;
      sessionState := SessionInit;
      currentPipelineIndex := 0;
      hasPipeline := false;
      startPromise := NoPromise;
      stopPromise := NoPromise;
      watchingSender := true;
      errorCallbacks := 0;
      recentItemAdded := false;
    }

    /** `_bailOutOnError`: stop watching the sender, run the error callback
     *  if it has not run yet, and reject the waiting requests. */
    method BailOutOnError()
      requires errorCallbacks <= 1
      modifies this
      ensures !watchingSender && errorCallbacks == 1
      ensures startPromise == (if old(startPromise) == Pending then Rejected else old(startPromise))
      ensures stopPromise == (if old(stopPromise) == Pending then Rejected else old(stopPromise))
      ensures pipelineState == old(pipelineState) && sessionState == old(sessionState)
      ensures hasPipeline == old(hasPipeline) && currentPipelineIndex == old(currentPipelineIndex)
      ensures recentItemAdded == old(recentItemAdded) && filePath == old(filePath)
    {
      watchingSender := false;
      if errorCallbacks == 0 {
        errorCallbacks := 1;
      }
      if startPromise == Pending {
        startPromise := Rejected;
      }
      if stopPromise == Pending {
        stopPromise := Rejected;
      }
    }

    /** `_handleFatalPipelineError`: the pipeline is in error, an active
     *  session is stopped, and the recorder bails out. */
    method HandleFatalPipelineError()
      requires errorCallbacks <= 1
      modifies this
      ensures pipelineState == PipelineError
      ensures sessionState == (if old(sessionState) == SessionActive then SessionStopped else old(sessionState))
      ensures !watchingSender && errorCallbacks == 1
      ensures startPromise == (if old(startPromise) == Pending then Rejected else old(startPromise))
      ensures stopPromise == (if old(stopPromise) == Pending then Rejected else old(stopPromise))
      ensures hasPipeline == old(hasPipeline) && currentPipelineIndex == old(currentPipelineIndex)
      ensures recentItemAdded == old(recentItemAdded) && filePath == old(filePath)
    {
      pipelineState := PipelineError;
      if sessionState == SessionActive {
        sessionState := SessionStopped;
      }
      BailOutOnError();
    }

    /** `_teardownPipeline`: without a pipeline, succeed; otherwise drop the
     *  pipeline, and when setting it to NULL fails, handle a fatal error and
     *  report failure. */
    method TeardownPipeline(setStateOk: bool) returns (ok: bool)
      requires errorCallbacks <= 1
      modifies this
      ensures !hasPipeline
      ensures ok <==> !old(hasPipeline) || setStateOk
      ensures ok ==>
        pipelineState == old(pipelineState) && sessionState == old(sessionState) &&
        startPromise == old(startPromise) && stopPromise == old(stopPromise) &&
        watchingSender == old(watchingSender) && errorCallbacks == old(errorCallbacks)
      ensures !ok ==>
        pipelineState == PipelineError && errorCallbacks == 1 && !watchingSender &&
        sessionState == (if old(sessionState) == SessionActive then SessionStopped else old(sessionState)) &&
        startPromise == (if old(startPromise) == Pending then Rejected else old(startPromise)) &&
        stopPromise == (if old(stopPromise) == Pending then Rejected else old(stopPromise))
      ensures currentPipelineIndex == old(currentPipelineIndex)
      ensures recentItemAdded == old(recentItemAdded) && filePath == old(filePath)
    {
      if !hasPipeline {
        return true;
      }
      if !setStateOk {
        HandleFatalPipelineError();
        hasPipeline := false;
        return false;
      }
      hasPipeline := false;
      return true;
    }

    /** `_tryStartPipeline`: try the candidates in order from the current
     *  index, moving on when one does not parse or refuses to start and can
     *  be torn down. The search ends at the first pipeline that accepts the
     *  start, at one whose teardown fails, or past the last candidate, where
     *  the start request is rejected. */
    method TryStartPipeline(outcomes: seq<PipelineOutcome>)
      requires |outcomes| == |PIPELINE_EXTENSIONS|
      requires Valid() && !hasPipeline && pipelineState == Starting
      modifies this
      ensures Valid()
      ensures currentPipelineIndex == FirstStop(outcomes, old(currentPipelineIndex))
      ensures currentPipelineIndex < |outcomes| ==>
        filePath == ReplaceFirst(origFilePath, "webm", PIPELINE_EXTENSIONS[currentPipelineIndex])
      ensures currentPipelineIndex == |outcomes| ==>
        !hasPipeline && pipelineState == old(pipelineState) && sessionState == old(sessionState) &&
        startPromise == (if old(startPromise) == Pending then Rejected else old(startPromise)) &&
        stopPromise == old(stopPromise) && watchingSender == old(watchingSender) &&
        errorCallbacks == old(errorCallbacks)
      ensures currentPipelineIndex < |outcomes| && outcomes[currentPipelineIndex] == StartAccepted ==>
        hasPipeline && pipelineState == old(pipelineState) && sessionState == old(sessionState) &&
        startPromise == old(startPromise) && stopPromise == old(stopPromise) &&
        watchingSender == old(watchingSender) && errorCallbacks == old(errorCallbacks)
      ensures currentPipelineIndex < |outcomes| && outcomes[currentPipelineIndex] == StartRefused(false) ==>
        !hasPipeline && pipelineState == PipelineError && errorCallbacks == 1 && !watchingSender &&
        sessionState == (if old(sessionState) == SessionActive then SessionStopped else old(sessionState)) &&
        startPromise == (if old(startPromise) == Pending then Rejected else old(startPromise)) &&
        stopPromise == (if old(stopPromise) == Pending then Rejected else old(stopPromise))
      ensures recentItemAdded == old(recentItemAdded)
      decreases |outcomes| - currentPipelineIndex
    {
      if currentPipelineIndex == |outcomes| {
        if startPromise == Pending {
          startPromise := Rejected;
        }
        return;
      }
      filePath := ReplaceFirst(origFilePath, "webm", PIPELINE_EXTENSIONS[currentPipelineIndex]);
      match outcomes[currentPipelineIndex]
      case ParseFails =>
        currentPipelineIndex := currentPipelineIndex + 1;
        TryStartPipeline(outcomes);
      case StartAccepted =>
        hasPipeline := true;
      case StartRefused(setStateOk) =>
        hasPipeline := true;
        var ok := TeardownPipeline(setStateOk);
        if ok {
          currentPipelineIndex := currentPipelineIndex + 1;
          TryStartPipeline(outcomes);
        }
    }

    /** `startRecording`: the start request waits and the session becomes active. */
    method StartRecording()
      modifies this
      ensures startPromise == Pending && sessionState == SessionActive
      ensures pipelineState == old(pipelineState) && hasPipeline == old(hasPipeline)
      ensures currentPipelineIndex == old(currentPipelineIndex) && stopPromise == old(stopPromise)
      ensures watchingSender == old(watchingSender) && errorCallbacks == old(errorCallbacks)
      ensures recentItemAdded == old(recentItemAdded) && filePath == old(filePath)
    {
      startPromise := Pending;
      sessionState := SessionActive;
    }

    /** The `PipeWireStreamAdded` handler: start trying pipelines from the first. */
    method OnStreamAdded(outcomes: seq<PipelineOutcome>)
      requires |outcomes| == |PIPELINE_EXTENSIONS|
      requires Valid() && !hasPipeline
      modifies this
      ensures Valid()
      ensures currentPipelineIndex == FirstStop(outcomes, 0)
      ensures currentPipelineIndex < |outcomes| ==>
        filePath == ReplaceFirst(origFilePath, "webm", PIPELINE_EXTENSIONS[currentPipelineIndex])
      ensures currentPipelineIndex == |outcomes| ==>
        !hasPipeline && pipelineState == Starting && sessionState == old(sessionState) &&
        startPromise == (if old(startPromise) == Pending then Rejected else old(startPromise)) &&
        stopPromise == old(stopPromise) && watchingSender == old(watchingSender) &&
        errorCallbacks == old(errorCallbacks)
      ensures currentPipelineIndex < |outcomes| && outcomes[currentPipelineIndex] == StartAccepted ==>
        hasPipeline && pipelineState == Starting && sessionState == old(sessionState) &&
        startPromise == old(startPromise) && stopPromise == old(stopPromise) &&
        watchingSender == old(watchingSender) && errorCallbacks == old(errorCallbacks)
      ensures currentPipelineIndex < |outcomes| && outcomes[currentPipelineIndex] == StartRefused(false) ==>
        !hasPipeline && pipelineState == PipelineError && errorCallbacks == 1 && !watchingSender &&
        sessionState == (if old(sessionState) == SessionActive then SessionStopped else old(sessionState)) &&
        startPromise == (if old(startPromise) == Pending then Rejected else old(startPromise)) &&
        stopPromise == (if old(stopPromise) == Pending then Rejected else old(stopPromise))
      ensures recentItemAdded == old(recentItemAdded)
    {
      pipelineState := Starting;
      currentPipelineIndex := 0;
      TryStartPipeline(outcomes);
    }

    /** `stopRecording`: the stop request waits, the pipeline is flushing, and
     *  an end of stream is sent to it; without a pipeline the request is
     *  rejected by the exception that sending raises. */
    method StopRecording()
      modifies this
      ensures pipelineState == Flushing
      ensures stopPromise == (if old(hasPipeline) then Pending else Rejected)
      ensures sessionState == old(sessionState) && hasPipeline == old(hasPipeline)
      ensures startPromise == old(startPromise) && currentPipelineIndex == old(currentPipelineIndex)
      ensures watchingSender == old(watchingSender) && errorCallbacks == old(errorCallbacks)
      ensures recentItemAdded == old(recentItemAdded) && filePath == old(filePath)
    {
      stopPromise := Pending;
      pipelineState := Flushing;
      if !hasPipeline {
        stopPromise := Rejected;
      }
    }

    /** A state change: only the recorder's own pipeline going from PAUSED to
     *  PLAYING while starting makes it PLAYING and resolves the start request. */
    method OnStateChanged(fromOwnPipeline: bool, oldState: GstState, newState: GstState)
      modifies this
      ensures
        (old(pipelineState) == Starting && fromOwnPipeline && oldState == GstPaused && newState == GstPlaying) ==>
          pipelineState == Playing &&
          startPromise == (if old(startPromise) == Pending then Resolved else old(startPromise))
      ensures
        !(old(pipelineState) == Starting && fromOwnPipeline && oldState == GstPaused && newState == GstPlaying) ==>
          pipelineState == old(pipelineState) && startPromise == old(startPromise)
      ensures sessionState == old(sessionState) && hasPipeline == old(hasPipeline)
      ensures stopPromise == old(stopPromise) && currentPipelineIndex == old(currentPipelineIndex)
      ensures watchingSender == old(watchingSender) && errorCallbacks == old(errorCallbacks)
      ensures recentItemAdded == old(recentItemAdded) && filePath == old(filePath)
    {
      if pipelineState == Starting && fromOwnPipeline && oldState == GstPaused && newState == GstPlaying {
        pipelineState := Playing;
        if startPromise == Pending {
          startPromise := Resolved;
        }
      }
    }

    /** The end of a flushed stream: the recording is complete, the file is
     *  added to the recent items, an active session is stopped, the sender is
     *  no longer watched and the stop request is resolved. */
    method FinishFlush()
      modifies this
      ensures pipelineState == PipelineStopped && recentItemAdded && !watchingSender
      ensures sessionState == (if old(sessionState) == SessionActive then SessionStopped else old(sessionState))
      ensures stopPromise == (if old(stopPromise) == Pending then Resolved else old(stopPromise))
      ensures hasPipeline == old(hasPipeline) && startPromise == old(startPromise)
      ensures currentPipelineIndex == old(currentPipelineIndex) && errorCallbacks == old(errorCallbacks)
      ensures filePath == old(filePath)
    {
      recentItemAdded := true;
      pipelineState := PipelineStopped;
      if sessionState == SessionActive {
        sessionState := SessionStopped;
      }
      watchingSender := false;
      if stopPromise == Pending {
        stopPromise := Resolved;
      }
    }

    /** `_onBusMessage`. After an end of stream or an error the pipeline is
     *  torn down first; if that fails nothing else happens. Then a starting
     *  recorder tries the next pipeline, a playing one (or, on an error, a
     *  flushing one) fails fatally, and a flushing one finishes on the end of
     *  stream. */
    method OnBusMessage(message: BusMessage, teardownOk: bool, outcomes: seq<PipelineOutcome>)
      requires |outcomes| == |PIPELINE_EXTENSIONS|
      requires Valid()
      requires pipelineState == Starting ==> currentPipelineIndex < |outcomes|
      modifies this
      ensures Valid()
      ensures pipelineState == Playing && old(pipelineState) != Playing ==>
        old(pipelineState) == Starting && message == StateChanged(true, GstPaused, GstPlaying)
      ensures IsTeardownMessage(message) && !(old(pipelineState) == Starting && (!old(hasPipeline) || teardownOk)) ==>
        !hasPipeline
      ensures IsTeardownMessage(message) && (!old(hasPipeline) || teardownOk) && old(pipelineState) == Starting ==>
        currentPipelineIndex == FirstStop(outcomes, old(currentPipelineIndex) + 1)
      ensures IsTeardownMessage(message) && (!old(hasPipeline) || teardownOk) && old(pipelineState) == Playing ==>
        pipelineState == PipelineError && sessionState != SessionActive && errorCallbacks == 1
      ensures message.ErrorMessage? && (!old(hasPipeline) || teardownOk) && old(pipelineState) == Flushing ==>
        pipelineState == PipelineError && sessionState != SessionActive && errorCallbacks == 1
      ensures message.EndOfStream? && (!old(hasPipeline) || teardownOk) && old(pipelineState) == Flushing ==>
        pipelineState == PipelineStopped && sessionState != SessionActive && recentItemAdded &&
        stopPromise == (if old(stopPromise) == Pending then Resolved else old(stopPromise))
      ensures IsTeardownMessage(message) && old(hasPipeline) && !teardownOk ==>
        pipelineState == PipelineError && sessionState != SessionActive
    {
      if message.StateChanged? {
        OnStateChanged(message.fromOwnPipeline, message.oldState, message.newState);
      } else if IsTeardownMessage(message) {
        var ok := TeardownPipeline(teardownOk);
        if !ok {
          return;
        }
        if pipelineState == Starting {
          currentPipelineIndex := currentPipelineIndex + 1;
          TryStartPipeline(outcomes);
        } else if pipelineState == Playing {
          HandleFatalPipelineError();
        } else if pipelineState == Flushing {
          if message.EndOfStream? {
            FinishFlush();
          } else {
            HandleFatalPipelineError();
          }
        }
      }
    }

    /** `_senderVanished`: throw the pipeline away and bail out. */
    method SenderVanished(teardownOk: bool)
      requires Valid()
      modifies this
      ensures Valid() && !hasPipeline && !watchingSender && errorCallbacks == 1
      ensures startPromise == (if old(startPromise) == Pending then Rejected else old(startPromise))
      ensures stopPromise == (if old(stopPromise) == Pending then Rejected else old(stopPromise))
      ensures !old(hasPipeline) || teardownOk ==>
        pipelineState == old(pipelineState) && sessionState == old(sessionState)
      ensures old(hasPipeline) && !teardownOk ==>
        pipelineState == PipelineError &&
        sessionState == (if old(sessionState) == SessionActive then SessionStopped else old(sessionState))
      ensures currentPipelineIndex == old(currentPipelineIndex)
      ensures recentItemAdded == old(recentItemAdded) && filePath == old(filePath)
    {
      var _ := TeardownPipeline(teardownOk);
      BailOutOnError();
    }

    /** `_onSessionClosed`: the session is stopped; unless the pipeline had
     *  already stopped, throw it away and bail out. */
    method OnSessionClosed(teardownOk: bool)
      requires Valid()
      modifies this
      ensures Valid()
      ensures sessionState == SessionStopped
      ensures old(pipelineState) == PipelineStopped ==>
        pipelineState == PipelineStopped && hasPipeline == old(hasPipeline) &&
        errorCallbacks == old(errorCallbacks) && watchingSender == old(watchingSender) &&
        startPromise == old(startPromise) && stopPromise == old(stopPromise)
      ensures old(pipelineState) != PipelineStopped ==>
        !hasPipeline && errorCallbacks == 1 && !watchingSender &&
        pipelineState == (if old(hasPipeline) && !teardownOk then PipelineError else old(pipelineState)) &&
        startPromise == (if old(startPromise) == Pending then Rejected else old(startPromise)) &&
        stopPromise == (if old(stopPromise) == Pending then Rejected else old(stopPromise))
      ensures currentPipelineIndex == old(currentPipelineIndex)
      ensures recentItemAdded == old(recentItemAdded) && filePath == old(filePath)
    {
      sessionState := SessionStopped;
      if pipelineState != PipelineStopped {
        var _ := TeardownPipeline(teardownOk);
        BailOutOnError();
      }
    }
  }

  // ---------------------------------------------------------------------
  // The service
  // ---------------------------------------------------------------------

  /** How starting a recorder ends: it starts, it fails through the
   *  recorder's error path (the error callback runs, then the start request
   *  is rejected), or the request is rejected without the callback (all
   *  pipelines failed). */
  datatype StartOutcome = Started | FailedWithCallback | FailedWithoutCallback

  lemma AddThenRemove(m: map<string, nat>, k: string, v: nat)
    requires k !in m
    ensures m[k := v] - {k} == m
  {
  }

  /** ScreencastService: one recorder per D-Bus sender, and the service held
   *  (kept running) while any recorder exists. */
  class ScreencastService {
    var recorders: map<string, nat>
    var holdCount: int

    /** The service is held exactly once while it has recorders. */
    predicate Valid()
      reads this
    {
      holdCount == (if |recorders| == 0 then 0 else 1)
    }

    constructor ()
      ensures Valid() && recorders == map[]
    {
      recorders := map[];
      holdCount := 0;
    }

    /** `_removeRecorder`: unknown senders are ignored; removing the last
     *  recorder releases the service. */
    method RemoveRecorder(sender: string)
      requires Valid()
      modifies this
      ensures Valid()
      ensures recorders == old(recorders) - {sender}
      ensures sender !in old(recorders) ==> holdCount == old(holdCount)
      ensures sender in old(recorders) ==> holdCount == old(holdCount) - (if |recorders| == 0 then 1 else 0)
    {
      if sender !in recorders {
        assert recorders - {sender} == recorders;
        return;
      }
      recorders := recorders - {sender};
      if |recorders| == 0 {
        holdCount := holdCount - 1;
      }
    }

    /** `_addRecorder`: the first recorder holds the service. Callers add a
     *  recorder only for a sender that has none, which keeps the count right. */
    method AddRecorder(sender: string, recorder: nat)
      requires Valid() && sender !in recorders
      modifies this
      ensures Valid()
      ensures recorders == old(recorders)[sender := recorder]
      ensures holdCount == old(holdCount) + (if |recorders| == 1 then 1 else 0)
    {
      recorders := recorders[sender := recorder];
      if |recorders| == 1 {
        holdCount := holdCount + 1;
      }
    }

    /** `ScreencastAsync` and `ScreencastAreaAsync` (they differ only in the
     *  area they record): refused when saving to disk is locked down or the
     *  sender already records; otherwise a recorder is created and started,
     *  and removed again when it fails to start. */
    method Screencast(sender: string, template: string, date: string, time: string, videoDir: string,
                      lockedDown: bool, recorderCreated: bool, start: StartOutcome, recorder: nat)
      returns (success: bool, filePath: string)
      requires Valid()
      modifies this
      ensures Valid()
      ensures success ==> filePath == AbsolutePath(ExpandTemplate(template, date, time), videoDir)
      ensures !success ==> filePath == ""
      ensures success <==> !lockedDown && sender !in old(recorders) && recorderCreated && start == Started
      ensures success ==> recorders == old(recorders)[sender := recorder]
      ensures !success ==> recorders == old(recorders)
    {
      if lockedDown || sender in recorders {
        return false, "";
      }
      var path := GenerateFilePath(template, date, time, videoDir);
      if !recorderCreated {
        return false, "";
      }
      AddRecorder(sender, recorder);
      match start
      case Started =>
        return true, path;
      case FailedWithCallback =>
        RemoveRecorder(sender);
        RemoveRecorder(sender);
        AddThenRemove(old(recorders), sender, recorder);
        return false, "";
      case FailedWithoutCallback =>
        RemoveRecorder(sender);
        AddThenRemove(old(recorders), sender, recorder);
        return false, "";
    }

    /** `StopScreencastAsync`: false for a sender without a recorder;
     *  otherwise the recorder is stopped (errors only logged) and removed. */
    method StopScreencast(sender: string) returns (success: bool)
      requires Valid()
      modifies this
      ensures Valid()
      ensures success <==> sender in old(recorders)
      ensures recorders == old(recorders) - {sender}
    {
      if sender !in recorders {
        assert recorders - {sender} == recorders;
        return false;
      }
      RemoveRecorder(sender);
      return true;
    }
  }
}

=== FILE: sticon.dfy ===
/**
 * The icon widget (src/st/st-icon.c): the choice of the size an icon is
 * drawn at, the primary and fallback icons, and the texture requests a
 * change of either starts. An asynchronous load completing is an event
 * carrying its outcome; the stage, theme node and scale factor are an
 * environment passed in.
 */
module StIcon {
  import opened Common

  /** The size used when neither the property nor the theme gives one. */
  const DEFAULT_ICON_SIZE: int := 48

  /** An icon object: its identity and, for a themed icon, its name. */
  datatype GIcon = GIcon(id: int, themedName: Option<string>)

  /** `g_icon_equal`: two missing icons are equal; a themed icon equals any
   *  themed icon of the same name. */
  predicate IconEqual(a: Option<GIcon>, b: Option<GIcon>) {
    if a.None? || b.None? then a.None? && b.None?
    else a.value == b.value || (a.value.themedName.Some? && a.value.themedName == b.value.themedName)
  }

  /** What the widget's surroundings provide when it is updated. */
  datatype Env = Env(
    scale: int,              // the stage's scale factor (1 without a stage)
    themeIconLength: real,   // the theme's 'icon-size' length
    hasResourceScale: bool,
    hasThemeNode: bool)

  /** C's conversion of a double to int: truncation toward zero. */
  function TruncateToInt(x: real): (r: int)
    ensures x >= 0.0 ==> r == Floor(x)
    ensures x < 0.0 ==> r == -Floor(-x)
  {
    if x >= 0.0 then Floor(x) else -Floor(-x)
  }

  /** The size the icon is drawn at: the property's size times the scale
   *  factor when positive, else the theme's size rounded (not scaled) when
   *  positive, else the default times the scale factor. */
  function EffectiveSize(propIconSize: int, env: Env): int {
    if propIconSize > 0 then propIconSize * env.scale
    else
      var themeSize := TruncateToInt(0.5 + env.themeIconLength);
      if themeSize > 0 then themeSize else DEFAULT_ICON_SIZE * env.scale
  }

  /** With a scale factor of at least one the size is always positive, and
   *  it follows the order of preference above. */
  lemma EffectiveSizeChoice(propIconSize: int, env: Env)
    requires env.scale >= 1
    ensures EffectiveSize(propIconSize, env) > 0
    ensures propIconSize > 0 ==> EffectiveSize(propIconSize, env) == propIconSize * env.scale
    ensures propIconSize <= 0 && env.themeIconLength >= 0.5 ==>
      EffectiveSize(propIconSize, env) == Floor(0.5 + env.themeIconLength)
    ensures propIconSize <= 0 && env.themeIconLength < 0.5 ==>
      EffectiveSize(propIconSize, env) == DEFAULT_ICON_SIZE * env.scale
  {
    if propIconSize > 0 {
      MulAtLeast(propIconSize, env.scale);
    }
    if 0.5 + env.themeIconLength >= 1.0 {
      assert Floor(0.5 + env.themeIconLength) >= 1;
    } else if 0.5 + env.themeIconLength >= 0.0 {
      assert Floor(0.5 + env.themeIconLength) == 0;
    }
  }

  /** A theme size is taken as it is: the scale factor does not touch it. */
  lemma ThemeSizeIgnoresScale(propIconSize: int, a: Env, b: Env)
    requires propIconSize <= 0 && a.themeIconLength == b.themeIconLength
    requires TruncateToInt(0.5 + a.themeIconLength) > 0
    ensures EffectiveSize(propIconSize, a) == EffectiveSize(propIconSize, b)
  {
  }

  /** The properties whose change is announced. */
  datatype Prop = PropGicon | PropFallbackGicon | PropIconName | PropFallbackIconName | PropIconSize

  /** How an icon load ends. */
  datatype LoadOutcome = Loaded | Cancelled | Failed

  /** A texture request: the icon shown and the size asked of the cache. */
  datatype Request = Request(icon: Option<GIcon>, size: int, scale: int)

  class Icon {
    var gicon: Option<GIcon>
    var fallbackGicon: Option<GIcon>
    /** Whether the visible icon pointer designates the fallback slot. */
    var showFallback: bool
    var propIconSize: int
    var iconSize: int
    /** Whether a load cancellable is held. */
    var loading: bool
    var cancelledLoads: nat
    var lastRequest: Option<Request>
    /** The texture shown, as the request that produced it. */
    var content: Option<Request>
    var actorSize: int
    var notified: seq<Prop>
    /** Calls of the texture update, for stating when one happens. */
    ghost var textureUpdates: nat

    /** The icon the visible pointer designates. */
    function VisibleIcon(): Option<GIcon>
      reads this
    {
      if showFallback then fallbackGicon else gicon
    }

    /** `st_icon_init`: both sizes -1, the primary slot visible. */
    constructor()
      ensures propIconSize == -1 && iconSize == -1 && !showFallback
      ensures gicon.None? && fallbackGicon.None? && !loading && content.None? && notified == []
    {
      gicon := None;
      fallbackGicon := None;
      showFallback := false;
      propIconSize := -1;
      iconSize := -1;
      loading := false;
      cancelledLoads := 0;
      lastRequest := None;
      content := None;
      actorSize := 0;
      notified := [];
      textureUpdates := 0;
    }

    /** `st_icon_get_icon_size`: the size set explicitly, not the size in
     *  use. */
    function GetIconSize(): (r: int)
      reads this
      ensures r == propIconSize
    {
      propIconSize
    }

    /** `update_icon_size`: stores the effective size and tells whether it
     *  changed. */
    method UpdateIconSize(env: Env) returns (changed: bool)
      modifies this
      ensures iconSize == EffectiveSize(propIconSize, env)
      ensures changed <==> EffectiveSize(propIconSize, env) != old(iconSize)
      ensures propIconSize == old(propIconSize) && gicon == old(gicon) && fallbackGicon == old(fallbackGicon)
      ensures showFallback == old(showFallback) && loading == old(loading) && content == old(content)
      ensures notified == old(notified) && textureUpdates == old(textureUpdates)
      ensures lastRequest == old(lastRequest) && cancelledLoads == old(cancelledLoads)
    {
      var newSize := EffectiveSize(propIconSize, env);
      if newSize != iconSize {
        iconSize := newSize;
        return true;
      }
      return false;
    }

    /** `update_icon_texture`: without a resource scale, a theme node or a
     *  positive size nothing happens; otherwise a running load is
     *  cancelled and, unless there is nothing to show, a new one starts. */
    method UpdateIconTexture(env: Env)
      requires env.scale >= 1
      modifies this
      ensures textureUpdates == old(textureUpdates) + 1
      ensures !env.hasResourceScale || !env.hasThemeNode || iconSize <= 0 ==>
        loading == old(loading) && content == old(content) && lastRequest == old(lastRequest)
        && cancelledLoads == old(cancelledLoads) && actorSize == old(actorSize)
      ensures env.hasResourceScale && env.hasThemeNode && iconSize > 0 ==>
        actorSize == iconSize
        && cancelledLoads == old(cancelledLoads) + (if old(loading) then 1 else 0)
        && (VisibleIcon().None? && fallbackGicon.None? ==>
              content.None? && !loading && lastRequest == old(lastRequest))
        && (VisibleIcon().Some? || fallbackGicon.Some? ==>
              loading && content == old(content)
              && lastRequest == Some(Request(VisibleIcon(), iconSize / env.scale, env.scale)))
      ensures gicon == old(gicon) && fallbackGicon == old(fallbackGicon) && showFallback == old(showFallback)
      ensures propIconSize == old(propIconSize) && iconSize == old(iconSize) && notified == old(notified)
    {
      textureUpdates := textureUpdates + 1;
      if !env.hasResourceScale || !env.hasThemeNode {
        return;
      }
      if iconSize <= 0 {
        return;
      }
      actorSize := iconSize;
      if loading {
        cancelledLoads := cancelledLoads + 1;
      }
      if VisibleIcon() == fallbackGicon && fallbackGicon.None? {
        content := None;
        loading := false;
        return;
      }
      loading := true;
      lastRequest := Some(Request(VisibleIcon(), iconSize / env.scale, env.scale));
    }

    /** `st_icon_set_icon_size`: an equal size changes nothing; otherwise
     *  the size is stored and announced, and the texture is reloaded only
     *  when the effective size changed. */
    method SetIconSize(size: int, env: Env)
      requires env.scale >= 1
      modifies this
      ensures old(propIconSize) == size ==>
        notified == old(notified) && iconSize == old(iconSize) && textureUpdates == old(textureUpdates)
      ensures old(propIconSize) != size ==>
        propIconSize == size && notified == old(notified) + [PropIconSize]
        && iconSize == EffectiveSize(size, env)
        && textureUpdates == old(textureUpdates) + (if EffectiveSize(size, env) != old(iconSize) then 1 else 0)
      ensures propIconSize == size && GetIconSize() == size
      ensures gicon == old(gicon) && fallbackGicon == old(fallbackGicon) && showFallback == old(showFallback)
    {
      if propIconSize != size {
        propIconSize := size;
        var changed := UpdateIconSize(env);
        if changed {
          UpdateIconTexture(env);
        }
        notified := notified + [PropIconSize];
      }
    }

    /** `st_icon_set_gicon`: an equal icon changes nothing; otherwise the
     *  icon is replaced and announced, the primary icon becomes visible
     *  again (unless the fallback slot already shows the same object) and
     *  the texture is updated. */
    method SetGicon(icon: Option<GIcon>, env: Env)
      requires env.scale >= 1
      modifies this
      ensures IconEqual(old(gicon), icon) ==>
        gicon == old(gicon) && notified == old(notified) && textureUpdates == old(textureUpdates)
        && showFallback == old(showFallback)
      ensures !IconEqual(old(gicon), icon) ==>
        gicon == icon && notified == old(notified) + [PropGicon]
        && textureUpdates == old(textureUpdates) + 1
        && VisibleIcon() == icon
        && showFallback == (old(showFallback) && old(fallbackGicon) == icon)
      ensures fallbackGicon == old(fallbackGicon) && propIconSize == old(propIconSize)
    {
      if IconEqual(gicon, icon) {
        return;
      }
      gicon := icon;
      notified := notified + [PropGicon];
      if VisibleIcon() != gicon {
        showFallback := false;
      }
      UpdateIconTexture(env);
    }

    /** `st_icon_set_fallback_gicon`: an equal icon changes nothing;
     *  otherwise the fallback is replaced, announced and the texture
     *  updated. */
    method SetFallbackGicon(icon: Option<GIcon>, env: Env)
      requires env.scale >= 1
      modifies this
      ensures IconEqual(old(fallbackGicon), icon) ==>
        fallbackGicon == old(fallbackGicon) && notified == old(notified) && textureUpdates == old(textureUpdates)
      ensures !IconEqual(old(fallbackGicon), icon) ==>
        fallbackGicon == icon && notified == old(notified) + [PropFallbackGicon]
        && textureUpdates == old(textureUpdates) + 1
      ensures gicon == old(gicon) && showFallback == old(showFallback) && propIconSize == old(propIconSize)
    {
      if IconEqual(fallbackGicon, icon) {
        return;
      }
      fallbackGicon := icon;
      notified := notified + [PropFallbackGicon];
      UpdateIconTexture(env);
    }

    /** `st_icon_set_icon_name`: a missing or empty name clears the icon;
     *  any other name becomes a new themed icon (identity `freshId`). */
    method SetIconName(name: Option<string>, freshId: int, env: Env)
      requires env.scale >= 1
      modifies this
      ensures name.None? || name.value == "" ==> gicon.None?
      ensures name.Some? && name.value != "" && !IconEqual(old(gicon), Some(GIcon(freshId, name))) ==>
        gicon == Some(GIcon(freshId, name))
      ensures |notified| >= 1 && notified[|notified| - 1] == PropIconName
      ensures fallbackGicon == old(fallbackGicon) && propIconSize == old(propIconSize)
    {
      var icon: Option<GIcon> := None;
      if name.Some? && name.value != "" {
        icon := Some(GIcon(freshId, name));
      }
      SetGicon(icon, env);
      notified := notified + [PropIconName];
    }

    /** `loaded_cb`: a load that failed for another reason than
     *  cancellation switches to the fallback, once, and loads again; any
     *  other end drops the cancellable, and a success shows the texture. */
    method LoadFinished(outcome: LoadOutcome, env: Env)
      requires env.scale >= 1
      modifies this
      ensures outcome == Failed && old(VisibleIcon()) != old(fallbackGicon) ==>
        showFallback && VisibleIcon() == fallbackGicon && textureUpdates == old(textureUpdates) + 1
      ensures !(outcome == Failed && old(VisibleIcon()) != old(fallbackGicon)) ==>
        showFallback == old(showFallback) && !loading && textureUpdates == old(textureUpdates)
        && content == (if outcome == Loaded then old(lastRequest) else old(content))
      ensures gicon == old(gicon) && fallbackGicon == old(fallbackGicon)
      ensures propIconSize == old(propIconSize) && iconSize == old(iconSize) && notified == old(notified)
    {
      if outcome == Failed && VisibleIcon() != fallbackGicon {
        showFallback := true;
        UpdateIconTexture(env);
        return;
      }
      if outcome == Loaded {
        content := lastRequest;
      }
      loading := false;
    }

    /** The style handler's size part: a changed effective size, a first
     *  theme node or changed icon colours or style update the texture. */
    method StyleChanged(env: Env, firstNode: bool, colorsOrStyleDiffer: bool)
      requires env.scale >= 1
      modifies this
      ensures iconSize == EffectiveSize(propIconSize, env)
      ensures textureUpdates == old(textureUpdates)
        + (if EffectiveSize(propIconSize, env) != old(iconSize) || firstNode || colorsOrStyleDiffer then 1 else 0)
      ensures gicon == old(gicon) && fallbackGicon == old(fallbackGicon) && propIconSize == old(propIconSize)
    {
      var styleChanged := UpdateIconSize(env);
      if firstNode {
        styleChanged := true;
      }
      if !styleChanged && !firstNode {
        styleChanged := colorsOrStyleDiffer;
      }
      if styleChanged {
        UpdateIconTexture(env);
      }
    }
  }
}

=== FILE: swipe_tracker.dfy ===
/** Swipe tracking: the sliding-window velocity history, the index searches
 *  over the ascending snap-point array, progress clamping while a gesture
 *  updates, and the choice of the snap point a gesture ends on. */
module SwipeTracker {
  import opened Common

  const EventHistoryThresholdMs := 150.0
  const TouchpadBaseHeight := 300.0
  const TouchpadBaseWidth := 400.0
  const VelocityThresholdTouch := 0.3
  const VelocityThresholdTouchpad := 0.6
  const DecelerationTouch := 0.998
  const DecelerationTouchpad := 0.997
  const VelocityCurveThreshold := 2.0
  const DecelerationParabolaMultiplier := 0.35

  // ---------------------------------------------------------------------
  // Event history

  datatype Sample = Sample(time: real, delta: real)

  /** Array.prototype.findIndex(r => r.time >= threshold). */
  function FirstAtOrAfter(data: seq<Sample>, threshold: real): (r: int)
    ensures -1 <= r < |data|
    ensures r == -1 <==> forall k :: 0 <= k < |data| ==> data[k].time < threshold
    ensures r >= 0 ==> data[r].time >= threshold && forall k :: 0 <= k < r ==> data[k].time < threshold
  {
    if |data| == 0 then -1
    else if data[0].time >= threshold then 0
    else
      var r := FirstAtOrAfter(data[1..], threshold);
      if r == -1 then -1 else r + 1
  }

  /** The history after trim(time): `splice(0, index)` drops the prefix before
   *  the first recent sample, and drops nothing when index is -1. */
  function Trimmed(data: seq<Sample>, time: real): seq<Sample>
  {
    var index := FirstAtOrAfter(data, time - EventHistoryThresholdMs);
    if index < 0 then data else data[index..]
  }

  /** trim keeps a suffix; it removes exactly the samples older than the
   *  window before the first recent one, and nothing at all when no sample
   *  is recent. */
  lemma TrimmedCharacterised(data: seq<Sample>, time: real)
    ensures var t := Trimmed(data, time);
            |t| <= |data| && t == data[|data| - |t|..]
    ensures var t := Trimmed(data, time);
            forall k :: 0 <= k < |data| - |t| ==> data[k].time < time - EventHistoryThresholdMs
    ensures var t := Trimmed(data, time);
            |t| > 0 && |t| < |data| ==> t[0].time >= time - EventHistoryThresholdMs
    ensures (forall k :: 0 <= k < |data| ==> data[k].time < time - EventHistoryThresholdMs) ==> Trimmed(data, time) == data
  {
  }

  predicate TimesAscending(data: seq<Sample>)
  {
    forall i, j :: 0 <= i < j < |data| ==> data[i].time <= data[j].time
  }

  /** With samples in time order, after trim either every sample is within
   *  the window or none was (and then none was removed). */
  lemma TrimmedWindow(data: seq<Sample>, time: real)
    requires TimesAscending(data)
    ensures var t := Trimmed(data, time);
            (forall k :: 0 <= k < |t| ==> t[k].time >= time - EventHistoryThresholdMs) || t == data
  {
  }

  /** The sum of the deltas of a sequence of samples. */
  function SumDeltas(data: seq<Sample>): real
  {
    if |data| == 0 then 0.0 else SumDeltas(data[..|data| - 1]) + data[|data| - 1].delta
  }

  /** calculateVelocity: 0 with fewer than two samples or no elapsed time;
   *  otherwise every delta after the first over the elapsed time. */
  function Velocity(data: seq<Sample>): real
  {
    if |data| < 2 then 0.0
    else if data[0].time == data[|data| - 1].time then 0.0
    else SumDeltas(data[1..]) / (data[|data| - 1].time - data[0].time)
  }

  class EventHistory {
    var data: seq<Sample>

    constructor ()
      ensures data == []
    {
      data := [];
    }

    method Reset()
      modifies this
      ensures data == []
    {
      data := [];
    }

    method Trim(time: real)
      modifies this
      ensures data == Trimmed(old(data), time)
    {
      var threshold := time - EventHistoryThresholdMs;
      var index := 0;
      while index < |data| && data[index].time < threshold
        invariant 0 <= index <= |data|
        invariant forall k :: 0 <= k < index ==> data[k].time < threshold
      {
        index := index + 1;
      }
      if index < |data| {
        data := data[index..];
      }
    }

    method Append(time: real, delta: real)
      modifies this
      ensures data == Trimmed(old(data), time) + [Sample(time, delta)]
    {
      Trim(time);
      data := data + [Sample(time, delta)];
    }

    method CalculateVelocity() returns (v: real)
      ensures v == Velocity(data)
    {
      if |data| < 2 {
        return 0.0;
      }
      var firstTime := data[0].time;
      var lastTime := data[|data| - 1].time;
      if firstTime == lastTime {
        return 0.0;
      }
      var rest := data[1..];
      var total := 0.0;
      var i := 0;
      while i < |rest|
        invariant 0 <= i <= |rest|
        invariant total == SumDeltas(rest[..i])
      {
        assert rest[..i + 1][..i] == rest[..i];
        total := total + rest[i].delta;
        i := i + 1;
      }
      assert rest[..|rest|] == rest;
      v := total / (lastTime - firstTime);
    }
  }

  // ---------------------------------------------------------------------
  // Snap-point searches

  predicate Ascending(s: seq<real>)
  {
    forall i, j :: 0 <= i < j < |s| ==> s[i] <= s[j]
  }

  function Distances(snaps: seq<real>, pos: real): (ds: seq<real>)
    ensures |ds| == |snaps|
    ensures forall k :: 0 <= k < |snaps| ==> ds[k] == Abs(snaps[k] - pos)
  {
    seq(|snaps|, k requires 0 <= k < |snaps| => Abs(snaps[k] - pos))
  }

  /** Math.min(...ds), with None for the +Infinity of an empty argument list. */
  function MinOf(ds: seq<real>): (m: Option<real>)
    ensures m.None? <==> |ds| == 0
    ensures m.Some? ==> m.value in ds && forall k :: 0 <= k < |ds| ==> m.value <= ds[k]
  {
    if |ds| == 0 then None
    else match MinOf(ds[1..])
      case None => Some(ds[0])
      case Some(m) => Some(Min(ds[0], m))
  }

  /** Array.prototype.indexOf: the first index holding v, or -1. */
  function IndexOf(ds: seq<real>, v: Option<real>): (r: int)
    ensures -1 <= r < |ds|
    ensures r == -1 <==> v.None? || v.value !in ds
    ensures r >= 0 ==> v.Some? && ds[r] == v.value && forall k :: 0 <= k < r ==> ds[k] != v.value
  {
    if v.None? || |ds| == 0 then -1
    else if ds[0] == v.value then 0
    else
      var r := IndexOf(ds[1..], v);
      if r == -1 then -1 else r + 1
  }

  /** _findClosestPoint: the lowest index minimising |snap - pos|; -1 when
   *  there are no snap points. */
  function FindClosestPoint(snaps: seq<real>, pos: real): (r: int)
    ensures |snaps| == 0 <==> r == -1
    ensures |snaps| > 0 ==> 0 <= r < |snaps|
    ensures r >= 0 ==> forall k :: 0 <= k < |snaps| ==> Abs(snaps[r] - pos) <= Abs(snaps[k] - pos)
    ensures r >= 0 ==> forall k :: 0 <= k < r ==> Abs(snaps[k] - pos) > Abs(snaps[r] - pos)
  {
    var ds := Distances(snaps, pos);
    IndexOf(ds, MinOf(ds))
  }

  /** findIndex(p => p >= pos) from index i on. */
  function FirstAtLeast(s: seq<real>, pos: real): (r: int)
    ensures -1 <= r < |s|
    ensures r == -1 <==> forall k :: 0 <= k < |s| ==> s[k] < pos
    ensures r >= 0 ==> s[r] >= pos && forall k :: 0 <= k < r ==> s[k] < pos
  {
    if |s| == 0 then -1
    else if s[0] >= pos then 0
    else
      var r := FirstAtLeast(s[1..], pos);
      if r == -1 then -1 else r + 1
  }

  function FirstAtMost(s: seq<real>, pos: real): (r: int)
    ensures -1 <= r < |s|
    ensures r == -1 <==> forall k :: 0 <= k < |s| ==> s[k] > pos
    ensures r >= 0 ==> s[r] <= pos && forall k :: 0 <= k < r ==> s[k] > pos
  {
    if |s| == 0 then -1
    else if s[0] <= pos then 0
    else
      var r := FirstAtMost(s[1..], pos);
      if r == -1 then -1 else r + 1
  }

  function Reverse(s: seq<real>): (r: seq<real>)
    ensures |r| == |s| && forall k :: 0 <= k < |s| ==> r[k] == s[|s| - 1 - k]
  {
    seq(|s|, k requires 0 <= k < |s| => s[|s| - 1 - k])
  }

  lemma ReversedSearch(snaps: seq<real>, reversed: seq<real>, pos: real, ri: int)
    requires reversed == Reverse(snaps) && ri == FirstAtMost(reversed, pos)
    ensures forall k :: |snaps| - 1 - ri < k < |snaps| ==> snaps[k] > pos
    ensures ri >= 0 ==> snaps[|snaps| - 1 - ri] <= pos
    ensures ri == -1 ==> forall k :: 0 <= k < |snaps| ==> snaps[k] > pos
  {
    if ri == -1 {
      forall k | 0 <= k < |snaps|
        ensures snaps[k] > pos
      {
        assert reversed[|snaps| - 1 - k] == snaps[k];
      }
    }
    forall k | |snaps| - 1 - ri < k < |snaps|
      ensures snaps[k] > pos
    {
      assert reversed[|snaps| - 1 - k] == snaps[k];
    }
  }

  /** _findNextPoint: the first index whose snap point is at least pos, or -1. */
  function FindNextPoint(snaps: seq<real>, pos: real): (r: int)
    ensures -1 <= r < |snaps|
    ensures r == -1 <==> forall k :: 0 <= k < |snaps| ==> snaps[k] < pos
    ensures r >= 0 ==> snaps[r] >= pos && forall k :: 0 <= k < r ==> snaps[k] < pos
  {
    FirstAtLeast(snaps, pos)
  }

  /** _findPreviousPoint: the last index whose snap point is at most pos, or
   *  snaps.length when there is none (length - 1 - (-1)). */
  function FindPreviousPoint(snaps: seq<real>, pos: real): (r: int)
    ensures 0 <= r <= |snaps|
    ensures r == |snaps| <==> forall k :: 0 <= k < |snaps| ==> snaps[k] > pos
    ensures r < |snaps| ==> snaps[r] <= pos && forall k :: r < k < |snaps| ==> snaps[k] > pos
  {
    var reversed := Reverse(snaps);
    var ri := FirstAtMost(reversed, pos);
    ReversedSearch(snaps, reversed, pos, ri);
    |snaps| - 1 - ri
  }

  /** _findPointForProjection: when the projection falls back on the point
   *  the gesture began closest to, move one point further in the direction
   *  of the velocity; otherwise take the point closest to the projection. */
  function FindPointForProjection(snaps: seq<real>, initialProgress: real, pos: real, velocity: real): int
  {
    var initial := FindClosestPoint(snaps, initialProgress);
    var prev := FindPreviousPoint(snaps, pos);
    var next := FindNextPoint(snaps, pos);
    if (if velocity > 0.0 then prev else next) == initial then
      (if velocity > 0.0 then next else prev)
    else FindClosestPoint(snaps, pos)
  }

  /** An ascending non-empty array whose range contains pos. */
  predicate InsideSnapRange(snaps: seq<real>, pos: real)
  {
    Ascending(snaps) && |snaps| > 0 && snaps[0] <= pos <= snaps[|snaps| - 1]
  }

  /** In an ascending array, a position within [first, last] has a previous
   *  and a next point, and both are indices of the array. */
  lemma NeighboursInRange(snaps: seq<real>, pos: real)
    requires |snaps| > 0 && snaps[0] <= pos <= snaps[|snaps| - 1]
    ensures 0 <= FindPreviousPoint(snaps, pos) < |snaps|
    ensures 0 <= FindNextPoint(snaps, pos) < |snaps|
  {
  }

  /** The projected point is an index of the array when pos lies within it. */
  lemma ProjectionInRange(snaps: seq<real>, initialProgress: real, pos: real, velocity: real)
    requires |snaps| > 0 && snaps[0] <= pos <= snaps[|snaps| - 1]
    ensures 0 <= FindPointForProjection(snaps, initialProgress, pos, velocity) < |snaps|
  {
    NeighboursInRange(snaps, pos);
  }

  /** JavaScript `a[i]`: undefined (None) outside the array. */
  function At(s: seq<real>, i: int): (r: Option<real>)
    ensures r.Some? <==> 0 <= i < |s|
    ensures r.Some? ==> r.value == s[i]
  {
    if 0 <= i < |s| then Some(s[i]) else None
  }

  /** Math.clamp where a missing (undefined) bound yields NaN, here None. */
  function ClampOpt(x: real, lower: Option<real>, upper: Option<real>): Option<real>
  {
    if lower.Some? && upper.Some? then Some(Clamp(x, lower.value, upper.value)) else None
  }

  /** The unclamped end position the deceleration curve projects from the
   *  current progress. */
  function ProjectedEnd(progress: real, velocity: real, isTouchpad: bool): real
  {
    var decel := if isTouchpad then DecelerationTouchpad else DecelerationTouch;
    var slope := decel / (1.0 - decel) / 1000.0;
    var speed := Abs(velocity);
    var pos :=
      if speed > VelocityCurveThreshold then
        var c := slope / 2.0 / DecelerationParabolaMultiplier;
        var x := speed - VelocityCurveThreshold + c;
        slope * VelocityCurveThreshold + DecelerationParabolaMultiplier * x * x - DecelerationParabolaMultiplier * c * c
      else speed * slope;
    pos * Sign(velocity) + progress
  }

  /** _getEndProgress: the projected end without snapping; otherwise the
   *  snap point closest to progress for a slow gesture, or the point chosen
   *  for the projection clamped to the allowed range. None stands for the
   *  undefined (or NaN) the source produces from an index outside the
   *  array. */
  function EndProgressOf(snaps: seq<real>, progress: real, initialProgress: real,
                         peekedMin: int, peekedMax: int, dontSnap: bool, allowLongSwipes: bool,
                         velocity: real, isTouchpad: bool): Option<real>
  {
    var threshold := if isTouchpad then VelocityThresholdTouchpad else VelocityThresholdTouch;
    var pos := ProjectedEnd(progress, velocity, isTouchpad);
    if dontSnap then Some(pos)
    else if Abs(velocity) < threshold then At(snaps, FindClosestPoint(snaps, progress))
    else
      var boundsMin := if allowLongSwipes then At(snaps, 0) else At(snaps, peekedMin);
      var boundsMax := if allowLongSwipes then At(snaps, |snaps| - 1) else At(snaps, peekedMax);
      match ClampOpt(pos, boundsMin, boundsMax)
      case None => None
      case Some(p) => At(snaps, FindPointForProjection(snaps, initialProgress, p, velocity))
  }

  /** With snapping on, an ascending non-empty array and both peeked indices
   *  inside it, the gesture ends on one of the snap points; a slow gesture
   *  ends on the point closest to the progress. */
  lemma EndsOnSnapPoint(snaps: seq<real>, progress: real, initialProgress: real,
                        peekedMin: int, peekedMax: int, allowLongSwipes: bool,
                        velocity: real, isTouchpad: bool)
    requires Ascending(snaps) && |snaps| > 0
    requires 0 <= peekedMin < |snaps| && 0 <= peekedMax < |snaps|
    ensures var r := EndProgressOf(snaps, progress, initialProgress, peekedMin, peekedMax,
                                   false, allowLongSwipes, velocity, isTouchpad);
            r.Some? && r.value in snaps
    ensures Abs(velocity) < (if isTouchpad then VelocityThresholdTouchpad else VelocityThresholdTouch) ==>
              EndProgressOf(snaps, progress, initialProgress, peekedMin, peekedMax,
                            false, allowLongSwipes, velocity, isTouchpad)
              == Some(snaps[FindClosestPoint(snaps, progress)])
  {
    var threshold := if isTouchpad then VelocityThresholdTouchpad else VelocityThresholdTouch;
    if Abs(velocity) >= threshold {
      var pos := ProjectedEnd(progress, velocity, isTouchpad);
      var lo := if allowLongSwipes then 0 else peekedMin;
      var hi := if allowLongSwipes then |snaps| - 1 else peekedMax;
      var p := Clamp(pos, snaps[lo], snaps[hi]);
      assert snaps[0] <= snaps[hi] <= snaps[|snaps| - 1];
      assert snaps[0] <= p <= snaps[|snaps| - 1];
      ProjectionInRange(snaps, initialProgress, p, velocity);
    }
  }

  /** The peeked minimum confirmSwipe sets: the previous point, one lower
   *  when a truthy animation target is that point and it is not the first. */
  function PeekedMinOnConfirm(snaps: seq<real>, progress: real, animatingTowards: Option<real>): int
  {
    var prev := FindPreviousPoint(snaps, progress);
    if animatingTowards.Some? && animatingTowards.value != 0.0 &&
       0 < prev < |snaps| && animatingTowards.value == snaps[prev]
    then prev - 1 else prev
  }

  /** The peeked maximum confirmSwipe sets: the next point, one higher
   *  when a truthy animation target is that point and it is not the last. */
  function PeekedMaxOnConfirm(snaps: seq<real>, progress: real, animatingTowards: Option<real>): int
  {
    var next := FindNextPoint(snaps, progress);
    if animatingTowards.Some? && animatingTowards.value != 0.0 &&
       0 <= next < |snaps| - 1 && animatingTowards.value == snaps[next]
    then next + 1 else next
  }

  /** Starting inside the snap range leaves both peeked indices inside the
   *  array; they widen by at most one index, only towards a truthy target. */
  lemma ConfirmPeeksInRange(snaps: seq<real>, progress: real, animatingTowards: Option<real>)
    requires InsideSnapRange(snaps, progress)
    ensures 0 <= PeekedMinOnConfirm(snaps, progress, animatingTowards) < |snaps|
    ensures 0 <= PeekedMaxOnConfirm(snaps, progress, animatingTowards) < |snaps|
    ensures PeekedMinOnConfirm(snaps, progress, animatingTowards) >= FindPreviousPoint(snaps, progress) - 1
    ensures PeekedMaxOnConfirm(snaps, progress, animatingTowards) <= FindNextPoint(snaps, progress) + 1
    ensures animatingTowards.None? || animatingTowards == Some(0.0) ==>
              PeekedMinOnConfirm(snaps, progress, animatingTowards) == FindPreviousPoint(snaps, progress) &&
              PeekedMaxOnConfirm(snaps, progress, animatingTowards) == FindNextPoint(snaps, progress)
  {
    NeighboursInRange(snaps, progress);
  }

  datatype Orientation = Horizontal | Vertical

  /** What the tracker emits: 'update' with the new progress, or a notify of
   *  its distance property. */
  datatype Signal = Update(progress: real) | NotifyDistance

  class SwipeTracker {
    var orientation: Orientation
    /** Clutter's default text direction is right-to-left. */
    var rtl: bool
    var distance: real
    var dontSnap: bool
    var allowLongSwipes: bool
    var snapPoints: seq<real>
    var initialProgress: real
    var progress: real
    var cancelProgress: real
    var peekedMin: int
    var peekedMax: int
    var otherDimension: SwipeTracker?
    var signals: seq<Signal>

    /** The state in which ending a snapping gesture yields a snap point: an
     *  ascending non-empty array with both peeked indices inside it. */
    ghost predicate SnapState()
      reads this
    {
      Ascending(snapPoints) && |snapPoints| > 0 &&
      0 <= peekedMin < |snapPoints| && 0 <= peekedMax < |snapPoints|
    }

    constructor (orientation: Orientation, distance: real, rtl: bool)
      ensures this.orientation == orientation && this.distance == distance && this.rtl == rtl
      ensures snapPoints == [] && progress == 0.0 && initialProgress == 0.0 && cancelProgress == 0.0
      ensures otherDimension == null && !dontSnap && !allowLongSwipes && signals == []
    {
      this.orientation := orientation;
      this.distance := distance;
      this.rtl := rtl;
      dontSnap := false;
      allowLongSwipes := false;
      snapPoints := [];
      initialProgress := 0.0;
      progress := 0.0;
      cancelProgress := 0.0;
      peekedMin := 0;
      peekedMax := 0;
      otherDimension := null;
      signals := [];
    }

    /** The distance property setter: notifies only on a change. */
    method SetDistance(d: real)
      modifies this`distance, this`signals
      ensures distance == d
      ensures signals == old(signals) + (if old(distance) == d then [] else [NotifyDistance])
    {
      if distance == d {
        return;
      }
      distance := d;
      signals := signals + [NotifyDistance];
    }

    /** confirmSwipe: starts a swipe at `currentProgress`, peeking at the
     *  snap points around it, widened by one index towards a boundary point
     *  an animation was already heading for. A target of 0 (or none) does not
     *  widen: the source takes it as a truth value. */
    method ConfirmSwipe(distance: real, snapPoints: seq<real>, currentProgress: real,
                        cancelProgress: real, animatingTowards: Option<real>)
      modifies this
      ensures this.snapPoints == snapPoints && initialProgress == currentProgress
      ensures progress == currentProgress && this.cancelProgress == cancelProgress
      ensures this.distance == distance
      ensures signals == old(signals) + (if old(this.distance) == distance then [] else [NotifyDistance])
      ensures peekedMin == PeekedMinOnConfirm(snapPoints, currentProgress, animatingTowards)
      ensures peekedMax == PeekedMaxOnConfirm(snapPoints, currentProgress, animatingTowards)
      ensures orientation == old(orientation) && rtl == old(rtl) && dontSnap == old(dontSnap)
      ensures allowLongSwipes == old(allowLongSwipes) && otherDimension == old(otherDimension)
    {
      SetDistance(distance);
      this.snapPoints := snapPoints;
      initialProgress := currentProgress;
      progress := currentProgress;
      this.cancelProgress := cancelProgress;

      PeekAround(snapPoints, currentProgress, animatingTowards);
    }

    /** The peeking part of confirmSwipe: the previous and the next point,
     *  each widened by one index towards a truthy animation target. */
    method PeekAround(snaps: seq<real>, pos: real, animatingTowards: Option<real>)
      modifies this`peekedMin, this`peekedMax
      ensures peekedMin == PeekedMinOnConfirm(snaps, pos, animatingTowards)
      ensures peekedMax == PeekedMaxOnConfirm(snaps, pos, animatingTowards)
    {
      peekedMin := FindPreviousPoint(snaps, pos);
      peekedMax := FindNextPoint(snaps, pos);

      var truthy := animatingTowards.Some? && animatingTowards.value != 0.0;
      if truthy && peekedMin > 0 && peekedMin < |snaps| && animatingTowards.value == snaps[peekedMin] {
        peekedMin := peekedMin - 1;
      }
      if truthy && 0 <= peekedMax < |snaps| - 1 && animatingTowards.value == snaps[peekedMax] {
        peekedMax := peekedMax + 1;
      }
    }

    /** The distance a gesture's delta is measured against: the touchpad's
     *  base size along the tracker's orientation, or the distance property. */
    function GestureDistance(isTouchpad: bool): real
      reads this
    {
      if isTouchpad then (if orientation == Vertical then TouchpadBaseHeight else TouchpadBaseWidth)
      else distance
    }

    /** The progress a delta leads to: delta over the gesture distance, with
     *  delta negated for a horizontal right-to-left tracker. */
    function Moved(delta: real, isTouchpad: bool): real
      reads this
      requires GestureDistance(isTouchpad) != 0.0
    {
      var d := if orientation == Horizontal && rtl then -delta else delta;
      progress + d / GestureDistance(isTouchpad)
    }

    /** _updateGesture: fails when the distance in use is 0. Otherwise it
     *  advances progress by delta/distance (delta negated for a horizontal
     *  right-to-left tracker); unless dont-snap is set it widens the peeked
     *  range and clamps progress to [first, last] snap point; then it emits
     *  'update'. */
    method UpdateGesture(delta: real, isTouchpad: bool) returns (r: Result<()>)
      requires dontSnap || |snapPoints| > 0
      modifies this`progress, this`peekedMin, this`peekedMax, this`signals
      ensures r.Err? <==> GestureDistance(isTouchpad) == 0.0
      ensures r.Err? ==> unchanged(this)
      ensures r.Ok? ==> signals == old(signals) + [Update(progress)]
      ensures r.Ok? ==>
        progress == if dontSnap then old(Moved(delta, isTouchpad))
                    else Clamp(old(Moved(delta, isTouchpad)), snapPoints[0], snapPoints[|snapPoints| - 1])
      ensures r.Ok? && !dontSnap ==> progress == Clamp(progress, snapPoints[0], snapPoints[|snapPoints| - 1])
      ensures r.Ok? && !dontSnap && Ascending(snapPoints) ==> snapPoints[0] <= progress <= snapPoints[|snapPoints| - 1]
      ensures r.Ok? && dontSnap ==> peekedMin == old(peekedMin) && peekedMax == old(peekedMax)
      ensures peekedMin <= old(peekedMin) && peekedMax >= old(peekedMax)
      ensures old(SnapState()) ==> SnapState()
    {
      if GestureDistance(isTouchpad) == 0.0 {
        return Err("distance is 0");
      }
      var moved := Moved(delta, isTouchpad);
      if dontSnap {
        progress := moved;
      } else {
        PeekAndClamp(moved);
      }
      signals := signals + [Update(progress)];
      return Ok(());
    }

    /** The snapping part of _updateGesture: widens the peeked range to the
     *  points around the new progress, then clamps progress to the range of
     *  the snap points. */
    method PeekAndClamp(pos: real)
      requires |snapPoints| > 0
      modifies this`progress, this`peekedMin, this`peekedMax
      ensures progress == Clamp(pos, snapPoints[0], snapPoints[|snapPoints| - 1])
      ensures progress == Clamp(progress, snapPoints[0], snapPoints[|snapPoints| - 1])
      ensures Ascending(snapPoints) ==> snapPoints[0] <= progress <= snapPoints[|snapPoints| - 1]
      ensures var prev := FindPreviousPoint(snapPoints, pos);
        peekedMin <= old(peekedMin) && peekedMin <= prev && (peekedMin == old(peekedMin) || peekedMin == prev)
      ensures var next := FindNextPoint(snapPoints, pos);
        peekedMax >= old(peekedMax) && peekedMax >= next && (peekedMax == old(peekedMax) || peekedMax == next)
      ensures old(SnapState()) ==> SnapState()
    {
      var prevPoint := FindPreviousPoint(snapPoints, pos);
      var nextPoint := FindNextPoint(snapPoints, pos);
      var clamped := Clamp(pos, snapPoints[0], snapPoints[|snapPoints| - 1]);
      ClampedInside(snapPoints, pos);
      ClampIdempotent(pos, snapPoints[0], snapPoints[|snapPoints| - 1]);
      if prevPoint < peekedMin {
        peekedMin := prevPoint;
      }
      if nextPoint > peekedMax {
        peekedMax := nextPoint;
      }
      progress := clamped;
    }

    /** _getEndProgress on the tracker's current state. */
    function EndProgress(velocity: real, isTouchpad: bool): Option<real>
      reads this
    {
      EndProgressOf(snapPoints, progress, initialProgress, peekedMin, peekedMax,
                    dontSnap, allowLongSwipes, velocity, isTouchpad)
    }

    /** make2d: pairs two trackers of different orientations, neither already
     *  paired; otherwise an error (a null argument is not a SwipeTracker). */
    method Make2d(other: SwipeTracker?) returns (r: Result<()>)
      modifies this, other
      ensures r.Ok? <==> other != null && old(other.orientation) != orientation &&
                          old(otherDimension) == null && old(other.otherDimension) == null
      ensures r.Err? ==> unchanged(this) && (other != null ==> unchanged(other))
      ensures r.Ok? ==> otherDimension == other && other.otherDimension == this
    {
      if other == null {
        return Err("Must pass a SwipeTracker to make2d");
      }
      if orientation == other.orientation {
        return Err("Other SwipeTracker must have different orientation");
      }
      if otherDimension != null || other.otherDimension != null {
        return Err("Is already 2d");
      }
      otherDimension := other;
      other.otherDimension := this;
      return Ok(());
    }
  }

  /** Clamping to an ascending array's first and last point lands inside
   *  its range. */
  lemma ClampedInside(snaps: seq<real>, x: real)
    requires |snaps| > 0
    ensures Ascending(snaps) ==> snaps[0] <= Clamp(x, snaps[0], snaps[|snaps| - 1]) <= snaps[|snaps| - 1]
  {
    if Ascending(snaps) {
      assert snaps[0] <= snaps[|snaps| - 1];
    }
  }

  /** A tracker in the snap state with snapping on ends on one of its snap
   *  points. */
  lemma TrackerEndsOnSnapPoint(t: SwipeTracker, velocity: real, isTouchpad: bool)
    requires t.SnapState() && !t.dontSnap
    ensures t.EndProgress(velocity, isTouchpad).Some?
    ensures t.EndProgress(velocity, isTouchpad).value in t.snapPoints
  {
    EndsOnSnapPoint(t.snapPoints, t.progress, t.initialProgress, t.peekedMin, t.peekedMax,
                    t.allowLongSwipes, velocity, isTouchpad);
  }
}

=== FILE: windowmanager.dfy ===
/**
 * Window manager policy (js/ui/windowManager.js): the keybinding filter
 * and its table of allowed action modes, the cyclic application switch,
 * the list of dimmed windows, and the workspace tracker's window
 * classification and workspace removal rules.
 */
module WindowPolicy {
  import opened Common

  // ---------------------------------------------------------------------
  // Action modes and the keybinding filter
  // ---------------------------------------------------------------------

  /** Shell.ActionMode is a bit mask; JavaScript's `&` works on 32 bits. */
  type ActionMode = bv32

  const MODE_NONE: ActionMode := 0
  const MODE_NORMAL: ActionMode := 1
  const MODE_ALL: ActionMode := 0xFFFF_FFFF

  /** The mask a name was allowed for; a name never allowed reads as
   *  `undefined`, and `undefined & mode` is 0. */
  function AllowedMask(allowed: map<string, ActionMode>, name: string): ActionMode {
    if name in allowed then allowed[name] else MODE_NONE
  }

  /** `_filterKeybinding`: true when the binding must NOT run in the
   *  current action mode. */
  predicate Filtered(allowed: map<string, ActionMode>, actionMode: ActionMode, name: string, builtin: bool) {
    if actionMode == MODE_NONE then true
    else if actionMode == MODE_NORMAL && builtin then false
    else AllowedMask(allowed, name) & actionMode == 0
  }

  /** The three rules of the filter, each stated on its own. */
  lemma FilterRules(allowed: map<string, ActionMode>, actionMode: ActionMode, name: string, builtin: bool)
    ensures actionMode == MODE_NONE ==> Filtered(allowed, actionMode, name, builtin)
    ensures actionMode == MODE_NORMAL && builtin ==> !Filtered(allowed, actionMode, name, builtin)
    ensures name !in allowed && !(actionMode == MODE_NORMAL && builtin) ==> Filtered(allowed, actionMode, name, builtin)
  {
  }

  /** A binding allowed for every mode runs in every mode but NONE. */
  lemma AllowedEverywhere(allowed: map<string, ActionMode>, actionMode: ActionMode, name: string, builtin: bool)
    ensures Filtered(allowed[name := MODE_ALL], actionMode, name, builtin) <==> actionMode == MODE_NONE
  {
    assert MODE_ALL & actionMode == actionMode;
  }

  /** A removed binding (mask NONE) runs nowhere, except as a builtin in
   *  NORMAL mode. */
  lemma RemovedRunsNowhere(allowed: map<string, ActionMode>, actionMode: ActionMode, name: string, builtin: bool)
    ensures !Filtered(allowed[name := MODE_NONE], actionMode, name, builtin) <==> actionMode == MODE_NORMAL && builtin
  {
  }

  /** Bits of `narrow` all set in `wider`: a mode sharing a bit with
   *  `narrow` shares one with `wider`. */
  lemma MaskSubset(narrow: ActionMode, wider: ActionMode, mode: ActionMode)
    requires narrow & wider == narrow
    ensures narrow & mode != 0 ==> wider & mode != 0
  {
    assert (narrow & wider) & mode == narrow & (wider & mode);
  }

  /** Widening a binding's mask never filters it where it ran before. */
  lemma WiderMaskRunsMore(allowed: map<string, ActionMode>, name: string, wider: ActionMode, actionMode: ActionMode, builtin: bool)
    requires AllowedMask(allowed, name) & wider == AllowedMask(allowed, name)
    ensures !Filtered(allowed, actionMode, name, builtin) ==> !Filtered(allowed[name := wider], actionMode, name, builtin)
  {
    MaskSubset(AllowedMask(allowed, name), wider, actionMode);
    assert AllowedMask(allowed[name := wider], name) == wider;
  }

  /** Changing one name's mask leaves every other name's filtering alone. */
  lemma OtherNamesUnaffected(allowed: map<string, ActionMode>, name: string, modes: ActionMode, other: string, actionMode: ActionMode, builtin: bool)
    requires other != name
    ensures Filtered(allowed[name := modes], actionMode, other, builtin) == Filtered(allowed, actionMode, other, builtin)
  {
  }

  // ---------------------------------------------------------------------
  // Windows
  // ---------------------------------------------------------------------

  /** Meta.WindowType. */
  datatype WindowType =
    | Normal | Desktop | Dock | Dialog | ModalDialog | Toolbar | Menu | Utility
    | Splashscreen | DropdownMenu | PopupMenu | Tooltip | Notification | Combo
    | Dnd | OverrideOther

  datatype Size = Size(width: real, height: real)

  /** The properties of a Meta.Window the policy reads; `id` stands for
   *  the window object's identity. */
  datatype Window = Window(
    id: int,
    transientFor: Option<int>,
    overrideRedirect: bool,
    onAllWorkspaces: bool,
    windowType: WindowType,
    above: bool,
    maximizedVertically: bool,
    maximizedHorizontally: bool,
    frame: Size,
    workArea: Size)

  /** `_windowShouldHaveOwnWorkspace`. */
  predicate ShouldHaveOwnWorkspace(w: Window) {
    if w.transientFor.Some? then false
    else if w.overrideRedirect then false
    else if w.onAllWorkspaces then false
    else if w.windowType == Splashscreen || w.windowType == Dialog || w.windowType == ModalDialog then false
    else true
  }

  /** The window kinds that never get their own workspace, and every
   *  other window gets one. */
  lemma OwnWorkspaceClassification(w: Window)
    ensures ShouldHaveOwnWorkspace(w) <==>
      w.transientFor.None? && !w.overrideRedirect && !w.onAllWorkspaces
      && w.windowType !in {Splashscreen, Dialog, ModalDialog}
  {
  }

  /** `_windowShouldBeGrabbable`. */
  predicate ShouldBeGrabbable(w: Window) {
    if w.above then true
    else if !w.maximizedVertically || !w.maximizedHorizontally then true
    else w.frame.width > w.workArea.width || w.frame.height > w.workArea.height
  }

  /** Only a window maximized on both axes, not kept above, and fitting
   *  its work area cannot be grabbed. */
  lemma NotGrabbableOnlyWhenFitting(w: Window)
    ensures !ShouldBeGrabbable(w) <==>
      !w.above && w.maximizedVertically && w.maximizedHorizontally
      && w.frame.width <= w.workArea.width && w.frame.height <= w.workArea.height
  {
  }

  // ---------------------------------------------------------------------
  // The application switch
  // ---------------------------------------------------------------------

  /** A window actor and whether its window is located on the active
   *  workspace. */
  datatype WindowActor = WindowActor(window: Window, onActiveWorkspace: bool)

  predicate Switchable(a: WindowActor) {
    !a.window.overrideRedirect && a.onActiveWorkspace
  }

  /** The actors `_switchApp` cycles through, in stacking order. */
  function SwitchCandidates(actors: seq<WindowActor>): (r: seq<WindowActor>)
    ensures forall a :: a in r <==> a in actors && Switchable(a)
    ensures |r| <= |actors|
  {
    if |actors| == 0 then []
    else if Switchable(actors[0]) then [actors[0]] + SwitchCandidates(actors[1..])
    else SwitchCandidates(actors[1..])
  }

  /** The position `_lookupIndex` finds: the first actor showing that
   *  window, or -1. */
  function IndexOfWindow(windows: seq<WindowActor>, id: int): (r: int)
    ensures -1 <= r < |windows|
    ensures r >= 0 ==> windows[r].window.id == id
    ensures forall j :: 0 <= j < |windows| && (r == -1 || j < r) ==> windows[j].window.id != id
  {
    if |windows| == 0 then -1
    else if windows[0].window.id == id then 0
    else
      var k := IndexOfWindow(windows[1..], id);
      if k == -1 then -1 else k + 1
  }

  /** `_lookupIndex`. */
  method LookupIndex(windows: seq<WindowActor>, id: int) returns (i: int)
    ensures i == IndexOfWindow(windows, id)
  {
    i := 0;
    while i < |windows|
      invariant 0 <= i <= |windows|
      invariant forall j :: 0 <= j < i ==> windows[j].window.id != id
    {
      if windows[i].window.id == id {
        return;
      }
      i := i + 1;
    }
    i := -1;
  }

  /** The window `_switchApp` activates, or None when it returns early. */
  function SwitchTarget(actors: seq<WindowActor>, focus: Option<int>): Option<Window> {
    var c := SwitchCandidates(actors);
    if |c| == 0 then None
    else if focus.None? then Some(c[0].window)
    else
      var index := IndexOfWindow(c, focus.value) + 1;
      Some(c[if index >= |c| then 0 else index].window)
  }

  /** `_switchApp`: the activated window, if any. */
  method SwitchApp(actors: seq<WindowActor>, focus: Option<int>) returns (next: Option<Window>)
    ensures next == SwitchTarget(actors, focus)
  {
    var windows := [];
    var k := 0;
    while k < |actors|
      invariant 0 <= k <= |actors|
      invariant windows == SwitchCandidates(actors[..k])
    {
      CandidatesAppend(actors[..k], actors[k]);
      assert actors[..k + 1] == actors[..k] + [actors[k]];
      if Switchable(actors[k]) {
        windows := windows + [actors[k]];
      }
      k := k + 1;
    }
    assert actors[..k] == actors;
    if |windows| == 0 {
      return None;
    }
    if focus.None? {
      next := Some(windows[0].window);
    } else {
      var index := LookupIndex(windows, focus.value);
      index := index + 1;
      if index >= |windows| {
        index := 0;
      }
      next := Some(windows[index].window);
    }
  }

  lemma {:induction false} CandidatesAppend(actors: seq<WindowActor>, a: WindowActor)
    ensures SwitchCandidates(actors + [a]) == SwitchCandidates(actors) + (if Switchable(a) then [a] else [])
    decreases |actors|
  {
    if |actors| == 0 {
      assert [a][1..] == [];
    } else {
      assert (actors + [a])[1..] == actors[1..] + [a];
      CandidatesAppend(actors[1..], a);
    }
  }

  /** The switch does nothing exactly when no window is switchable, and
   *  otherwise always activates a switchable window. */
  lemma SwitchTargetSwitchable(actors: seq<WindowActor>, focus: Option<int>)
    ensures SwitchTarget(actors, focus).None? <==> forall a :: a in actors ==> !Switchable(a)
    ensures SwitchTarget(actors, focus).Some? ==>
      exists a :: a in actors && Switchable(a) && a.window == SwitchTarget(actors, focus).value
  {
    var c := SwitchCandidates(actors);
    if |c| > 0 {
      assert c[0] in c;
      var t := SwitchTarget(actors, focus);
      var index := if focus.None? then 0 else IndexOfWindow(c, focus.value) + 1;
      var j := if index >= |c| then 0 else index;
      assert c[j] in c && t.value == c[j].window;
    }
  }

  /** A focused window that is not among the candidates restarts the
   *  cycle at the first one, as if nothing had focus. */
  lemma SwitchFromUnknownFocus(actors: seq<WindowActor>, focus: int)
    requires forall a :: a in SwitchCandidates(actors) ==> a.window.id != focus
    ensures SwitchTarget(actors, Some(focus)) == SwitchTarget(actors, None)
  {
  }

  predicate DistinctWindows(c: seq<WindowActor>) {
    forall i, j :: 0 <= i < j < |c| ==> c[i].window.id != c[j].window.id
  }

  /** The id of the focused window after `steps` switches from `start`. */
  function FocusAfter(actors: seq<WindowActor>, start: int, steps: nat): int {
    if steps == 0 then start
    else
      var prev := FocusAfter(actors, start, steps - 1);
      match SwitchTarget(actors, Some(prev))
      case None => prev
      case Some(w) => w.id
  }

  /** The candidate after position `p` in the cycle. */
  function NextInCycle(p: int, n: int): int {
    if p + 1 >= n then 0 else p + 1
  }

  /** The position reached from `k` after `steps` moves around the cycle. */
  function CyclePosition(k: int, steps: nat, n: int): int {
    if steps == 0 then k else NextInCycle(CyclePosition(k, steps - 1, n), n)
  }

  /** Moving around the cycle is adding modulo its length. */
  lemma {:induction false} CyclePositionIsMod(k: int, steps: nat, n: int)
    requires 0 <= k < n
    ensures CyclePosition(k, steps, n) == (k + steps) % n
  {
    if steps == 0 {
      DivModUnique(k, n, 0, k);
    } else {
      CyclePositionIsMod(k, steps - 1, n);
      StepMod(k + (steps - 1), n);
    }
  }

  /** With distinct windows, repeated switching walks the candidates in
   *  order, wrapping from the last to the first. */
  lemma {:induction false} SwitchCycles(actors: seq<WindowActor>, k: int, steps: nat)
    requires DistinctWindows(SwitchCandidates(actors))
    requires 0 <= k < |SwitchCandidates(actors)|
    ensures 0 <= CyclePosition(k, steps, |SwitchCandidates(actors)|) < |SwitchCandidates(actors)|
    ensures FocusAfter(actors, SwitchCandidates(actors)[k].window.id, steps)
      == SwitchCandidates(actors)[CyclePosition(k, steps, |SwitchCandidates(actors)|)].window.id
  {
    if steps > 0 {
      SwitchCycles(actors, k, steps - 1);
      FocusAfterStep(actors, SwitchCandidates(actors)[k].window.id, steps,
        CyclePosition(k, steps - 1, |SwitchCandidates(actors)|));
    }
  }

  /** After as many switches as there are candidates, the focus is back on
   *  the window it started from. */
  lemma SwitchReturnsToStart(actors: seq<WindowActor>, k: int)
    requires DistinctWindows(SwitchCandidates(actors))
    requires 0 <= k < |SwitchCandidates(actors)|
    ensures FocusAfter(actors, SwitchCandidates(actors)[k].window.id, |SwitchCandidates(actors)|)
      == SwitchCandidates(actors)[k].window.id
  {
    var n := |SwitchCandidates(actors)|;
    SwitchCycles(actors, k, n);
    CyclePositionIsMod(k, n, n);
    DivModUnique(k + n, n, 1, k);
  }

  /** One more switch from the candidate at `p` moves to the next one. */
  lemma FocusAfterStep(actors: seq<WindowActor>, start: int, steps: nat, p: int)
    requires DistinctWindows(SwitchCandidates(actors))
    requires 0 <= p < |SwitchCandidates(actors)| && steps > 0
    requires FocusAfter(actors, start, steps - 1) == SwitchCandidates(actors)[p].window.id
    ensures FocusAfter(actors, start, steps)
      == SwitchCandidates(actors)[NextInCycle(p, |SwitchCandidates(actors)|)].window.id
  {
    SwitchFromCandidate(actors, p);
  }

  /** With distinct windows, the switch from the candidate at `p` goes to
   *  the next candidate, or back to the first after the last. */
  lemma SwitchFromCandidate(actors: seq<WindowActor>, p: int)
    requires DistinctWindows(SwitchCandidates(actors))
    requires 0 <= p < |SwitchCandidates(actors)|
    ensures SwitchTarget(actors, Some(SwitchCandidates(actors)[p].window.id))
      == Some(SwitchCandidates(actors)[NextInCycle(p, |SwitchCandidates(actors)|)].window)
  {
    var c := SwitchCandidates(actors);
    var r := IndexOfWindow(c, c[p].window.id);
    assert r == p;
  }

  lemma StepMod(a: int, n: int)
    requires a >= 0 && n > 0
    ensures NextInCycle(a % n, n) == (a + 1) % n
  {
    var q := a / n;
    var r := a % n;
    assert a == q * n + r;
    if r + 1 >= n {
      assert a + 1 == (q + 1) * n + 0;
      DivModUnique(a + 1, n, q + 1, 0);
    } else {
      assert a + 1 == q * n + (r + 1);
      DivModUnique(a + 1, n, q, r + 1);
    }
  }

  // ---------------------------------------------------------------------
  // Keybindings and dimming state
  // ---------------------------------------------------------------------

  /** The effects `_checkDimming` asks for on a window's actor. */
  datatype DimEffect = Dim(window: int) | Undim(window: int)

  predicate NoDuplicates(s: seq<int>) {
    forall i, j :: 0 <= i < j < |s| ==> s[i] != s[j]
  }

  /** `array.filter(win => win != window)`. */
  function Without(s: seq<int>, x: int): (r: seq<int>)
    ensures forall y :: y in r <==> y in s && y != x
    ensures NoDuplicates(s) ==> NoDuplicates(r)
    ensures x !in s ==> r == s
  {
    if |s| == 0 then []
    else if s[0] == x then Without(s[1..], x)
    else
      var rest := Without(s[1..], x);
      assert NoDuplicates(s) ==> s[0] !in rest by {
        if NoDuplicates(s) {
          assert forall j :: 1 <= j < |s| ==> s[j] != s[0];
        }
      }
      [s[0]] + rest
  }

  /** The twelve `switch-to-session-N` bindings, allowed in every mode. */
  function SessionSwitchBindings(): (r: map<string, ActionMode>)
    ensures forall name :: name in r ==> r[name] == MODE_ALL
  {
    map["switch-to-session-1" := MODE_ALL, "switch-to-session-2" := MODE_ALL,
        "switch-to-session-3" := MODE_ALL, "switch-to-session-4" := MODE_ALL,
        "switch-to-session-5" := MODE_ALL, "switch-to-session-6" := MODE_ALL,
        "switch-to-session-7" := MODE_ALL, "switch-to-session-8" := MODE_ALL,
        "switch-to-session-9" := MODE_ALL, "switch-to-session-10" := MODE_ALL,
        "switch-to-session-11" := MODE_ALL, "switch-to-session-12" := MODE_ALL]
  }

  /** The parts of the WindowManager object this model keeps: the table
   *  of allowed keybinding modes, the dimmed-window list, the windows
   *  whose `_dimmed` flag is set and the dim/undim effects requested. */
  class WindowManager {
    var allowedKeybindings: map<string, ActionMode>
    var dimmedWindows: seq<int>
    var dimmed: set<int>
    var dimEffects: seq<DimEffect>

    /** The dimmed-window list holds exactly the windows flagged as
     *  dimmed, each once. */
    ghost predicate Valid()
      reads this
    {
      NoDuplicates(dimmedWindows) && forall w :: w in dimmedWindows <==> w in dimmed
    }

    /** The table starts empty; the twelve session switches are allowed
     *  everywhere, then each binding registered after them that Mutter
     *  took (`accepted`, by name, with the modes passed along: a custom
     *  handler it accepted, or an added keybinding whose action is not
     *  NONE) is allowed in its modes. */
    constructor(accepted: map<string, ActionMode>)
      ensures Valid()
      ensures allowedKeybindings == SessionSwitchBindings() + accepted
      ensures forall name :: name in SessionSwitchBindings() && name !in accepted ==>
        AllowedMask(allowedKeybindings, name) == MODE_ALL
      ensures forall name :: name in accepted ==> AllowedMask(allowedKeybindings, name) == accepted[name]
      ensures dimmedWindows == [] && dimmed == {} && dimEffects == []
    {
      allowedKeybindings := SessionSwitchBindings() + accepted;
      dimmedWindows := [];
      dimmed := {};
      dimEffects := [];
    }

    /** `allowKeybinding`: the name's mask is replaced. */
    method AllowKeybinding(name: string, modes: ActionMode)
      modifies this
      ensures allowedKeybindings == old(allowedKeybindings)[name := modes]
      ensures AllowedMask(allowedKeybindings, name) == modes
      ensures dimmedWindows == old(dimmedWindows) && dimmed == old(dimmed) && dimEffects == old(dimEffects)
    {
      allowedKeybindings := allowedKeybindings[name := modes];
    }

    /** `setCustomKeybindingHandler`: the name is allowed in `modes` only
     *  when Mutter accepted the handler. */
    method SetCustomKeybindingHandler(name: string, modes: ActionMode, accepted: bool)
      modifies this
      ensures allowedKeybindings == if accepted then old(allowedKeybindings)[name := modes]
                                    else old(allowedKeybindings)
      ensures dimmedWindows == old(dimmedWindows) && dimmed == old(dimmed) && dimEffects == old(dimEffects)
    {
      if accepted {
        AllowKeybinding(name, modes);
      }
    }

    /** `addKeybinding`: the display's action is returned, and the name is
     *  allowed in `modes` unless that action is NONE (0). */
    method AddKeybinding(name: string, modes: ActionMode, displayAction: int) returns (action: int)
      modifies this
      ensures action == displayAction
      ensures allowedKeybindings == if action != 0 then old(allowedKeybindings)[name := modes]
                                    else old(allowedKeybindings)
      ensures dimmedWindows == old(dimmedWindows) && dimmed == old(dimmed) && dimEffects == old(dimEffects)
    {
      action := displayAction;
      if action != 0 {
        AllowKeybinding(name, modes);
      }
    }

    /** `removeKeybinding`: when the display removed the binding, its mask
     *  becomes NONE, so it is filtered in every mode except as a builtin
     *  in NORMAL mode. */
    method RemoveKeybinding(name: string, removedByDisplay: bool)
      modifies this
      ensures removedByDisplay ==> allowedKeybindings == old(allowedKeybindings)[name := MODE_NONE]
      ensures !removedByDisplay ==> allowedKeybindings == old(allowedKeybindings)
      ensures removedByDisplay ==> forall mode: ActionMode, builtin: bool ::
        Filtered(allowedKeybindings, mode, name, builtin) <==> !(mode == MODE_NORMAL && builtin)
      ensures dimmedWindows == old(dimmedWindows) && dimmed == old(dimmed) && dimEffects == old(dimEffects)
    {
      if removedByDisplay {
        AllowKeybinding(name, MODE_NONE);
      }
    }

    /** `_checkDimming`: the window is dimmed exactly when it has attached
     *  dialogs; a change of state appends it to, or filters it out of,
     *  the list and requests the matching effect. */
    method CheckDimming(window: int, hasAttachedDialogs: bool)
      requires Valid()
      modifies this
      ensures Valid()
      ensures window in dimmed <==> hasAttachedDialogs
      ensures dimmed == (if hasAttachedDialogs then old(dimmed) + {window} else old(dimmed) - {window})
      ensures hasAttachedDialogs && window !in old(dimmed) ==>
        dimmedWindows == old(dimmedWindows) + [window] && dimEffects == old(dimEffects) + [Dim(window)]
      ensures !hasAttachedDialogs && window in old(dimmed) ==>
        dimmedWindows == Without(old(dimmedWindows), window) && dimEffects == old(dimEffects) + [Undim(window)]
      ensures (window in old(dimmed)) == hasAttachedDialogs ==>
        dimmedWindows == old(dimmedWindows) && dimEffects == old(dimEffects)
      ensures allowedKeybindings == old(allowedKeybindings)
    {
      var shouldDim := hasAttachedDialogs;
      if shouldDim && window !in dimmed {
        dimmed := dimmed + {window};
        dimmedWindows := dimmedWindows + [window];
        dimEffects := dimEffects + [Dim(window)];
      } else if !shouldDim && window in dimmed {
        dimmed := dimmed - {window};
        dimmedWindows := Without(dimmedWindows, window);
        dimEffects := dimEffects + [Undim(window)];
      }
    }
  }

  // ---------------------------------------------------------------------
  // The workspace tracker
  // ---------------------------------------------------------------------

  const MIN_NUM_WORKSPACES: int := 2

  /** A Meta.Workspace with the bookkeeping the tracker attaches to it. */
  datatype Workspace = Workspace(
    windows: seq<Window>,
    active: bool,
    appStartingUp: bool,
    splashscreenGrace: bool,
    tilingTimeout: bool,
    openingOverlay: bool)

  /** `_workspaceHasOwnWindows`: some window is not on all workspaces. */
  predicate HasOwnWindows(ws: Workspace) {
    exists k :: 0 <= k < |ws.windows| && !ws.windows[k].onAllWorkspaces
  }

  /** A window that should have its own workspace makes any workspace
   *  holding it one that has own windows. */
  lemma OwnWorkspaceWindowIsOwn(ws: Workspace, k: int)
    requires 0 <= k < |ws.windows| && ShouldHaveOwnWorkspace(ws.windows[k])
    ensures HasOwnWindows(ws)
  {
  }

  /** What `_workspaceRemoved` demands before it removes a workspace. */
  predicate RemovalAccepted(ws: Workspace) {
    !ws.appStartingUp && !ws.splashscreenGrace && !ws.tilingTimeout && !ws.openingOverlay
  }

  /** `Array.prototype.splice`'s start: negative counts from the end, and
   *  both ends are clamped. */
  function SpliceStart(len: int, start: int): (r: int)
    requires len >= 0
    ensures 0 <= r <= len
    ensures 0 <= start <= len ==> r == start
  {
    if start < 0 then (if len + start < 0 then 0 else len + start)
    else if start > len then len
    else start
  }

  function InsertAt<T>(s: seq<T>, i: int, x: T): (r: seq<T>)
    requires 0 <= i <= |s|
    ensures |r| == |s| + 1 && r[i] == x
    ensures forall j :: 0 <= j < i ==> r[j] == s[j]
    ensures forall j :: i < j < |r| ==> r[j] == s[j - 1]
  {
    s[..i] + [x] + s[i..]
  }

  function RemoveAt<T>(s: seq<T>, i: int): (r: seq<T>)
    requires 0 <= i < |s|
    ensures |r| == |s| - 1
    ensures forall j :: 0 <= j < i ==> r[j] == s[j]
    ensures forall j :: i <= j < |r| ==> r[j] == s[j + 1]
  {
    s[..i] + s[i + 1..]
  }

  /** Removing the workspace just added at an index gives back the list. */
  lemma RemoveUndoesInsert<T>(s: seq<T>, i: int, x: T)
    requires 0 <= i <= |s|
    ensures RemoveAt(InsertAt(s, i, x), i) == s
  {
  }

  /** The tracker's list of workspaces and the flags `_maybeRemoveWorkspace`
   *  reads; the requests it makes of the compositor and the shell are
   *  counted. */
  class WorkspaceTracker {
    var workspaces: seq<Workspace>
    var updatesBlocked: bool
    var useSingleWindowWorkspaces: bool
    var overviewShows: nat
    var zeroOpenWindowsNotifies: nat

    constructor(useSingleWindowWorkspaces: bool)
      ensures workspaces == [] && !updatesBlocked
      ensures this.useSingleWindowWorkspaces == useSingleWindowWorkspaces
      ensures overviewShows == 0 && zeroOpenWindowsNotifies == 0
    {
      workspaces := [];
      updatesBlocked := false;
      this.useSingleWindowWorkspaces := useSingleWindowWorkspaces;
      overviewShows := 0;
      zeroOpenWindowsNotifies := 0;
    }

    /** The 'zero-open-windows' property: a single workspace, idle and
     *  holding no window of its own. */
    predicate ZeroOpenWindows()
      reads this
    {
      |workspaces| == 1
      && !workspaces[0].appStartingUp && !workspaces[0].splashscreenGrace
      && !workspaces[0].tilingTimeout && !HasOwnWindows(workspaces[0])
    }

    /** `_workspaceHasOwnWindows`, scanning the windows. */
    method WorkspaceHasOwnWindows(ws: Workspace) returns (r: bool)
      ensures r == HasOwnWindows(ws)
    {
      var k := 0;
      while k < |ws.windows|
        invariant 0 <= k <= |ws.windows|
        invariant forall j :: 0 <= j < k ==> ws.windows[j].onAllWorkspaces
      {
        if !ws.windows[k].onAllWorkspaces {
          return true;
        }
        k := k + 1;
      }
      return false;
    }

    /** `_maybeRemoveWorkspace` for the workspace at index `i`; `remove`
     *  is true when it asks the compositor to remove that workspace. */
    method MaybeRemoveWorkspace(i: int, startingUp: bool) returns (remove: bool)
      requires 0 <= i < |workspaces|
      modifies this
      ensures |workspaces| == |old(workspaces)|
      ensures remove ==> (!updatesBlocked && !old(workspaces)[i].appStartingUp
        && !old(workspaces)[i].splashscreenGrace && !HasOwnWindows(old(workspaces)[i]))
      ensures remove && !useSingleWindowWorkspaces ==>
        !workspaces[i].active && |workspaces| > MIN_NUM_WORKSPACES && i < |workspaces| - 1
      ensures remove && useSingleWindowWorkspaces ==>
        |workspaces| > 1 && RemovalAccepted(workspaces[i])
      ensures remove <==>
        !updatesBlocked && !old(workspaces)[i].appStartingUp && !old(workspaces)[i].splashscreenGrace
        && !HasOwnWindows(old(workspaces)[i])
        && (if useSingleWindowWorkspaces then !old(workspaces)[i].tilingTimeout && |workspaces| > 1
            else !old(workspaces)[i].active && |workspaces| != MIN_NUM_WORKSPACES && i != |workspaces| - 1)
      ensures zeroOpenWindowsNotifies == old(zeroOpenWindowsNotifies) + (if old(ZeroOpenWindows()) && useSingleWindowWorkspaces && !updatesBlocked then 1 else 0)
      ensures zeroOpenWindowsNotifies > old(zeroOpenWindowsNotifies) ==> ZeroOpenWindows()
      ensures overviewShows == old(overviewShows) + (if useSingleWindowWorkspaces && !updatesBlocked && !startingUp && old(workspaces)[i].active
        && !old(workspaces)[i].appStartingUp && !old(workspaces)[i].splashscreenGrace && !HasOwnWindows(old(workspaces)[i])
        && !old(workspaces)[i].tilingTimeout then 1 else 0)
      ensures forall j :: 0 <= j < |workspaces| && j != i ==> workspaces[j] == old(workspaces)[j]
      ensures workspaces[i] == old(workspaces)[i] || workspaces[i] == old(workspaces)[i].(openingOverlay := false)
      ensures updatesBlocked == old(updatesBlocked) && useSingleWindowWorkspaces == old(useSingleWindowWorkspaces)
    {
      var ws := workspaces[i];
      if updatesBlocked {
        return false;
      }
      if ws.appStartingUp {
        return false;
      }
      if ws.splashscreenGrace {
        return false;
      }
      var own := WorkspaceHasOwnWindows(ws);
      if own {
        return false;
      }
      if useSingleWindowWorkspaces {
        if ws.tilingTimeout {
          return false;
        }
        if ws.openingOverlay {
          workspaces := workspaces[i := ws.(openingOverlay := false)];
        }
        if !startingUp && ws.active {
          overviewShows := overviewShows + 1;
        }
        if |workspaces| > 1 {
          remove := true;
        } else {
          zeroOpenWindowsNotifies := zeroOpenWindowsNotifies + 1;
          remove := false;
        }
      } else {
        if ws.active || |workspaces| == MIN_NUM_WORKSPACES {
          return false;
        }
        if i == |workspaces| - 1 {
          return false;
        }
        remove := true;
      }
    }

    /** `_workspaceAdded`: the new workspace is spliced in at the index. */
    method WorkspaceAdded(index: int, ws: Workspace)
      modifies this
      ensures workspaces == InsertAt(old(workspaces), SpliceStart(|old(workspaces)|, index), ws)
      ensures 0 <= index <= |old(workspaces)| ==> workspaces[index] == ws
      ensures updatesBlocked == old(updatesBlocked) && useSingleWindowWorkspaces == old(useSingleWindowWorkspaces)
      ensures overviewShows == old(overviewShows) && zeroOpenWindowsNotifies == old(zeroOpenWindowsNotifies)
    {
      var start := SpliceStart(|workspaces|, index);
      workspaces := workspaces[..start] + [ws] + workspaces[start..];
    }

    /** `_workspaceRemoved`: `ok` is false where the handler throws, which
     *  leaves the list alone. */
    method WorkspaceRemoved(index: int) returns (ok: bool)
      modifies this
      ensures ok <==> 0 <= index < |old(workspaces)| && RemovalAccepted(old(workspaces)[index])
      ensures ok ==> workspaces == RemoveAt(old(workspaces), index)
      ensures !ok ==> workspaces == old(workspaces)
      ensures updatesBlocked == old(updatesBlocked) && useSingleWindowWorkspaces == old(useSingleWindowWorkspaces)
      ensures overviewShows == old(overviewShows) && zeroOpenWindowsNotifies == old(zeroOpenWindowsNotifies)
    {
      if index < 0 || index >= |workspaces| {
        return false;
      }
      var ws := workspaces[index];
      if ws.appStartingUp || ws.splashscreenGrace || ws.tilingTimeout || ws.openingOverlay {
        return false;
      }
      workspaces := workspaces[..index] + workspaces[index + 1..];
      ok := true;
    }
  }

  /** In single-window mode a workspace the tracker asks to remove is
   *  accepted by its own `_workspaceRemoved` handler, and an empty one
   *  with no other workspace is never removed. */
  method SingleWindowRemovalRoundTrip(t: WorkspaceTracker, i: int, startingUp: bool) returns (removed: bool)
    requires 0 <= i < |t.workspaces|
    requires t.useSingleWindowWorkspaces
    modifies t
    ensures removed ==> |t.workspaces| == |old(t.workspaces)| - 1 && |t.workspaces| >= 1
    ensures |old(t.workspaces)| == 1 ==> !removed && |t.workspaces| == 1
  {
    var remove := t.MaybeRemoveWorkspace(i, startingUp);
    removed := false;
    if remove {
      removed := t.WorkspaceRemoved(i);
      assert removed;
    }
  }
}

=== FILE: workspace.dfy ===
/** The window-thumbnail layout of the overview (js/ui/workspace.js): the
 *  weights distributed over rows, the row-filling heuristic, the layout and
 *  slot computation of the horizontal strategy, the search for the best
 *  layout, and the window bookkeeping of WorkspaceLayout.
 *
 *  The vertical strategy of the source is the horizontal one with x and y,
 *  widths and heights, row and column spacing exchanged; it is modelled by
 *  transposing the geometry and running the horizontal strategy. */
module Workspace {
  import opened Common

  const OuterSizesReductionFactor: real := 0.20
  const MinOuterSize: real := 0.6
  const WindowPreviewMaximumScale: real := 0.95

  /** `reduce((accumulator, v) => accumulator + v, 0)`: a left-to-right sum. */
  function Sum(s: seq<real>): real
  {
    if |s| == 0 then 0.0 else Sum(s[..|s| - 1]) + s[|s| - 1]
  }

  // ---------------------------------------------------------------------
  // distributeSizes

  /** The value of `curVal` after `i` rounds of the loop of distributeSizes:
   *  it starts at 100 and is lowered by 20 in a round only when it stays at
   *  least 60. */
  function CurValAfter(i: nat): real
  {
    if i == 0 then 100.0
    else
      var prev := CurValAfter(i - 1);
      if prev - 100.0 * OuterSizesReductionFactor >= 100.0 * MinOuterSize
      then prev - 100.0 * OuterSizesReductionFactor
      else prev
  }

  lemma {:induction false} CurValBounds(i: nat)
    ensures 60.0 <= CurValAfter(i) <= 100.0
    ensures CurValAfter(i + 1) <= CurValAfter(i)
  {
    if i > 0 {
      CurValBounds(i - 1);
    }
  }

  lemma {:induction false} CurValMonotone(i: nat, j: nat)
    requires i <= j
    ensures CurValAfter(j) <= CurValAfter(i)
  {
    if i < j {
      CurValMonotone(i, j - 1);
      CurValBounds(j - 1);
    }
  }

  /** The values pushed at the end by the first `i` rounds. */
  function Outer(i: nat): seq<real>
  {
    seq(i, j requires 0 <= j < i => CurValAfter(j + 1))
  }

  function Reverse(s: seq<real>): seq<real>
  {
    seq(|s|, j requires 0 <= j < |s| => s[|s| - 1 - j])
  }

  /** The initial array: two centre weights for an even count, one for an odd. */
  function Centre(num: int): seq<real>
  {
    if JsRem(num, 2) == 0 then [100.0, 100.0] else [100.0]
  }

  /** `Math.floor(num / 2)` rounds, where num has already lost the centre. */
  function Rounds(num: int): nat
  {
    var rest := num - |Centre(num)|;
    if rest > 0 then rest / 2 else 0
  }

  /** The weights distributeSizes builds before normalising them (num != 1). */
  function RawWeights(num: int): seq<real>
  {
    Reverse(Outer(Rounds(num))) + Centre(num) + Outer(Rounds(num))
  }

  function ScaleBy(s: seq<real>, total: real, fullSize: real): seq<real>
    requires total != 0.0
  {
    seq(|s|, i requires 0 <= i < |s| => s[i] / total * fullSize)
  }

  /** `ret.map(v => (v / totalSum) * fullSize)` */
  function Normalise(raw: seq<real>, fullSize: real): seq<real>
    requires Sum(raw) != 0.0
  {
    ScaleBy(raw, Sum(raw), fullSize)
  }

  predicate Symmetric(s: seq<real>)
  {
    forall i :: 0 <= i < |s| ==> s[i] == s[|s| - 1 - i]
  }

  /** Non-decreasing up to the centre and non-increasing after it. */
  predicate PeaksInCentre(s: seq<real>)
  {
    (forall i, j :: 0 <= i < j <= (|s| - 1) / 2 ==> s[i] <= s[j]) &&
    (forall i, j :: |s| / 2 <= i < j < |s| ==> s[i] >= s[j])
  }

  lemma OuterStep(i: nat)
    ensures Outer(i + 1) == Outer(i) + [CurValAfter(i + 1)]
    ensures Reverse(Outer(i + 1)) == [CurValAfter(i + 1)] + Reverse(Outer(i))
  {
    assert Outer(i + 1) == Outer(i) + [CurValAfter(i + 1)];
  }

  lemma {:induction false} SumAtLeast(s: seq<real>, low: real)
    requires low >= 0.0
    requires forall i :: 0 <= i < |s| ==> s[i] >= low
    ensures Sum(s) >= low * |s| as real
  {
    if |s| > 0 {
      SumAtLeast(s[..|s| - 1], low);
    }
  }

  lemma DivAdd(x: real, y: real, total: real, fullSize: real)
    requires total != 0.0
    ensures x / total * fullSize + y / total * fullSize == (x + y) / total * fullSize
  {
    assert x / total + y / total == (x + y) / total;
  }

  lemma DivMonotone(a: real, b: real, total: real, fullSize: real)
    requires total > 0.0 && fullSize >= 0.0 && a <= b
    ensures a / total * fullSize <= b / total * fullSize
  {
    assert a / total <= b / total;
  }

  lemma {:induction false} SumScaleBy(s: seq<real>, total: real, fullSize: real)
    requires total != 0.0
    ensures Sum(ScaleBy(s, total, fullSize)) == Sum(s) / total * fullSize
  {
    if |s| > 0 {
      var n := |s| - 1;
      var t := ScaleBy(s, total, fullSize);
      forall k | 0 <= k < n
        ensures t[..n][k] == ScaleBy(s[..n], total, fullSize)[k]
      {
      }
      assert t[..n] == ScaleBy(s[..n], total, fullSize);
      SumScaleBy(s[..n], total, fullSize);
      DivAdd(Sum(s[..n]), s[n], total, fullSize);
    }
  }

  /** Every raw weight lies between 60 and 100, and for num >= 1 there are
   *  exactly num of them. */
  lemma RawWeightsShape(num: int)
    ensures num >= 1 ==> |RawWeights(num)| == num
    ensures |RawWeights(num)| >= 1
    ensures forall i :: 0 <= i < |RawWeights(num)| ==> 60.0 <= RawWeights(num)[i] <= 100.0
  {
    var k := Rounds(num);
    var o := Outer(k);
    var c := Centre(num);
    RoundsCount(num);
    forall j | 0 <= j < k
      ensures 60.0 <= o[j] <= 100.0
    {
      CurValBounds(j + 1);
    }
    var r := RawWeights(num);
    assert r == Reverse(o) + c + o;
    forall i | 0 <= i < |r|
      ensures 60.0 <= r[i] <= 100.0
    {
      if i < k {
        assert r[i] == o[k - 1 - i];
      } else if i < k + |c| {
        assert r[i] == c[i - k];
      } else {
        assert r[i] == o[i - k - |c|];
      }
    }
  }

  /** The rounds and the centre account for every weight. */
  lemma RoundsCount(num: int)
    ensures num >= 1 ==> 2 * Rounds(num) + |Centre(num)| == num
  {
    if num >= 1 {
      assert JsRem(num, 2) == num % 2;
    }
  }

  lemma RawWeightsSymmetric(num: int)
    ensures Symmetric(RawWeights(num))
  {
    var r := RawWeights(num);
    var k := Rounds(num);
    var c := |Centre(num)|;
    forall i | 0 <= i < |r|
      ensures r[i] == r[|r| - 1 - i]
    {
      if i < k {
        assert r[i] == Outer(k)[k - 1 - i];
        assert r[|r| - 1 - i] == Outer(k)[k - 1 - i];
      } else if i >= k + c {
        assert r[i] == Outer(k)[i - k - c];
        assert r[|r| - 1 - i] == Outer(k)[i - k - c];
      }
    }
  }

  lemma RawWeightsPeak(num: int)
    ensures PeaksInCentre(RawWeights(num))
  {
    RawWeightsRise(num);
    RawWeightsSymmetric(num);
    SymmetricFalls(RawWeights(num));
  }

  /** Up to the centre the raw weights do not decrease. */
  lemma RawWeightsRise(num: int)
    ensures var r := RawWeights(num);
      forall i, j :: 0 <= i < j <= (|r| - 1) / 2 ==> r[i] <= r[j]
  {
    var r := RawWeights(num);
    var k := Rounds(num);
    var c := |Centre(num)|;
    RawWeightsShape(num);
    assert |r| == 2 * k + c;
    forall i, j | 0 <= i < j <= (|r| - 1) / 2
      ensures r[i] <= r[j]
    {
      if j < k {
        assert r[i] == CurValAfter(k - i);
        assert r[j] == CurValAfter(k - j);
        CurValMonotone(k - j, k - i);
      } else {
        assert r[j] == 100.0;
      }
    }
  }

  /** A symmetric sequence that rises up to its centre falls after it. */
  lemma SymmetricFalls(s: seq<real>)
    requires Symmetric(s)
    requires forall i, j :: 0 <= i < j <= (|s| - 1) / 2 ==> s[i] <= s[j]
    ensures forall i, j :: |s| / 2 <= i < j < |s| ==> s[i] >= s[j]
  {
    forall i, j | |s| / 2 <= i < j < |s|
      ensures s[i] >= s[j]
    {
      assert s[i] == s[|s| - 1 - i];
      assert s[j] == s[|s| - 1 - j];
    }
  }

  /** Normalising keeps the symmetry. */
  lemma ScaleKeepsSymmetry(s: seq<real>, total: real, fullSize: real)
    requires total != 0.0
    requires Symmetric(s)
    ensures Symmetric(ScaleBy(s, total, fullSize))
  {
    var t := ScaleBy(s, total, fullSize);
    forall i | 0 <= i < |t|
      ensures t[i] == t[|t| - 1 - i]
    {
      assert s[i] == s[|s| - 1 - i];
    }
  }

  /** Normalising by a positive total with a non-negative full size keeps
   *  the peak in the centre. */
  lemma ScaleKeepsPeak(s: seq<real>, total: real, fullSize: real)
    requires total > 0.0 && fullSize >= 0.0
    requires PeaksInCentre(s)
    ensures PeaksInCentre(ScaleBy(s, total, fullSize))
  {
    var t := ScaleBy(s, total, fullSize);
    forall i, j | 0 <= i < j <= (|t| - 1) / 2
      ensures t[i] <= t[j]
    {
      DivMonotone(s[i], s[j], total, fullSize);
    }
    forall i, j | |t| / 2 <= i < j < |t|
      ensures t[i] >= t[j]
    {
      DivMonotone(s[j], s[i], total, fullSize);
    }
  }

  lemma RawSumPositive(num: int)
    ensures Sum(RawWeights(num)) > 0.0
  {
    RawWeightsShape(num);
    SumAtLeast(RawWeights(num), 60.0);
  }

  lemma SumNormalise(raw: seq<real>, fullSize: real)
    requires Sum(raw) > 0.0
    ensures Sum(Normalise(raw, fullSize)) == fullSize
  {
    var total := Sum(raw);
    SumScaleBy(raw, total, fullSize);
    assert total / total == 1.0;
  }

  /** The normalised weights of num >= 2 rows: num of them, symmetric,
   *  largest in the centre and adding up to fullSize. */
  lemma NormalisedShape(num: int, fullSize: real)
    requires num >= 2
    ensures Sum(RawWeights(num)) > 0.0
    ensures |Normalise(RawWeights(num), fullSize)| == num
    ensures Sum(Normalise(RawWeights(num), fullSize)) == fullSize
    ensures Symmetric(Normalise(RawWeights(num), fullSize))
    ensures fullSize >= 0.0 ==> PeaksInCentre(Normalise(RawWeights(num), fullSize))
  {
    var raw := RawWeights(num);
    RawWeightsShape(num);
    SumAtLeast(raw, 60.0);
    assert Sum(raw) > 0.0;
    SumNormalise(raw, fullSize);
    RawWeightsSymmetric(num);
    ScaleKeepsSymmetry(raw, Sum(raw), fullSize);
    if fullSize >= 0.0 {
      RawWeightsPeak(num);
      ScaleKeepsPeak(raw, Sum(raw), fullSize);
    }
  }

  /** distributeSizes(num, fullSize): the relative size of each of `num`
   *  rows, largest in the centre, normalised so that they add up to
   *  fullSize; a single row gets the weight 1. */
  /** The unnormalised weights distributeSizes builds before scaling:
   *  the centre entries, then one reduced value added on both sides per round. */
  method BuildWeights(num: int) returns (ret: seq<real>)
    ensures ret == RawWeights(num)
  {
    var curVal := 100.0;
    var reductionFactor := 100.0 * OuterSizesReductionFactor;
    var minVal := 100.0 * MinOuterSize;
    var n := num;
    if JsRem(n, 2) == 0 {
      ret := [curVal, curVal];
      n := n - 2;
    } else {
      ret := [curVal];
      n := n - 1;
    }
    var rounds := if n > 0 then n / 2 else 0;
    var i := 0;
    assert Outer(0) == [] && Reverse(Outer(0)) == [];
    assert ret == Centre(num);
    while i < rounds
      invariant 0 <= i <= rounds
      invariant curVal == CurValAfter(i)
      invariant ret == Reverse(Outer(i)) + Centre(num) + Outer(i)
    {
      if curVal - reductionFactor >= minVal {
        curVal := curVal - reductionFactor;
      }
      WeightsStep(i, num);
      ret := [curVal] + ret + [curVal];
      i := i + 1;
    }
    assert rounds == Rounds(num);
  }

  /** One round of distributeSizes wraps the weights in the next value. */
  lemma WeightsStep(i: nat, num: int)
    ensures [CurValAfter(i + 1)] + (Reverse(Outer(i)) + Centre(num) + Outer(i)) + [CurValAfter(i + 1)]
         == Reverse(Outer(i + 1)) + Centre(num) + Outer(i + 1)
  {
    OuterStep(i);
  }

  method DistributeSizes(num: int, fullSize: real) returns (ret: seq<real>)
    ensures num == 1 ==> ret == [1.0]
    ensures num != 1 ==> Sum(RawWeights(num)) > 0.0 && ret == Normalise(RawWeights(num), fullSize)
    ensures num >= 1 ==> |ret| == num
    ensures num >= 2 ==> Sum(ret) == fullSize && Symmetric(ret)
    ensures num >= 2 && fullSize >= 0.0 ==> PeaksInCentre(ret)
  {
    if num == 1 {
      return [1.0];
    }
    var raw := BuildWeights(num);
    RawSumPositive(num);
    var totalSum := Sum(raw);
    ret := ScaleBy(raw, totalSum, fullSize);
    if num >= 2 {
      NormalisedShape(num, fullSize);
    }
  }


  // ---------------------------------------------------------------------
  // keepSameRowOrCol

  /** Whether a window of extraWidth joins a row already curWidth wide when
   *  the row should be idealWidth wide. A zero ideal width follows
   *  JavaScript division: x / 0 is an infinity for x != 0 and NaN for 0. */
  function KeepSameRowOrCol(curWidth: real, extraWidth: real, idealWidth: real): (keep: bool)
    ensures curWidth + extraWidth <= idealWidth ==> keep
  {
    if curWidth + extraWidth <= idealWidth then true
    else if idealWidth == 0.0 then curWidth != 0.0
    else
      var oldRatio := curWidth / idealWidth;
      var newRatio := (curWidth + extraWidth) / idealWidth;
      Abs(1.0 - newRatio) <= Abs(1.0 - oldRatio)
  }

  lemma OneMinusRatio(a: real, i: real)
    requires i > 0.0
    ensures 1.0 - a / i == (i - a) / i
  {
    assert i / i == 1.0;
    assert i / i + (-a) / i == (i + (-a)) / i;
    assert (-a) / i == -(a / i);
  }

  lemma AbsDiv(x: real, i: real)
    requires i > 0.0
    ensures Abs(x / i) == Abs(x) / i
  {
    if x < 0.0 {
      assert x / i < 0.0;
      assert (-x) / i == -(x / i);
    } else {
      assert x / i >= 0.0;
    }
  }

  lemma DivLe(p: real, q: real, i: real)
    requires i > 0.0
    ensures p / i <= q / i <==> p <= q
  {
    if p <= q {
      assert p / i <= q / i;
    } else {
      assert q / i < p / i;
    }
  }

  /** For a positive ideal width, a window that overflows the ideal width is
   *  kept exactly when the row with it is no farther from the ideal than the
   *  row without it. */
  lemma KeepSameCharacterised(curWidth: real, extraWidth: real, idealWidth: real)
    requires idealWidth > 0.0
    ensures KeepSameRowOrCol(curWidth, extraWidth, idealWidth) <==>
            curWidth + extraWidth <= idealWidth ||
            Abs(idealWidth - (curWidth + extraWidth)) <= Abs(idealWidth - curWidth)
  {
    var a := curWidth + extraWidth;
    OneMinusRatio(a, idealWidth);
    OneMinusRatio(curWidth, idealWidth);
    AbsDiv(idealWidth - a, idealWidth);
    AbsDiv(idealWidth - curWidth, idealWidth);
    DivLe(Abs(idealWidth - a), Abs(idealWidth - curWidth), idealWidth);
  }

  /** A row that has reached its ideal width takes no further window. */
  lemma FullRowTakesNoMore(curWidth: real, extraWidth: real, idealWidth: real)
    requires 0.0 < idealWidth <= curWidth
    requires extraWidth > 0.0
    ensures !KeepSameRowOrCol(curWidth, extraWidth, idealWidth)
  {
    KeepSameCharacterised(curWidth, extraWidth, idealWidth);
  }

  // ---------------------------------------------------------------------
  // Windows, rows and their accumulation

  /** A window preview as the layout sees it: its bounding box size, the
   *  centre of its window, and whether it is maximized on both axes. */
  datatype Win = Win(id: int, width: real, height: real, centreX: real, centreY: real, maximized: bool)

  datatype Monitor = Monitor(width: real, height: real)

  /** _computeWindowScale of the horizontal strategy: 1.5 for a window of no
   *  height, falling linearly to 1 for one as high as the monitor. */
  function WindowScale(mon: Monitor, w: Win): (s: real)
    requires mon.height > 0.0
    ensures 0.0 <= w.height <= mon.height ==> 1.0 <= s <= 1.5
  {
    assert 0.0 <= w.height <= mon.height ==> 0.0 <= w.height / mon.height <= 1.0;
    Lerp(1.5, 1.0, w.height / mon.height)
  }

  function ScaledWidth(mon: Monitor, w: Win): real
    requires mon.height > 0.0
  {
    w.width * WindowScale(mon, w)
  }

  function ScaledHeight(mon: Monitor, w: Win): real
    requires mon.height > 0.0
  {
    w.height * WindowScale(mon, w)
  }

  /** A row record of newRowOrCol; its x, y and scaled sizes only exist while
   *  slots are computed and are kept there. */
  datatype Row = Row(windows: seq<Win>, fullWidth: real, fullHeight: real)

  const EmptyRow := Row([], 0.0, 0.0)

  /** _addWindowToRow */
  function AddWindowToRow(w: Win, row: Row, width: real, height: real): (r: Row)
    ensures r.windows == row.windows + [w]
  {
    Row(row.windows + [w], row.fullWidth + width, Max(row.fullHeight, height))
  }

  /** The scaled widths of a row's windows, added in order. */
  function SumWidths(mon: Monitor, ws: seq<Win>): real
    requires mon.height > 0.0
  {
    if |ws| == 0 then 0.0 else SumWidths(mon, ws[..|ws| - 1]) + ScaledWidth(mon, ws[|ws| - 1])
  }

  /** The largest scaled height of a row's windows (0 for none). */
  function MaxHeight(mon: Monitor, ws: seq<Win>): real
    requires mon.height > 0.0
  {
    if |ws| == 0 then 0.0 else Max(MaxHeight(mon, ws[..|ws| - 1]), ScaledHeight(mon, ws[|ws| - 1]))
  }

  /** A row's accumulated sizes are those of the windows it holds. */
  ghost predicate RowOK(mon: Monitor, row: Row)
    requires mon.height > 0.0
  {
    row.fullWidth == SumWidths(mon, row.windows) && row.fullHeight == MaxHeight(mon, row.windows)
  }

  /** Adding a window with its scaled size keeps a row's sizes accurate. */
  lemma AddKeepsRowOK(mon: Monitor, w: Win, row: Row)
    requires mon.height > 0.0 && RowOK(mon, row)
    ensures RowOK(mon, AddWindowToRow(w, row, ScaledWidth(mon, w), ScaledHeight(mon, w)))
  {
    var r := AddWindowToRow(w, row, ScaledWidth(mon, w), ScaledHeight(mon, w));
    assert r.windows[..|r.windows| - 1] == row.windows;
  }

  lemma {:induction false} SumWidthsCons(mon: Monitor, x: Win, ws: seq<Win>)
    requires mon.height > 0.0
    ensures SumWidths(mon, [x] + ws) == ScaledWidth(mon, x) + SumWidths(mon, ws)
    ensures MaxHeight(mon, [x] + ws) == Max(ScaledHeight(mon, x), MaxHeight(mon, ws))
  {
    if |ws| > 0 {
      var n := |ws| - 1;
      assert ([x] + ws)[..n + 1] == [x] + ws[..n];
      SumWidthsCons(mon, x, ws[..n]);
    }
  }

  // ---------------------------------------------------------------------
  // Sorting (Array.prototype.sort with a numeric comparator is stable)

  /** Consecutive windows are in order of `key`. */
  predicate SortedBy(s: seq<Win>, key: Win -> real)
  {
    forall i :: 0 < i < |s| ==> key(s[i - 1]) <= key(s[i])
  }

  function InsertBy(x: Win, s: seq<Win>, key: Win -> real): (r: seq<Win>)
    ensures multiset(r) == multiset(s) + multiset{x}
    ensures |r| == |s| + 1
    ensures r[0] == x || (|s| > 0 && r[0] == s[0])
  {
    if |s| == 0 || key(x) <= key(s[0]) then [x] + s
    else
      assert s == [s[0]] + s[1..];
      [s[0]] + InsertBy(x, s[1..], key)
  }

  lemma {:induction false} InsertSorted(x: Win, s: seq<Win>, key: Win -> real)
    requires SortedBy(s, key)
    ensures SortedBy(InsertBy(x, s, key), key)
  {
    if |s| > 0 && key(x) > key(s[0]) {
      var t := InsertBy(x, s[1..], key);
      InsertSorted(x, s[1..], key);
      assert key(s[0]) <= key(t[0]);
      var r := [s[0]] + t;
      forall i | 0 < i < |r|
        ensures key(r[i - 1]) <= key(r[i])
      {
        if i > 1 {
          assert r[i - 1] == t[i - 2] && r[i] == t[i - 1];
        }
      }
    }
  }

  /** The windows of `s` ordered by ascending key, equal keys in their
   *  original order. */
  function SortBy(s: seq<Win>, key: Win -> real): (r: seq<Win>)
    ensures multiset(r) == multiset(s)
    ensures |r| == |s|
    ensures SortedBy(r, key)
  {
    if |s| == 0 then []
    else
      assert s == [s[0]] + s[1..];
      InsertSorted(s[0], SortBy(s[1..], key), key);
      InsertBy(s[0], SortBy(s[1..], key), key)
  }

  lemma {:induction false} InsertKeepsSizes(mon: Monitor, x: Win, s: seq<Win>, key: Win -> real)
    requires mon.height > 0.0
    ensures SumWidths(mon, InsertBy(x, s, key)) == ScaledWidth(mon, x) + SumWidths(mon, s)
    ensures MaxHeight(mon, InsertBy(x, s, key)) == Max(ScaledHeight(mon, x), MaxHeight(mon, s))
  {
    if |s| == 0 || key(x) <= key(s[0]) {
      SumWidthsCons(mon, x, s);
    } else {
      assert s == [s[0]] + s[1..];
      InsertKeepsSizes(mon, x, s[1..], key);
      SumWidthsCons(mon, s[0], InsertBy(x, s[1..], key));
      SumWidthsCons(mon, s[0], s[1..]);
    }
  }

  /** Sorting a row's windows changes neither its width nor its height. */
  lemma {:induction false} SortKeepsSizes(mon: Monitor, s: seq<Win>, key: Win -> real)
    requires mon.height > 0.0
    ensures SumWidths(mon, SortBy(s, key)) == SumWidths(mon, s)
    ensures MaxHeight(mon, SortBy(s, key)) == MaxHeight(mon, s)
  {
    if |s| > 0 {
      assert s == [s[0]] + s[1..];
      SortKeepsSizes(mon, s[1..], key);
      InsertKeepsSizes(mon, s[0], SortBy(s[1..], key), key);
      SumWidthsCons(mon, s[0], s[1..]);
    }
  }

  function ByCentreX(w: Win): real { w.centreX }

  function ByCentreY(w: Win): real { w.centreY }

  /** The comparator `b.width * b.height - a.width * a.height`: larger first. */
  function ByAreaDescending(w: Win): real { -(w.width * w.height) }

  // ---------------------------------------------------------------------
  // computeLayout of the horizontal strategy

  /** Every window held by some row, with multiplicity. */
  function Flatten(rows: seq<Row>): multiset<Win>
  {
    if |rows| == 0 then multiset{} else Flatten(rows[..|rows| - 1]) + multiset(rows[|rows| - 1].windows)
  }

  lemma {:induction false} FlattenUpdate(rows: seq<Row>, i: nat, r: Row)
    requires i < |rows|
    ensures Flatten(rows[i := r]) + multiset(rows[i].windows) == Flatten(rows) + multiset(r.windows)
  {
    var n := |rows| - 1;
    if i == n {
      assert rows[i := r][..n] == rows[..n];
    } else {
      assert rows[i := r][..n] == rows[..n][i := r];
      assert rows[i := r][n] == rows[n];
      assert rows[..n][i] == rows[i];
      FlattenUpdate(rows[..n], i, r);
      var a, b := Flatten(rows[i := r]), Flatten(rows[..n][i := r]);
      assert a == b + multiset(rows[n].windows);
      SwapThrough(a, b, multiset(rows[n].windows), Flatten(rows[..n]), Flatten(rows),
                  multiset(rows[i].windows), multiset(r.windows));
    }
  }

  /** Replacing `x` by `y` in a part replaces it in the whole. */
  lemma SwapThrough(a: multiset<Win>, b: multiset<Win>, last: multiset<Win>, p: multiset<Win>,
                    f: multiset<Win>, x: multiset<Win>, y: multiset<Win>)
    requires a == b + last && b + x == p + y && f == p + last
    ensures a + x == f + y
  {
    assert a + x == (b + x) + last;
  }

  lemma {:induction false} FlattenEmptyRows(n: nat)
    ensures Flatten(seq(n, _ => EmptyRow)) == multiset{}
  {
    if n > 0 {
      assert seq(n, _ => EmptyRow)[..n - 1] == seq(n - 1, _ => EmptyRow);
      FlattenEmptyRows(n - 1);
    }
  }

  function OptWindows(r: Option<Row>): multiset<Win>
  {
    if r.Some? then multiset(r.value.windows) else multiset{}
  }

  function OptWin(w: Option<Win>): multiset<Win>
  {
    if w.Some? then multiset{w.value} else multiset{}
  }

  function OptSize(w: Option<Win>): nat
  {
    if w.Some? then 1 else 0
  }

  /** Array.prototype.indexOf */
  function IndexOfWin(s: seq<Win>, x: Win): (i: int)
    ensures -1 <= i < |s|
    ensures i >= 0 ==> s[i] == x && x !in s[..i]
    ensures i == -1 <==> x !in s
  {
    if |s| == 0 then -1
    else if s[0] == x then 0
    else
      var i := IndexOfWin(s[1..], x);
      assert i >= 0 ==> s[..i + 1] == [s[0]] + s[1..][..i];
      if i < 0 then -1 else i + 1
  }

  /** The squeeze loop of _chooseRowForWindow: every window of `windows`
   *  that still fits is added to the row and spliced out of `windows`.
   *  forEach reads index k of the array as it is at that moment, so a
   *  removal skips the window that slides into the freed place. */
  method Squeeze(mon: Monitor, curRow: Row, windows: seq<Win>, idealRowWidth: real)
    returns (newCur: Row, rest: seq<Win>)
    requires mon.height > 0.0 && RowOK(mon, curRow)
    ensures RowOK(mon, newCur) && curRow.windows <= newCur.windows
    ensures multiset(newCur.windows) + multiset(rest) == multiset(curRow.windows) + multiset(windows)
    ensures |rest| <= |windows|
  {
    newCur := curRow;
    rest := windows;
    var k := 0;
    var len := |windows|;
    while k < len
      invariant RowOK(mon, newCur) && curRow.windows <= newCur.windows
      invariant multiset(newCur.windows) + multiset(rest) == multiset(curRow.windows) + multiset(windows)
      invariant |rest| <= |windows|
    {
      if k < |rest| {
        var w := rest[k];
        var wWidth := ScaledWidth(mon, w);
        var wHeight := ScaledHeight(mon, w);
        if KeepSameRowOrCol(newCur.fullWidth, wWidth, idealRowWidth) {
          AddKeepsRowOK(mon, w, newCur);
          newCur := AddWindowToRow(w, newCur, wWidth, wHeight);
          var at := IndexOfWin(rest, w);
          assert rest == rest[..at] + [w] + rest[at + 1..];
          rest := rest[..at] + rest[at + 1..];
        }
      }
      k := k + 1;
    }
  }

  /** The branch of chooseRowForWindow that gives up on the current row: the
   *  windows that still fit are squeezed into it and the window goes to the
   *  next row. */
  method MoveToNextRow(mon: Monitor, curRow: Row, nextRow: Row, curWindow: Win,
                       windows: seq<Win>, idealRowWidth: real)
    returns (newCur: Row, newNext: Row, rest: seq<Win>)
    requires mon.height > 0.0
    requires RowOK(mon, curRow) && RowOK(mon, nextRow)
    ensures newNext.windows == nextRow.windows + [curWindow]
    ensures curRow.windows <= newCur.windows
    ensures RowOK(mon, newCur) && RowOK(mon, newNext)
    ensures multiset(newCur.windows) + multiset(newNext.windows) + multiset(rest)
         == multiset(curRow.windows) + multiset(nextRow.windows) + multiset(windows) + multiset{curWindow}
    ensures |rest| <= |windows|
  {
    newCur, rest := Squeeze(mon, curRow, windows, idealRowWidth);
    AddKeepsRowOK(mon, curWindow, nextRow);
    newNext := AddWindowToRow(curWindow, nextRow, ScaledWidth(mon, curWindow), ScaledHeight(mon, curWindow));
    forall e
      ensures (multiset(newCur.windows) + multiset(newNext.windows) + multiset(rest))[e]
           == (multiset(curRow.windows) + multiset(nextRow.windows) + multiset(windows) + multiset{curWindow})[e]
    {
      assert (multiset(newCur.windows) + multiset(rest))[e] == (multiset(curRow.windows) + multiset(windows))[e];
      assert multiset(newNext.windows) == multiset(nextRow.windows) + multiset{curWindow};
    }
  }

  /** _chooseRowForWindow: the window goes into curRow when there is no next
   *  row or it still fits; otherwise the other windows that fit are squeezed
   *  into curRow and the window goes into nextRow. `moved` says whether it
   *  went to nextRow. */
  method ChooseRowForWindow(mon: Monitor, curRow: Row, nextRow: Option<Row>, curWindow: Win,
                            windows: seq<Win>, idealRowWidth: real)
    returns (moved: bool, newCur: Row, newNext: Option<Row>, rest: seq<Win>)
    requires mon.height > 0.0
    requires RowOK(mon, curRow) && (nextRow.Some? ==> RowOK(mon, nextRow.value))
    ensures moved <==> nextRow.Some? && !KeepSameRowOrCol(curRow.fullWidth, ScaledWidth(mon, curWindow), idealRowWidth)
    ensures !moved ==> newCur.windows == curRow.windows + [curWindow] && newNext == nextRow && rest == windows
    ensures moved ==> newNext.Some? && newNext.value.windows == nextRow.value.windows + [curWindow]
    ensures moved ==> curRow.windows <= newCur.windows
    ensures newNext.Some? <==> nextRow.Some?
    ensures RowOK(mon, newCur) && (newNext.Some? ==> RowOK(mon, newNext.value))
    ensures multiset(newCur.windows) + OptWindows(newNext) + multiset(rest)
         == multiset(curRow.windows) + OptWindows(nextRow) + multiset(windows) + multiset{curWindow}
    ensures |rest| <= |windows|
  {
    var fits := KeepSameRowOrCol(curRow.fullWidth, ScaledWidth(mon, curWindow), idealRowWidth);
    if nextRow.None? || fits {
      AddKeepsRowOK(mon, curWindow, curRow);
      newCur := AddWindowToRow(curWindow, curRow, ScaledWidth(mon, curWindow), ScaledHeight(mon, curWindow));
      assert multiset(newCur.windows) == multiset(curRow.windows) + multiset{curWindow};
      return false, newCur, nextRow, windows;
    }
    var next;
    newCur, next, rest := MoveToNextRow(mon, curRow, nextRow.value, curWindow, windows, idealRowWidth);
    return true, newCur, Some(next), rest;
  }


  lemma UpdateKeepsRowsOK(mon: Monitor, rows: seq<Row>, i: nat, r: Row, rows2: seq<Row>)
    requires mon.height > 0.0
    requires i < |rows| && RowOK(mon, r) && rows2 == rows[i := r]
    requires forall k :: 0 <= k < |rows| ==> RowOK(mon, rows[k])
    ensures forall k :: 0 <= k < |rows2| ==> RowOK(mon, rows2[k])
  {
  }

  /** Bookkeeping of a placement: after row `cur` became `cur2` and row
   *  `next` became `next2`, taking `extra` in and leaving `rest` over, the
   *  rows hold what they held plus `extra` minus `rest`. */
  lemma Rebalance1(f2: multiset<Win>, f: multiset<Win>, cur: multiset<Win>, cur2: multiset<Win>,
                   rest: multiset<Win>, extra: multiset<Win>)
    requires f2 + cur == f + cur2
    requires cur2 + rest == cur + extra
    ensures f2 + rest == f + extra
  {
    forall e
      ensures (f2 + rest)[e] == (f + extra)[e]
    {
      assert (f2 + cur)[e] == (f + cur2)[e];
      assert (cur2 + rest)[e] == (cur + extra)[e];
    }
  }

  lemma Rebalance(f2: multiset<Win>, f1: multiset<Win>, f: multiset<Win>,
                  cur: multiset<Win>, cur2: multiset<Win>, next: multiset<Win>, next2: multiset<Win>,
                  rest: multiset<Win>, extra: multiset<Win>)
    requires f1 + cur == f + cur2
    requires f2 + next == f1 + next2
    requires cur2 + next2 + rest == cur + next + extra
    ensures f2 + rest == f + extra
  {
    forall e
      ensures (f2 + rest)[e] == (f + extra)[e]
    {
      assert (f1 + cur)[e] == (f + cur2)[e];
      assert (f2 + next)[e] == (f1 + next2)[e];
      assert (cur2 + next2 + rest)[e] == (cur + next + extra)[e];
    }
  }

  /** Row `i` replaced by `r`, which took `extra` in and left `rest` over. */
  lemma PlaceOneRow(mon: Monitor, rows: seq<Row>, i: nat, r: Row, rows2: seq<Row>,
                    rest: multiset<Win>, extra: multiset<Win>)
    requires mon.height > 0.0
    requires i < |rows| && RowOK(mon, r) && rows2 == rows[i := r]
    requires forall k :: 0 <= k < |rows| ==> RowOK(mon, rows[k])
    requires multiset(r.windows) + rest == multiset(rows[i].windows) + extra
    ensures forall k :: 0 <= k < |rows2| ==> RowOK(mon, rows2[k])
    ensures Flatten(rows2) + rest == Flatten(rows) + extra
  {
    FlattenUpdate(rows, i, r);
    UpdateKeepsRowsOK(mon, rows, i, r, rows2);
    Rebalance1(Flatten(rows2), Flatten(rows), multiset(rows[i].windows), multiset(r.windows), rest, extra);
  }

  /** Rows `i` and `j` replaced by `r` and `q`, which together took `extra`
   *  in and left `rest` over. */
  lemma PlaceTwoRows(mon: Monitor, rows: seq<Row>, i: nat, j: nat, r: Row, q: Row, rows2: seq<Row>,
                     rest: multiset<Win>, extra: multiset<Win>)
    requires mon.height > 0.0
    requires i < |rows| && j < |rows| && i != j && RowOK(mon, r) && RowOK(mon, q)
    requires rows2 == rows[i := r][j := q]
    requires forall k :: 0 <= k < |rows| ==> RowOK(mon, rows[k])
    requires multiset(r.windows) + multiset(q.windows) + rest
          == multiset(rows[i].windows) + multiset(rows[j].windows) + extra
    ensures forall k :: 0 <= k < |rows2| ==> RowOK(mon, rows2[k])
    ensures Flatten(rows2) + rest == Flatten(rows) + extra
  {
    var rows1 := rows[i := r];
    FlattenUpdate(rows, i, r);
    UpdateKeepsRowsOK(mon, rows, i, r, rows1);
    FlattenUpdate(rows1, j, q);
    UpdateKeepsRowsOK(mon, rows1, j, q, rows2);
    assert rows1[j] == rows[j];
    Rebalance(Flatten(rows2), Flatten(rows1), Flatten(rows), multiset(rows[i].windows),
              multiset(r.windows), multiset(rows[j].windows), multiset(q.windows), rest, extra);
  }

  lemma Regroup(x: multiset<Win>, p: multiset<Win>, m: multiset<Win>)
    ensures x + p + m == x + (p + m)
  {
  }

  /** One step of computeLayout's filling loop for a row with a neighbour
   *  further out: chooseRowForWindow on rows `index` and `next`. */
  method PlaceWindowWithNext(mon: Monitor, rows: seq<Row>, index: nat, next: nat, w: Win,
                             part: seq<Win>, idealRowWidth: real)
    returns (moved: bool, newRows: seq<Row>, rest: seq<Win>)
    requires mon.height > 0.0
    requires index < |rows| && next < |rows| && next != index
    requires forall i :: 0 <= i < |rows| ==> RowOK(mon, rows[i])
    ensures moved <==> !KeepSameRowOrCol(rows[index].fullWidth, ScaledWidth(mon, w), idealRowWidth)
    ensures |newRows| == |rows|
    ensures forall i :: 0 <= i < |newRows| ==> RowOK(mon, newRows[i])
    ensures Flatten(newRows) + multiset(rest) == Flatten(rows) + multiset(part) + multiset{w}
    ensures |rest| <= |part|
  {
    var newCur, newNext;
    moved, newCur, newNext, rest := ChooseRowForWindow(mon, rows[index], Some(rows[next]), w, part, idealRowWidth);
    var q := newNext.value;
    assert OptWindows(newNext) == multiset(q.windows);
    assert OptWindows(Some(rows[next])) == multiset(rows[next].windows);
    newRows := rows[index := newCur][next := q];
    Regroup(multiset(rows[index].windows) + multiset(rows[next].windows), multiset(part), multiset{w});
    PlaceTwoRows(mon, rows, index, next, newCur, q, newRows, multiset(rest), multiset(part) + multiset{w});
    Regroup(Flatten(rows), multiset(part), multiset{w});
  }

  /** The same step for the outermost row: the window always stays. */
  method PlaceWindowLast(mon: Monitor, rows: seq<Row>, index: nat, w: Win,
                         part: seq<Win>, idealRowWidth: real)
    returns (newRows: seq<Row>)
    requires mon.height > 0.0
    requires index < |rows|
    requires forall i :: 0 <= i < |rows| ==> RowOK(mon, rows[i])
    ensures |newRows| == |rows|
    ensures forall i :: 0 <= i < |newRows| ==> RowOK(mon, newRows[i])
    ensures Flatten(newRows) == Flatten(rows) + multiset{w}
  {
    var moved, newCur, newNext, rest := ChooseRowForWindow(mon, rows[index], None, w, part, idealRowWidth);
    newRows := rows[index := newCur];
    PlaceOneRow(mon, rows, index, newCur, newRows, multiset{}, multiset{w});
  }

  /** One turn of the upper part in the filling loop: the window is placed
   *  in row `up` or, when that row has had enough, in the row above, which
   *  then becomes the current one. Row 0 has no row above. */
  method StepUp(mon: Monitor, rows: seq<Row>, up: nat, w: Win, part: seq<Win>, idealRowWidth: real)
    returns (newRows: seq<Row>, newUp: nat, rest: seq<Win>)
    requires mon.height > 0.0 && up < |rows|
    requires forall i :: 0 <= i < |rows| ==> RowOK(mon, rows[i])
    ensures |newRows| == |rows| && (newUp == up || newUp + 1 == up)
    ensures up == 0 ==> newUp == 0
    ensures forall i :: 0 <= i < |newRows| ==> RowOK(mon, newRows[i])
    ensures Flatten(newRows) + multiset(rest) == Flatten(rows) + multiset(part) + multiset{w}
    ensures |rest| <= |part|
  {
    if up == 0 {
      newRows := PlaceWindowLast(mon, rows, up, w, part, idealRowWidth);
      return newRows, 0, part;
    }
    var moved;
    moved, newRows, rest := PlaceWindowWithNext(mon, rows, up, up - 1, w, part, idealRowWidth);
    newUp := if moved then up - 1 else up;
  }

  /** One turn of the lower part: the window is placed in row `down` or in
   *  the row below. The source takes `rows[down + 1]` as the next row unless
   *  `down` is 0; past the last row that read yields `undefined`, which the
   *  truth-value condition treats as no next row, as it does here. */
  method StepDown(mon: Monitor, rows: seq<Row>, down: nat, w: Win, part: seq<Win>, idealRowWidth: real)
    returns (newRows: seq<Row>, newDown: nat, rest: seq<Win>)
    requires mon.height > 0.0 && down < |rows|
    requires forall i :: 0 <= i < |rows| ==> RowOK(mon, rows[i])
    ensures |newRows| == |rows| && (newDown == down || newDown == down + 1) && newDown < |rows|
    ensures forall i :: 0 <= i < |newRows| ==> RowOK(mon, newRows[i])
    ensures Flatten(newRows) + multiset(rest) == Flatten(rows) + multiset(part) + multiset{w}
    ensures |rest| <= |part|
  {
    if down == 0 || down + 1 >= |rows| {
      newRows := PlaceWindowLast(mon, rows, down, w, part, idealRowWidth);
      return newRows, down, part;
    }
    var moved;
    moved, newRows, rest := PlaceWindowWithNext(mon, rows, down, down + 1, w, part, idealRowWidth);
    newDown := if moved then down + 1 else down;
  }

  /** Array.prototype.shift: the first element, if any, and the rest. */
  method Shift(part: seq<Win>) returns (first: Option<Win>, rest: seq<Win>)
    ensures first.None? <==> |part| == 0
    ensures first.Some? ==> first.value == part[0] && rest == part[1..]
    ensures OptWin(first) + multiset(rest) == multiset(part)
    ensures OptSize(first) + |rest| == |part|
  {
    if |part| == 0 {
      return None, part;
    }
    assert part == [part[0]] + part[1..];
    return Some(part[0]), part[1..];
  }

  /** The windows of a part still to be placed: the one taken out by
   *  `shift` and those left in the array. */
  function Pending(part: seq<Win>, cur: Option<Win>): multiset<Win>
  {
    multiset(part) + OptWin(cur)
  }

  /** Bookkeeping of one turn while the other part waits. */
  lemma OtherPartWaits(f2: multiset<Win>, f: multiset<Win>, p: multiset<Win>, q2: multiset<Win>, q: multiset<Win>)
    requires f2 + q2 == f + q
    ensures f2 + p + q2 == f + p + q
  {
    forall e
      ensures (f2 + p + q2)[e] == (f + p + q)[e]
    {
      assert (f2 + q2)[e] == (f + q)[e];
    }
  }

  /** Bookkeeping of a turn: the step placed the current window and left
   *  `left`, whose first window then becomes the current one. */
  lemma ShiftBookkeeping(f2: multiset<Win>, left: multiset<Win>, rest: multiset<Win>, cw: multiset<Win>,
                         f: multiset<Win>, part: multiset<Win>, cur: multiset<Win>)
    requires f2 + left == f + part + cur
    requires cw + rest == left
    ensures f2 + (rest + cw) == f + (part + cur)
  {
    forall e
      ensures (f2 + (rest + cw))[e] == (f + (part + cur))[e]
    {
      assert (f2 + left)[e] == (f + part + cur)[e];
      assert (cw + rest)[e] == left[e];
    }
  }

  /** The upper half of one iteration of the filling loop. */
  method TopTurn(mon: Monitor, rows: seq<Row>, up: nat, cur: Option<Win>, part: seq<Win>, ideal: seq<real>)
    returns (newRows: seq<Row>, newUp: nat, newCur: Option<Win>, rest: seq<Win>)
    requires mon.height > 0.0 && up < |rows| && |ideal| == |rows|
    requires forall i :: 0 <= i < |rows| ==> RowOK(mon, rows[i])
    requires cur.None? ==> |part| == 0
    ensures |newRows| == |rows| && newUp <= up
    ensures forall i :: 0 <= i < |newRows| ==> RowOK(mon, newRows[i])
    ensures Flatten(newRows) + Pending(rest, newCur) == Flatten(rows) + Pending(part, cur)
    ensures |rest| + OptSize(newCur) <= |part| + OptSize(cur)
    ensures cur.Some? ==> |rest| + OptSize(newCur) < |part| + OptSize(cur)
    ensures newCur.None? ==> |rest| == 0
  {
    if cur.None? {
      return rows, up, cur, part;
    }
    var left;
    newRows, newUp, left := StepUp(mon, rows, up, cur.value, part, ideal[up]);
    newCur, rest := Shift(left);
    ShiftBookkeeping(Flatten(newRows), multiset(left), multiset(rest), OptWin(newCur),
                     Flatten(rows), multiset(part), OptWin(cur));
  }

  /** The lower half of one iteration of the filling loop. */
  method BottomTurn(mon: Monitor, rows: seq<Row>, down: nat, cur: Option<Win>, part: seq<Win>, ideal: seq<real>)
    returns (newRows: seq<Row>, newDown: nat, newCur: Option<Win>, rest: seq<Win>)
    requires mon.height > 0.0 && down < |rows| && |ideal| == |rows|
    requires forall i :: 0 <= i < |rows| ==> RowOK(mon, rows[i])
    requires cur.None? ==> |part| == 0
    ensures |newRows| == |rows| && down <= newDown < |rows|
    ensures forall i :: 0 <= i < |newRows| ==> RowOK(mon, newRows[i])
    ensures Flatten(newRows) + Pending(rest, newCur) == Flatten(rows) + Pending(part, cur)
    ensures |rest| + OptSize(newCur) <= |part| + OptSize(cur)
    ensures cur.Some? ==> |rest| + OptSize(newCur) < |part| + OptSize(cur)
    ensures newCur.None? ==> |rest| == 0
  {
    if cur.None? {
      return rows, down, cur, part;
    }
    var left;
    newRows, newDown, left := StepDown(mon, rows, down, cur.value, part, ideal[down]);
    newCur, rest := Shift(left);
    ShiftBookkeeping(Flatten(newRows), multiset(left), multiset(rest), OptWin(newCur),
                     Flatten(rows), multiset(part), OptWin(cur));
  }

  /** One iteration of the filling loop: a turn of the upper part and one
   *  of the lower part, the lower one first when `startWithBottomWindow`. */
  method FillRound(mon: Monitor, rows: seq<Row>, ideal: seq<real>, startWithBottomWindow: bool,
                   up: nat, curTop: Option<Win>, top: seq<Win>,
                   down: nat, curBottom: Option<Win>, bottom: seq<Win>)
    returns (rows': seq<Row>, up': nat, curTop': Option<Win>, top': seq<Win>,
             down': nat, curBottom': Option<Win>, bottom': seq<Win>)
    requires mon.height > 0.0 && |ideal| == |rows| && up < |rows| && down < |rows|
    requires forall i :: 0 <= i < |rows| ==> RowOK(mon, rows[i])
    requires (curTop.None? ==> |top| == 0) && (curBottom.None? ==> |bottom| == 0)
    ensures |rows'| == |rows| && up' <= up && down <= down' < |rows|
    ensures forall i :: 0 <= i < |rows'| ==> RowOK(mon, rows'[i])
    ensures (curTop'.None? ==> |top'| == 0) && (curBottom'.None? ==> |bottom'| == 0)
    ensures Flatten(rows') + Pending(top', curTop') + Pending(bottom', curBottom')
         == Flatten(rows) + Pending(top, curTop) + Pending(bottom, curBottom)
    ensures |top'| + OptSize(curTop') + |bottom'| + OptSize(curBottom') <= |top| + OptSize(curTop) + |bottom| + OptSize(curBottom)
    ensures curTop.Some? || curBottom.Some? ==>
      |top'| + OptSize(curTop') + |bottom'| + OptSize(curBottom') < |top| + OptSize(curTop) + |bottom| + OptSize(curBottom)
  {
    rows', up', curTop', top' := rows, up, curTop, top;
    if !startWithBottomWindow {
      rows', up', curTop', top' := TopTurn(mon, rows', up', curTop', top', ideal);
    }
    ghost var f, pt := Flatten(rows'), Pending(top', curTop');
    rows', down', curBottom', bottom' := BottomTurn(mon, rows', down, curBottom, bottom, ideal);
    OtherPartWaits(Flatten(rows'), f, pt, Pending(bottom', curBottom'), Pending(bottom, curBottom));
    if startWithBottomWindow {
      rows', up', curTop', top' := TopTurn(mon, rows', up', curTop', top', ideal);
    }
  }

  /** The filling loop of computeLayout: starting from the centre row(s),
   *  windows of the upper part go upwards and windows of the lower part
   *  downwards, alternating. Every window ends up in exactly one row. */
  method FillRows(mon: Monitor, numRows: nat, ideal: seq<real>, topPart: seq<Win>, bottomPart: seq<Win>,
                  startWithBottomWindow: bool)
    returns (rows: seq<Row>)
    requires mon.height > 0.0 && numRows >= 1 && |ideal| == numRows
    ensures |rows| == numRows
    ensures forall i :: 0 <= i < |rows| ==> RowOK(mon, rows[i])
    ensures Flatten(rows) == multiset(topPart) + multiset(bottomPart)
  {
    rows := seq(numRows, _ => EmptyRow);
    FlattenEmptyRows(numRows);
    var centre := numRows / 2;
    var up: nat, down: nat := centre, centre;
    if numRows % 2 == 0 && centre != 0 {
      up := up - 1;
    }
    var curTop, top := Shift(topPart);
    var curBottom, bottom := Shift(bottomPart);
    while curTop.Some? || curBottom.Some?
      invariant |rows| == numRows && up < numRows && down < numRows
      invariant (curTop.None? ==> |top| == 0) && (curBottom.None? ==> |bottom| == 0)
      invariant forall i :: 0 <= i < |rows| ==> RowOK(mon, rows[i])
      invariant Flatten(rows) + Pending(top, curTop) + Pending(bottom, curBottom)
             == multiset(topPart) + multiset(bottomPart)
      decreases |top| + OptSize(curTop) + |bottom| + OptSize(curBottom)
    {
      rows, up, curTop, top, down, curBottom, bottom :=
        FillRound(mon, rows, ideal, startWithBottomWindow, up, curTop, top, down, curBottom, bottom);
    }
    assert Pending(top, curTop) == multiset{} && Pending(bottom, curBottom) == multiset{};
  }

  /** The windows of `s` whose maximized flag is `m`, in their order. */
  function WithMaximized(s: seq<Win>, m: bool): (r: seq<Win>)
    ensures forall w :: w in r ==> w in s && w.maximized == m
    ensures |r| <= |s|
  {
    if |s| == 0 then []
    else if s[|s| - 1].maximized == m then WithMaximized(s[..|s| - 1], m) + [s[|s| - 1]]
    else WithMaximized(s[..|s| - 1], m)
  }

  /** Filtering out the maximized windows loses and duplicates nothing. */
  lemma {:induction false} MaximizedPartition(s: seq<Win>)
    ensures multiset(WithMaximized(s, true)) + multiset(WithMaximized(s, false)) == multiset(s)
  {
    if |s| > 0 {
      var n := |s| - 1;
      MaximizedPartition(s[..n]);
      assert s == s[..n] + [s[n]];
    }
  }

  /** The total width splits into the widths of the two kinds of window. */
  lemma {:induction false} WidthPartition(mon: Monitor, s: seq<Win>)
    requires mon.height > 0.0
    ensures SumWidths(mon, s) == SumWidths(mon, WithMaximized(s, true)) + SumWidths(mon, WithMaximized(s, false))
  {
    if |s| > 0 {
      var n := |s| - 1;
      WidthPartition(mon, s[..n]);
      var t, f := WithMaximized(s[..n], true), WithMaximized(s[..n], false);
      assert (t + [s[n]])[..|t|] == t;
      assert (f + [s[n]])[..|f|] == f;
    }
  }

  /** The filter at the start of computeLayout: the maximized windows are
   *  set aside, and the scaled widths of all windows and of the others are
   *  added up. */
  method FilterMaximized(mon: Monitor, windows: seq<Win>)
    returns (normal: seq<Win>, maximized: seq<Win>, totalWidth: real, widthWithoutMaximized: real)
    requires mon.height > 0.0
    ensures normal == WithMaximized(windows, false) && maximized == WithMaximized(windows, true)
    ensures totalWidth == SumWidths(mon, windows)
    ensures widthWithoutMaximized == SumWidths(mon, normal)
  {
    normal, maximized := [], [];
    totalWidth, widthWithoutMaximized := 0.0, 0.0;
    for i := 0 to |windows|
      invariant normal == WithMaximized(windows[..i], false) && maximized == WithMaximized(windows[..i], true)
      invariant totalWidth == SumWidths(mon, windows[..i])
      invariant widthWithoutMaximized == SumWidths(mon, normal)
    {
      var w := windows[i];
      assert windows[..i + 1][..i] == windows[..i];
      var width := ScaledWidth(mon, w);
      totalWidth := totalWidth + width;
      if w.maximized {
        maximized := maximized + [w];
      } else {
        assert (normal + [w])[..|normal|] == normal;
        widthWithoutMaximized := widthWithoutMaximized + width;
        normal := normal + [w];
      }
    }
    assert windows[..|windows|] == windows;
  }

  /** The windows at the even (`parity` 0) or odd (`parity` 1) positions of `s`. */
  function Alternate(s: seq<Win>, parity: int): (r: seq<Win>)
    ensures forall w :: w in r ==> w in s
  {
    if |s| == 0 then []
    else if JsRem(|s| - 1, 2) == parity then Alternate(s[..|s| - 1], parity) + [s[|s| - 1]]
    else Alternate(s[..|s| - 1], parity)
  }

  /** The maximized windows are dealt out alternately: the two parts get
   *  them all, and their counts differ by at most one. */
  lemma AlternateSplit(s: seq<Win>)
    ensures multiset(Alternate(s, 0)) + multiset(Alternate(s, 1)) == multiset(s)
    ensures |Alternate(s, 0)| == (|s| + 1) / 2 && |Alternate(s, 1)| == |s| / 2
  {
    AlternateMultiset(s);
    AlternateCounts(s);
  }

  lemma {:induction false} AlternateMultiset(s: seq<Win>)
    ensures multiset(Alternate(s, 0)) + multiset(Alternate(s, 1)) == multiset(s)
  {
    if |s| > 0 {
      var p := s[..|s| - 1];
      AlternateMultiset(p);
      AlternateStep(s);
      MultisetOfLast(s);
    }
  }

  /** Appending one window adds it to exactly one of the two parts. */
  lemma AlternateStep(s: seq<Win>)
    requires |s| > 0
    ensures multiset(Alternate(s, 0)) + multiset(Alternate(s, 1))
         == multiset(Alternate(s[..|s| - 1], 0)) + multiset(Alternate(s[..|s| - 1], 1)) + multiset{s[|s| - 1]}
  {
    var n := |s| - 1;
    var a, b := Alternate(s[..n], 0), Alternate(s[..n], 1);
    AlternateLast(s);
    if n % 2 == 0 {
      MultisetSnoc(a, s[n]);
      AddOne(multiset(a), multiset(b), multiset(a) + multiset(b), s[n]);
    } else {
      MultisetSnoc(b, s[n]);
      AddOne(multiset(a), multiset(b), multiset(a) + multiset(b), s[n]);
    }
  }

  lemma AlternateLast(s: seq<Win>)
    requires |s| > 0
    ensures var n := |s| - 1;
      if n % 2 == 0 then
        Alternate(s, 0) == Alternate(s[..n], 0) + [s[n]] && Alternate(s, 1) == Alternate(s[..n], 1)
      else
        Alternate(s, 0) == Alternate(s[..n], 0) && Alternate(s, 1) == Alternate(s[..n], 1) + [s[n]]
  {
    assert JsRem(|s| - 1, 2) == (|s| - 1) % 2;
  }

  lemma MultisetSnoc(a: seq<Win>, x: Win)
    ensures multiset(a + [x]) == multiset(a) + multiset{x}
  {
  }

  lemma {:induction false} AlternateCounts(s: seq<Win>)
    ensures |Alternate(s, 0)| == (|s| + 1) / 2 && |Alternate(s, 1)| == |s| / 2
  {
    if |s| > 0 {
      var n := |s| - 1;
      AlternateCounts(s[..n]);
      assert JsRem(n, 2) == n % 2;
      HalvesStep(n);
    }
  }

  lemma MultisetOfLast(s: seq<Win>)
    requires |s| > 0
    ensures multiset(s) == multiset(s[..|s| - 1]) + multiset{s[|s| - 1]}
  {
    assert s == s[..|s| - 1] + [s[|s| - 1]];
  }

  lemma HalvesStep(n: nat)
    ensures n % 2 == 0 ==> (n + 2) / 2 == (n + 1) / 2 + 1 && (n + 1) / 2 == n / 2
    ensures n % 2 == 1 ==> (n + 2) / 2 == (n + 1) / 2 && (n + 1) / 2 == n / 2 + 1
  {
  }

  /** One more element on either side of a split is one more in the whole. */
  lemma AddOne(a: multiset<Win>, b: multiset<Win>, s: multiset<Win>, x: Win)
    requires a + b == s
    ensures (a + multiset{x}) + b == s + multiset{x}
    ensures a + (b + multiset{x}) == s + multiset{x}
  {
  }

  /** The split by vertical position in computeLayout, over the windows
   *  already sorted by their centres from the top: windows go to the upper
   *  part while keepSameRowOrCol accepts them against half of
   *  `widthWithoutMaximized`, and to the lower part otherwise. */
  method SplitByPosition(mon: Monitor, sorted: seq<Win>, widthWithoutMaximized: real)
    returns (top: seq<Win>, bottom: seq<Win>, topWidth: real)
    requires mon.height > 0.0
    ensures multiset(top) + multiset(bottom) == multiset(sorted)
    ensures topWidth == SumWidths(mon, top)
    ensures |sorted| > 0 && ScaledWidth(mon, sorted[0]) <= widthWithoutMaximized / 2.0 ==> |top| > 0 && top[0] == sorted[0]
  {
    top, bottom, topWidth := [], [], 0.0;
    var half := widthWithoutMaximized / 2.0;
    var firstFits := |sorted| > 0 && ScaledWidth(mon, sorted[0]) <= half;
    for i := 0 to |sorted|
      invariant multiset(top) + multiset(bottom) == multiset(sorted[..i])
      invariant topWidth == SumWidths(mon, top)
      invariant i > 0 && firstFits ==> |top| > 0 && top[0] == sorted[0]
    {
      var w := sorted[i];
      SplitStep(mon, sorted, i, top, bottom);
      var width := ScaledWidth(mon, w);
      var keep := KeepSameRowOrCol(topWidth, width, half);
      if !keep {
        bottom := bottom + [w];
      } else {
        top := top + [w];
        topWidth := topWidth + width;
      }
    }
    assert sorted[..|sorted|] == sorted;
  }

  /** One window of the split goes to either part: the parts still hold the
   *  windows seen so far, and the upper part's width grows by the window's. */
  lemma SplitStep(mon: Monitor, sorted: seq<Win>, i: nat, top: seq<Win>, bottom: seq<Win>)
    requires mon.height > 0.0
    requires i < |sorted| && multiset(top) + multiset(bottom) == multiset(sorted[..i])
    ensures multiset(top + [sorted[i]]) + multiset(bottom) == multiset(sorted[..i + 1])
    ensures multiset(top) + multiset(bottom + [sorted[i]]) == multiset(sorted[..i + 1])
    ensures SumWidths(mon, top + [sorted[i]]) == SumWidths(mon, top) + ScaledWidth(mon, sorted[i])
    ensures (top + [sorted[i]])[0] == if |top| > 0 then top[0] else sorted[i]
  {
    var w := sorted[i];
    assert sorted[..i + 1] == sorted[..i] + [w];
    assert (top + [w])[..|top|] == top;
    MultisetSnoc(top, w);
    MultisetSnoc(bottom, w);
    MultisetSnoc(sorted[..i], w);
    AddOne(multiset(top), multiset(bottom), multiset(sorted[..i]), w);
  }

  /** The spreading of the maximized windows: window i goes to the upper
   *  part when i % 2 is 0 and the upper part is the lighter one, or when
   *  i % 2 is 1 and it is not. */
  method SpreadMaximized(mon: Monitor, maximized: seq<Win>, startWithTopPart: bool,
                         top: seq<Win>, bottom: seq<Win>, topWidth: real)
    returns (top': seq<Win>, bottom': seq<Win>, topWidth': real)
    requires mon.height > 0.0 && topWidth == SumWidths(mon, top)
    ensures top' == top + Alternate(maximized, if startWithTopPart then 0 else 1)
    ensures bottom' == bottom + Alternate(maximized, if startWithTopPart then 1 else 0)
    ensures topWidth' == SumWidths(mon, top')
  {
    var p := if startWithTopPart then 0 else 1;
    top', bottom', topWidth' := top, bottom, topWidth;
    for i := 0 to |maximized|
      invariant top' == top + Alternate(maximized[..i], p)
      invariant bottom' == bottom + Alternate(maximized[..i], 1 - p)
      invariant topWidth' == SumWidths(mon, top')
    {
      var w := maximized[i];
      assert maximized[..i + 1][..i] == maximized[..i];
      if JsRem(i, 2) == p {
        assert (top' + [w])[..|top'|] == top';
        topWidth' := topWidth' + ScaledWidth(mon, w);
        top' := top' + [w];
      } else {
        bottom' := bottom' + [w];
      }
    }
    assert maximized[..|maximized|] == maximized;
  }

  /** Dealing two shares out to two parts, either way round. */
  lemma Deal(t: multiset<Win>, b: multiset<Win>, a0: multiset<Win>, a1: multiset<Win>,
             sorted: multiset<Win>, m: multiset<Win>)
    requires t + b == sorted && a0 + a1 == m
    ensures (t + a0) + (b + a1) == sorted + m
    ensures (t + a1) + (b + a0) == sorted + m
  {
    forall e
      ensures ((t + a0) + (b + a1))[e] == (sorted + m)[e] && ((t + a1) + (b + a0))[e] == (sorted + m)[e]
    {
      assert (t + b)[e] == sorted[e];
      assert (a0 + a1)[e] == m[e];
    }
  }

  /** The two parts computeLayout fills the rows from: the split by
   *  position, the maximized windows dealt out alternately starting with
   *  the lighter part, and both parts sorted by descending window area. */
  method SplitParts(mon: Monitor, normal: seq<Win>, maximized: seq<Win>, widthWithoutMaximized: real)
    returns (top: seq<Win>, bottom: seq<Win>, topWidth: real)
    requires mon.height > 0.0
    ensures multiset(top) + multiset(bottom) == multiset(normal) + multiset(maximized)
    ensures topWidth == SumWidths(mon, top)
    ensures SortedBy(top, ByAreaDescending) && SortedBy(bottom, ByAreaDescending)
    ensures (multiset(Alternate(maximized, 0)) <= multiset(top) && multiset(Alternate(maximized, 1)) <= multiset(bottom))
         || (multiset(Alternate(maximized, 1)) <= multiset(top) && multiset(Alternate(maximized, 0)) <= multiset(bottom))
  {
    var sorted := SortBy(normal, ByCentreY);
    var t, b, tw := SplitByPosition(mon, sorted, widthWithoutMaximized);
    var startWithTopPart := tw < widthWithoutMaximized / 2.0;
    var t2, b2, tw2 := SpreadMaximized(mon, maximized, startWithTopPart, t, b, tw);
    AlternateSplit(maximized);
    var a0, a1 := multiset(Alternate(maximized, 0)), multiset(Alternate(maximized, 1));
    assert multiset(t2) == multiset(t) + (if startWithTopPart then a0 else a1);
    assert multiset(b2) == multiset(b) + (if startWithTopPart then a1 else a0);
    Deal(multiset(t), multiset(b), a0, a1, multiset(sorted), multiset(maximized));
    top := SortBy(t2, ByAreaDescending);
    bottom := SortBy(b2, ByAreaDescending);
    SortKeepsSizes(mon, t2, ByAreaDescending);
    topWidth := tw2;
  }

  /** _sortRow: a row's windows ordered by the x coordinate of their centres. */
  function SortRow(row: Row): (r: Row)
    ensures SortedBy(r.windows, ByCentreX)
    ensures multiset(r.windows) == multiset(row.windows)
    ensures r.fullWidth == row.fullWidth && r.fullHeight == row.fullHeight
  {
    Row(SortBy(row.windows, ByCentreX), row.fullWidth, row.fullHeight)
  }

  lemma SortRowKeepsRowOK(mon: Monitor, row: Row)
    requires mon.height > 0.0 && RowOK(mon, row)
    ensures RowOK(mon, SortRow(row))
  {
    SortKeepsSizes(mon, row.windows, ByCentreX);
  }

  /** Rows holding the same windows, in any order, hold the same windows in all. */
  lemma {:induction false} FlattenSameWindows(rows: seq<Row>, rows2: seq<Row>)
    requires |rows2| == |rows|
    requires forall k :: 0 <= k < |rows| ==> multiset(rows2[k].windows) == multiset(rows[k].windows)
    ensures Flatten(rows2) == Flatten(rows)
  {
    if |rows| > 0 {
      FlattenSameWindows(rows[..|rows| - 1], rows2[..|rows| - 1]);
    }
  }

  /** The row the source ends up calling maxRow: the first of the widest rows. */
  function FirstWidest(rows: seq<Row>): (i: nat)
    requires |rows| > 0
    ensures i < |rows|
    ensures forall k :: 0 <= k < |rows| ==> rows[k].fullWidth <= rows[i].fullWidth
    ensures forall k :: 0 <= k < i ==> rows[k].fullWidth < rows[i].fullWidth
  {
    if |rows| == 1 then 0
    else
      var j := FirstWidest(rows[..|rows| - 1]);
      assert forall k :: 0 <= k < |rows| - 1 ==> rows[..|rows| - 1][k] == rows[k];
      if rows[|rows| - 1].fullWidth > rows[j].fullWidth then |rows| - 1 else j
  }

  /** Only the widths decide which row is the first widest. */
  lemma {:induction false} FirstWidestSameWidths(rows: seq<Row>, rows2: seq<Row>)
    requires |rows| > 0 && |rows2| == |rows|
    requires forall k :: 0 <= k < |rows| ==> rows2[k].fullWidth == rows[k].fullWidth
    ensures FirstWidest(rows2) == FirstWidest(rows)
  {
    if |rows| > 1 {
      var n := |rows| - 1;
      FirstWidestSameWidths(rows[..n], rows2[..n]);
    }
  }

  /** Only the heights decide the grid height. */
  lemma {:induction false} SumHeightsSameHeights(rows: seq<Row>, rows2: seq<Row>)
    requires |rows2| == |rows|
    requires forall k :: 0 <= k < |rows| ==> rows2[k].fullHeight == rows[k].fullHeight
    ensures SumHeights(rows2) == SumHeights(rows)
  {
    if |rows| > 0 {
      var n := |rows| - 1;
      SumHeightsSameHeights(rows[..n], rows2[..n]);
    }
  }

  /** The grid height: the rows' heights added up. */
  function SumHeights(rows: seq<Row>): real
  {
    if |rows| == 0 then 0.0 else SumHeights(rows[..|rows| - 1]) + rows[|rows| - 1].fullHeight
  }

  lemma FirstWidestStep(rows: seq<Row>, i: nat)
    requires 0 < i < |rows|
    ensures FirstWidest(rows[..i + 1])
         == if rows[i].fullWidth > rows[FirstWidest(rows[..i])].fullWidth then i else FirstWidest(rows[..i])
  {
    assert rows[..i + 1][..i] == rows[..i];
  }

  /** Every row sorted by _sortRow. */
  function SortedRows(rows: seq<Row>): (r: seq<Row>)
    ensures |r| == |rows|
  {
    if |rows| == 0 then [] else SortedRows(rows[..|rows| - 1]) + [SortRow(rows[|rows| - 1])]
  }

  /** Sorting the rows keeps each row's windows and sizes and orders them
   *  from the left. */
  lemma {:induction false} SortedRowsProps(mon: Monitor, rows: seq<Row>)
    requires mon.height > 0.0
    requires forall k :: 0 <= k < |rows| ==> RowOK(mon, rows[k])
    ensures forall k :: 0 <= k < |rows| ==>
      var r := SortedRows(rows)[k];
      RowOK(mon, r) && SortedBy(r.windows, ByCentreX) && multiset(r.windows) == multiset(rows[k].windows)
      && r.fullWidth == rows[k].fullWidth && r.fullHeight == rows[k].fullHeight
  {
    if |rows| > 0 {
      var n := |rows| - 1;
      SortedRowsProps(mon, rows[..n]);
      SortRowKeepsRowOK(mon, rows[n]);
      var t := SortedRows(rows[..n]);
      forall k | 0 <= k < |rows|
        ensures var r := SortedRows(rows)[k];
          RowOK(mon, r) && SortedBy(r.windows, ByCentreX) && multiset(r.windows) == multiset(rows[k].windows)
          && r.fullWidth == rows[k].fullWidth && r.fullHeight == rows[k].fullHeight
      {
        if k < n {
          assert SortedRows(rows)[k] == t[k];
          assert rows[..n][k] == rows[k];
        }
      }
    }
  }

  lemma SortRowsStep(rows: seq<Row>, i: nat, row: Row)
    requires i < |rows| && row == SortRow(rows[i])
    ensures SortedRows(rows[..i + 1]) == SortedRows(rows[..i]) + [row]
    ensures SumHeights(rows[..i + 1]) == SumHeights(rows[..i]) + row.fullHeight
    ensures row.fullWidth == rows[i].fullWidth
  {
    assert rows[..i + 1][..i] == rows[..i];
  }

  lemma WidestStep(rows: seq<Row>, i: nat, found: bool, maxIndex: nat)
    requires i < |rows| && (found <==> i > 0)
    requires i > 0 ==> maxIndex == FirstWidest(rows[..i])
    ensures found ==> maxIndex < i
    ensures (if !found || rows[i].fullWidth > rows[maxIndex].fullWidth then i else maxIndex)
         == FirstWidest(rows[..i + 1])
  {
    if i > 0 {
      FirstWidestStep(rows, i);
    }
  }

  /** The last loop of computeLayout: every row is sorted, the first widest
   *  row is found, and the heights are added up. */
  method SortRows(rows: seq<Row>) returns (sorted: seq<Row>, maxIndex: nat, gridHeight: real)
    requires |rows| > 0
    ensures sorted == SortedRows(rows) && maxIndex < |rows|
    ensures maxIndex == FirstWidest(rows) && gridHeight == SumHeights(rows)
  {
    sorted := [];
    var found := false;
    maxIndex, gridHeight := 0, 0.0;
    for i := 0 to |rows|
      invariant sorted == SortedRows(rows[..i])
      invariant found <==> i > 0
      invariant i > 0 ==> maxIndex == FirstWidest(rows[..i])
      invariant gridHeight == SumHeights(rows[..i])
    {
      var row := SortRow(rows[i]);
      SortRowsStep(rows, i, row);
      WidestStep(rows, i, found, maxIndex);
      sorted := sorted + [row];
      if !found || row.fullWidth > rows[maxIndex].fullWidth {
        maxIndex := i;
      }
      found := true;
      gridHeight := gridHeight + row.fullHeight;
    }
    assert rows[..|rows|] == rows;
  }

  /** The result of computeLayout. */
  datatype Layout = Layout(numRows: int, rows: seq<Row>, maxColumns: int, gridWidth: real, gridHeight: real)

  /** What computeLayout promises of its result: the rows hold exactly the
   *  given windows, with accurate sizes, each row sorted from the left, and
   *  the grid measured by its widest row and its total height. */
  ghost predicate LayoutOK(mon: Monitor, windows: seq<Win>, l: Layout)
    requires mon.height > 0.0
  {
    |l.rows| == l.numRows >= 1
    && Flatten(l.rows) == multiset(windows)
    && (forall k :: 0 <= k < |l.rows| ==> RowOK(mon, l.rows[k]) && SortedBy(l.rows[k].windows, ByCentreX))
    && l.maxColumns == |l.rows[FirstWidest(l.rows)].windows|
    && l.gridWidth == l.rows[FirstWidest(l.rows)].fullWidth
    && l.gridHeight == SumHeights(l.rows)
  }

  /** Sorting filled rows that hold the windows gives a layout as promised. */
  lemma SortedRowsMakeLayout(mon: Monitor, windows: seq<Win>, rows: seq<Row>)
    requires mon.height > 0.0 && |rows| > 0
    requires forall k :: 0 <= k < |rows| ==> RowOK(mon, rows[k])
    requires Flatten(rows) == multiset(windows)
    ensures var sorted := SortedRows(rows);
      FirstWidest(sorted) == FirstWidest(rows) && SumHeights(sorted) == SumHeights(rows)
      && LayoutOK(mon, windows, Layout(|rows|, sorted, |sorted[FirstWidest(rows)].windows|,
                                        sorted[FirstWidest(rows)].fullWidth, SumHeights(rows)))
  {
    var sorted := SortedRows(rows);
    SortedRowsProps(mon, rows);
    FlattenSameWindows(rows, sorted);
    FirstWidestSameWidths(rows, sorted);
    SumHeightsSameHeights(rows, sorted);
  }

  /** The two layout strategies; the vertical one is the horizontal one on
   *  transposed geometry, with columns in the place of rows. */
  datatype StrategyKind = Horizontal | Vertical

  /** The message computeLayout throws when given no row (column) count. */
  function MissingCountError(kind: StrategyKind): string
  {
    match kind
    case Horizontal => "UnalignedHorizontalLayoutStrategy: No numRows given in layout params"
    case Vertical => "UnalignedVerticalLayoutStrategy: No numCols given in layout params"
  }

  /** computeLayout for a positive row count. */
  method ComputeLayoutFor(mon: Monitor, windows: seq<Win>, numRows: nat) returns (l: Layout)
    requires mon.height > 0.0 && numRows >= 1
    ensures l.numRows == numRows && LayoutOK(mon, windows, l)
  {
    var normal, maximized, totalWidth, widthWithoutMaximized := FilterMaximized(mon, windows);
    var idealRowWidths := DistributeSizes(numRows, totalWidth);
    var top, bottom, topWidth := SplitParts(mon, normal, maximized, widthWithoutMaximized);
    var startWithBottomWindow := numRows % 2 == 1 && topWidth < totalWidth / 2.0;
    var rows := FillRows(mon, numRows, idealRowWidths, top, bottom, startWithBottomWindow);
    var sorted, maxIndex, gridHeight := SortRows(rows);
    MaximizedPartition(windows);
    SortedRowsMakeLayout(mon, windows, rows);
    l := Layout(numRows, sorted, |sorted[maxIndex].windows|, sorted[maxIndex].fullWidth, gridHeight);
  }

  /** computeLayout. A count of 0 (also the default when none is given)
   *  throws; a negative one leaves no rows, and the source then fails
   *  reading a row or maxRow, which is an error here too. */
  method ComputeLayout(kind: StrategyKind, mon: Monitor, windows: seq<Win>, numRows: int) returns (r: Result<Layout>)
    requires mon.height > 0.0
    ensures r.Err? <==> numRows <= 0
    ensures numRows == 0 ==> r == Err(MissingCountError(kind))
    ensures r.Ok? ==> r.value.numRows == numRows && LayoutOK(mon, windows, r.value)
  {
    if numRows == 0 {
      return Err(MissingCountError(kind));
    }
    if numRows < 0 {
      return Err("TypeError: no row to place a window in");
    }
    var l := ComputeLayoutFor(mon, windows, numRows);
    return Ok(l);
  }

  // ---------------------------------------------------------------------
  // computeWindowSlots and computeOccupiedSpace of the horizontal strategy

  /** The area the slots are laid out in. */
  datatype Area = Area(x: real, y: real, width: real, height: real)

  /** The spacing between rows and between the windows of a row. */
  datatype Spacing = Spacing(rowSpacing: real, columnSpacing: real)

  /** An entry `[cloneX, cloneY, cloneWidth, cloneHeight, window]` of the slot list. */
  datatype Slot = Slot(x: int, y: int, width: real, height: real, window: Win)
  {
    /** `s[2] * s[3]` */
    function Occupied(): real { width * height }
  }

  /** What the first loop of computeWindowSlots stores on a row. */
  datatype RowPlace = RowPlace(x: real, y: real, scaledHeight: real, additionalScale: real)

  /** `Math.min(1, num / den)`. A zero denominator gives an infinite or
   *  undefined quotient in the source; here it gives 1. */
  function AtMostOne(num: real, den: real): (r: real)
    ensures r <= 1.0
    ensures den != 0.0 && num / den <= 1.0 ==> r == num / den
  {
    if den == 0.0 then 1.0 else Min(1.0, num / den)
  }

  /** The windows of all rows, row after row. */
  function Concat(rows: seq<Row>): seq<Win>
  {
    if |rows| == 0 then [] else Concat(rows[..|rows| - 1]) + rows[|rows| - 1].windows
  }

  function SlotWindows(slots: seq<Slot>): (ws: seq<Win>)
    ensures |ws| == |slots| && forall k :: 0 <= k < |slots| ==> ws[k] == slots[k].window
  {
    if |slots| == 0 then [] else SlotWindows(slots[..|slots| - 1]) + [slots[|slots| - 1].window]
  }

  /** A clone keeps its window's aspect ratio and is never shown at more
   *  than WINDOW_PREVIEW_MAXIMUM_SCALE of the window's size. */
  ghost predicate CappedClone(slot: Slot)
  {
    slot.width * slot.window.height == slot.height * slot.window.width
    && (slot.window.width >= 0.0 ==> slot.width <= WindowPreviewMaximumScale * slot.window.width)
    && (slot.window.height >= 0.0 ==> slot.height <= WindowPreviewMaximumScale * slot.window.height)
  }

  lemma MulAtMost(a: real, s: real, c: real)
    requires a >= 0.0 && s <= c
    ensures a * s <= c * a
  {
    assert a * (c - s) >= 0.0;
  }

  /** A clone sized by a scale capped at the maximum is a capped clone. */
  lemma CappedCloneOf(x: int, y: int, w: Win, s: real)
    requires s <= WindowPreviewMaximumScale
    ensures CappedClone(Slot(x, y, w.width * s, w.height * s, w))
  {
    if w.width >= 0.0 {
      MulAtMost(w.width, s, WindowPreviewMaximumScale);
    }
    if w.height >= 0.0 {
      MulAtMost(w.height, s, WindowPreviewMaximumScale);
    }
  }

  /** The room the spacing between a row's windows takes. */
  function RowSpacing(sp: Spacing, row: Row): real
  {
    (|row.windows| - 1) as real * sp.columnSpacing
  }

  /** The additional scale of a row: the one that makes it fit the area's
   *  width, unless the one that makes the grid fit the height is smaller. */
  function AdditionalScale(sp: Spacing, area: Area, row: Row, scale: real, additionalVerticalScale: real): (r: real)
    ensures r <= 1.0 && r <= additionalVerticalScale
    ensures r == additionalVerticalScale
         || r == AtMostOne(area.width - RowSpacing(sp, row), row.fullWidth * scale)
  {
    Min(AtMostOne(area.width - RowSpacing(sp, row), row.fullWidth * scale), additionalVerticalScale)
  }

  /** One iteration of the first loop of computeWindowSlots: the row's
   *  place, `offset` below the top of the grid, and the height it loses to
   *  an additional scale below the vertical one. */
  function PlaceRow(sp: Spacing, area: Area, row: Row, scale: real, additionalVerticalScale: real,
                    top: real, offset: real): (r: (RowPlace, real))
    ensures r.0.additionalScale == AdditionalScale(sp, area, row, scale, additionalVerticalScale)
    ensures r.0.scaledHeight == row.fullHeight * scale && r.0.y == top + offset
    ensures r.0.additionalScale < additionalVerticalScale ==>
      r.1 == (additionalVerticalScale - r.0.additionalScale) * r.0.scaledHeight
    ensures r.0.additionalScale == additionalVerticalScale ==> r.1 == 0.0
  {
    var scaledWidth := row.fullWidth * scale;
    var scaledHeight := row.fullHeight * scale;
    var horizontalSpacing := RowSpacing(sp, row);
    // the horizontal scale when it is below the vertical one, else the vertical one
    var additionalScale := AdditionalScale(sp, area, row, scale, additionalVerticalScale);
    var lost := if additionalScale < additionalVerticalScale
                then (additionalVerticalScale - additionalScale) * scaledHeight else 0.0;
    var x := area.x + Max(area.width - (scaledWidth * additionalScale + horizontalSpacing), 0.0) / 2.0;
    (RowPlace(x, top + offset, scaledHeight, additionalScale), lost)
  }

  /** How far below a row the next one starts. */
  function RowAdvance(sp: Spacing, place: RowPlace): real
  {
    place.scaledHeight * place.additionalScale + sp.rowSpacing
  }

  /** The first loop of computeWindowSlots over the given rows: their
   *  places, the height lost to additional scales, and the offset of the
   *  next row from `top`. */
  function RowsPlaced(sp: Spacing, area: Area, rows: seq<Row>, scale: real, additionalVerticalScale: real, top: real)
    : (r: (seq<RowPlace>, real, real))
    ensures |r.0| == |rows|
  {
    if |rows| == 0 then ([], 0.0, 0.0)
    else
      var prev := RowsPlaced(sp, area, rows[..|rows| - 1], scale, additionalVerticalScale, top);
      var placed := PlaceRow(sp, area, rows[|rows| - 1], scale, additionalVerticalScale, top, prev.2);
      (prev.0 + [placed.0], prev.1 + placed.1, prev.2 + RowAdvance(sp, placed.0))
  }

  /** Every placed row has its additional scale as defined. */
  lemma {:induction false} RowsPlacedScales(sp: Spacing, area: Area, rows: seq<Row>, scale: real,
                                            additionalVerticalScale: real, top: real)
    ensures var r := RowsPlaced(sp, area, rows, scale, additionalVerticalScale, top);
      forall i :: 0 <= i < |rows| ==>
        r.0[i].additionalScale == AdditionalScale(sp, area, rows[i], scale, additionalVerticalScale)
    decreases |rows|
  {
    if |rows| > 0 {
      var front := rows[..|rows| - 1];
      RowsPlacedScales(sp, area, front, scale, additionalVerticalScale, top);
      var r := RowsPlaced(sp, area, rows, scale, additionalVerticalScale, top);
      var prev := RowsPlaced(sp, area, front, scale, additionalVerticalScale, top);
      forall i | 0 <= i < |rows|
        ensures r.0[i].additionalScale == AdditionalScale(sp, area, rows[i], scale, additionalVerticalScale)
      {
        if i < |front| {
          assert r.0[i] == prev.0[i] && rows[i] == front[i];
        }
      }
    }
  }

  /** The first loop of computeWindowSlots: each row gets its additional
   *  scale and its position, starting at `top`; the height the grid loses
   *  to additional scales below the vertical one is summed up. */
  method PlaceRows(sp: Spacing, area: Area, rows: seq<Row>, scale: real, additionalVerticalScale: real, top: real)
    returns (places: seq<RowPlace>, compensation: real)
    ensures var r := RowsPlaced(sp, area, rows, scale, additionalVerticalScale, top);
      places == r.0 && compensation == r.1
    ensures |places| == |rows|
    ensures forall i :: 0 <= i < |rows| ==>
      places[i].additionalScale == AdditionalScale(sp, area, rows[i], scale, additionalVerticalScale)
  {
    compensation := 0.0;
    var y := 0.0;
    places := [];
    for i := 0 to |rows|
      invariant RowsPlaced(sp, area, rows[..i], scale, additionalVerticalScale, top) == (places, compensation, y)
    {
      assert rows[..i + 1][..i] == rows[..i] && rows[..i + 1][i] == rows[i];
      var placed := PlaceRow(sp, area, rows[i], scale, additionalVerticalScale, top, y);
      var place, lost := placed.0, placed.1;
      compensation := compensation + lost;
      y := y + RowAdvance(sp, place);
      places := places + [place];
    }
    assert rows[..|rows|] == rows;
    RowsPlacedScales(sp, area, rows, scale, additionalVerticalScale, top);
  }

  /** The scale of a window's cell: the grid's scale, the window's own
   *  scale and its row's additional scale. */
  function CellScale(mon: Monitor, w: Win, place: RowPlace, scale: real): real
    requires mon.height > 0.0
  {
    scale * WindowScale(mon, w) * place.additionalScale
  }

  /** How far right of a window's cell the next cell starts. */
  function CellAdvance(mon: Monitor, sp: Spacing, w: Win, place: RowPlace, scale: real): real
    requires mon.height > 0.0
  {
    w.width * CellScale(mon, w, place, scale) + sp.columnSpacing
  }

  /** The slot of a window whose cell starts at `x` in row `i` of `numRows`:
   *  the clone is centred horizontally in its cell; the top row aligns it
   *  to the bottom of the cell, the bottom row to the top, the others
   *  centre it. */
  function CloneSlot(mon: Monitor, numRows: nat, i: nat, w: Win, place: RowPlace,
                     scale: real, compensation: real, x: real): Slot
    requires mon.height > 0.0
  {
    var rowY := place.y + compensation;
    var rowHeight := place.scaledHeight * place.additionalScale;
    var s := CellScale(mon, w, place, scale);
    var cellWidth := w.width * s;
    var cellHeight := w.height * s;
    var clamped := Min(s, WindowPreviewMaximumScale);
    var cloneWidth := w.width * clamped;
    var cloneHeight := w.height * clamped;
    var cloneX := x + (cellWidth - cloneWidth) / 2.0;
    var cloneY :=
      if numRows == 1 then rowY + (rowHeight - cloneHeight) / 2.0
      else if i == 0 then rowY + rowHeight - cellHeight
      else if i == numRows - 1 then rowY
      else rowY + (rowHeight - cloneHeight) / 2.0;
    Slot(Floor(cloneX), Floor(cloneY), cloneWidth, cloneHeight, w)
  }

  /** A window's slot holds that window. */
  lemma CloneSlotWindow(mon: Monitor, numRows: nat, i: nat, w: Win, place: RowPlace,
                        scale: real, compensation: real, x: real)
    requires mon.height > 0.0
    ensures CloneSlot(mon, numRows, i, w, place, scale, compensation, x).window == w
  {
  }

  /** A window's slot holds that window, as a capped clone. */
  lemma CloneSlotCapped(mon: Monitor, numRows: nat, i: nat, w: Win, place: RowPlace,
                        scale: real, compensation: real, x: real)
    requires mon.height > 0.0
    ensures var slot := CloneSlot(mon, numRows, i, w, place, scale, compensation, x);
      slot.window == w && CappedClone(slot)
  {
    var slot := CloneSlot(mon, numRows, i, w, place, scale, compensation, x);
    CappedCloneOf(slot.x, slot.y, w, Min(CellScale(mon, w, place, scale), WindowPreviewMaximumScale));
  }

  /** The slots of the given windows of row `i`, and where the next cell
   *  starts: cells go from the row's left edge, one cell width and one
   *  column spacing apart. */
  function RowSlotsOf(mon: Monitor, sp: Spacing, numRows: nat, i: nat, ws: seq<Win>, place: RowPlace,
                      scale: real, compensation: real): (seq<Slot>, real)
    requires mon.height > 0.0
  {
    if |ws| == 0 then ([], place.x)
    else
      var prev := RowSlotsOf(mon, sp, numRows, i, ws[..|ws| - 1], place, scale, compensation);
      var w := ws[|ws| - 1];
      (prev.0 + [CloneSlot(mon, numRows, i, w, place, scale, compensation, prev.1)],
       prev.1 + CellAdvance(mon, sp, w, place, scale))
  }

  /** A row's slots hold its windows, in order. */
  lemma {:induction false} RowSlotsOfWindows(mon: Monitor, sp: Spacing, numRows: nat, i: nat, ws: seq<Win>,
                                             place: RowPlace, scale: real, compensation: real)
    requires mon.height > 0.0
    ensures var r := RowSlotsOf(mon, sp, numRows, i, ws, place, scale, compensation).0;
      |r| == |ws| && forall k :: 0 <= k < |ws| ==> r[k].window == ws[k]
    decreases |ws|
  {
    if |ws| > 0 {
      var front := ws[..|ws| - 1];
      var prev := RowSlotsOf(mon, sp, numRows, i, front, place, scale, compensation);
      RowSlotsOfWindows(mon, sp, numRows, i, front, place, scale, compensation);
      var w := ws[|ws| - 1];
      CloneSlotWindow(mon, numRows, i, w, place, scale, compensation, prev.1);
    }
  }

  /** A row's slots, seen as windows, are the row's windows. */
  lemma RowSlotsOfSlotWindows(mon: Monitor, sp: Spacing, numRows: nat, i: nat, ws: seq<Win>,
                              place: RowPlace, scale: real, compensation: real)
    requires mon.height > 0.0
    ensures SlotWindows(RowSlotsOf(mon, sp, numRows, i, ws, place, scale, compensation).0) == ws
  {
    RowSlotsOfWindows(mon, sp, numRows, i, ws, place, scale, compensation);
  }

  /** Each of a row's slots is a capped clone. */
  lemma {:induction false} RowSlotsOfCapped(mon: Monitor, sp: Spacing, numRows: nat, i: nat, ws: seq<Win>,
                                           place: RowPlace, scale: real, compensation: real)
    requires mon.height > 0.0
    ensures AllCapped(RowSlotsOf(mon, sp, numRows, i, ws, place, scale, compensation).0)
    decreases |ws|
  {
    if |ws| > 0 {
      var front := ws[..|ws| - 1];
      var prev := RowSlotsOf(mon, sp, numRows, i, front, place, scale, compensation);
      RowSlotsOfCapped(mon, sp, numRows, i, front, place, scale, compensation);
      var w := ws[|ws| - 1];
      CloneSlotCapped(mon, numRows, i, w, place, scale, compensation, prev.1);
      var slot := CloneSlot(mon, numRows, i, w, place, scale, compensation, prev.1);
      assert (prev.0 + [slot])[..|prev.0|] == prev.0;
    }
  }

  /** Every slot of `s` is a capped clone, stated slot by slot from the end. */
  ghost predicate AllCapped(s: seq<Slot>)
    decreases |s|
  {
    |s| == 0 || (AllCapped(s[..|s| - 1]) && CappedClone(s[|s| - 1]))
  }

  lemma {:induction false} AllCappedEach(s: seq<Slot>)
    requires AllCapped(s)
    ensures forall k :: 0 <= k < |s| ==> CappedClone(s[k])
    decreases |s|
  {
    if |s| > 0 {
      AllCappedEach(s[..|s| - 1]);
      forall k | 0 <= k < |s| - 1
        ensures CappedClone(s[k])
      {
        assert s[..|s| - 1][k] == s[k];
      }
    }
  }

  /** The slots of one row, appended to `slots`: the clones go from left to
   *  right, each in a cell of its scaled size, the top row aligned to the
   *  bottom of its cells, the bottom row to their top, the others centred. */
  method RowSlots(mon: Monitor, sp: Spacing, numRows: nat, i: nat, row: Row, place: RowPlace,
                  scale: real, compensation: real, slots: seq<Slot>)
    returns (slots': seq<Slot>)
    requires mon.height > 0.0
    requires AllCapped(slots)
    ensures slots' == slots + RowSlotsOf(mon, sp, numRows, i, row.windows, place, scale, compensation).0
    ensures SlotWindows(slots') == SlotWindows(slots) + row.windows
    ensures AllCapped(slots')
  {
    slots' := slots;
    var x := place.x;
    for j := 0 to |row.windows|
      invariant var r := RowSlotsOf(mon, sp, numRows, i, row.windows[..j], place, scale, compensation);
        slots' == slots + r.0 && x == r.1
    {
      var w := row.windows[j];
      assert row.windows[..j + 1][..j] == row.windows[..j] && row.windows[..j + 1][j] == w;
      slots' := slots' + [CloneSlot(mon, numRows, i, w, place, scale, compensation, x)];
      x := x + CellAdvance(mon, sp, w, place, scale);
    }
    assert row.windows[..|row.windows|] == row.windows;
    var added := RowSlotsOf(mon, sp, numRows, i, row.windows, place, scale, compensation).0;
    RowSlotsOfSlotWindows(mon, sp, numRows, i, row.windows, place, scale, compensation);
    RowSlotsOfCapped(mon, sp, numRows, i, row.windows, place, scale, compensation);
    SlotWindowsAppend(slots, added);
    AllCappedAppend(slots, added);
  }

  lemma {:induction false} SlotWindowsAppend(a: seq<Slot>, b: seq<Slot>)
    ensures SlotWindows(a + b) == SlotWindows(a) + SlotWindows(b)
    decreases |b|
  {
    if |b| > 0 {
      var n := |b| - 1;
      assert (a + b)[..|a + b| - 1] == a + b[..n];
      SlotWindowsAppend(a, b[..n]);
    } else {
      assert a + b == a;
    }
  }

  /** The slots of the first `k` rows, row after row. */
  function GridSlots(mon: Monitor, sp: Spacing, rows: seq<Row>, places: seq<RowPlace>,
                     scale: real, compensation: real, k: nat): seq<Slot>
    requires mon.height > 0.0 && |places| == |rows| && k <= |rows|
  {
    if k == 0 then []
    else GridSlots(mon, sp, rows, places, scale, compensation, k - 1)
         + RowSlotsOf(mon, sp, |rows|, k - 1, rows[k - 1].windows, places[k - 1], scale, compensation).0
  }

  /** The first rows' slots hold their windows, row after row. */
  lemma {:induction false} GridSlotsWindows(mon: Monitor, sp: Spacing, rows: seq<Row>, places: seq<RowPlace>,
                                            scale: real, compensation: real, k: nat)
    requires mon.height > 0.0 && |places| == |rows| && k <= |rows|
    ensures SlotWindows(GridSlots(mon, sp, rows, places, scale, compensation, k)) == Concat(rows[..k])
  {
    if k > 0 {
      GridSlotsWindows(mon, sp, rows, places, scale, compensation, k - 1);
      var prev := GridSlots(mon, sp, rows, places, scale, compensation, k - 1);
      var row := RowSlotsOf(mon, sp, |rows|, k - 1, rows[k - 1].windows, places[k - 1], scale, compensation).0;
      RowSlotsOfSlotWindows(mon, sp, |rows|, k - 1, rows[k - 1].windows, places[k - 1], scale, compensation);
      SlotWindowsAppend(prev, row);
      assert GridSlots(mon, sp, rows, places, scale, compensation, k) == prev + row;
      assert Concat(rows[..k]) == Concat(rows[..k - 1]) + rows[k - 1].windows by {
        assert rows[..k][..k - 1] == rows[..k - 1];
      }
    }
  }

  /** Each of the first rows' slots is a capped clone. */
  lemma {:induction false} GridSlotsCapped(mon: Monitor, sp: Spacing, rows: seq<Row>, places: seq<RowPlace>,
                                           scale: real, compensation: real, k: nat)
    requires mon.height > 0.0 && |places| == |rows| && k <= |rows|
    ensures AllCapped(GridSlots(mon, sp, rows, places, scale, compensation, k))
  {
    if k > 0 {
      GridSlotsCapped(mon, sp, rows, places, scale, compensation, k - 1);
      RowSlotsOfCapped(mon, sp, |rows|, k - 1, rows[k - 1].windows, places[k - 1], scale, compensation);
      AllCappedAppend(GridSlots(mon, sp, rows, places, scale, compensation, k - 1),
                      RowSlotsOf(mon, sp, |rows|, k - 1, rows[k - 1].windows, places[k - 1], scale, compensation).0);
    }
  }

  lemma {:induction false} AllCappedAppend(a: seq<Slot>, b: seq<Slot>)
    requires AllCapped(a) && AllCapped(b)
    ensures AllCapped(a + b)
    decreases |b|
  {
    var ab := a + b;
    if |b| > 0 {
      assert AllCapped(b[..|b| - 1]) && CappedClone(b[|b| - 1]);
      AllCappedAppend(a, b[..|b| - 1]);
      assert ab[..|ab| - 1] == a + b[..|b| - 1];
      assert ab[|ab| - 1] == b[|b| - 1];
    } else {
      assert ab == a;
    }
  }


  /** The grid's scale: the smaller of the scales that make its widest row
   *  fit the area's width and its rows fit the area's height. */
  function GridScale(sp: Spacing, layout: Layout, area: Area): real
  {
    var hspacing := (layout.maxColumns - 1) as real * sp.columnSpacing;
    var vspacing := (layout.numRows - 1) as real * sp.rowSpacing;
    var horizontalScale := if layout.gridWidth == 0.0 then 0.0 else (area.width - hspacing) / layout.gridWidth;
    var verticalScale := if layout.gridHeight == 0.0 then 0.0 else (area.height - vspacing) / layout.gridHeight;
    Min(horizontalScale, verticalScale)
  }

  /** The scale, at most 1, that makes the scaled grid and its row spacing
   *  fit the area's height. */
  function GridVerticalScale(sp: Spacing, layout: Layout, area: Area): real
  {
    var verticalSpacing := (|layout.rows| - 1) as real * sp.rowSpacing;
    AtMostOne(area.height - verticalSpacing, layout.gridHeight * GridScale(sp, layout, area))
  }

  /** Where the first row starts: the scaled grid is centred vertically in
   *  the area, or put at its top when it is higher. */
  function GridTop(sp: Spacing, layout: Layout, area: Area): real
  {
    var verticalSpacing := (|layout.rows| - 1) as real * sp.rowSpacing;
    area.y + Max(area.height - (layout.gridHeight * GridScale(sp, layout, area) + verticalSpacing), 0.0) / 2.0
  }

  /** computeWindowSlots as a function of the layout and the area: no slots
   *  for an empty grid; otherwise the rows are placed and each window gets
   *  its slot, row after row. */
  function WindowSlots(mon: Monitor, sp: Spacing, layout: Layout, area: Area): seq<Slot>
    requires mon.height > 0.0
  {
    if layout.gridWidth == 0.0 || layout.gridHeight == 0.0 then []
    else
      var scale := GridScale(sp, layout, area);
      var placed := RowsPlaced(sp, area, layout.rows, scale, GridVerticalScale(sp, layout, area),
                               GridTop(sp, layout, area));
      GridSlots(mon, sp, layout.rows, placed.0, scale, placed.1 / 2.0, |layout.rows|)
  }

  /** Every slot of a layout is a clone of its window, at most
   *  WINDOW_PREVIEW_MAXIMUM_SCALE times its size. */
  lemma WindowSlotsCapped(mon: Monitor, sp: Spacing, layout: Layout, area: Area)
    requires mon.height > 0.0
    ensures var slots := WindowSlots(mon, sp, layout, area);
      forall k :: 0 <= k < |slots| ==> CappedClone(slots[k])
  {
    if layout.gridWidth != 0.0 && layout.gridHeight != 0.0 {
      var scale := GridScale(sp, layout, area);
      var placed := RowsPlaced(sp, area, layout.rows, scale, GridVerticalScale(sp, layout, area),
                               GridTop(sp, layout, area));
      GridSlotsCapped(mon, sp, layout.rows, placed.0, scale, placed.1 / 2.0, |layout.rows|);
      AllCappedEach(GridSlots(mon, sp, layout.rows, placed.0, scale, placed.1 / 2.0, |layout.rows|));
    }
  }

  /** computeOccupiedSpace as a function: its loop assigns rather than
   *  adds, so the space is the area of the last slot, or 0 without slots. */
  function LayoutSpace(mon: Monitor, sp: Spacing, layout: Layout, area: Area): real
    requires mon.height > 0.0
  {
    var slots := WindowSlots(mon, sp, layout, area);
    if |slots| == 0 then 0.0 else slots[|slots| - 1].Occupied()
  }

  /** computeWindowSlots: the slots of the layout in the area; none for an
   *  empty grid, otherwise one per window of the layout, row after row,
   *  each a capped clone. */
  method ComputeWindowSlots(mon: Monitor, sp: Spacing, layout: Layout, area: Area) returns (slots: seq<Slot>)
    requires mon.height > 0.0
    ensures slots == WindowSlots(mon, sp, layout, area)
    ensures layout.gridWidth == 0.0 || layout.gridHeight == 0.0 ==> slots == []
    ensures layout.gridWidth != 0.0 && layout.gridHeight != 0.0 ==> SlotWindows(slots) == Concat(layout.rows)
    ensures AllCapped(slots)
  {
    if layout.gridWidth == 0.0 || layout.gridHeight == 0.0 {
      return [];
    }
    var rows := layout.rows;
    var scale := GridScale(sp, layout, area);
    var additionalVerticalScale := GridVerticalScale(sp, layout, area);
    var top := GridTop(sp, layout, area);
    var places, compensation := PlaceRows(sp, area, rows, scale, additionalVerticalScale, top);
    compensation := compensation / 2.0;
    slots := [];
    for i := 0 to |rows|
      invariant slots == GridSlots(mon, sp, rows, places, scale, compensation, i)
      invariant AllCapped(slots)
    {
      slots := RowSlots(mon, sp, |rows|, i, rows[i], places[i], scale, compensation, slots);
    }
    GridSlotsWindows(mon, sp, rows, places, scale, compensation, |rows|);
    assert rows[..|rows|] == rows;
  }

  /** computeOccupiedSpace: the area of the last slot computeWindowSlots
   *  gives, or 0 without slots. */
  method OccupiedSpace(mon: Monitor, sp: Spacing, layout: Layout, area: Area) returns (space: real)
    requires mon.height > 0.0
    ensures var slots := WindowSlots(mon, sp, layout, area);
      (|slots| == 0 ==> space == 0.0) && (|slots| > 0 ==> space == slots[|slots| - 1].Occupied())
    ensures space == LayoutSpace(mon, sp, layout, area)
  {
    var slots := ComputeWindowSlots(mon, sp, layout, area);
    space := LastOccupied(slots);
  }

  /** The `forEach` of computeOccupiedSpace: each slot overwrites the space
   *  with its own area, so the last slot's area is what is left. */
  method LastOccupied(slots: seq<Slot>) returns (space: real)
    ensures |slots| == 0 ==> space == 0.0
    ensures |slots| > 0 ==> space == slots[|slots| - 1].Occupied()
  {
    space := 0.0;
    for k := 0 to |slots|
      invariant k == 0 ==> space == 0.0
      invariant k > 0 ==> space == slots[k - 1].Occupied()
    {
      space := slots[k].Occupied();
    }
  }



  // ---------------------------------------------------------------------
  // _createBestLayout

  /** The row count at which the search has certainly stopped: one more
   *  than the number of windows, or 2 without windows. */
  function SearchBound(n: nat): nat
  {
    if n == 0 then 2 else n + 1
  }

  /** `Math.ceil(n / numRows)`, the number of columns of a row count,
   *  counted in whole rows of `numRows` windows. */
  function NumColumns(n: nat, numRows: nat): nat
    requires numRows >= 1
    decreases n
  {
    if n == 0 then 0 else if n <= numRows then 1 else 1 + NumColumns(n - numRows, numRows)
  }

  /** The count is Math.ceil of the quotient. */
  lemma {:induction false} NumColumnsIsCeil(n: nat, numRows: nat)
    requires numRows >= 1
    ensures NumColumns(n, numRows) == Ceil(n as real / numRows as real)
    decreases n
  {
    if n == 0 {
    } else if n <= numRows {
      QuotientInUnit(n, numRows);
      CeilUnique(n as real / numRows as real, 1);
    } else {
      NumColumnsIsCeil(n - numRows, numRows);
      QuotientShift(n, numRows);
      var c := Ceil((n - numRows) as real / numRows as real);
      CeilUnique(n as real / numRows as real, c + 1);
    }
  }

  lemma QuotientShift(n: nat, d: nat)
    requires 1 <= d < n
    ensures (n - d) as real / d as real == n as real / d as real - 1.0
  {
    var dr := d as real;
    assert (n - d) as real == n as real - dr;
    assert (n as real - dr) / dr == n as real / dr - dr / dr;
    assert dr / dr == 1.0;
  }

  lemma CeilUnique(x: real, c: int)
    requires c as real - 1.0 < x <= c as real
    ensures Ceil(x) == c
  {
    var r := Ceil(x);
    assert r as real - 1.0 < x <= r as real;
  }

  lemma {:induction false} QuotientInUnit(n: nat, d: nat)
    requires 1 <= n <= d
    ensures 0.0 < n as real / d as real <= 1.0
  {
    var q := n as real / d as real;
    assert q * d as real == n as real;
  }

  /** At the bound the column count no longer changes, so the search stops. */
  lemma ColumnsSettle(n: nat)
    ensures NumColumns(n, SearchBound(n)) == NumColumns(n, SearchBound(n) - 1)
  {
  }

  /** The column count the search compares with before trying `k + 1`
   *  rows: that of `k` rows, or -1 before the first try. */
  function PreviousColumns(n: nat, k: nat): int
  {
    if k == 0 then -1 else NumColumns(n, k)
  }

  /** The space the search compares with before trying `k + 1` rows: that
   *  of the layout for `k` rows, or 0 before the first try. */
  function PreviousSpace(tried: seq<(Layout, real)>, k: nat): real
    requires k <= |tried|
  {
    if k == 0 then 0.0 else tried[k - 1].1
  }

  /** The search loop of _createBestLayout, given the layouts computeLayout
   *  returns for 1, 2, ... rows with their occupied spaces (`tried[k]` is
   *  the one for `k + 1` rows): from `k + 1` rows on, stop when the column
   *  count repeats, keeping the previous layout and its space; stop when
   *  the space shrinks, keeping the previous layout (or this one, on the
   *  first try) and the previous space; otherwise go on. None when
   *  `tried` runs out first. */
  function SearchFrom(n: nat, tried: seq<(Layout, real)>, k: nat): Option<(Layout, real)>
    requires k <= |tried|
    decreases |tried| - k
  {
    if NumColumns(n, k + 1) == PreviousColumns(n, k) then
      if k == 0 then None else Some((tried[k - 1].0, PreviousSpace(tried, k)))
    else if k == |tried| then None
    else if tried[k].1 < PreviousSpace(tried, k) then
      Some((if k == 0 then tried[0].0 else tried[k - 1].0, PreviousSpace(tried, k)))
    else SearchFrom(n, tried, k + 1)
  }

  /** The search goes on past the layout for `k + 1` rows. */
  ghost predicate GoesOn(n: nat, tried: seq<(Layout, real)>, k: nat)
    requires k < |tried|
  {
    NumColumns(n, k + 1) != PreviousColumns(n, k) && tried[k].1 >= PreviousSpace(tried, k)
  }

  /** A try added at the end changes nothing about the earlier ones. */
  lemma GoesOnExtend(n: nat, before: seq<(Layout, real)>, p: (Layout, real))
    requires forall j :: 0 <= j < |before| ==> GoesOn(n, before, j)
    ensures forall j :: 0 <= j < |before| ==> GoesOn(n, before + [p], j)
  {
    var tried := before + [p];
    forall j | 0 <= j < |before|
      ensures GoesOn(n, tried, j)
    {
      assert GoesOn(n, before, j);
      assert tried[j] == before[j];
      assert PreviousSpace(tried, j) == PreviousSpace(before, j);
    }
  }

  lemma GoesOnSnoc(n: nat, tried: seq<(Layout, real)>)
    requires |tried| > 0
    requires forall j :: 0 <= j < |tried| - 1 ==> GoesOn(n, tried, j)
    requires GoesOn(n, tried, |tried| - 1)
    ensures forall j :: 0 <= j < |tried| ==> GoesOn(n, tried, j)
  {
  }

  /** Past the tries the search goes on from, it is where it stands. */
  lemma {:induction false} SearchSkips(n: nat, tried: seq<(Layout, real)>, k: nat)
    requires k <= |tried|
    requires forall j :: 0 <= j < k ==> GoesOn(n, tried, j)
    ensures SearchFrom(n, tried, 0) == SearchFrom(n, tried, k)
  {
    if k > 0 {
      SearchSkips(n, tried, k - 1);
      assert GoesOn(n, tried, k - 1);
    }
  }

  /** Every space the search goes on with is at least 0. */
  lemma {:induction false} SpacesGrow(n: nat, tried: seq<(Layout, real)>, k: nat)
    requires k <= |tried|
    requires forall j :: 0 <= j < k ==> GoesOn(n, tried, j)
    ensures PreviousSpace(tried, k) >= 0.0
  {
    if k > 0 {
      SpacesGrow(n, tried, k - 1);
      assert GoesOn(n, tried, k - 1);
    }
  }

  /** The layouts the search computed, stated from the last one back: the
   *  one at `k` is computeLayout's for `k + 1` rows, valid for the
   *  windows, with the space computeOccupiedSpace gives it. */
  ghost predicate Tried(mon: Monitor, sp: Spacing, area: Area, windows: seq<Win>, tried: seq<(Layout, real)>)
    requires mon.height > 0.0
    decreases |tried|
  {
    |tried| == 0
    || (Tried(mon, sp, area, windows, tried[..|tried| - 1])
        && tried[|tried| - 1].0.numRows == |tried| && LayoutOK(mon, windows, tried[|tried| - 1].0)
        && tried[|tried| - 1].1 == LayoutSpace(mon, sp, tried[|tried| - 1].0, area))
  }

  lemma {:induction false} TriedAt(mon: Monitor, sp: Spacing, area: Area, windows: seq<Win>,
                                   tried: seq<(Layout, real)>, j: nat)
    requires mon.height > 0.0 && Tried(mon, sp, area, windows, tried) && j < |tried|
    ensures tried[j].0.numRows == j + 1 && LayoutOK(mon, windows, tried[j].0)
    ensures tried[j].1 == LayoutSpace(mon, sp, tried[j].0, area)
    decreases |tried|
  {
    if j < |tried| - 1 {
      var front := tried[..|tried| - 1];
      TriedAt(mon, sp, area, windows, front, j);
      assert front[j] == tried[j];
    }
  }


  /** One more try, as the search computes it, extends the tries. */
  lemma TriedSnoc(mon: Monitor, sp: Spacing, area: Area, windows: seq<Win>,
                  tried: seq<(Layout, real)>, l: Layout, s: real)
    requires mon.height > 0.0 && Tried(mon, sp, area, windows, tried)
    requires l.numRows == |tried| + 1 && LayoutOK(mon, windows, l) && s == LayoutSpace(mon, sp, l, area)
    ensures Tried(mon, sp, area, windows, tried + [(l, s)])
  {
    var t := tried + [(l, s)];
    assert t[..|t| - 1] == tried;
  }

  /** What the search keeps is one of the tries: its layout, with its
   *  space or 0 when that is negative. */
  lemma {:induction false} SearchPick(n: nat, tried: seq<(Layout, real)>, k: nat) returns (j: nat)
    requires k <= |tried|
    requires forall i :: 0 <= i < k ==> GoesOn(n, tried, i)
    ensures var r := SearchFrom(n, tried, k);
      r.Some? ==> j < |tried| && r.value == (tried[j].0, Max(tried[j].1, 0.0))
    decreases |tried| - k
  {
    SpacesGrow(n, tried, k);
    if NumColumns(n, k + 1) == PreviousColumns(n, k) || k == |tried| || tried[k].1 < PreviousSpace(tried, k) {
      j := if k == 0 then 0 else k - 1;
    } else {
      assert GoesOn(n, tried, k);
      j := SearchPick(n, tried, k + 1);
    }
  }

  /** Each layout the search computed, as Tried states them from the end. */
  lemma TriedEach(mon: Monitor, sp: Spacing, area: Area, windows: seq<Win>, tried: seq<(Layout, real)>)
    requires mon.height > 0.0 && Tried(mon, sp, area, windows, tried)
    ensures forall k :: 0 <= k < |tried| ==>
      tried[k].0.numRows == k + 1 && LayoutOK(mon, windows, tried[k].0)
      && tried[k].1 == LayoutSpace(mon, sp, tried[k].0, area)
  {
    forall k | 0 <= k < |tried|
      ensures tried[k].0.numRows == k + 1 && LayoutOK(mon, windows, tried[k].0)
      ensures tried[k].1 == LayoutSpace(mon, sp, tried[k].0, area)
    {
      TriedAt(mon, sp, area, windows, tried, k);
    }
  }

  /** What the search keeps is one of the layouts it computed, with the
   *  space that layout occupies, or 0 when that is negative. */
  lemma SearchResult(mon: Monitor, sp: Spacing, area: Area, windows: seq<Win>, tried: seq<(Layout, real)>)
    requires mon.height > 0.0
    requires forall k :: 0 <= k < |tried| ==>
      tried[k].0.numRows == k + 1 && LayoutOK(mon, windows, tried[k].0)
      && tried[k].1 == LayoutSpace(mon, sp, tried[k].0, area)
    ensures var r := SearchFrom(|windows|, tried, 0);
      r.Some? ==>
        1 <= r.value.0.numRows <= |tried| && r.value.0 == tried[r.value.0.numRows - 1].0
        && LayoutOK(mon, windows, r.value.0)
        && r.value.1 == Max(LayoutSpace(mon, sp, r.value.0, area), 0.0)
  {
    var j := SearchPick(|windows|, tried, 0);
    match SearchFrom(|windows|, tried, 0)
    case None =>
    case Some(kept) => KeptTry(mon, sp, area, windows, tried, j, kept);
  }

  lemma KeptTry(mon: Monitor, sp: Spacing, area: Area, windows: seq<Win>, tried: seq<(Layout, real)>,
                j: nat, kept: (Layout, real))
    requires mon.height > 0.0 && j < |tried| && kept == (tried[j].0, Max(tried[j].1, 0.0))
    requires tried[j].0.numRows == j + 1 && LayoutOK(mon, windows, tried[j].0)
    requires tried[j].1 == LayoutSpace(mon, sp, tried[j].0, area)
    ensures 1 <= kept.0.numRows <= |tried| && kept.0 == tried[kept.0.numRows - 1].0
    ensures LayoutOK(mon, windows, kept.0) && kept.1 == Max(LayoutSpace(mon, sp, kept.0, area), 0.0)
  {
  }

  /** One try of the search: the layout with `numRows` rows and the space
   *  its slots take, appended to the tries so far. */
  method TryRows(mon: Monitor, sp: Spacing, windows: seq<Win>, area: Area, numRows: nat,
                 ghost tried: seq<(Layout, real)>) returns (l: Layout, s: real)
    requires mon.height > 0.0 && numRows >= 1
    requires Tried(mon, sp, area, windows, tried) && |tried| == numRows - 1
    ensures Tried(mon, sp, area, windows, tried + [(l, s)])
    ensures l.numRows == numRows && s == LayoutSpace(mon, sp, l, area)
  {
    l := ComputeLayoutFor(mon, windows, numRows);
    s := OccupiedSpace(mon, sp, l, area);
    TriedSnoc(mon, sp, area, windows, tried, l, s);
  }

  /** The search loop of _createBestLayout for one strategy: row counts
   *  1, 2, ... are tried until the column count stops changing or the
   *  occupied space shrinks; the last layout kept and its space are
   *  returned. `tried` holds the layouts computed on the way. */
  method SearchLayout(mon: Monitor, sp: Spacing, windows: seq<Win>, area: Area)
    returns (layout: Layout, space: real, ghost tried: seq<(Layout, real)>)
    requires mon.height > 0.0
    ensures 1 <= |tried| <= SearchBound(|windows|) - 1
    ensures Tried(mon, sp, area, windows, tried)
    ensures SearchFrom(|windows|, tried, 0) == Some((layout, space))
  {
    var n := |windows|;
    var bound := SearchBound(n);
    var last: Option<Layout> := None;
    var lastNumColumns: int := -1;
    var lastSpace := 0.0;
    var numRows: nat := 1;
    tried := [];
    ColumnsSettle(n);
    while true
      invariant 1 <= numRows <= bound && |tried| == numRows - 1
      invariant Tried(mon, sp, area, windows, tried)
      invariant forall j :: 0 <= j < |tried| ==> GoesOn(n, tried, j)
      invariant last == (if numRows == 1 then None else Some(tried[numRows - 2].0))
      invariant lastNumColumns == PreviousColumns(n, numRows - 1)
      invariant lastSpace == PreviousSpace(tried, numRows - 1)
      decreases bound - numRows
    {
      var numColumns := NumColumns(n, numRows);
      if numColumns == lastNumColumns {
        SearchSkips(n, tried, numRows - 1);
        assert SearchFrom(n, tried, 0) == Some((last.value, lastSpace));
        break;
      }
      assert numRows < bound;
      var l, s := TryRows(mon, sp, windows, area, numRows, tried);
      ghost var before := tried;
      tried := tried + [(l, s)];
      assert tried[..|tried| - 1] == before;
      assert PreviousSpace(tried, numRows - 1) == lastSpace;
      GoesOnExtend(n, before, (l, s));
      if s < lastSpace {
        if last.None? {
          last := Some(l);
        }
        SearchSkips(n, tried, numRows - 1);
        assert SearchFrom(n, tried, 0) == Some((last.value, lastSpace)) by {
          assert SearchFrom(n, tried, numRows - 1) == Some((last.value, lastSpace));
        }
        break;
      }
      assert GoesOn(n, tried, numRows - 1);
      GoesOnSnoc(n, tried);
      last, lastNumColumns, lastSpace := Some(l), numColumns, s;
      numRows := numRows + 1;
    }
    return last.value, lastSpace, tried;
  }

  function TransposeWin(w: Win): Win
  {
    Win(w.id, w.height, w.width, w.centreY, w.centreX, w.maximized)
  }

  function TransposeAll(ws: seq<Win>): (r: seq<Win>)
    ensures |r| == |ws| && forall k :: 0 <= k < |ws| ==> r[k] == TransposeWin(ws[k])
  {
    seq(|ws|, k requires 0 <= k < |ws| => TransposeWin(ws[k]))
  }

  function TransposeMonitor(mon: Monitor): Monitor
  {
    Monitor(mon.height, mon.width)
  }

  function TransposeSpacing(sp: Spacing): Spacing
  {
    Spacing(sp.columnSpacing, sp.rowSpacing)
  }

  function TransposeArea(a: Area): Area
  {
    Area(a.y, a.x, a.height, a.width)
  }

  /** Transposing twice gives back the windows. */
  lemma TransposeTwice(ws: seq<Win>)
    ensures TransposeAll(TransposeAll(ws)) == ws
  {
  }

  /** Under transposition the scale of the horizontal strategy is that of
   *  the vertical one: 1.5 for a window of no width, falling linearly to 1
   *  for one as wide as the monitor. */
  lemma TransposedScale(mon: Monitor, w: Win)
    requires mon.width > 0.0
    ensures WindowScale(TransposeMonitor(mon), TransposeWin(w)) == Lerp(1.5, 1.0, w.width / mon.width)
    ensures ScaledWidth(TransposeMonitor(mon), TransposeWin(w)) == w.height * Lerp(1.5, 1.0, w.width / mon.width)
  {
  }

  /** _createBestLayout: with more than four windows the horizontal
   *  strategy is taken outright; otherwise the vertical one wins only when
   *  its layout occupies strictly more space. Each space is the one its
   *  search returns for the layouts it computed (`hTried`, `vTried`). */
  method CreateBestLayout(mon: Monitor, sp: Spacing, windows: seq<Win>, area: Area)
    returns (kind: StrategyKind, layout: Layout, horizontalSpace: real, verticalSpace: real,
             ghost hTried: seq<(Layout, real)>, ghost vTried: seq<(Layout, real)>)
    requires mon.height > 0.0 && mon.width > 0.0
    ensures |windows| > 4 ==> kind == Horizontal && verticalSpace == 0.0
    ensures kind == Vertical <==> |windows| <= 4 && verticalSpace > horizontalSpace
    ensures var h := SearchFrom(|windows|, hTried, 0);
      h.Some? && horizontalSpace == h.value.1 && (kind == Horizontal ==> layout == h.value.0)
      && horizontalSpace == Max(LayoutSpace(mon, sp, h.value.0, area), 0.0)
    ensures |windows| <= 4 ==>
      var v := SearchFrom(|windows|, vTried, 0);
      v.Some? && verticalSpace == v.value.1 && (kind == Vertical ==> layout == v.value.0)
      && verticalSpace == Max(LayoutSpace(TransposeMonitor(mon), TransposeSpacing(sp), v.value.0, TransposeArea(area)), 0.0)
    ensures Tried(mon, sp, area, windows, hTried)
    ensures |windows| <= 4 ==>
      Tried(TransposeMonitor(mon), TransposeSpacing(sp), TransposeArea(area), TransposeAll(windows), vTried)
    ensures kind == Horizontal ==> LayoutOK(mon, windows, layout)
    ensures kind == Vertical ==> LayoutOK(TransposeMonitor(mon), TransposeAll(windows), layout)
  {
    var h;
    h, horizontalSpace, hTried := SearchLayout(mon, sp, windows, area);
    TriedEach(mon, sp, area, windows, hTried);
    SearchResult(mon, sp, area, windows, hTried);
    verticalSpace := 0.0;
    vTried := [];
    if |windows| > 4 {
      return Horizontal, h, horizontalSpace, verticalSpace, hTried, vTried;
    }
    var v;
    v, verticalSpace, vTried := SearchLayout(TransposeMonitor(mon), TransposeSpacing(sp), TransposeAll(windows), TransposeArea(area));
    TriedEach(TransposeMonitor(mon), TransposeSpacing(sp), TransposeArea(area), TransposeAll(windows), vTried);
    SearchResult(TransposeMonitor(mon), TransposeSpacing(sp), TransposeArea(area), TransposeAll(windows), vTried);
    if verticalSpace > horizontalSpace {
      return Vertical, v, horizontalSpace, verticalSpace, hTried, vTried;
    }
    return Horizontal, h, horizontalSpace, verticalSpace, hTried, vTried;
  }

  // ---------------------------------------------------------------------
  // WorkspaceLayout: the windows of a workspace and their slots

  /** `array.splice(start, 1)`: a negative start counts from the end (and is
   *  raised to 0), a start past the end removes nothing. */
  function Splice1(s: seq<Slot>, start: int): (r: seq<Slot>)
    ensures |r| == (if |s| == 0 || start >= |s| then |s| else |s| - 1)
  {
    var k := if start < 0 then Max0(|s| + start) else start;
    if k >= |s| then s else s[..k] + s[k + 1..]
  }

  function Max0(x: int): nat
  {
    if x < 0 then 0 else x
  }

  /** `findIndex(s => s[4] === window)`: the first slot of the window, or -1. */
  function FindSlot(slots: seq<Slot>, w: Win): (i: int)
    ensures -1 <= i < |slots|
    ensures i >= 0 ==> slots[i].window == w && forall k :: 0 <= k < i ==> slots[k].window != w
    ensures i == -1 <==> forall k :: 0 <= k < |slots| ==> slots[k].window != w
  {
    if |slots| == 0 then -1
    else if slots[0].window == w then 0
    else
      var i := FindSlot(slots[1..], w);
      if i < 0 then -1 else i + 1
  }

  /** The slot removal of removeWindow as written: when the window has no
   *  slot, findIndex gives -1 and splice removes the last slot. */
  function RemoveSlotAsWritten(slots: seq<Slot>, w: Win): seq<Slot>
  {
    Splice1(slots, FindSlot(slots, w))
  }

  /** A window added while the slots were frozen has no slot; removing it
   *  drops the slot of another window. */
  lemma RemoveSlotAsWrittenDropsOtherSlot()
    ensures var a := Win(1, 100.0, 100.0, 50.0, 50.0, false);
            var b := Win(2, 100.0, 100.0, 50.0, 50.0, false);
            RemoveSlotAsWritten([Slot(0, 0, 95.0, 95.0, a)], b) == []
  {
    var a := Win(1, 100.0, 100.0, 50.0, 50.0, false);
    var b := Win(2, 100.0, 100.0, 50.0, 50.0, false);
    assert FindSlot([Slot(0, 0, 95.0, 95.0, a)], b) == -1;
  }

  /** The slot removal removeWindow means: the window's first slot goes,
   *  and nothing else changes when it has none. */
  function RemoveSlot(slots: seq<Slot>, w: Win): (r: seq<Slot>)
    ensures FindSlot(slots, w) == -1 ==> r == slots
    ensures FindSlot(slots, w) >= 0 ==> |r| == |slots| - 1
    ensures forall k :: 0 <= k < |slots| && slots[k].window != w ==> slots[k] in r
    ensures forall x :: x in r ==> x in slots
  {
    var i := FindSlot(slots, w);
    if i == -1 then slots
    else
      assert slots == slots[..i] + [slots[i]] + slots[i + 1..];
      Splice1(slots, i)
  }

  /** The order of `_sortedWindows`: by the stable sequence of the meta window. */
  function StableKey(m: map<Win, int>): Win -> real
  {
    w => if w in m then m[w] as real else 0.0
  }

  /** No window occurs twice. */
  ghost predicate Distinct(s: seq<Win>)
  {
    forall x :: x in multiset(s) ==> multiset(s)[x] == 1
  }

  /** Sortedness depends only on the keys of the elements present. */
  lemma SortedBySameKeys(s: seq<Win>, k1: Win -> real, k2: Win -> real)
    requires SortedBy(s, k1)
    requires forall x :: x in s ==> k1(x) == k2(x)
    ensures SortedBy(s, k2)
  {
    forall i | 0 < i < |s|
      ensures k2(s[i - 1]) <= k2(s[i])
    {
      assert s[i - 1] in s && s[i] in s;
    }
  }

  /** Taking one element out of a sorted sequence leaves it sorted. */
  lemma RemoveKeepsSorted(s: seq<Win>, k: nat, key: Win -> real)
    requires k < |s| && SortedBy(s, key)
    ensures SortedBy(s[..k] + s[k + 1..], key)
  {
    var r := s[..k] + s[k + 1..];
    forall i | 0 < i < |r|
      ensures key(r[i - 1]) <= key(r[i])
    {
      if i < k {
        assert r[i - 1] == s[i - 1] && r[i] == s[i];
      } else if i == k {
        assert r[i - 1] == s[k - 1] && r[i] == s[k + 1];
        assert key(s[k - 1]) <= key(s[k]);
      } else {
        assert r[i - 1] == s[i] && r[i] == s[i + 1];
      }
    }
  }

  /** `_sortedWindows` holds each window of `_windows` once, in order of
   *  stable sequence. */
  ghost predicate WindowsOK(m: map<Win, int>, s: seq<Win>)
  {
    (forall w :: w in m <==> w in s) && Distinct(s) && SortedBy(s, StableKey(m))
  }

  /** Adding a new window and re-sorting keeps the window list as promised. */
  lemma AddKeepsWindowsOK(m: map<Win, int>, s: seq<Win>, w: Win, stableSequence: int)
    requires WindowsOK(m, s) && w !in m
    ensures var m' := m[w := stableSequence];
      WindowsOK(m', SortBy(s + [w], StableKey(m')))
      && multiset(SortBy(s + [w], StableKey(m'))) == multiset(s) + multiset{w}
  {
    var m' := m[w := stableSequence];
    var r := SortBy(s + [w], StableKey(m'));
    assert multiset(r) == multiset(s) + multiset{w};
    assert w !in multiset(s);
    forall x | x in multiset(r)
      ensures multiset(r)[x] == 1
    {
      if x != w {
        assert x in multiset(s);
      }
    }
    forall x
      ensures x in m' <==> x in r
    {
      assert x in r <==> x in multiset(r);
      assert x in s <==> x in multiset(s);
    }
  }

  lemma RemoveAtMultiset(s: seq<Win>, i: nat)
    requires i < |s|
    ensures multiset(s[..i] + s[i + 1..]) + multiset{s[i]} == multiset(s)
  {
    assert s == s[..i] + [s[i]] + s[i + 1..];
  }

  /** The removed window no longer occurs, and the others occur once still. */
  lemma RemoveAtDistinct(s: seq<Win>, i: nat)
    requires i < |s| && Distinct(s)
    ensures Distinct(s[..i] + s[i + 1..]) && s[i] !in s[..i] + s[i + 1..]
  {
    var r := s[..i] + s[i + 1..];
    RemoveAtMultiset(s, i);
    assert s[i] in multiset(s);
    forall x | x in multiset(r)
      ensures multiset(r)[x] == 1
    {
      assert (multiset(r) + multiset{s[i]})[x] == multiset(s)[x];
    }
    assert (multiset(r) + multiset{s[i]})[s[i]] == multiset(s)[s[i]];
  }

  /** Removing a window from both keeps the window list as promised. */
  lemma RemoveKeepsWindowsOK(m: map<Win, int>, s: seq<Win>, w: Win, i: nat)
    requires WindowsOK(m, s) && i < |s| && s[i] == w
    ensures WindowsOK(m - {w}, s[..i] + s[i + 1..])
    ensures multiset(s[..i] + s[i + 1..]) == multiset(s) - multiset{w}
  {
    var r := s[..i] + s[i + 1..];
    RemoveAtMultiset(s, i);
    RemoveAtDistinct(s, i);
    RemoveKeepsSorted(s, i, StableKey(m));
    SortedBySameKeys(r, StableKey(m), StableKey(m - {w}));
    forall x
      ensures x in m - {w} <==> x in r
    {
      assert x in r ==> x in s;
      assert x in s && x != w ==> x in r;
    }
  }

  class WorkspaceLayout {
    /** `_windows`: each window with the stable sequence of its meta window. */
    var windows: map<Win, int>
    /** `_sortedWindows` */
    var sortedWindows: seq<Win>
    /** `_windowSlots`, as last computed */
    var windowSlots: seq<Slot>
    /** `_layout`; None when it must be recomputed */
    var layout: Option<Layout>
    /** How many times layout_changed was emitted */
    var layoutChanges: nat

    ghost predicate Valid()
      reads this
    {
      WindowsOK(windows, sortedWindows)
    }

    constructor()
      ensures Valid() && windows == map[] && sortedWindows == [] && windowSlots == []
      ensures layout.None? && layoutChanges == 0
    {
      windows, sortedWindows, windowSlots := map[], [], [];
      layout, layoutChanges := None, 0;
    }

    /** addWindow: nothing happens for a window already present; otherwise
     *  it is recorded and inserted into the sorted list, and the layout is
     *  invalidated. */
    method AddWindow(w: Win, stableSequence: int)
      requires Valid()
      modifies this
      ensures Valid()
      ensures w in old(windows) ==>
        windows == old(windows) && sortedWindows == old(sortedWindows)
        && layout == old(layout) && layoutChanges == old(layoutChanges)
      ensures w !in old(windows) ==>
        windows == old(windows)[w := stableSequence]
        && multiset(sortedWindows) == multiset(old(sortedWindows)) + multiset{w}
        && layout.None? && layoutChanges == old(layoutChanges) + 1
      ensures windowSlots == old(windowSlots)
    {
      if w in windows {
        return;
      }
      AddKeepsWindowsOK(windows, sortedWindows, w, stableSequence);
      var m := windows[w := stableSequence];
      windows, sortedWindows := m, SortBy(sortedWindows + [w], StableKey(m));
      layout := None;
      layoutChanges := layoutChanges + 1;
    }

    /** removeWindow: nothing happens for an unknown window; otherwise it
     *  leaves the map, the sorted list and the slots, and the layout is
     *  invalidated. */
    method RemoveWindow(w: Win)
      requires Valid()
      modifies this
      ensures Valid()
      ensures w !in old(windows) ==>
        windows == old(windows) && sortedWindows == old(sortedWindows) && windowSlots == old(windowSlots)
        && layout == old(layout) && layoutChanges == old(layoutChanges)
      ensures w in old(windows) ==>
        windows == old(windows) - {w}
        && multiset(sortedWindows) == multiset(old(sortedWindows)) - multiset{w}
        && windowSlots == RemoveSlot(old(windowSlots), w)
        && layout.None? && layoutChanges == old(layoutChanges) + 1
    {
      if w !in windows {
        return;
      }
      var i := IndexOfWin(sortedWindows, w);
      RemoveKeepsWindowsOK(windows, sortedWindows, w, i);
      windows := windows - {w};
      sortedWindows := sortedWindows[..i] + sortedWindows[i + 1..];
      windowSlots := RemoveSlot(windowSlots, w);
      layout := None;
      layoutChanges := layoutChanges + 1;
    }
  }
}
